=== FILE: README.md ===
# Blazor.Auth0 session core, modelled in Dafny

Blazor.Auth0 signs the users of a Blazor application in through Auth0 with
OAuth 2.0 (RFC 6749) and OpenID Connect. This project models the core of
that library and proves properties about it:

- **Request construction** (`authentication.dfy`, `common_authentication.dfy`,
  `client_session.dfy`): the `/authorize` query in its fixed parameter order,
  the PKCE pair of RFC 7636, the logout URL, nonce generation from a random
  byte stream, and the options `BuildAuthorizeOptions` assembles.
- **Response intake and validation** (`authentication.dfy`, `base64.dfy`):
  reading the query or fragment (`ParseHash`), the ordered origin, error and
  state checks of `ValidateAuthorizationResponse`, the `at_hash` check, and
  token payload decoding with base64url padding repair (section 5 of
  RFC 4648). Base64 itself is defined here, with its round trip proved.
- **Transaction store** (`storage.dfy`, `transaction_manager.dfy`): local
  storage as a map with its `key:exp` companion entries, and the transaction
  that `Proccess` stores under `Namespace + State` and that is read once,
  then removed.
- **Session state machines**:
  - the client-side `AuthenticationService` (`client_session.dfy` for its
    pure parts, `client_service.dfy` for the class and its fields);
  - the server-side one (`server_service.dfy`);
  - the two older services (`legacy_service.dfy`): the shared base class
    `AuthenticationServiceBase` and its near copy `src/Services/AuthenticationService.cs`.
    One model serves both; a `Snapshot` value selects where they differ.
- **Validators and the claims projection** (`utils.dfy`, `validation.dfy`,
  `json.dfy`, `models.dfy`, `user_info.dfy`, `legacy_service.dfy`):
  `ValidateObject`, the option validators, `ScopeValidation`, the JSON
  binding of `UserInfo` and `AccessTokenPayload`, the claims of
  `GetAuthenticationStateAsync`, and the legacy `switch` over claim names.

`wrappers.dfy` (results and exceptions), `text.dfy` (the .NET string
operations the code uses) and `enumerations.dfy` (the enums) support the rest.

The following are parameters of the model, not definitions in it:

- SHA-256, the random number generator (an infinite byte stream with a position), JSON parsing and serialisation, `Uri` parsing, date parsing and formatting, and `int.Parse`;
- the HTTP round trips (the token exchange, `/userinfo`, the refresh);
- the clock (`now`, seconds since 1970).

Values that C# keeps in 32-bit `int` are wrapped explicitly (`Wrap32`), as
unchecked arithmetic does. Exceptions are values of a `Result` or `Outcome`
type, and the browser is an object that records the navigations and
JavaScript calls made on it, in order.

The legacy services contain four defects, listed under "## Findings". For each
one the model keeps the code as written beside a corrected definition, and
the service methods run the corrected behaviour. The client-side `ParseHash`
likewise has an as-written and a corrected form. Each service method that
thereby differs from the code as written is listed under "## Left out", with
the inputs on which it differs.

## Model

| member | source | states |
|---|---|---|
| `Base64.Encode` | src/Blazor.Auth0.Shared/CommonAuthentication.cs:169 | `Convert.ToBase64String` yields 4·⌈n/3⌉ characters for n bytes |
| `Base64.Decode` | src/Blazor.Auth0.Shared/CommonAuthentication.cs:148 | `Convert.FromBase64String` accepts only text whose length is a multiple of four (None stands for its `FormatException`) |
| `Base64.DecodeEncode` | src/Blazor.Auth0.Shared/CommonAuthentication.cs:148 | decoding gives back every byte sequence that was encoded (the base64 alphabet of section 4 of RFC 4648) |
| `Base64.ReplaceTwo` | src/Blazor.Auth0.Shared/CommonAuthentication.cs:169 | two successive `Replace(char, char)` calls, as the nonce renderer's `.Replace('+', '-').Replace('/', '_')` and the token decoder's `.Replace('-', '+').Replace('_', '/')`: neither replaced character remains and every other character stays in place |
| `Base64.ReplaceTwoRoundTrip` | src/Blazor.Auth0.Shared/CommonAuthentication.cs:136 | replacing with the pairs swapped undoes a replacement for text that held none of the replacement characters |
| `Base64.UrlSafeRoundTrip` | src/Blazor.Auth0.Shared/CommonAuthentication.cs:136 | the token decoder's replacements undo the nonce renderer's for any base64 text |
| `Base64.UrlEncode` | src/Blazor.Auth0.Shared/CommonAuthentication.cs:169 | the nonce rendering (encode, trim '=', URL-safe replacements) is the URL-safe form of the unpadded encoding |
| `Base64.TrimEndPadding` | src/Blazor.Auth0.Shared/CommonAuthentication.cs:169 | `TrimEnd('=')` of an encoding removes exactly its padding |
| `Base64.RepairPadding` | src/Blazor.Auth0.Shared/CommonAuthentication.cs:138-146 | the padding repair turns every length other than 1 modulo 4 into a multiple of four |
| `Base64.RepairPaddingUnpadded` | src/Blazor.Auth0.Shared/CommonAuthentication.cs:138-146 | repairing unpadded base64 restores the padded encoding exactly |
| `Base64.UrlDecodeEncode` | src/Blazor.Auth0.Shared/CommonAuthentication.cs:136-148 | the payload decoder (replacements, padding repair, `FromBase64String`) inverts unpadded base64url encoding (section 5 of RFC 4648) |
| `Base64.UrlEncodeAlphabet` | src/Blazor.Auth0.Shared/CommonAuthentication.cs:169 | a rendered nonce holds only letters, digits, '-' and '_': never '+', '/' or '=' |
| `JsonModel.Unbound` | src/Blazor.Auth0.Shared/Models/UserInfo.cs:159-160 | the extension-data bag holds exactly the members no declared property binds, with their values |
| `JsonModel.BindString` | src/Blazor.Auth0.Shared/Models/UserInfo.cs:21-31 | a string property binds from an absent member, `null` or a JSON string, and holds that string |
| `JsonModel.BindBool` | src/Blazor.Auth0.Shared/Models/UserInfo.cs:40 | a `bool` property binds only from an absent member (false) or a JSON boolean |
| `JsonModel.BindLong` | src/Blazor.Auth0.Shared/Models/AccessTokenPayload.cs:25-31 | a `long` property binds only from a JSON number within the 64-bit range |
| `JsonModel.BindStringList` | src/Blazor.Auth0.Shared/Models/AccessTokenPayload.cs:18-19 | a `List<string>` property is null when absent or `null`, else one element per array item |
| `Models.BindAccessTokenPayload` | src/Blazor.Auth0.Shared/Models/AccessTokenPayload.cs:13-56 | `null` deserialises to null, a non-object throws, and `permissions` binds by its exact name |
| `Models.Wrap32` | src/Blazor.Auth0.Shared/Authentication/AuthenticationServiceBase.cs:425 | unchecked `int` arithmetic keeps the value in range and agrees with it modulo 2^32 |
| `Utils.TryValidateObject` | src/Blazor.Auth0.Shared/Utils.cs:36 | valid exactly when every `[Required]` property passes and `Validate` reports only successes, and then no result is collected |
| `Utils.ValidateObject` | src/Blazor.Auth0.Shared/Utils.cs:30-53 | throws iff `TryValidateObject` reports the item invalid, with the `ValidationException` naming the type and listing the results |
| `Utils.AppendResults` | src/Blazor.Auth0.Shared/Utils.cs:42-47 | the loop appends each non-null result's message followed by "; " |
| `Utils.ErrorListNonNull` | src/Blazor.Auth0.Shared/Utils.cs:44 | null results leave no trace in the message |
| `Utils.ValidateMessagesRepeated` | src/Blazor.Auth0.Shared/Utils.cs:36-38 | when only `Validate` fails, each of its messages is listed twice (once from `TryValidateObject`, once from the second `Validate` call) |
| `Utils.RequiredFailuresListedFirst` | src/Blazor.Auth0.Shared/Utils.cs:36-46 | a failing `[Required]` property stops `TryValidateObject` before `Validate`, so the message lists the required failures, then `Validate`'s non-null results |
| `Utils.Ascii` | src/Blazor.Auth0.Shared/Utils.cs:64 | `Encoding.ASCII.GetBytes` keeps ASCII characters and turns every other into '?' |
| `Utils.GetSha256` | src/Blazor.Auth0.Shared/Utils.cs:60-67 | the S256 challenge is 43 characters without '+', '/' or '=', and decodes to SHA-256 of the verifier's ASCII bytes (section 4.2 of RFC 7636) |
| `ScopeValidation.ScopeValidate` | src/Blazor.Auth0.Shared/Models/ScopeValidation.cs:20-25 | success (null) iff the scope is non-empty and contains "openid"; otherwise the fixed failure message |
| `ScopeValidation.ScopeWithOpenIdPasses` | src/Blazor.Auth0.Shared/Models/ScopeValidation.cs:22 | "openid" at any offset makes the scope pass |
| `ScopeValidation.ScopeExamplesPass` | src/Blazor.Auth0.Shared/Models/ScopeValidation.cs:22 | the default scope and "xopenidx" pass |
| `ScopeValidation.ScopeIsCaseSensitive` | src/Blazor.Auth0.Shared/Models/ScopeValidation.cs:22-24 | "OpenID" fails with the fixed message: the test is ordinal and case-sensitive |
| `AuthorizeOptionsValidation.RequiredString` | src/Blazor.Auth0.ClientSide/Models/AuthorizeOptions.cs:19-20 | `[Required]` on a string passes iff it is not null, empty or white space |
| `AuthorizeOptionsValidation.RequiredChecks` | src/Blazor.Auth0.ClientSide/Models/AuthorizeOptions.cs:19-74 | the required properties pass iff Domain, ClientID, RedirectUri and Scope are present (ResponseType always has a value) |
| `AuthorizeOptionsValidation.NonceRuleNeverFires` | src/Blazor.Auth0.ClientSide/Models/AuthorizeOptions.cs:124-127 | the missing-nonce guard asks for two response types at once, so no options meet it |
| `AuthorizeOptionsValidation.Failures` | src/Blazor.Auth0.ClientSide/Models/AuthorizeOptions.cs:114-127 | a PKCE method without a challenge is reported first, one without a verifier last, and the nonce rule never |
| `AuthorizeOptionsValidation.Validate` | src/Blazor.Auth0.ClientSide/Models/AuthorizeOptions.cs:107-130 | the scope result comes first, then one message per failing rule |
| `AuthorizeOptionsValidation.ValidIff` | src/Blazor.Auth0.ClientSide/Models/AuthorizeOptions.cs:19-127 | the options pass `ValidateObject` iff the required strings are present, the scope contains "openid", and a PKCE method has both a challenge and a verifier |
| `ClientOptionsValidation.RequiredChecks` | src/Blazor.Auth0.Shared/Models/ClientOptions.cs:21-59 | the required properties pass iff Domain, ClientId and Scope are present |
| `ClientOptionsValidation.Validate` | src/Blazor.Auth0.Shared/Models/ClientOptions.cs:96-104 | exactly one result, the scope check |
| `ClientOptionsValidation.ValidIff` | src/Blazor.Auth0.Shared/Models/ClientOptions.cs:21-104 | the configuration passes `ValidateObject` iff Domain, ClientId and Scope are present and the scope contains "openid" |
| `ClientOptionsValidation.DefaultOptionsValid` | src/Blazor.Auth0.Shared/Models/ClientOptions.cs:59 | with a domain and a client id, the defaults pass: the default scope contains "openid" |
| `Storage.ExpiryKey` | src/Blazor.Auth0.ClientSide/Storage.cs:47 | the companion key extends the key by ":exp", so it is never the key itself |
| `Storage.Read` | src/Blazor.Auth0.ClientSide/Storage.cs:81-83 | a missing or empty entry deserialises "{}"; any other entry deserialises its text |
| `Storage.SetItemExpiring` | src/Blazor.Auth0.ClientSide/Storage.cs:37-48 | a null runtime throws before the store is touched; otherwise exactly the key and its `:exp` companion are written |
| `Storage.SetItem` | src/Blazor.Auth0.ClientSide/Storage.cs:24-27 | the lifetime defaults to 1800 seconds |
| `Storage.RemoveItem` | src/Blazor.Auth0.ClientSide/Storage.cs:56-65 | a null runtime throws before the store is touched; otherwise the key and its companion are gone |
| `Storage.GetItem` | src/Blazor.Auth0.ClientSide/Storage.cs:74-84 | a null runtime throws; otherwise the read above, with the store unchanged |
| `Storage.SetItemTouchesTwoKeys` | src/Blazor.Auth0.ClientSide/Storage.cs:44-47 | storing leaves every other key as it was |
| `Storage.ReadAfterSet` | src/Blazor.Auth0.ClientSide/Storage.cs:44-83 | a stored value reads back through its codec, and as itself for a codec that round-trips |
| `Storage.ReadAfterRemove` | src/Blazor.Auth0.ClientSide/Storage.cs:63-83 | after a removal a read deserialises "{}" |
| `Storage.ExpiryNotRead` | src/Blazor.Auth0.ClientSide/Storage.cs:81-83 | a read never consults the `:exp` entry |
| `UserInfoModel.StringClaim.Name` | src/Blazor.Auth0.Shared/Models/UserInfo.cs:21-148 | every string property binds one of the declared claim names (section 5.1 of OpenID Connect Core 1.0, plus "nonce" and "at_hash") |
| `UserInfoModel.BindDateTime` | src/Blazor.Auth0.Shared/Models/UserInfo.cs:123-124 | `UpdatedAt` keeps its default when absent and binds only from a string |
| `UserInfoModel.BindObject` | src/Blazor.Auth0.Shared/Models/UserInfo.cs:16-160 | an object binds iff every bound member has an acceptable kind; then `Permissions` is empty and `CustomClaims` holds exactly the unbound members |
| `UserInfoModel.BindUserInfo` | src/Blazor.Auth0.Shared/Models/UserInfo.cs:16-160 | `null` gives null, an object binds as above, anything else throws |
| `UserInfoModel.BoundStringProperty` | src/Blazor.Auth0.Shared/Models/UserInfo.cs:21-148 | each string property of a bound profile holds the member under its claim name |
| `UserInfoModel.PermissionsMemberIsCustomClaim` | src/Blazor.Auth0.Shared/Models/UserInfo.cs:153-160 | `Permissions` is `[JsonIgnore]`, so a "permissions" member lands in `CustomClaims` unchanged |
| `CommonAuthentication.BuildLogoutUrl` | src/Blazor.Auth0.Shared/CommonAuthentication.cs:53-83 | an empty domain throws `ArgumentException`; otherwise `https://{domain}/v2/logout` with `client_id` iff non-empty, then `returnTo` iff non-empty |
| `CommonAuthentication.PayloadSegment` | src/Blazor.Auth0.Shared/CommonAuthentication.cs:136-146 | only the segment at index 1 is decoded, after the URL-safe replacements and the padding repair; fewer than two segments has none |
| `CommonAuthentication.DecodeTokenPayload` | src/Blazor.Auth0.Shared/CommonAuthentication.cs:129-154 | an empty token throws `ArgumentException`; a token without '.' throws `IndexOutOfRangeException` |
| `CommonAuthentication.SecondSegment` | src/Blazor.Auth0.Shared/CommonAuthentication.cs:136 | the segment at index 1 of `header.payload.signature` is the payload |
| `CommonAuthentication.DecodeTokenPayloadOfJwt` | src/Blazor.Auth0.Shared/CommonAuthentication.cs:129-154 | a JWT whose payload is base64url of some bytes decodes to the JSON those bytes hold |
| `CommonAuthentication.GenerateNonce` | src/Blazor.Auth0.Shared/CommonAuthentication.cs:161-173 | a nonce has ⌈4n/3⌉ characters, never '+', '/' or '=', and decodes back to the random bytes |
| `CommonAuthentication.RandomNumberGenerator.GetBytes` | src/Blazor.Auth0.Shared/CommonAuthentication.cs:167-168 | the buffer is filled with the next n bytes of the stream, which are consumed |
| `CommonAuthentication.NextNonce` | src/Blazor.Auth0.Shared/CommonAuthentication.cs:161-173 | a negative key length throws before any byte is drawn; otherwise the nonce of the next `keyLength` bytes |
| `CommonAuthentication.ParseResponseType` | src/Blazor.Auth0.Shared/CommonAuthentication.cs:180-201 | "code" exactly for Code, "token" exactly for Token, and a value naming `id_token` exactly for the types that include an ID token |
| `CommonAuthentication.ParseCodeChallengeMethod` | src/Blazor.Auth0.Shared/CommonAuthentication.cs:208-218 | "S256" iff the method is S256, "" iff there is none |
| `CommonAuthentication.ParseResponseMode` | src/Blazor.Auth0.Shared/CommonAuthentication.cs:225-246 | every response mode maps to a non-empty value |
| `CommonAuthentication.ParseResponseModeInjective` | src/Blazor.Auth0.Shared/CommonAuthentication.cs:229-243 | distinct modes are sent as distinct values |
| `ClientAuthentication.SentAmong` | src/Blazor.Auth0.ClientSide/Authentication.cs:54-75 | the optional parameters added are exactly those whose condition holds, in the order of the `query.Add` calls |
| `ClientAuthentication.Parameters` | src/Blazor.Auth0.ClientSide/Authentication.cs:48-77 | the query keys follow the fixed order response_type, state, nonce, client_id, scope, [code_challenge_method, code_challenge], [connection], [audience], [response_mode], redirect_uri, each at most once |
| `ClientAuthentication.ParametersSent` | src/Blazor.Auth0.ClientSide/Authentication.cs:54-75 | the PKCE pair is present iff a method is set, `connection` and `audience` iff non-empty, and the nonce always |
| `ClientAuthentication.PkceFollowsLeading` | src/Blazor.Auth0.ClientSide/Authentication.cs:52-60 | with a PKCE method the method and the challenge come right after the scope |
| `ClientAuthentication.AuthorizeQuery` | src/Blazor.Auth0.ClientSide/Authentication.cs:48-77 | each query entry is a parameter with the value the options give it |
| `ClientAuthentication.BuildAuthorizeUrl` | src/Blazor.Auth0.ClientSide/Authentication.cs:33-88 | null options throw `ArgumentNullException` and invalid options the `ValidationException` before anything is built; otherwise `https://{Domain}/authorize` with the query above |
| `ClientAuthentication.AuthorizeQueryParameters` | src/Blazor.Auth0.ClientSide/Authentication.cs:48-77 | the values of the leading five entries, of the PKCE pair ("S256" and the challenge) and of the final redirect URI |
| `ClientAuthentication.HashSource` | src/Blazor.Auth0.ClientSide/Authentication.cs:219-238 | the code flow reads the query without its leading '?', null when there is no query |
| `ClientAuthentication.HashSourceFragment` | src/Blazor.Auth0.ClientSide/Authentication.cs:226-236 | the implicit flows read the text after the first '#' |
| `ClientAuthentication.HashSourceNoFragment` | src/Blazor.Auth0.ClientSide/Authentication.cs:228-233 | a URI without a fragment gives the implicit flows nothing to read (`ParseHash` returns null) |
| `ClientAuthentication.HashJsonSinglePair` | src/Blazor.Auth0.ClientSide/Authentication.cs:246 | a single `key=value` pair becomes the JSON object `{"key":"value"}` |
| `ClientAuthentication.ParseHashPrefix` | src/Blazor.Auth0.ClientSide/Authentication.cs:210-270 | null options throw, options without a URI throw the validation error, an empty source gives null, and an accepted hash has no error, some token, and the access token its type asks for |
| `ClientAuthentication.ParseHashRuleOrder` | src/Blazor.Auth0.ClientSide/Authentication.cs:249-270 | a reported error throws "error: description[; state: s]" before the empty-token rule, which gives null before the missing-access-token rule throws |
| `ClientAuthentication.ParseHashAsWritten` | src/Blazor.Auth0.ClientSide/Authentication.cs:272-275 | as written, the missing-id-token check applies to the types that ask for an access token |
| `ClientAuthentication.ParseHash` | src/Blazor.Auth0.ClientSide/Authentication.cs:210-278 | corrected: an accepted hash carries every token its response type asks for, and the earlier rules are unchanged |
| `ClientAuthentication.ParseHashIdTokenCheck` | src/Blazor.Auth0.ClientSide/Authentication.cs:272-275 | as written a `Token` response with its access token is rejected and an `IdToken` response without an ID token accepted; the corrected check does the opposite |
| `ClientAuthentication.ParseHashTokenExample` | src/Blazor.Auth0.ClientSide/Authentication.cs:246-275 | the concrete `response_type=token` redirect to `https://app/#access_token=x`, whose fragment becomes `{"access_token":"x"}` and deserialises to an access token alone, is rejected by the code as written with the missing-`id_token` error and accepted by the corrected `ParseHash` |
| `ClientAuthentication.ValidateAuthorizationResponse` | src/Blazor.Auth0.ClientSide/Authentication.cs:286-333 | an empty domain throws `ArgumentException`, a null response `ArgumentNullException`, and a recorded failure `ApplicationException` with a non-empty message |
| `ClientAuthentication.ValidateAuthorizationResponseAccepts` | src/Blazor.Auth0.ClientSide/Authentication.cs:298-332 | accepted iff the origin passes (checked only when trusted), and either no error and a matching state (' ' read as '+'; section 10.12 of RFC 6749), or an error other than `login_required` whose empty description records nothing |
| `ClientAuthentication.InvalidOriginWins` | src/Blazor.Auth0.ClientSide/Authentication.cs:302-305 | a trusted message from another authority fails as "Invalid Origin" whatever else it carries |
| `ClientAuthentication.LoginRequiredReported` | src/Blazor.Auth0.ClientSide/Authentication.cs:310-316 | `login_required` in any letter case fails as "Login Required" |
| `ClientAuthentication.AccessTokenHash` | src/Blazor.Auth0.ClientSide/Authentication.cs:349-351 | the hash is 22 characters and decodes to the first 16 bytes of SHA-256 of the token's ASCII bytes (section 3.2.2.9 of OpenID Connect Core 1.0) |
| `ClientAuthentication.ValidateAccessTokenHash` | src/Blazor.Auth0.ClientSide/Authentication.cs:341-358 | false for an empty `at_hash`; otherwise true iff it equals the token's hash, and a null token throws |
| `ClientAuthentication.AccessTokenHashAccepted` | src/Blazor.Auth0.ClientSide/Authentication.cs:341-358 | the hash of a token validates against it |
| `ClientAuthentication.GetAccessTokenArguments` | src/Blazor.Auth0.ClientSide/Authentication.cs:145-168 | the request goes ahead iff there is a client, a domain, a client id and exactly one of code verifier and secret; each failure throws before any HTTP call |
| `TransactionManager.DrawCount` | src/Blazor.Auth0.ClientSide/TransactionManager.cs:75-77 | at most three values are drawn, and none exactly when the app state, the state and (for an ID token) the nonce are all supplied |
| `TransactionManager.NewTransaction` | src/Blazor.Auth0.ClientSide/TransactionManager.cs:73-87 | a supplied state, app state and nonce are kept; a nonce exists iff an ID token is expected; verifier and redirect URI are copied; the connection is Realm if non-empty, else Connection |
| `TransactionManager.Draw` | src/Blazor.Auth0.ClientSide/TransactionManager.cs:75-77 | one `GenerateNonce(KeyLength)` call: a negative length throws before drawing, otherwise the next value of the series |
| `TransactionManager.SupplyOrDraw` | src/Blazor.Auth0.ClientSide/TransactionManager.cs:75-77 | a supplied value is kept without drawing; an empty one is drawn |
| `TransactionManager.DrawTransaction` | src/Blazor.Auth0.ClientSide/TransactionManager.cs:73-87 | the transaction built from the values drawn in order app state, state, nonce; a negative key length throws at the first draw |
| `TransactionManager.GenerateTransaction` | src/Blazor.Auth0.ClientSide/TransactionManager.cs:68-96 | the transaction is stored under `Namespace + State` with the default lifetime, and nothing else in the store changes |
| `TransactionManager.Proccess` | src/Blazor.Auth0.ClientSide/TransactionManager.cs:24-52 | null or invalid options throw before anything is drawn or stored; otherwise the options come back with the transaction's state and, for an ID token, its nonce |
| `TransactionManager.GetStoredTransaction` | src/Blazor.Auth0.ClientSide/TransactionManager.cs:61-66 | reads the entry under `Namespace + state`, then removes it with its companion |
| `TransactionManager.DrawnNonEmpty` | src/Blazor.Auth0.Shared/CommonAuthentication.cs:161-173 | a drawn value of at least one byte is non-empty |
| `TransactionManager.ProcessedState` | src/Blazor.Auth0.ClientSide/TransactionManager.cs:41-44 | after `Proccess` the options carry the transaction's state: the supplied one when non-empty, else a fresh non-empty one |
| `TransactionManager.ProcessedNonce` | src/Blazor.Auth0.ClientSide/TransactionManager.cs:46-49 | for an ID token the nonce is the supplied one or a fresh one; for other types the transaction has none and the options keep theirs |
| `TransactionManager.StoredTransactionRetrieved` | src/Blazor.Auth0.ClientSide/TransactionManager.cs:63-91 | a stored transaction reads back under the same namespace and state |
| `TransactionManager.SecondRetrievalEmpty` | src/Blazor.Auth0.ClientSide/TransactionManager.cs:63-64 | a second retrieval finds no entry and yields the empty transaction, whose state is null |
| `ClientAuthentication.QueryLayout` | src/Blazor.Auth0.ClientSide/Authentication.cs:48-77 | the query starts with `response_type`, `state`, `nonce`, `client_id` and `scope` carrying the options' values |
| `TransactionManager.DrawnAt` | src/Blazor.Auth0.Shared/CommonAuthentication.cs:161-173 | the k-th value drawn is the nonce of the k-th block of `KeyLength` bytes of the random stream |
| `JsonModel.BindStrings` | src/Blazor.Auth0.Shared/Models/AccessTokenPayload.cs:18-19 | a JSON array binds to a list of strings exactly when each item is a string or `null`, keeping its length |
| `JsonModel.ParseLong` | src/Blazor.Auth0.Shared/Models/AccessTokenPayload.cs:25-31 | a number read as `long` lies within the 64-bit range |
| `Utils.RequiredErrors` | src/Blazor.Auth0.Shared/Utils.cs:36-38 | the `[Required]` checks report nothing exactly when every one passes, and one message per failing property |
| `ClientSession.BuildRedirectUrl` | src/Blazor.Auth0.ClientSide/AuthenticationService.cs:564-570 | the configured redirect URI wins; without one, the site root when `RedirectAlwaysToHome` is set, otherwise the address the browser shows (the server-side service has the same code at src/Blazor.Auth0.ServerSide/AuthenticationService.cs:206-213) |
| `ClientSession.RedirectUrlNotBlank` | src/Blazor.Auth0.ClientSide/AuthenticationService.cs:566-569 | the redirect target is never blank unless the configured one is |
| `ClientSession.AuthorizeOptionsFor` | src/Blazor.Auth0.ClientSide/AuthenticationService.cs:483-509 | a client secret forces the code flow with `response_mode=query` and no PKCE; PKCE (S256) is used exactly for the code flow without a secret, and then the challenge decodes to the SHA-256 of the verifier; nonce, state, redirect target and the configured fields are carried over |
| `ClientSession.AuthorizeOptionsValid` | src/Blazor.Auth0.ClientSide/AuthenticationService.cs:481-510 | options built from a valid configuration pass the authorize-options validation whenever the redirect target is not blank and the verifier is not empty |
| `ClientSession.DrawNonce` | src/Blazor.Auth0.ClientSide/AuthenticationService.cs:489 | one `GenerateNonce(KeyLength)` call returns the next value of the random stream and moves it on by one draw; a negative key length fails without drawing |
| `ClientSession.DrawNonceAndState` | src/Blazor.Auth0.ClientSide/AuthenticationService.cs:489-506 | the nonce is drawn before the state, as consecutive draws |
| `ClientSession.DrawWithVerifier` | src/Blazor.Auth0.ClientSide/AuthenticationService.cs:487-506 | with PKCE the verifier is drawn first, then the nonce, then the state |
| `ClientSession.BuiltOptionsDraws` | src/Blazor.Auth0.ClientSide/AuthenticationService.cs:481-510 | the options carry exactly the values drawn, in the order verifier (only with PKCE), nonce, state, and the redirect target of `BuildRedirectUrl` |
| `ClientSession.BuiltOptionsValid` | src/Blazor.Auth0.ClientSide/AuthenticationService.cs:481-510 | a valid configuration with a positive key length always yields options that pass validation |
| `ClientSession.BuildAuthorizeOptions` | src/Blazor.Auth0.ClientSide/AuthenticationService.cs:481-510 | the method returns the options of the specification function and consumes two or three draws; a negative key length fails on the first draw |
| `ClientSession.CheckNonce` | src/Blazor.Auth0.ClientSide/AuthenticationService.cs:425-430 | the nonce check passes exactly when there is no profile or both nonces are present and equal once ' ' is read as '+'; otherwise it throws a null reference or `InvalidNonceError` |
| `ClientSession.ValidateIdToken` | src/Blazor.Auth0.ClientSide/AuthenticationService.cs:421-446 | only flows that return an ID token are checked; success iff the nonces match and a present `at_hash` equals the hash of the access token; a differing nonce raises `InvalidNonceError` and a differing hash `InvalidAccessTokenHashError` |
| `ClientSession.SessionInfoFor` | src/Blazor.Auth0.ClientSide/AuthenticationService.cs:367-406 | implicit flows copy the tokens of the response; the code flow refuses an empty code and otherwise exchanges it with the stored verifier, exactly one of verifier or client secret being sent |
| `ClientSession.GetUser` | src/Blazor.Auth0.ClientSide/AuthenticationService.cs:408-419 | the profile comes from the ID token's payload when there is a token and the flow or the options ask for it (a decoding failure propagates), otherwise from `/userinfo` |
| `ClientSession.GrantedPermissions` | src/Blazor.Auth0.ClientSide/AuthenticationService.cs:452 | the `permissions` of the access token's payload, empty when absent; an undecodable token fails |
| `ClientSession.WithPermissions` | src/Blazor.Auth0.ClientSide/AuthenticationService.cs:448-454 | with an audience and an access token the token's permissions are appended to the profile's own and nothing else changes; otherwise the profile is kept as it is |
| `ClientSession.LogOutIntervalRange` | src/Blazor.Auth0.ClientSide/AuthenticationService.cs:559 | the log-out timer interval is the exact positive millisecond count five seconds before expiry for lifetimes in (5, 2147488] seconds, and not positive for lifetimes of five seconds or less |
| `ClientSession.FieldClaims` | src/Blazor.Auth0.ClientSide/AuthenticationService.cs:165-254 | every field that yields a claim contributes it and every claim comes from such a field, never more claims than fields |
| `ClientSession.CustomClaims` | src/Blazor.Auth0.ClientSide/AuthenticationService.cs:256 | for a list of custom-claim keys, one claim per key, in the list's order, each with the raw JSON text of its value and its value kind as value type |
| `ClientSession.CustomClaimsOncePerKey` | src/Blazor.Auth0.ClientSide/AuthenticationService.cs:256 | enumerating the whole custom-claims dictionary adds each custom claim exactly once: as many claims as keys, every key's claim present, no claim type twice, and nothing else |
| `ClientSession.PermissionClaims` | src/Blazor.Auth0.ClientSide/AuthenticationService.cs:258 | one `permissions` claim per permission in order; any null permission makes the projection throw |
| `ClientSession.AuthenticationState` | src/Blazor.Auth0.ClientSide/AuthenticationService.cs:157-266 | a session other than `Active` yields the anonymous `JWT` identity; an active one succeeds iff there is a user with no null permission, and then holds the name, the field claims, the custom claims in the dictionary's enumeration order and the permission claims, in that order |
| `ClientSession.ProjectedTextField` | src/Blazor.Auth0.ClientSide/AuthenticationService.cs:165-252 | every standard string property except `nonce` and `at_hash` is projected |
| `ClientSession.FieldEmitted` | src/Blazor.Auth0.ClientSide/AuthenticationService.cs:165-254 | a field that yields a claim contributes it to the projection |
| `ClientSession.TextClaimIn` | src/Blazor.Auth0.ClientSide/AuthenticationService.cs:165-252 | a non-blank string property appears under its own claim name, the name under `ClaimTypes.Name` |
| `ClientSession.TextClaimPresent` | src/Blazor.Auth0.ClientSide/AuthenticationService.cs:165-252 | in the projection of `GetAuthenticationStateAsync`, every non-blank standard string property appears as a claim |
| `ClientSession.ProjectedFieldsMembers` | src/Blazor.Auth0.ClientSide/AuthenticationService.cs:220-254 | the two verification flags and the update time are projected, `nonce` and `at_hash` are not |
| `ClientSession.FlagClaimsIn` | src/Blazor.Auth0.ClientSide/AuthenticationService.cs:220-254 | the flags and the update time always yield a claim, as "True"/"False" and the formatted date |
| `ClientSession.FlagClaimsPresent` | src/Blazor.Auth0.ClientSide/AuthenticationService.cs:220-254 | the two verification flags and `updated_at` are always claims of an active session |
| `ClientSession.TextClaimType` | src/Blazor.Auth0.ClientSide/AuthenticationService.cs:165-252 | no projected string property has the claim type `nonce` or `at_hash` |
| `ClientSession.NoIdTokenCheckClaimsIn` | src/Blazor.Auth0.ClientSide/AuthenticationService.cs:165-254 | a projection listing neither `nonce` nor `at_hash` yields no claim of those types, and only string claims |
| `ClientSession.NoIdTokenCheckClaims` | src/Blazor.Auth0.ClientSide/AuthenticationService.cs:165-254 | the ID token's `nonce` and `at_hash` never become claims, and every field claim is a string claim |
| `ClientService.NoRepeatsAppend` | src/Blazor.Auth0.ClientSide/AuthenticationService.cs:58-61 | a state that differs from the last event may be appended to a log without repeats |
| `ClientService.ChangeEventsKeepLog` | src/Blazor.Auth0.ClientSide/AuthenticationService.cs:53-64 | assigning through the `SessionState` setter keeps the event log well formed (no event repeats the state before it, the last is the current state); assigning the same state raises no event, a different one exactly one |
| `ClientService.Authenticate` | src/Blazor.Auth0.ClientSide/AuthenticationService.cs:335-341 | a response is accepted only if `ValidateAuthorizationResponse` completes against the stored transaction's state, the token exchange yields a session and `ValidateIdToken` completes; then the nonce matched and a present `at_hash` is the access token's hash; a rejected response passes on the validation's own exception |
| `ClientService.AcceptedResponseChecked` | src/Blazor.Auth0.ClientSide/AuthenticationService.cs:331-346 | a `try` block that completes has read a stored transaction, passed the origin and state checks, matched the nonce for the ID-token flows and armed a positive log-out interval |
| `ClientService.AcceptedStateMatches` | src/Blazor.Auth0.ClientSide/AuthenticationService.cs:335 | a response with a well-formed origin is accepted only with the stored state, or as an error report with an empty description |
| `ClientService.ResponseFromHash` | src/Blazor.Auth0.ClientSide/AuthenticationService.cs:306-320 | the response built from a parsed hash carries its state, code, error and tokens, is untrusted and lives fifteen seconds |
| `ClientService.HashResponseAccepted` | src/Blazor.Auth0.ClientSide/AuthenticationService.cs:306-320 | a response built from a hash without an error passes the response validation exactly when its state matches the stored one |
| `ClientService.ProcessedValid` | src/Blazor.Auth0.ClientSide/TransactionManager.cs:24-52 | the options `Proccess` returns are valid exactly when the options given were |
| `ClientService.IssuedRequest` | src/Blazor.Auth0.ClientSide/Authentication.cs:97-121 | the `/authorize` URL is issued exactly for valid options (invalid ones raise the validation error), on the configured domain, with the stored transaction's state as the second parameter |
| `ClientService.IssuedStateFindsTransaction` | src/Blazor.Auth0.ClientSide/Authentication.cs:116-118 | a response carrying the state that the request sent finds the pending transaction in the store, given a codec that round-trips |
| `ClientService.ProcessAndBuild` | src/Blazor.Auth0.ClientSide/Authentication.cs:114-118 | invalid options fail before anything is drawn or stored; valid ones store the transaction and yield the URL of `IssuedRequest` |
| `ClientService.AuthorizeRequest` | src/Blazor.Auth0.ClientSide/Authentication.cs:97-121 | the request of `Authentication.Authorize`: validation first, then the stored transaction and the URL of `IssuedRequest` |
| `ClientService.SilentOptions` | src/Blazor.Auth0.ClientSide/AuthenticationService.cs:527 | a silent login asks for the `web_message` response mode and keeps the other options |
| `ClientService.SilentUrl` | src/Blazor.Auth0.ClientSide/AuthenticationService.cs:533 | the frame address is the `/authorize` URL with `prompt=none` appended and nothing else changed (section 3.1.2.1 of OpenID Connect Core 1.0) |
| `ClientService.RedirectRequest` | src/Blazor.Auth0.ClientSide/AuthenticationService.cs:110-118 | a redirect login issues the request for the options built from the configuration, after their draws |
| `ClientService.SilentRequest` | src/Blazor.Auth0.ClientSide/AuthenticationService.cs:526-531 | a silent login issues the request for the built options in `web_message` mode |
| `ClientService.AuthenticationService.constructor` | src/Blazor.Auth0.ClientSide/AuthenticationService.cs:81-97 | a new service is `Undefined`, with no user, tokens, transaction or timer, and no state event raised |
| `ClientService.AuthenticationService.SetSessionState` | src/Blazor.Auth0.ClientSide/AuthenticationService.cs:53-64 | the state becomes the value; an event is raised only when it changes |
| `ClientService.AuthenticationService.ClearSession` | src/Blazor.Auth0.ClientSide/AuthenticationService.cs:512-519 | the state drops to `Undefined` when an authenticated user is required and `Inactive` otherwise; user, tokens and transaction are forgotten and the timer stopped |
| `ClientService.AuthenticationService.StopSilentLogin` | src/Blazor.Auth0.ClientSide/AuthenticationService.cs:102-105 | the timer, if any, is stopped |
| `ClientService.AuthenticationService.InitiateUserSession` | src/Blazor.Auth0.ClientSide/AuthenticationService.cs:448-461 | the session becomes `Active` with the profile (plus the token's permissions) and the tokens; a failure to read the permissions leaves everything unchanged |
| `ClientService.AuthenticationService.ScheduleLogOut` | src/Blazor.Auth0.ClientSide/AuthenticationService.cs:536-562 | the one timer is re-armed five seconds before expiry; without tokens it fails on the null reference, and an interval that is not positive throws and leaves the timer stopped |
| `ClientService.AuthenticationService.RedirectToHome` | src/Blazor.Auth0.ClientSide/AuthenticationService.cs:357-365 | the pending transaction is forgotten and the browser navigates to the current address without query and fragment |
| `ClientService.AuthenticationService.Authorize` | src/Blazor.Auth0.ClientSide/AuthenticationService.cs:108-120 | a login either opens the popup or navigates to `/authorize`, adding exactly one effect; it fails only on a negative key length or invalid options, and then the browser is untouched |
| `ClientService.AuthenticationService.SilentLogin` | src/Blazor.Auth0.ClientSide/AuthenticationService.cs:521-534 | `BeforeSilentLoginEvent` is raised first, then the hidden frame loads the silent request |
| `ClientService.AuthenticationService.LogOut` | src/Blazor.Auth0.ClientSide/AuthenticationService.cs:129-154 | the logout URL is sent to the page first; then the browser goes to the given address, or a new login starts when a user is required; the session is cleared; an empty domain throws before anything happens |
| `ClientService.AuthenticationService.OnLogOutTimerElapsed` | src/Blazor.Auth0.ClientSide/AuthenticationService.cs:543-556 | the timer is stopped; with sliding expiration a silent login starts and the session is kept, otherwise the service logs out and clears the session |
| `ClientService.AuthenticationService.EndSession` | src/Blazor.Auth0.ClientSide/AuthenticationService.cs:297-300 | `LogOut()` then `ClearSession()` clears the session once and calls the logout URL; the second clearing changes nothing |
| `ClientService.AuthenticationService.OnLoginRequestValidationError` | src/Blazor.Auth0.ClientSide/AuthenticationService.cs:463-479 | an empty message changes nothing; otherwise the session is cleared, a null error fails, and `login_required` (any case) with a required user starts a new login followed by a navigation to "/" |
| `ClientService.AuthenticationService.Reauthorize` | src/Blazor.Auth0.ClientSide/AuthenticationService.cs:472-477 | the `login_required` branch adds a login and then a navigation to "/" |
| `ClientService.AuthenticationService.AcceptResponse` | src/Blazor.Auth0.ClientSide/AuthenticationService.cs:331-346 | the stored transaction is removed when found; the session becomes `Active` with the checked profile and tokens only when every check passes, the timer being armed exactly when the interval is positive; otherwise nothing is kept |
| `ClientService.AuthenticationService.HandleAuthorizationResponse` | src/Blazor.Auth0.ClientSide/AuthenticationService.cs:329-355 | only an authentication failure is handled, and it always leaves the session cleared; other failures escape; every exit forgets the transaction and goes home; a session that becomes `Active` has had its response checked against the stored transaction |
| `ClientService.AuthenticationService.KeepAliveOrEnd` | src/Blazor.Auth0.ClientSide/AuthenticationService.cs:288-302 | without a response in the address the session is kept alive by a silent login when it slides or a user is required, and ended otherwise |
| `ClientService.AuthenticationService.OnParsedHash` | src/Blazor.Auth0.ClientSide/AuthenticationService.cs:288-321 | a response in the address is handled; without one the session is kept alive or ended |
| `ClientService.AuthenticationService.ValidateSession` | src/Blazor.Auth0.ClientSide/AuthenticationService.cs:275-322 | the address is parsed first, by the corrected `ParseHash` of the Findings (a parse failure changes nothing); a session only becomes `Active` from a response checked against its stored transaction |
| `ClientService.AuthenticationService.GetAuthenticationState` | src/Blazor.Auth0.ClientSide/AuthenticationService.cs:157-266 | the projection of the service's own state: anonymous unless `Active`, and then named after the user and carrying every custom claim of the profile |
| `ServerService.Disposed` | src/Blazor.Auth0.ServerSide/AuthenticationService.cs:257-258 | stopping and disposing a timer keeps it in the field, disabled and disposed, with its interval |
| `ServerService.AccessTokenClaims` | src/Blazor.Auth0.ServerSide/AuthenticationService.cs:194-195 | the access token's payload yields exactly the permissions the client-side service reads from the same token |
| `ServerService.InitiatedSession` | src/Blazor.Auth0.ServerSide/AuthenticationService.cs:188-204 | with an audience and an access token the token's permissions are appended to the profile's and the lifetime becomes the token's `exp` minus now, truncated to 32 bits; otherwise profile and tokens are kept as they are; a missing profile fails |
| `ServerService.SameProfileAsClient` | src/Blazor.Auth0.ServerSide/AuthenticationService.cs:188-199 | for the same tokens the server-side service keeps the same profile as the client-side one |
| `ServerService.AcceptedSession` | src/Blazor.Auth0.ServerSide/AuthenticationService.cs:126-137 | the profile is the ID token's payload (a missing or undecodable token fails), completed by `InitiateUserSession`; only the lifetime of the tokens may change |
| `ServerService.CookieResponse` | src/Blazor.Auth0.ServerSide/AuthenticationService.cs:84-97 | the restored response carries the saved tokens, with the lifetime parsed from `expires_in` (0 when absent, a parse failure escaping) |
| `ServerService.LogOutIntervalRange` | src/Blazor.Auth0.ServerSide/AuthenticationService.cs:246 | the timer interval is the exact positive millisecond lifetime for 1 to 2147483 seconds, and not positive for no lifetime |
| `ServerService.NoSafetyMargin` | src/Blazor.Auth0.ServerSide/AuthenticationService.cs:246 | the server-side timer fires five seconds after the client-side one for the same lifetime |
| `ServerService.Rearmed` | src/Blazor.Auth0.ServerSide/AuthenticationService.cs:215-249 | the re-armed timer runs exactly when the call completes, with the positive interval; a non-positive interval throws `ArgumentException` and a disposed timer `ObjectDisposedException` |
| `ServerService.RefreshArguments` | src/Blazor.Auth0.ServerSide/Authentication.cs:38-67 | the refresh is attempted exactly when domain, audience, client id, client secret and refresh token are all non-empty; otherwise the first missing one raises an argument exception |
| `ServerService.RenewalFor` | src/Blazor.Auth0.ServerSide/AuthenticationService.cs:222-243 | without sliding expiration or after a refresh error the session ends; a successful refresh is renewed as a trusted response keeping the old refresh token, and nothing else of the reply changes |
| `ServerService.SignOutUrl` | src/Blazor.Auth0.ServerSide/AuthenticationService.cs:163-186 | the sign-out address keeps the current scheme, host and port, has the configured path and the single parameter `redirect_uri`, which defaults to `BuildRedirectUrl` only when null; a path not starting with '/' is refused |
| `ServerService.AuthenticationService.constructor` | src/Blazor.Auth0.ServerSide/AuthenticationService.cs:69-104 | an authenticated principal leaves the state `Undefined` until the session is restored; any other sets `Inactive` without raising the event |
| `ServerService.AuthenticationService.SetSessionState` | src/Blazor.Auth0.ServerSide/AuthenticationService.cs:44-55 | the state becomes the value; an event is raised only when it changes; nothing else changes |
| `ServerService.AuthenticationService.GetAuthenticationState` | src/Blazor.Auth0.ServerSide/AuthenticationService.cs:107-121 | the request's principal exactly when the session is `Active`, an anonymous one otherwise; only an active session shows a named or authenticated user |
| `ServerService.AuthenticationService.ClearSession` | src/Blazor.Auth0.ServerSide/AuthenticationService.cs:251-259 | the state drops to `Undefined` or `Inactive`, profile, principal and tokens are forgotten, the timer is stopped and disposed, and the service shows an anonymous user |
| `ServerService.AuthenticationService.InitiateUserSession` | src/Blazor.Auth0.ServerSide/AuthenticationService.cs:188-204 | the session becomes `Active` with what `InitiatedSession` computes; a failure leaves everything unchanged |
| `ServerService.AuthenticationService.ScheduleLogOut` | src/Blazor.Auth0.ServerSide/AuthenticationService.cs:215-249 | the one timer is re-armed as `Rearmed` says; without tokens it fails on the null reference and stays stopped |
| `ServerService.AuthenticationService.HandleAuthorizationResponse` | src/Blazor.Auth0.ServerSide/AuthenticationService.cs:126-140 | a null response is refused and a failure before the session starts changes nothing; otherwise the session is `Active` with the accepted profile and tokens |
| `ServerService.AuthenticationService.RestoreSession` | src/Blazor.Auth0.ServerSide/AuthenticationService.cs:80-98 | a restored session is `Active` with the very tokens the cookie held and a running timer; without an ID token it fails and the state is kept |
| `ServerService.AuthenticationService.LogOut` | src/Blazor.Auth0.ServerSide/AuthenticationService.cs:163-186 | the session is cleared first; then the browser is sent to `SignOutUrl`, unless that is refused |
| `ServerService.AuthenticationService.OnLogOutTimerElapsed` | src/Blazor.Auth0.ServerSide/AuthenticationService.cs:222-243 | the timer is stopped; renewed tokens are handled as a new response keeping the refresh token; otherwise the service logs out and clears the session; a refused refresh escapes and changes nothing else |
| `LegacyService.Lookup` | src/Blazor.Auth0.Shared/Authentication/AuthenticationServiceBase.cs:336-339 | the value of a key is an entry of the dictionary with that key, and there is none exactly when no entry has the key |
| `LegacyService.KindOf` | src/Blazor.Auth0.Shared/Authentication/AuthenticationServiceBase.cs:339-402 | the `switch` on a claim name: a text case only for its own field's name, each flag and `updated_at` exactly for their names, every other key falls to `default` |
| `LegacyService.KindOfName` | src/Blazor.Auth0.Shared/Authentication/AuthenticationServiceBase.cs:341-399 | every text field's own name selects it, so no two fields share a name |
| `LegacyService.ParseBool` | src/Blazor.Auth0.Shared/Authentication/AuthenticationServiceBase.cs:351 | `bool.Parse` accepts exactly "true" and "false" in any letter case |
| `LegacyService.FlagValue` | src/Blazor.Auth0.Shared/Authentication/AuthenticationServiceBase.cs:351 | a null flag is false, a JSON boolean is itself, and text must parse as a boolean |
| `LegacyService.UpdatedAtValue` | src/Blazor.Auth0.Shared/Authentication/AuthenticationServiceBase.cs:393 | a null or empty `updated_at` gives the default date |
| `LegacyService.ApplyClaim` | src/Blazor.Auth0.Shared/Authentication/AuthenticationServiceBase.cs:339-402 | the constructor variant of one `switch` pass never touches `CustomClaims` |
| `LegacyService.Project` | src/Blazor.Auth0.Shared/Authentication/AuthenticationServiceBase.cs:331-409 | the constructor variant of the projection leaves `CustomClaims` empty |
| `LegacyService.ProjectedText` | src/Blazor.Auth0.Shared/Authentication/AuthenticationServiceBase.cs:341-399 | after the projection every text field holds the text of the claim of its own name, and is null when there is none |
| `LegacyService.ProjectedFlags` | src/Blazor.Auth0.Shared/Authentication/AuthenticationServiceBase.cs:350-378 | the two flags hold the parsed values of their claims, false when absent |
| `LegacyService.ProjectedUpdatedAt` | src/Blazor.Auth0.Shared/Authentication/AuthenticationServiceBase.cs:392-393 | `UpdatedAt` holds the date of the `updated_at` claim, the default date when there is none |
| `LegacyService.ProjectedCustomClaims` | src/Blazor.Auth0.Shared/Authentication/AuthenticationServiceBase.cs:401-402 | `CustomClaims` holds every non-standard claim with its value, and nothing else |
| `LegacyService.ProjectSucceeds` | src/Blazor.Auth0.Shared/Authentication/AuthenticationServiceBase.cs:336-408 | projecting a dictionary succeeds exactly when every flag and date claim holds a value the `switch` accepts |
| `LegacyService.ProjectErrorSticks` | src/Blazor.Auth0.Shared/Authentication/AuthenticationServiceBase.cs:336-408 | once a claim throws, the remaining claims are never looked at |
| `LegacyService.ApplyClaims` | src/Blazor.Auth0.Shared/Authentication/AuthenticationServiceBase.cs:336-406 | the `foreach` loop computes the projection of the claims |
| `LegacyService.GetUserInfoFromClaims` | src/Blazor.Auth0.Shared/Authentication/AuthenticationServiceBase.cs:331-409 | a null dictionary throws; otherwise the result is the projection that keeps custom claims |
| `LegacyService.NewUserInfo` | src/Models/UserInfo.cs:33-107 | the `UserInfo(claimsInfo)` constructor reads a null dictionary as an empty one and ignores non-standard keys |
| `LegacyService.PayloadClaims` | src/Blazor.Auth0.Shared/Authentication/AuthenticationServiceBase.cs:308-326 | a null token throws in `Split` and a token without a '.' on the index; a payload that is not base64 throws |
| `LegacyService.PayloadClaimsOfJwt` | src/Blazor.Auth0.Shared/Authentication/AuthenticationServiceBase.cs:311-326 | the claims of `header.payload.signature` are those its payload bytes parse to, whatever padding the base64url text lacked |
| `LegacyService.DecodeTokenPayload` | src/Blazor.Auth0.Shared/Authentication/AuthenticationServiceBase.cs:308-330 | the method returns the projection of the token's payload claims |
| `LegacyService.ValidateNonce` | src/Blazor.Auth0.Shared/Authentication/AuthenticationServiceBase.cs:455-466 | the nonce is valid exactly when the token decodes, a nonce is stored, the token has a `nonce` claim and both agree with ' ' read as '+'; the stored nonce is then removed |
| `LegacyService.NonceIsSingleUse` | src/Blazor.Auth0.Shared/Authentication/AuthenticationServiceBase.cs:459-464 | a stored nonce serves one validation: checking the same token again fails |
| `LegacyService.ValidateAccessTokenHash` | src/Blazor.Auth0.Shared/Authentication/AuthenticationServiceBase.cs:467-501 | the check passes exactly when the token decodes and a present `at_hash` claim is the string hash of the access token (section 3.2.2.9 of OpenID Connect Core 1.0); a missing claim passes |
| `LegacyService.AtHashAgainstCurrent` | src/Blazor.Auth0.Shared/Authentication/AuthenticationServiceBase.cs:472-497 | a missing `at_hash` passes here and fails in the current check; a present one gets the same verdict from both |
| `LegacyService.MessageVerdict` | src/Blazor.Auth0.Shared/Authentication/AuthenticationServiceBase.cs:243-278 | a null origin throws; a message from elsewhere is "Invalid Origin"; an accepted message comes from the domain, carries the expected state when it has no error, and never reports `login_required` |
| `LegacyService.ReloginIsRejected` | src/Blazor.Auth0.Shared/Authentication/AuthenticationServiceBase.cs:255-266 | a `login_required` message that starts a new login is recorded as "Login Required" |
| `LegacyService.VerdictAgainstCurrent` | src/Blazor.Auth0.Shared/Authentication/AuthenticationServiceBase.cs:243-278 | a trusted message gets the same verdict here as from the current `ValidateAuthorizationResponse`; an untrusted one is rejected here as "Invalid Origin" |
| `LegacyService.RenderedAppend` | src/Blazor.Auth0.Shared/Authentication/AuthenticationServiceBase.cs:82-92 | rendering a parameter list works parameter by parameter |
| `LegacyService.RedirectTarget` | src/Blazor.Auth0.Shared/Authentication/AuthenticationServiceBase.cs:63-70 | the redirect target is the site root when `RedirectAlwaysToHome` is set, else the configured redirect URI, else the current page without query and fragment |
| `LegacyService.ExtraParams` | src/Blazor.Auth0.Shared/Authentication/AuthenticationServiceBase.cs:90-91 | `connection` and `audience` are sent exactly when they are non-empty, the connection first, each with its configured value |
| `LegacyService.ScopeText` | src/Blazor.Auth0.Shared/Authentication/AuthenticationServiceBase.cs:89 | every space of the scope is written `%20`: no space remains, and a scope without spaces is sent unchanged |
| `Text.ReplaceWith` | src/Blazor.Auth0.ClientSide/Authentication.cs:246 | `Replace` of a one-character pattern: text without the pattern is unchanged, no occurrence remains when the replacement lacks it, and nothing new appears besides the replacement's characters |
| `LegacyService.MissingSeparator` | src/Blazor.Auth0.Shared/Authentication/AuthenticationServiceBase.cs:84-85 | as written, no parameter is named `code_challenge`, and `code_challenge_method` is not "S256" but ends in the challenge |
| `LegacyService.AsWrittenParamName` | src/Blazor.Auth0.Shared/Authentication/AuthenticationServiceBase.cs:82-92 | no parameter of the URL as written is named `code_challenge` |
| `LegacyService.AuthorizeUrlParameters` | src/Blazor.Auth0.Shared/Authentication/AuthenticationServiceBase.cs:82-92 | the corrected request carries, in order, `response_type` (`token id_token` for the implicit grant, `code` otherwise), `code_challenge_method=S256`, a `code_challenge`, the state, the nonce, the client id, the `%20`-escaped scope with no space left, then exactly `ExtraParams`, and last the redirect target |
| `LegacyService.ChallengeIsS256OfVerifier` | src/Blazor.Auth0.Shared/Authentication/AuthenticationServiceBase.cs:57 | the corrected challenge is the unpadded base64url SHA-256 digest of the verifier (section 4.2 of RFC 7636) |
| `LegacyService.SplitParams` | src/Blazor.Auth0.Shared/Authentication/AuthenticationServiceBase.cs:82-92 | a parameter list splits into its head, its optional middle and its last parameter |
| `LegacyService.HeadParam` | src/Blazor.Auth0.Shared/Authentication/AuthenticationServiceBase.cs:83-89 | positions in the head are the head's parameters |
| `LegacyService.AuthorizeParamAt` | src/Blazor.Auth0.Shared/Authentication/AuthenticationServiceBase.cs:83-89 | the first seven parameters are those every request carries |
| `LegacyService.LegacyNonce` | src/Blazor.Auth0.Shared/Authentication/AuthenticationServiceBase.cs:439-453 | a nonce of 32 random bytes is 44 characters of padded base64 |
| `LegacyService.LegacyNonceDecodes` | src/Blazor.Auth0.Shared/Authentication/AuthenticationServiceBase.cs:448 | a nonce decodes back to the bytes it was made from |
| `LegacyService.RawChallengeFailsS256` | src/Blazor.Auth0.Shared/Authentication/AuthenticationServiceBase.cs:57 | as written, the challenge sent is the verifier itself, which an S256 check never accepts |
| `LegacyService.ReturnTo` | src/Blazor.Auth0.Shared/Authentication/AuthenticationServiceBase.cs:103 | the logout `returnTo` is never empty |
| `LegacyService.Pairs` | src/Blazor.Auth0.Shared/Authentication/AuthenticationServiceBase.cs:101-103 | one `name=value` text per parameter |
| `LegacyService.LogoutUrlAgainstShared` | src/Blazor.Auth0.Shared/Authentication/AuthenticationServiceBase.cs:95-105 | with a domain and a client id, the logout URL is the one the shared `BuildLogoutUrl` builds for the same return target |
| `LegacyService.SilentLoginInterval` | src/Blazor.Auth0.Shared/Authentication/AuthenticationServiceBase.cs:425 | the corrected interval is positive and ends five seconds before the tokens expire, in milliseconds |
| `LegacyService.IntervalReadAsMilliseconds` | src/Blazor.Auth0.Shared/Authentication/AuthenticationServiceBase.cs:425 | as written, seconds minus 5000 are read as milliseconds: a token of up to 5000 seconds gives an interval the timer refuses, and a longer one fires after a thousandth of the intended time |
| `LegacyService.NullErrorThrowsOnReject` | src/Blazor.Auth0.Shared/Authentication/AuthenticationServiceBase.cs:228 | a message from the domain without an error and with the wrong state is rejected, and the rejection path as written then throws on the null error |
| `LegacyService.ReloginAfterReject` | src/Blazor.Auth0.Shared/Authentication/AuthenticationServiceBase.cs:228-231 | the corrected rejection path never throws and agrees with the code as written wherever that does not throw |
| `LegacyService.TokensFor` | src/Blazor.Auth0.Shared/Authentication/AuthenticationServiceBase.cs:155-174 | the implicit grant takes the message's tokens; the code grant takes the reply of the code exchange, and a null reply throws |
| `LegacyService.CheckedTokens` | src/Blazor.Auth0.Shared/Authentication/AuthenticationServiceBase.cs:176-187 | the tokens pass exactly when the nonce and the `at_hash` checks both pass; a successful check consumes the stored nonce |
| `LegacyService.AdmittedMessage` | src/Blazor.Auth0.Shared/Authentication/AuthenticationServiceBase.cs:145-213 | an admitted message comes from the domain, answers the last request when it has no error, carries the stored nonce in its ID token, and its access token matches a present `at_hash` |
| `LegacyService.UserFor` | src/Blazor.Auth0.Shared/Authentication/AuthenticationServiceBase.cs:198-207 | the user comes from the ID token when `GetUserInfoFromIdToken` is set and there is one, else from the user-info endpoint, which yields none for a reply other than 200 |
| `LegacyService.GenerateNonce` | src/Blazor.Auth0.Shared/Authentication/AuthenticationServiceBase.cs:439-453 | each nonce consumes 32 bytes of the random stream |
| `LegacyService.NonceAt` | src/Blazor.Auth0.Shared/Authentication/AuthenticationServiceBase.cs:439-453 | a nonce drawn from the stream has 44 characters |
| `LegacyService.RequestFor` | src/Blazor.Auth0.Shared/Authentication/AuthenticationServiceBase.cs:82-92 | the request carries the verifier, state and nonce drawn; a null scope throws |
| `LegacyService.AuthenticationService.constructor` | src/Blazor.Auth0.Shared/Authentication/AuthenticationServiceBase.cs:36-49 | a new service has no session (`Undefined`), no request issued, no tokens and no timer |
| `LegacyService.AuthenticationService.SetIsLoggedIn` | src/Blazor.Auth0.Shared/Authentication/AuthenticationServiceBase.cs:280-283 | only the logged-in flag of local storage changes |
| `LegacyService.AuthenticationService.BuildAuthorizeUrl` | src/Blazor.Auth0.Shared/Authentication/AuthenticationServiceBase.cs:51-94 | draws three nonces, records the verifier, state and redirect target and stores the nonce, and returns the request of `IssuedRequest`, whose address is the corrected URL of the Findings (rows 1 and 2) |
| `LegacyService.AuthenticationService.Authorize` | src/Blazor.Auth0.Shared/Authentication/AuthenticationServiceBase.cs:106-109 | navigates to the request just built, at its corrected address; a failure to build it changes no effect |
| `LegacyService.AuthenticationService.ValidateSession` | src/Blazor.Auth0.Shared/Authentication/AuthenticationServiceBase.cs:114-117 | a hidden frame loads a fresh request, at its corrected address; a build failure is lost in the shared base class and escapes in the older service |
| `LegacyService.AuthenticationService.BuildLogoutUrl` | src/Blazor.Auth0.Shared/Authentication/AuthenticationServiceBase.cs:95-105 | returns the logout URL and records the user as logged out |
| `LegacyService.AuthenticationService.LogOut` | src/Blazor.Auth0.Shared/Authentication/AuthenticationServiceBase.cs:110-113 | records the user as logged out and navigates to the logout URL |
| `LegacyService.AuthenticationService.ValidateMessage` | src/Blazor.Auth0.Shared/Authentication/AuthenticationServiceBase.cs:243-279 | the verdict of `MessageVerdict` against the expected state; only a `login_required` that starts a new login (at the corrected address) changes anything |
| `LegacyService.AuthenticationService.ScheduleSilentLogin` | src/Blazor.Auth0.Shared/Authentication/AuthenticationServiceBase.cs:411-429 | the timer is re-armed, as `ServerService.Rearmed` says, with the corrected interval `(expires_in - 5) * 1000` of the Findings (row 3), not the `expires_in - 5000` of line 425; without tokens it fails on the null reference |
| `LegacyService.AuthenticationService.Accept` | src/Blazor.Auth0.Shared/Authentication/AuthenticationServiceBase.cs:191-213 | keeps the tokens, re-arms the timer with the corrected interval, and completes exactly when the timer starts and the user is fetched |
| `LegacyService.AuthenticationService.Reject` | src/Blazor.Auth0.Shared/Authentication/AuthenticationServiceBase.cs:215-235 | the session becomes `Inactive` with no user and no tokens, the request is forgotten, the timer stopped and disposed, and a new login starts only for `login_required`; a missing error reads as no `login_required` (the corrected reading of Findings row 4), where line 228 throws |
| `LegacyService.AuthenticationService.CheckMessage` | src/Blazor.Auth0.Shared/Authentication/AuthenticationServiceBase.cs:148-189 | the tokens are returned exactly for an admitted message, and then the stored nonce is consumed |
| `LegacyService.AuthenticationService.HandleAuth0Message` | src/Blazor.Auth0.Shared/Authentication/AuthenticationServiceBase.cs:145-240 | with the corrected interval and rejection of the Findings: a completed call ends on the page without the hash and raises one state event, and the session becomes `Active` exactly for an admitted message; a thrown call raises no event and leaves the session as it was or `Inactive` without user or tokens |
| `LegacyService.Start` | src/Services/AuthenticationService.cs:33-42 | the older service validates the session as soon as it is made; the shared base class does not |

## Left out

- HTTP: the token POST of `GetAccessToken`, `CommonAuthentication.UserInfo`, the legacy `GetAccessToken`/`UserInfo`, and `RefreshToken`/`RevokeRefreshToken`/`ClearAspNetCookies` of the server-side `Authentication.cs` are not modelled. Their replies are parameters, and only their argument checks are modelled.
- JavaScript interop: the `window.eval` injection, the `InjectJavascript` polling timer and its 50 ms timer, and the scripts themselves are left out. A JavaScript call is recorded as an effect on the browser object.
- Time and concurrency: `Task.Run`, `Task.Delay(3000)`, `Thread.Sleep(30000)` and real timer firing are left out. Asynchronous calls run in sequence. A timer is a record (enabled, interval, disposed), and its `Elapsed` handler is a method the caller invokes.
- Logging and `Console.WriteLine` are left out; they do not affect state.
- `Authentication.AuthorizePopup` is recorded as an `OpenPopup` effect; the popup window and its messages are not modelled.
- The server-side `Authorize` (a navigation to `AuthorizePath`) and `ValidateSession` (which throws `NotImplementedException`) are not modelled.
- Constructor null-argument checks, the `IJSInProcessRuntime` cast of the older service, `DotNetObjectReference` and `Dispose` are left out; the arguments are taken to be present.
- URL escaping by `QueryString` and `UrlEncoder` is left out: URLs are lists of name/value pairs. Beyond the legacy scope's `%20` replacement (`LegacyService.ScopeText`), which is modelled, the legacy strings are not escaped.
- Navigation does not update the address the service reads (`currentUri`), since every navigation here leaves the page.
- `OnSessionStateChanged` and `SessionStateChangedEvent` are taken to have a subscriber. Each raised event is recorded in a log.
- A null message object in the legacy `HandleAuth0Message`, and a null `ParseHashOptions.AbsoluteUri` beyond the checks `ParseHash` makes, are left out.
- The three `AuthenticationStateProvider` adapters, dependency injection, the middleware and the builder extensions are not part of this model.
- `LegacyService.ParseBool`: does not accept the white space around "true"/"false" that `bool.Parse` trims, because no claim text in the model carries it.
- `ClientService.AuthenticationService.Authorize`: states the popup branch only as an `OpenPopup` effect, because `AuthorizePopup` is not modelled.
- `ClientService.AuthenticationService.ValidateSession`: runs the corrected `ParseHash` (Findings row 5), not the code as written. For `response_type=token` with an access token and no `id_token`, the code as written throws the missing-`id_token` error and the model handles the response. For `response_type=id_token` with an access token but no `id_token`, the code as written accepts the hash and the model throws. `ClientAuthentication.ParseHashIdTokenCheck` states both cases.
- `LegacyService.AuthenticationService.BuildAuthorizeUrl`: the address of the returned request is the corrected URL (Findings rows 1 and 2), with `&code_challenge=` and the S256 hash of the verifier. The code as written builds `code_challenge_method=S256code_challenge=<verifier>` on every call; `LegacyService.MissingSeparator` and `LegacyService.RawChallengeFailsS256` state the difference.
- `LegacyService.AuthenticationService.Authorize`: navigates to the corrected URL of `BuildAuthorizeUrl`, not the one the code as written builds. It differs on every call.
- `LegacyService.AuthenticationService.ValidateSession`: the hidden frame loads the corrected URL of `BuildAuthorizeUrl`, not the one the code as written builds. It differs on every call.
- `LegacyService.AuthenticationService.ValidateMessage`: the new login for `login_required` navigates to the corrected URL of `BuildAuthorizeUrl`. It differs on every such message.
- `LegacyService.AuthenticationService.ScheduleSilentLogin`: re-arms the timer with the corrected interval `(expires_in - 5) * 1000` (Findings row 3), not `expires_in - 5000`. For `expires_in` up to 5000 (3600, say), the code as written throws `ArgumentException` and the model completes; above 5000, the intervals differ by a factor of about 1000. `LegacyService.IntervalReadAsMilliseconds` states this.
- `LegacyService.AuthenticationService.Accept`: uses the corrected interval of `ScheduleSilentLogin`. For `expires_in` up to 5000, the code as written throws before the session becomes `Active`, and the model completes with an `Active` session.
- `LegacyService.AuthenticationService.Reject`: reads a missing error as no `login_required` (Findings row 4). For a rejected message without an error, the code as written throws `NullReferenceException` at line 228 before raising the event and going home; the model completes `Inactive`. `LegacyService.NullErrorThrowsOnReject` states this.
- `LegacyService.AuthenticationService.HandleAuth0Message`: inherits the corrected behaviour of `Accept`, `Reject` and the authorize URL. It completes, `Active` or `Inactive` with the navigation home, on the inputs listed for those two methods, where the code as written throws.
- `TransactionManager.GenerateTransaction`: the options are a value here, so the state drawn at src/Blazor.Auth0.ClientSide/TransactionManager.cs:76 is returned, not written into the caller's `AuthorizeOptions` in place. When storing the transaction then throws (a null runtime), the caller's options keep the drawn state in the code and not in the model. The callers discard the options on any exception, so nothing the model states depends on it.
- `Base64.Decode`: rejects white space, which `Convert.FromBase64String` skips. The decoded text is a token segment or a nonce, which never carries white space.
- Culture-sensitive lower-casing: `Text.ToLower` lowers ASCII letters only, while `ToLower()` follows the current culture. The lowered texts are compared with `login_required`, `true` and `false`, which are ASCII.

## Findings

| source | as written | input that shows it | evidently intended | confidence | as-written member | corrected member |
|---|---|---|---|---|---|---|
| src/Blazor.Auth0.Shared/Authentication/AuthenticationServiceBase.cs:84-85 | `"&code_challenge_method=S256" + $"code_challenge={...}"` has no '&' between the two parameters (also src/Services/AuthenticationService.cs:77-78) | any call: the URL carries `code_challenge_method=S256code_challenge=<verifier>` and no `code_challenge` | `&code_challenge_method=S256&code_challenge=<challenge>` | not executed | `LegacyService.MissingSeparator` | `LegacyService.AuthorizeUrlParameters` |
| src/Blazor.Auth0.Shared/Authentication/AuthenticationServiceBase.cs:57 | the code challenge sent is the verifier itself, a fresh 44-character nonce, under the method S256 | any 32 random bytes: the S256 challenge of their nonce has 43 characters, not 44 | the challenge is the unpadded base64url SHA-256 of the verifier (section 4.2 of RFC 7636) | not executed | `LegacyService.RawChallengeFailsS256` | `LegacyService.ChallengeIsS256OfVerifier` |
| src/Blazor.Auth0.Shared/Authentication/AuthenticationServiceBase.cs:425 | `Interval = expires_in - 5000`, the seconds of the token lifetime read as milliseconds (also src/Services/AuthenticationService.cs:421) | `expires_in = 3600`: the interval is -1400 and the timer refuses it | `(expires_in - 5) * 1000` milliseconds | not executed | `LegacyService.IntervalReadAsMilliseconds` | `LegacyService.SilentLoginInterval` |
| src/Blazor.Auth0.Shared/Authentication/AuthenticationServiceBase.cs:228 | `message.Error.ToLower()` on the rejection path, where `Error` is null for a state or nonce mismatch (also src/Services/AuthenticationService.cs:224) | a trusted message from the domain, with no error and a state other than the expected one | a missing error is not `login_required` | not executed | `LegacyService.NullErrorThrowsOnReject` | `LegacyService.ReloginAfterReject` |
| src/Blazor.Auth0.ClientSide/Authentication.cs:272-275 | the missing-`id_token` check tests `Token`/`TokenAndIdToken`, the types that ask for an access token | `response_type=token` with the address `https://app/#access_token=x`, whose fragment becomes `{"access_token":"x"}`, an access token alone: rejected with the missing-`id_token` error | the check tests `IdToken`/`TokenAndIdToken`, the types that ask for an ID token | not executed | `ClientAuthentication.ParseHashTokenExample` | `ClientAuthentication.ParseHash` |

=== FILE: authentication.dfy ===
/** The static authorization-flow helpers of the client-side library
    (src/Blazor.Auth0.ClientSide/Authentication.cs): the `/authorize` URL,
    the parsing of the authorization response carried in the redirect URI,
    the checks on a response posted back by the hidden frame, the `at_hash`
    check and the argument checks of the token request. */
module ClientAuthentication {
  import opened Wrappers
  import opened Text
  import opened Base64
  import opened Enumerations
  import opened Models
  import opened Utils
  import CommonAuthentication
  import AuthorizeOptionsValidation

  /** The parameters an `/authorize` URL can carry, in the order the query is
      assembled (section 4.1.1 of RFC 6749 plus the OpenID Connect and PKCE
      extensions). */
  datatype AuthorizeParameter =
    | ResponseTypeParam
    | StateParam
    | NonceParam
    | ClientIdParam
    | ScopeParam
    | CodeChallengeMethodParam
    | CodeChallengeParam
    | ConnectionParam
    | AudienceParam
    | ResponseModeParam
    | RedirectUriParam
  {
    /** The query-string name. */
    function Name(): string {
      match this
      case ResponseTypeParam => "response_type"
      case StateParam => "state"
      case NonceParam => "nonce"
      case ClientIdParam => "client_id"
      case ScopeParam => "scope"
      case CodeChallengeMethodParam => "code_challenge_method"
      case CodeChallengeParam => "code_challenge"
      case ConnectionParam => "connection"
      case AudienceParam => "audience"
      case ResponseModeParam => "response_mode"
      case RedirectUriParam => "redirect_uri"
    }
  }

  /** The value sent for a parameter; `QueryString.Add` renders a null value
      as nothing after the '='. */
  function ParameterValue(p: AuthorizeParameter, o: AuthorizeOptions): string {
    match p
    case ResponseTypeParam => CommonAuthentication.ParseResponseType(o.responseType)
    case StateParam => Str(o.state)
    case NonceParam => Str(o.nonce)
    case ClientIdParam => Str(o.clientId)
    case ScopeParam => Str(o.scope)
    case CodeChallengeMethodParam => CommonAuthentication.ParseCodeChallengeMethod(o.codeChallengeMethod)
    case CodeChallengeParam => Str(o.codeChallenge)
    case ConnectionParam => Str(o.connection)
    case AudienceParam => Str(o.audience)
    case ResponseModeParam => CommonAuthentication.ParseResponseMode(o.responseMode)
    case RedirectUriParam => Str(o.redirectUri)
  }

  /** `sub` is `s` with some elements left out and the rest kept in order. */
  ghost predicate IsSubsequence<T>(sub: seq<T>, s: seq<T>)
    decreases |s|
  {
    sub == [] || (s != [] && ((sub[0] == s[0] && IsSubsequence(sub[1..], s[1..])) || IsSubsequence(sub, s[1..])))
  }

  lemma {:induction false} SubsequenceOfItself<T>(s: seq<T>)
    ensures IsSubsequence(s, s)
    decreases |s|
  {
    if s != [] {
      SubsequenceOfItself(s[1..]);
    }
  }

  /** Putting elements in front keeps a subsequence one. */
  lemma {:induction false} SubsequenceExtend<T>(b: seq<T>, s: seq<T>, t: seq<T>)
    requires IsSubsequence(b, t)
    ensures IsSubsequence(b, s + t)
    decreases |s|
  {
    if s == [] {
      assert s + t == t;
    } else {
      assert (s + t)[1..] == s[1..] + t;
      SubsequenceExtend(b, s[1..], t);
    }
  }

  /** Subsequences of two pieces concatenate to a subsequence of the whole. */
  lemma {:induction false} SubsequenceConcat<T>(a: seq<T>, s: seq<T>, b: seq<T>, t: seq<T>)
    requires IsSubsequence(a, s) && IsSubsequence(b, t)
    ensures IsSubsequence(a + b, s + t)
    decreases |s|
  {
    if a == [] {
      assert a + b == b;
      SubsequenceExtend(b, s, t);
    } else {
      assert (s + t)[1..] == s[1..] + t;
      assert (a + b)[0] == a[0] && (a + b)[1..] == a[1..] + b;
      if a[0] == s[0] && IsSubsequence(a[1..], s[1..]) {
        SubsequenceConcat(a[1..], s[1..], b, t);
      } else {
        SubsequenceConcat(a, s[1..], b, t);
      }
    }
  }

  /** The parameters that are always sent first. */
  const LeadingParameters := [ResponseTypeParam, StateParam, NonceParam, ClientIdParam, ScopeParam]

  /** The optional parameters, in the order of their `query.Add` calls. */
  const OptionalParameters := [CodeChallengeMethodParam, CodeChallengeParam, ConnectionParam, AudienceParam, ResponseModeParam]

  /** Every parameter, in the order of the `query.Add` calls. */
  const AllParameters := LeadingParameters + OptionalParameters + [RedirectUriParam]

  /** Whether `BuildAuthorizeUrl` adds the parameter: the PKCE pair when a
      method is set, `connection` and `audience` when non-empty,
      `response_mode` when its value is non-empty, the rest always. */
  predicate Sent(p: AuthorizeParameter, o: AuthorizeOptions) {
    match p
    case CodeChallengeMethodParam => o.codeChallengeMethod != NoMethod
    case CodeChallengeParam => o.codeChallengeMethod != NoMethod
    case ConnectionParam => !IsNullOrEmpty(o.connection)
    case AudienceParam => !IsNullOrEmpty(o.audience)
    case ResponseModeParam => CommonAuthentication.ParseResponseMode(o.responseMode) != ""
    case _ => true
  }

  /** The optional `query.Add` calls made for the options: the parameters
      of `ps` that are sent, in the order of `ps`. */
  function SentAmong(ps: seq<AuthorizeParameter>, o: AuthorizeOptions): (sent: seq<AuthorizeParameter>)
    ensures IsSubsequence(sent, ps)
    ensures forall p :: p in sent <==> p in ps && Sent(p, o)
    decreases |ps|
  {
    if ps == [] then []
    else
      var rest := SentAmong(ps[1..], o);
      if Sent(ps[0], o) then
        assert ([ps[0]] + rest)[1..] == rest;
        [ps[0]] + rest
      else rest
  }

  /** The parameters `BuildAuthorizeUrl` adds, in the order of its
      `query.Add` calls: a subsequence of `AllParameters` (so each at most
      once and in that order), with the always-sent ones first and the
      redirect URI last. */
  function Parameters(o: AuthorizeOptions): (ps: seq<AuthorizeParameter>)
    ensures IsSubsequence(ps, AllParameters)
    ensures |ps| >= 6 && ps[..5] == LeadingParameters && ps[|ps| - 1] == RedirectUriParam
  {
    var optional := SentAmong(OptionalParameters, o);
    SubsequenceOfItself(LeadingParameters);
    SubsequenceOfItself([RedirectUriParam]);
    SubsequenceConcat(LeadingParameters, LeadingParameters, optional, OptionalParameters);
    SubsequenceConcat(LeadingParameters + optional, LeadingParameters + OptionalParameters, [RedirectUriParam], [RedirectUriParam]);
    var ps := LeadingParameters + optional + [RedirectUriParam];
    assert ps[..5] == LeadingParameters;
    ps
  }

  /** A parameter is in the query exactly when it is sent. */
  lemma ParametersSent(o: AuthorizeOptions, p: AuthorizeParameter)
    ensures p in Parameters(o) <==> Sent(p, o)
  {
    var ps := Parameters(o);
    match p
    case ResponseTypeParam => assert ps[..5][0] == p;
    case StateParam => assert ps[..5][1] == p;
    case NonceParam => assert ps[..5][2] == p;
    case ClientIdParam => assert ps[..5][3] == p;
    case ScopeParam => assert ps[..5][4] == p;
    case RedirectUriParam => assert ps[|ps| - 1] == p;
    case _ =>
      var optional := SentAmong(OptionalParameters, o);
      assert ps == LeadingParameters + optional + [RedirectUriParam];
      assert p in OptionalParameters;
  }

  /** With a PKCE method set, the method and the challenge come right after
      the always-sent parameters. */
  lemma PkceFollowsLeading(o: AuthorizeOptions)
    requires o.codeChallengeMethod != NoMethod
    ensures var ps := Parameters(o);
      |ps| > 7 && ps[5] == CodeChallengeMethodParam && ps[6] == CodeChallengeParam
  {
    var optional := SentAmong(OptionalParameters, o);
    assert OptionalParameters[1..][1..] == OptionalParameters[2..];
    assert optional[..2] == [CodeChallengeMethodParam, CodeChallengeParam];
    assert Parameters(o) == LeadingParameters + optional + [RedirectUriParam];
  }

  /** The query of the `/authorize` URL: each parameter with its value. */
  function AuthorizeQuery(o: AuthorizeOptions): (q: seq<QueryParam>)
    ensures |q| == |Parameters(o)|
    ensures forall i :: 0 <= i < |q| ==>
      q[i] == QueryParam(Parameters(o)[i].Name(), ParameterValue(Parameters(o)[i], o))
  {
    var ps := Parameters(o);
    seq(|ps|, i requires 0 <= i < |ps| => QueryParam(ps[i].Name(), ParameterValue(ps[i], o)))
  }

  /** `BuildAuthorizeUrl`: null options throw `ArgumentNullException`,
      invalid options the `ValidationException` of `ValidateObject`, before
      anything is built; otherwise `https://{Domain}/authorize` with the
      query above. */
  function BuildAuthorizeUrl(options: Option<AuthorizeOptions>): (r: Result<RequestUrl>)
    ensures options.None? ==> r == Err(ArgumentNull("buildAuthorizedUrlOptions"))
    ensures options.Some? ==>
      var item := AuthorizeOptionsValidation.AsValidatable(options.value);
      (r.Err? <==> !TryValidateObject(item).isValid)
      && (r.Err? ==> r.error == ValidationError(item))
    ensures r.Ok? ==>
      && r.value.scheme == "https" && r.value.port == -1 && r.value.path == "/authorize"
      && r.value.host == options.value.domain.value
      && r.value.query == AuthorizeQuery(options.value)
  {
    match options
    case None => Err(ArgumentNull("buildAuthorizedUrlOptions"))
    case Some(o) =>
      var item := AuthorizeOptionsValidation.AsValidatable(o);
      if !TryValidateObject(item).isValid then Err(ValidationError(item))
      else
        AuthorizeOptionsValidation.ValidIff(o);
        Ok(RequestUrl("https", o.domain.value, -1, "/authorize", AuthorizeQuery(o)))
  }

  /** The query starts with the response type, state, nonce, client id and
      scope, ends with the redirect URI, and carries the PKCE method and
      challenge right after the scope when a method is set. */
  lemma AuthorizeQueryParameters(o: AuthorizeOptions)
    ensures AuthorizeQuery(o)[0] == QueryParam("response_type", CommonAuthentication.ParseResponseType(o.responseType))
    ensures AuthorizeQuery(o)[1] == QueryParam("state", Str(o.state))
    ensures AuthorizeQuery(o)[2] == QueryParam("nonce", Str(o.nonce))
    ensures AuthorizeQuery(o)[3] == QueryParam("client_id", Str(o.clientId))
    ensures AuthorizeQuery(o)[4] == QueryParam("scope", Str(o.scope))
    ensures AuthorizeQuery(o)[|AuthorizeQuery(o)| - 1] == QueryParam("redirect_uri", Str(o.redirectUri))
    ensures o.codeChallengeMethod != NoMethod ==>
      |AuthorizeQuery(o)| > 6
      && AuthorizeQuery(o)[5] == QueryParam("code_challenge_method", "S256")
      && AuthorizeQuery(o)[6] == QueryParam("code_challenge", Str(o.codeChallenge))
  {
    if o.codeChallengeMethod != NoMethod {
      PkceFollowsLeading(o);
    }
    QueryLayout(o, Parameters(o), AuthorizeQuery(o));
  }

  /** The query entries of a parameter list laid out as `Parameters`
      guarantees. */
  lemma QueryLayout(o: AuthorizeOptions, ps: seq<AuthorizeParameter>, q: seq<QueryParam>)
    requires |ps| >= 6 && ps[..5] == LeadingParameters && ps[|ps| - 1] == RedirectUriParam
    requires o.codeChallengeMethod != NoMethod ==> |ps| > 7 && ps[5] == CodeChallengeMethodParam && ps[6] == CodeChallengeParam
    requires |q| == |ps| && forall i :: 0 <= i < |q| ==> q[i] == QueryParam(ps[i].Name(), ParameterValue(ps[i], o))
    ensures q[0] == QueryParam("response_type", CommonAuthentication.ParseResponseType(o.responseType))
    ensures q[1] == QueryParam("state", Str(o.state))
    ensures q[2] == QueryParam("nonce", Str(o.nonce))
    ensures q[3] == QueryParam("client_id", Str(o.clientId))
    ensures q[4] == QueryParam("scope", Str(o.scope))
    ensures q[|q| - 1] == QueryParam("redirect_uri", Str(o.redirectUri))
    ensures o.codeChallengeMethod != NoMethod ==>
      |q| > 6 && q[5] == QueryParam("code_challenge_method", "S256") && q[6] == QueryParam("code_challenge", Str(o.codeChallenge))
  {
    assert ps[0] == LeadingParameters[0] && ps[1] == LeadingParameters[1] && ps[2] == LeadingParameters[2];
    assert ps[3] == LeadingParameters[3] && ps[4] == LeadingParameters[4];
  }

  /** What `Validator.TryValidateObject` sees of `ParseHashOptions`:
      `AbsoluteUri` is `[Required]` with the default message, and `Validate`
      reports nothing. */
  function ParseHashValidatable(o: ParseHashOptions): Validatable {
    Validatable("ParseHashOptions", [RequiredCheck(o.absoluteUri.Some?, "The AbsoluteUri field is required.")], [])
  }

  /** The text `ParseHash` reads the parameters from: for the code flow the
      query without its leading '?' (null when there is no query); otherwise
      the piece after the first '#' of the absolute URI (null when there is
      none). */
  function HashSource(uri: Uri, responseType: ResponseTypes): (hash: NString)
    ensures responseType == Code ==> (hash.None? <==> uri.query == "")
    ensures responseType == Code && uri.query != "" ==> [uri.query[0]] + hash.value == uri.query
  {
    match responseType
    case Code => if uri.query != "" then Some(uri.query[1..]) else None
    case _ =>
      var fragments := Split(uri.AbsoluteUri(), '#');
      if |fragments| < 2 then None else Some(fragments[1])
  }

  /** With no '#' before the fragment, the implicit flows read the fragment
      without its '#', up to any further '#'. */
  lemma HashSourceFragment(uri: Uri, responseType: ResponseTypes, f: string)
    requires responseType != Code
    requires '#' !in uri.LeftPartPath() + uri.query
    requires uri.fragment == "#" + f && '#' !in f
    ensures HashSource(uri, responseType) == Some(f)
  {
    var before := uri.LeftPartPath() + uri.query;
    assert uri.AbsoluteUri() == before + ['#'] + f;
    SplitConcat(before, '#', f);
    SplitNoSeparator(f, '#');
  }

  /** A URI without a fragment gives the implicit flows nothing to read. */
  lemma HashSourceNoFragment(uri: Uri, responseType: ResponseTypes)
    requires responseType != Code
    requires '#' !in uri.AbsoluteUri()
    ensures HashSource(uri, responseType) == None
  {
    SplitNoSeparator(uri.AbsoluteUri(), '#');
  }

  const JsonOpen := "{\""
  const JsonClose := "\"}"
  const PairSeparator := "\", \""
  const NameSeparator := "\":\""

  /** The JSON text built from the hash: the pairs split on '&', joined with
      `", "`, every '=' turned into `":"`, the whole in braces and quotes. */
  function HashJson(hash: string): string {
    JsonOpen + ReplaceWith(Join(PairSeparator, Split(hash, '&')), '=', NameSeparator) + JsonClose
  }

  /** Replacing the '=' of `key=value` alone. */
  lemma ReplaceSingleEquals(key: string, value: string, r: string)
    requires '=' !in key && '=' !in value
    ensures ReplaceWith(key + "=" + value, '=', r) == key + r + value
  {
    assert ReplaceWith("=", '=', r) == r by {
      assert "="[1..] == [];
    }
    calc {
      ReplaceWith(key + "=" + value, '=', r);
      { ReplaceWithConcat(key + "=", value, '=', r); }
      ReplaceWith(key + "=", '=', r) + ReplaceWith(value, '=', r);
      { ReplaceWithConcat(key, "=", '=', r); }
      ReplaceWith(key, '=', r) + ReplaceWith("=", '=', r) + ReplaceWith(value, '=', r);
      key + r + value;
    }
  }

  /** A single `key=value` pair becomes the object `{"key":"value"}`. */
  lemma HashJsonSinglePair(key: string, value: string)
    requires '&' !in key && '&' !in value && '=' !in key && '=' !in value
    ensures HashJson(key + "=" + value) == JsonOpen + key + NameSeparator + value + JsonClose
  {
    var hash := key + "=" + value;
    assert '&' !in hash;
    SplitNoSeparator(hash, '&');
    assert Join(PairSeparator, [hash]) == hash;
    ReplaceSingleEquals(key, value, NameSeparator);
  }

  /** The `Exception` message for an error in the hash. */
  function HashErrorText(h: ParsedHash): string {
    Str(h.error) + ": " + Str(h.errorDescription)
    + (if !IsNullOrEmpty(h.state) then "; state: " + h.state.value else "")
  }

  const MissingAccessTokenError := "InvalidHashMissingAccessTokenError"
  const MissingIdTokenError := "InvalidHashMissingIdTokenError"

  predicate HasToken(h: ParsedHash) {
    !IsNullOrEmpty(h.code) || !IsNullOrEmpty(h.accessToken)
    || !IsNullOrEmpty(h.idToken) || !IsNullOrEmpty(h.refreshToken)
  }

  /** Whether the response type asks for an access token in the hash. */
  predicate ExpectsAccessToken(t: ResponseTypes) {
    t == Token || t == TokenAndIdToken
  }

  /** `ParseHash` up to and including the missing-access-token check (all
      but its last rule). `parse` is `JsonSerializer.Deserialize<ParsedHash>`
      applied to the JSON text (an `Err` where it throws). */
  function ParseHashPrefix(options: Option<ParseHashOptions>, parse: string -> Result<ParsedHash>): (r: Result<Option<ParsedHash>>)
    ensures options.None? ==> r == Err(ArgumentNull("parseHashOptions"))
    ensures options.Some? && options.value.absoluteUri.None? ==>
      r == Err(ValidationError(ParseHashValidatable(options.value)))
    ensures (options.Some? && options.value.absoluteUri.Some?
             && IsNullOrEmpty(HashSource(options.value.absoluteUri.value, options.value.responseType))) ==> r == Ok(None)
    ensures r.Ok? && r.value.Some? ==>
      var o := options.value;
      var h := r.value.value;
      && o.absoluteUri.Some?
      && var hash := HashSource(o.absoluteUri.value, o.responseType);
      && !IsNullOrEmpty(hash) && parse(HashJson(hash.value)) == Ok(h)
      && IsNullOrEmpty(h.error) && HasToken(h)
      && (ExpectsAccessToken(o.responseType) ==> !IsNullOrEmpty(h.accessToken))
  {
    match options
    case None => Err(ArgumentNull("parseHashOptions"))
    case Some(o) =>
      if o.absoluteUri.None? then
        assert !TryValidateObject(ParseHashValidatable(o)).isValid by {
          assert !ParseHashValidatable(o).required[0].passes;
        }
        Err(ValidationError(ParseHashValidatable(o)))
      else
        var hash := HashSource(o.absoluteUri.value, o.responseType);
        if IsNullOrEmpty(hash) then Ok(None)
        else
          match parse(HashJson(hash.value))
          case Err(e) => Err(e)
          case Ok(h) =>
            if !IsNullOrEmpty(h.error) then Err(General(HashErrorText(h)))
            else if !HasToken(h) then Ok(None)
            else if ExpectsAccessToken(o.responseType) && IsNullOrEmpty(h.accessToken) then
              Err(General(MissingAccessTokenError))
            else Ok(Some(h))
  }

  /** The rules on a parsed hash apply in order: a reported error throws
      first, then a hash without any token is no response, then a missing
      access token throws. */
  lemma ParseHashRuleOrder(o: ParseHashOptions, parse: string -> Result<ParsedHash>, h: ParsedHash)
    requires o.absoluteUri.Some?
    requires var hash := HashSource(o.absoluteUri.value, o.responseType);
      !IsNullOrEmpty(hash) && parse(HashJson(hash.value)) == Ok(h)
    ensures !IsNullOrEmpty(h.error) ==> ParseHashPrefix(Some(o), parse) == Err(General(HashErrorText(h)))
    ensures IsNullOrEmpty(h.error) && !HasToken(h) ==> ParseHashPrefix(Some(o), parse) == Ok(None)
    ensures IsNullOrEmpty(h.error) && HasToken(h) && ExpectsAccessToken(o.responseType) && IsNullOrEmpty(h.accessToken)
            ==> ParseHashPrefix(Some(o), parse) == Err(General(MissingAccessTokenError))
    ensures IsNullOrEmpty(h.error) && HasToken(h) && (ExpectsAccessToken(o.responseType) ==> !IsNullOrEmpty(h.accessToken))
            ==> ParseHashPrefix(Some(o), parse) == Ok(Some(h))
  {
  }

  /** `ParseHash` as written: the missing-id-token check fires for the
      response types that ask for an access token (`Token`,
      `TokenAndIdToken`). */
  function ParseHashAsWritten(options: Option<ParseHashOptions>, parse: string -> Result<ParsedHash>): (r: Result<Option<ParsedHash>>)
    ensures options.Some? && r.Ok? && r.value.Some? ==>
      ExpectsAccessToken(options.value.responseType) ==> !IsNullOrEmpty(r.value.value.idToken)
  {
    match ParseHashPrefix(options, parse)
    case Ok(Some(h)) =>
      if ExpectsAccessToken(options.value.responseType) && IsNullOrEmpty(h.idToken) then
        Err(General(MissingIdTokenError))
      else Ok(Some(h))
    case other => other
  }

  /** `ParseHash` with the missing-id-token check applied to the response
      types that ask for an ID token (`IdToken`, `TokenAndIdToken`): an
      accepted hash carries every token its response type asks for. */
  function ParseHash(options: Option<ParseHashOptions>, parse: string -> Result<ParsedHash>): (r: Result<Option<ParsedHash>>)
    ensures options.Some? && r.Ok? && r.value.Some? ==>
      var t := options.value.responseType;
      var h := r.value.value;
      && (ExpectsAccessToken(t) ==> !IsNullOrEmpty(h.accessToken))
      && (IncludesIdToken(t) ==> !IsNullOrEmpty(h.idToken))
    ensures options.Some? && ParseHashPrefix(options, parse).Ok? && ParseHashPrefix(options, parse).value.Some? ==>
      (r.Ok? <==> !IncludesIdToken(options.value.responseType) || !IsNullOrEmpty(ParseHashPrefix(options, parse).value.value.idToken))
    ensures !(ParseHashPrefix(options, parse).Ok? && ParseHashPrefix(options, parse).value.Some?) ==>
      r == ParseHashPrefix(options, parse)
  {
    match ParseHashPrefix(options, parse)
    case Ok(Some(h)) =>
      if IncludesIdToken(options.value.responseType) && IsNullOrEmpty(h.idToken) then
        Err(General(MissingIdTokenError))
      else Ok(Some(h))
    case other => other
  }

  /** The check as written rejects every `Token` response (an access token
      alone, which is what `response_type=token` returns) and lets an
      `IdToken` response without an ID token through; the corrected check
      does the opposite in both cases. */
  lemma ParseHashIdTokenCheck(o: ParseHashOptions, parse: string -> Result<ParsedHash>, h: ParsedHash)
    requires o.absoluteUri.Some?
    requires var hash := HashSource(o.absoluteUri.value, o.responseType);
      !IsNullOrEmpty(hash) && parse(HashJson(hash.value)) == Ok(h)
    requires IsNullOrEmpty(h.error) && IsNullOrEmpty(h.idToken)
    ensures o.responseType == Token && !IsNullOrEmpty(h.accessToken) ==>
      ParseHashAsWritten(Some(o), parse) == Err(General(MissingIdTokenError))
      && ParseHash(Some(o), parse) == Ok(Some(h))
    ensures o.responseType == IdToken && HasToken(h) ==>
      ParseHashAsWritten(Some(o), parse) == Ok(Some(h))
      && ParseHash(Some(o), parse) == Err(General(MissingIdTokenError))
  {
    ParseHashRuleOrder(o, parse, h);
  }

  /** The address of the example below and the JSON text its fragment
      becomes. */
  const ExampleUri := Uri("https", "app", 443, "/", "", "#access_token=x")
  const ExampleJson := JsonOpen + "access_token" + NameSeparator + "x" + JsonClose

  /** The example's fragment is `access_token=x`. */
  lemma ExampleHashSource()
    ensures HashSource(ExampleUri, Token) == Some("access_token=x")
  {
    assert ExampleUri.Authority() == "app";
    assert ExampleUri.LeftPartPath() + ExampleUri.query == "https://app/";
    assert ExampleUri.fragment == "#" + "access_token=x";
    HashSourceFragment(ExampleUri, Token, "access_token=x");
  }

  /** The example's fragment reads as `{"access_token":"x"}`. */
  lemma ExampleHashJson()
    ensures HashJson("access_token=x") == ExampleJson
  {
    assert "access_token=x" == "access_token" + "=" + "x";
    HashJsonSinglePair("access_token", "x");
  }

  /** The example's response: an access token alone. */
  const ExampleResponse := ParsedHash(None, None, None, None, Some("x"), None, None)

  /** The example's deserialiser: the example's JSON text gives its
      response, any other text throws. */
  function ExampleParse(s: string): Result<ParsedHash> {
    if s == ExampleJson then Ok(ExampleResponse) else Err(Json)
  }

  /** The example's fragment deserialises to the example's response. */
  lemma ExampleParsed()
    ensures ExampleParse(HashJson("access_token=x")) == Ok(ExampleResponse)
    ensures IsNullOrEmpty(ExampleResponse.error) && IsNullOrEmpty(ExampleResponse.idToken)
    ensures !IsNullOrEmpty(ExampleResponse.accessToken)
  {
    ExampleHashJson();
  }

  /** A concrete case: `response_type=token` redirected back to
      `https://app/#access_token=x`. The fragment becomes the JSON text
      `{"access_token":"x"}`, which deserialises to an access token alone. */
  lemma ParseHashTokenExample()
    ensures ParseHashAsWritten(Some(ParseHashOptions(Some(ExampleUri), Token)), ExampleParse) == Err(General(MissingIdTokenError))
    ensures ParseHash(Some(ParseHashOptions(Some(ExampleUri), Token)), ExampleParse) == Ok(Some(ExampleResponse))
  {
    ExampleHashSource();
    ExampleParsed();
    ParseHashIdTokenCheck(ParseHashOptions(Some(ExampleUri), Token), ExampleParse, ExampleResponse);
  }

  /** The failure `ValidateAuthorizationResponse` records for a reported
      error: "Login Required" for `login_required` in any letter case,
      otherwise the error description, which may be null or empty. */
  function ErrorFailure(error: string, errorDescription: NString): NString {
    if ToLower(error) == "login_required" then Some("Login Required") else errorDescription
  }

  /** `ValidateAuthorizationResponse`. `parseUri` is `new Uri(origin)` (`None`
      where the constructor throws `UriFormatException`). The checks run in
      the order origin (only for a trusted message), error, state (only when
      nothing was recorded and a state is expected, with ' ' read as '+'),
      and a non-empty recorded text throws `ApplicationException`. */
  function ValidateAuthorizationResponse(response: Option<AuthorizationResponse>, auth0Domain: NString, state: NString,
                                         parseUri: string -> Option<Uri>): (r: Outcome)
    ensures IsNullOrEmpty(auth0Domain) ==> r == Threw(Argument("auth0Domain"))
    ensures !IsNullOrEmpty(auth0Domain) && response.None? ==> r == Threw(ArgumentNull("authorizationResponse"))
    ensures r.Threw? && r.error.Application? ==> r.error.message != ""
  {
    if IsNullOrEmpty(auth0Domain) then Threw(Argument("auth0Domain"))
    else
      match response
      case None => Threw(ArgumentNull("authorizationResponse"))
      case Some(resp) =>
        if resp.origin.None? then Threw(ArgumentNull("uriString"))
        else
          match parseUri(resp.origin.value)
          case None => Threw(UriFormat)
          case Some(origin) =>
            var afterOrigin: NString :=
              if resp.isTrusted && origin.Authority() != auth0Domain.value then Some("Invalid Origin") else None;
            var afterError: NString :=
              if afterOrigin.None? && !IsNullOrEmpty(resp.error) then ErrorFailure(resp.error.value, resp.errorDescription)
              else afterOrigin;
            if afterError.None? && !IsNullOrEmpty(state) && resp.state.None? then Threw(NullReference)
            else
              var afterState: NString :=
                if afterError.None? && !IsNullOrEmpty(state) && state.value != ReplaceChar(resp.state.value, ' ', '+')
                then Some("Invalid State") else afterError;
              if !IsNullOrEmpty(afterState) then Threw(Application(afterState.value)) else Completed
  }

  /** The state a response carries, as compared: ' ' read as '+'. */
  predicate StateMatches(expected: NString, resp: AuthorizationResponse) {
    IsNullOrEmpty(expected) || (resp.state.Some? && expected.value == ReplaceChar(resp.state.value, ' ', '+'))
  }

  /** When the response comes from a well-formed origin, it is accepted
      exactly when the origin check passes and either no error is reported
      and the state matches, or an error other than `login_required` comes
      with an empty description (which records nothing and skips the state
      check) or with none and a matching state. */
  lemma ValidateAuthorizationResponseAccepts(resp: AuthorizationResponse, auth0Domain: string, state: NString,
                                             parseUri: string -> Option<Uri>)
    requires auth0Domain != ""
    requires resp.origin.Some? && parseUri(resp.origin.value).Some?
    ensures var origin := parseUri(resp.origin.value).value;
      ValidateAuthorizationResponse(Some(resp), Some(auth0Domain), state, parseUri) == Completed
      <==>
      && (resp.isTrusted ==> origin.Authority() == auth0Domain)
      && (IsNullOrEmpty(resp.error) ==> StateMatches(state, resp))
      && (!IsNullOrEmpty(resp.error) ==>
            && ToLower(resp.error.value) != "login_required"
            && (resp.errorDescription == Some("") || (resp.errorDescription.None? && StateMatches(state, resp))))
  {
  }

  /** A trusted message from another authority is rejected as "Invalid
      Origin", whatever error or state it carries. */
  lemma InvalidOriginWins(resp: AuthorizationResponse, auth0Domain: string, state: NString,
                          parseUri: string -> Option<Uri>)
    requires auth0Domain != ""
    requires resp.origin.Some? && parseUri(resp.origin.value).Some?
    requires resp.isTrusted && parseUri(resp.origin.value).value.Authority() != auth0Domain
    ensures ValidateAuthorizationResponse(Some(resp), Some(auth0Domain), state, parseUri)
            == Threw(Application("Invalid Origin"))
  {
  }

  /** `login_required`, in any letter case, is reported as "Login Required"
      when the origin passes. */
  lemma LoginRequiredReported(resp: AuthorizationResponse, auth0Domain: string, state: NString,
                              parseUri: string -> Option<Uri>)
    requires auth0Domain != ""
    requires resp.origin.Some? && parseUri(resp.origin.value).Some?
    requires !resp.isTrusted || parseUri(resp.origin.value).value.Authority() == auth0Domain
    requires resp.error.Some? && ToLower(resp.error.value) == "login_required"
    ensures ValidateAuthorizationResponse(Some(resp), Some(auth0Domain), state, parseUri)
            == Threw(Application("Login Required"))
  {
  }

  /** The `at_hash` of an access token (section 3.2.2.9 of OpenID Connect
      Core 1.0): unpadded base64url of the left half of its SHA-256 digest. */
  function AccessTokenHash(accessToken: string, sha256: seq<byte> -> Digest): (h: string)
    ensures |h| == 22
    ensures Decode(RepairPadding(FromUrlSafe(h))) == Some(sha256(Ascii(accessToken))[..16])
  {
    var half := sha256(Ascii(accessToken))[..16];
    UrlDecodeEncode(half);
    UrlEncode(half)
  }

  /** `ValidateAccessTokenHash`: false for an empty `at_hash`; otherwise
      whether it equals the hash of the access token. A null access token
      makes `Encoding.ASCII.GetBytes` throw. */
  function ValidateAccessTokenHash(atHash: NString, accessToken: NString, sha256: seq<byte> -> Digest): (r: Result<bool>)
    ensures IsNullOrEmpty(atHash) ==> r == Ok(false)
    ensures !IsNullOrEmpty(atHash) && accessToken.None? ==> r == Err(ArgumentNull("s"))
    ensures r == Ok(true) <==>
      !IsNullOrEmpty(atHash) && accessToken.Some? && atHash.value == AccessTokenHash(accessToken.value, sha256)
  {
    if IsNullOrEmpty(atHash) then Ok(false)
    else if accessToken.None? then Err(ArgumentNull("s"))
    else Ok(AccessTokenHash(accessToken.value, sha256) == atHash.value)
  }

  /** The hash of an access token validates against that token. */
  lemma AccessTokenHashAccepted(accessToken: string, sha256: seq<byte> -> Digest)
    ensures ValidateAccessTokenHash(Some(AccessTokenHash(accessToken, sha256)), Some(accessToken), sha256) == Ok(true)
  {
    var h := AccessTokenHash(accessToken, sha256);
    assert !IsNullOrEmpty(Some(h));
  }

  /** The arguments of `GetAccessToken`, checked in order before the token
      request is sent: the HTTP client, the domain, the client id, then
      exactly one of the PKCE code verifier and the client secret. */
  function GetAccessTokenArguments(hasHttpClient: bool, auth0Domain: NString, auth0ClientId: NString,
                                   codeVerifier: NString, secret: NString): (r: Outcome)
    ensures r.Completed? <==>
      hasHttpClient && !IsNullOrEmpty(auth0Domain) && !IsNullOrEmpty(auth0ClientId)
      && (IsNullOrEmpty(codeVerifier) != IsNullOrEmpty(secret))
    ensures !hasHttpClient ==> r == Threw(ArgumentNull("httpClient"))
    ensures r.Threw? && hasHttpClient ==> r.error.Argument?
  {
    if !hasHttpClient then Threw(ArgumentNull("httpClient"))
    else if IsNullOrEmpty(auth0Domain) then Threw(Argument("auth0domain"))
    else if IsNullOrEmpty(auth0ClientId) then Threw(Argument("auth0ClientId"))
    else if IsNullOrEmpty(codeVerifier) && IsNullOrEmpty(secret) then Threw(Argument("secret or codeVerifier"))
    else if !IsNullOrEmpty(codeVerifier) && !IsNullOrEmpty(secret) then Threw(Argument("secret and codeVerifier"))
    else Completed
  }
}

=== FILE: base64.dfy ===
/** Base64 as `Convert.ToBase64String` / `Convert.FromBase64String` implement
    it (RFC 4648 section 4, standard alphabet, '=' padding), and the URL-safe
    variant the library derives from it by character replacement (RFC 4648
    section 5, without padding). */
module Base64 {
  import opened Wrappers
  import opened Text

  type byte = x: int | 0 <= x < 256
  type Sextet = x: int | 0 <= x < 64

  /** A character of the standard alphabet (not the pad). */
  predicate IsBase64Char(c: char) {
    ('A' <= c <= 'Z') || ('a' <= c <= 'z') || ('0' <= c <= '9') || c == '+' || c == '/'
  }

  predicate AllBase64(s: string) {
    forall i :: 0 <= i < |s| ==> IsBase64Char(s[i])
  }

  function IndexOf(c: char): (i: Sextet)
    requires IsBase64Char(c)
  {
    if 'A' <= c <= 'Z' then c as int - 'A' as int
    else if 'a' <= c <= 'z' then c as int - 'a' as int + 26
    else if '0' <= c <= '9' then c as int - '0' as int + 52
    else if c == '+' then 62
    else 63
  }

  /** The alphabet character for a six-bit value; `IndexOf` inverts it. */
  function CharOf(i: Sextet): (c: char)
    ensures IsBase64Char(c) && IndexOf(c) == i
  {
    if i < 26 then ('A' as int + i) as char
    else if i < 52 then ('a' as int + i - 26) as char
    else if i < 62 then ('0' as int + i - 52) as char
    else if i == 62 then '+'
    else '/'
  }

  /** Three bytes as four characters. */
  function EncodeTriple(b0: byte, b1: byte, b2: byte): string {
    [CharOf(b0 / 4), CharOf((b0 % 4) * 16 + b1 / 16), CharOf((b1 % 16) * 4 + b2 / 64), CharOf(b2 % 64)]
  }

  /** Number of characters `Unpadded` produces for `n` bytes. */
  function UnpaddedLength(n: nat): nat {
    4 * (n / 3) + (if n % 3 == 0 then 0 else n % 3 + 1)
  }

  /** The length arithmetic of padding: `n` bytes take `UnpaddedLength(n)`
      characters, which the '=' characters round up to a multiple of four. */
  lemma LengthArithmetic(n: nat)
    ensures UnpaddedLength(n) % 4 == (if n % 3 == 0 then 0 else n % 3 + 1)
    ensures 4 * ((n + 2) / 3) == UnpaddedLength(n) + (if n % 3 == 0 then 0 else 3 - n % 3)
  {
    var q, m := n / 3, n % 3;
    assert n == 3 * q + m;
    assert (n + 2) / 3 == q + (if m == 0 then 0 else 1);
  }

  /** The encoding before padding: one character per six bits, rounded up,
      produced one triple of bytes at a time. */
  function Unpadded(b: seq<byte>): (s: string)
    ensures AllBase64(s)
    ensures |s| == UnpaddedLength(|b|)
    decreases |b|
  {
    if |b| == 0 then ""
    else if |b| == 1 then [CharOf(b[0] / 4), CharOf((b[0] % 4) * 16)]
    else if |b| == 2 then [CharOf(b[0] / 4), CharOf((b[0] % 4) * 16 + b[1] / 16), CharOf((b[1] % 16) * 4)]
    else if |b| == 3 then EncodeTriple(b[0], b[1], b[2])
    else Unpadded(b[..3]) + Unpadded(b[3..])
  }

  /** The '=' characters that complete the last quadruple. */
  function Padding(n: nat): (p: string)
    ensures p == seq(|p|, _ => '=')
    ensures (UnpaddedLength(n) + |p|) % 4 == 0
  {
    LengthArithmetic(n);
    if n % 3 == 1 then "==" else if n % 3 == 2 then "=" else ""
  }

  /** `Convert.ToBase64String`. */
  function Encode(b: seq<byte>): (s: string)
    ensures |s| == 4 * ((|b| + 2) / 3)
  {
    LengthArithmetic(|b|);
    Unpadded(b) + Padding(|b|)
  }

  /** Four alphabet characters as three bytes. */
  function DecodeQuad(q: string): (b: seq<byte>)
    requires |q| == 4 && AllBase64(q)
    ensures |b| == 3
  {
    var c0, c1, c2, c3 := IndexOf(q[0]), IndexOf(q[1]), IndexOf(q[2]), IndexOf(q[3]);
    [c0 * 4 + c1 / 16, (c1 % 16) * 16 + c2 / 4, (c2 % 4) * 64 + c3]
  }

  /** The last quadruple, which may end in one or two '='. */
  function DecodeFinal(q: string): Option<seq<byte>>
    requires |q| == 4
  {
    if AllBase64(q) then Some(DecodeQuad(q))
    else if IsBase64Char(q[0]) && IsBase64Char(q[1]) && q[2] == '=' && q[3] == '=' then
      Some([IndexOf(q[0]) * 4 + IndexOf(q[1]) / 16])
    else if IsBase64Char(q[0]) && IsBase64Char(q[1]) && IsBase64Char(q[2]) && q[3] == '=' then
      var c1, c2 := IndexOf(q[1]), IndexOf(q[2]);
      Some([IndexOf(q[0]) * 4 + c1 / 16, (c1 % 16) * 16 + c2 / 4])
    else None
  }

  /** `Convert.FromBase64String`: `None` where it throws `FormatException`
      (length not a multiple of four, a character outside the alphabet, or
      padding anywhere but at the end). */
  function Decode(s: string): (r: Option<seq<byte>>)
    ensures r.Some? ==> |s| % 4 == 0
    decreases |s|
  {
    if |s| % 4 != 0 then None
    else if s == [] then Some([])
    else if |s| == 4 then DecodeFinal(s)
    else if AllBase64(s[..4]) then
      match Decode(s[4..])
      case Some(rest) => Some(DecodeQuad(s[..4]) + rest)
      case None => None
    else None
  }

  /** Splitting a value into a high and a low part by a constant radix. */
  lemma Pack4(hi: nat, lo: nat)
    requires lo < 4
    ensures (hi * 4 + lo) / 4 == hi && (hi * 4 + lo) % 4 == lo
  {
  }

  lemma Pack16(hi: nat, lo: nat)
    requires lo < 16
    ensures (hi * 16 + lo) / 16 == hi && (hi * 16 + lo) % 16 == lo
  {
  }

  lemma TripleRoundTrip(b0: byte, b1: byte, b2: byte)
    ensures AllBase64(EncodeTriple(b0, b1, b2))
    ensures DecodeQuad(EncodeTriple(b0, b1, b2)) == [b0, b1, b2]
  {
    var c0, c1, c2, c3 := b0 / 4, (b0 % 4) * 16 + b1 / 16, (b1 % 16) * 4 + b2 / 64, b2 % 64;
    Pack16(b0 % 4, b1 / 16);
    Pack4(b1 % 16, b2 / 64);
    var q := EncodeTriple(b0, b1, b2);
    assert q == [CharOf(c0), CharOf(c1), CharOf(c2), CharOf(c3)];
    assert IndexOf(q[0]) == c0 && IndexOf(q[1]) == c1 && IndexOf(q[2]) == c2 && IndexOf(q[3]) == c3;
    assert c0 * 4 + c1 / 16 == b0;
    assert (c1 % 16) * 16 + c2 / 4 == b1;
    assert (c2 % 4) * 64 + c3 == b2;
  }

  lemma OneByteRoundTrip(b: seq<byte>)
    requires |b| == 1
    ensures Decode(Encode(b)) == Some(b)
  {
    var c1 := (b[0] % 4) * 16;
    Pack16(b[0] % 4, 0);
    var s := Encode(b);
    assert s == [CharOf(b[0] / 4), CharOf(c1)] + "==";
    assert !IsBase64Char(s[2]);
    assert DecodeFinal(s) == Some([b[0]]);
    assert |s| == 4 && b == [b[0]];
  }

  lemma TwoBytesRoundTrip(b: seq<byte>)
    requires |b| == 2
    ensures Decode(Encode(b)) == Some(b)
  {
    var c1, c2 := (b[0] % 4) * 16 + b[1] / 16, (b[1] % 16) * 4;
    Pack16(b[0] % 4, b[1] / 16);
    Pack4(b[1] % 16, 0);
    var s := Encode(b);
    assert s == [CharOf(b[0] / 4), CharOf(c1), CharOf(c2)] + "=";
    assert DecodeFinal(s) == Some([b[0], b[1]]);
    assert b == [b[0], b[1]];
  }

  /** Encoding proceeds three bytes at a time. */
  lemma EncodeStep(b: seq<byte>)
    requires |b| > 3
    ensures Encode(b) == EncodeTriple(b[0], b[1], b[2]) + Encode(b[3..])
    ensures Encode(b)[..4] == EncodeTriple(b[0], b[1], b[2]) && Encode(b)[4..] == Encode(b[3..])
  {
    assert Padding(|b|) == Padding(|b[3..]|);
    var head := b[..3];
    assert head[0] == b[0] && head[1] == b[1] && head[2] == b[2];
    assert Unpadded(head) == EncodeTriple(b[0], b[1], b[2]);
    var t, rest := EncodeTriple(b[0], b[1], b[2]), Encode(b[3..]);
    assert (t + rest)[..|t|] == t && (t + rest)[|t|..] == rest;
  }

  /** An encoding is a whole number of quadruples. */
  lemma EncodeLength(b: seq<byte>)
    ensures |Encode(b)| % 4 == 0 && (|b| > 0 ==> |Encode(b)| > 0)
  {
    var k := (|b| + 2) / 3;
    assert |Encode(b)| == 4 * k;
  }

  /** Decoding proceeds four characters at a time. */
  lemma DecodeStep(s: string)
    requires |s| > 4 && |s| % 4 == 0 && AllBase64(s[..4]) && Decode(s[4..]).Some?
    ensures Decode(s) == Some(DecodeQuad(s[..4]) + Decode(s[4..]).value)
  {
  }

  lemma FirstTripleRoundTrip(b: seq<byte>)
    requires |b| >= 3
    ensures DecodeQuad(EncodeTriple(b[0], b[1], b[2])) == b[..3]
  {
    TripleRoundTrip(b[0], b[1], b[2]);
    assert b[..3] == [b[0], b[1], b[2]];
  }

  lemma ThreeBytesRoundTrip(b: seq<byte>)
    requires |b| == 3
    ensures Decode(Encode(b)) == Some(b)
  {
    TripleRoundTrip(b[0], b[1], b[2]);
    assert Encode(b) == EncodeTriple(b[0], b[1], b[2]);
    assert b == [b[0], b[1], b[2]];
  }

  /** Decoding undoes encoding: `FromBase64String(ToBase64String(b)) == b`. */
  lemma {:induction false} DecodeEncode(b: seq<byte>)
    ensures Decode(Encode(b)) == Some(b)
    decreases |b|
  {
    if |b| == 1 {
      OneByteRoundTrip(b);
    } else if |b| == 2 {
      TwoBytesRoundTrip(b);
    } else if |b| == 3 {
      ThreeBytesRoundTrip(b);
    } else if |b| > 3 {
      DecodeEncode(b[3..]);
      DecodeEncodeStep(b);
    }
  }

  /** The inductive step of `DecodeEncode`: one more triple in front. */
  lemma DecodeEncodeStep(b: seq<byte>)
    requires |b| > 3 && Decode(Encode(b[3..])) == Some(b[3..])
    ensures Decode(Encode(b)) == Some(b)
  {
    var s, t := Encode(b), EncodeTriple(b[0], b[1], b[2]);
    TripleRoundTrip(b[0], b[1], b[2]);
    EncodeStep(b);
    EncodeLength(b);
    EncodeLength(b[3..]);
    DecodeStep(s);
    calc {
      Decode(s);
      Some(DecodeQuad(t) + b[3..]);
      { FirstTripleRoundTrip(b); }
      Some(b[..3] + b[3..]);
      { assert b[..3] + b[3..] == b; }
      Some(b);
    }
  }

  /** Two successive `Replace(char, char)` calls: `x` becomes `x2`, then
      `y` becomes `y2`. Neither replaced character survives, and every other
      character stays in place. */
  function ReplaceTwo(s: string, x: char, x2: char, y: char, y2: char): (r: string)
    requires x != x2 && y != y2 && x != y && x != y2 && x2 != y
    ensures |r| == |s|
    ensures x !in r && y !in r
    ensures forall i :: 0 <= i < |s| && s[i] != x && s[i] != y ==> r[i] == s[i]
  {
    ReplaceChar(ReplaceChar(s, x, x2), y, y2)
  }

  /** Swapping the pairs back undoes the replacement for text that did not
      already hold the replacement characters. */
  lemma ReplaceTwoRoundTrip(s: string, x: char, x2: char, y: char, y2: char)
    requires x != y && x != y2 && x2 != y && x2 != y2 && x != x2 && y != y2
    requires x2 !in s && y2 !in s
    ensures ReplaceTwo(ReplaceTwo(s, x, x2, y, y2), x2, x, y2, y) == s
  {
    var m := ReplaceChar(ReplaceChar(s, x, x2), y, y2);
    var r := ReplaceTwo(m, x2, x, y2, y);
    forall i | 0 <= i < |s|
      ensures r[i] == s[i]
    {
      assert s[i] != x2 && s[i] != y2;
    }
  }

  /** `+` becomes `-` and `/` becomes `_` (the URL-safe alphabet). */
  function ToUrlSafe(s: string): string {
    ReplaceTwo(s, '+', '-', '/', '_')
  }

  /** `-` becomes `+` and `_` becomes `/`, as the token decoder restores them. */
  function FromUrlSafe(s: string): string {
    ReplaceTwo(s, '-', '+', '_', '/')
  }

  /** The URL-safe replacements are undone for any standard base64 text. */
  lemma UrlSafeRoundTrip(s: string)
    requires AllBase64(s)
    ensures FromUrlSafe(ToUrlSafe(s)) == s
  {
    assert '-' !in s && '_' !in s by {
      forall i | 0 <= i < |s|
        ensures s[i] != '-' && s[i] != '_'
      {
        assert IsBase64Char(s[i]);
      }
    }
    ReplaceTwoRoundTrip(s, '+', '-', '/', '_');
  }

  /** Unpadded URL-safe base64, as `GenerateNonce` and `GetSha256` render bytes:
      `ToBase64String(b).TrimEnd('=').Replace('+', '-').Replace('/', '_')`. */
  function UrlEncode(b: seq<byte>): (s: string)
    ensures s == ToUrlSafe(Unpadded(b))
  {
    TrimEndPadding(b);
    ToUrlSafe(TrimEnd(Encode(b), '='))
  }

  /** Trimming the '=' of an encoding leaves exactly the unpadded characters. */
  lemma TrimEndPadding(b: seq<byte>)
    ensures TrimEnd(Encode(b), '=') == Unpadded(b)
  {
    var u := Unpadded(b);
    var p := Padding(|b|);
    assert u == [] || IsBase64Char(u[|u| - 1]);
    TrimEndAppended(u, '=', |p|);
  }

  /** The padding repair of `DecodeTokenPayload`: a length of 2 or 3 modulo 4
      gets "==" or "=" appended. */
  function RepairPadding(s: string): (r: string)
    ensures |r| % 4 != 1 ==> |r| % 4 == 0
  {
    if |s| % 4 == 2 then s + "==" else if |s| % 4 == 3 then s + "=" else s
  }

  /** Repairing the padding of unpadded base64 restores the padded form. */
  lemma RepairPaddingUnpadded(b: seq<byte>)
    ensures RepairPadding(Unpadded(b)) == Encode(b)
  {
    LengthArithmetic(|b|);
  }

  /** URL-safe unpadded text decodes, after undoing the replacements and
      repairing the padding, to the bytes it encodes. */
  lemma UrlDecodeEncode(b: seq<byte>)
    ensures Decode(RepairPadding(FromUrlSafe(UrlEncode(b)))) == Some(b)
  {
    UrlSafeRoundTrip(Unpadded(b));
    RepairPaddingUnpadded(b);
    DecodeEncode(b);
  }

  /** The URL-safe rendering never holds a character that needs escaping in a
      query string or that `TrimEnd('=')` would remove. */
  lemma UrlEncodeAlphabet(b: seq<byte>)
    ensures forall c | c in UrlEncode(b) ::
      ('A' <= c <= 'Z') || ('a' <= c <= 'z') || ('0' <= c <= '9') || c == '-' || c == '_'
  {
    var u := Unpadded(b);
    var r := UrlEncode(b);
    forall c | c in r
      ensures ('A' <= c <= 'Z') || ('a' <= c <= 'z') || ('0' <= c <= '9') || c == '-' || c == '_'
    {
      var i :| 0 <= i < |r| && r[i] == c;
      assert IsBase64Char(u[i]);
    }
  }
}

=== FILE: client_service.dfy ===
/** The client-side `AuthenticationService`
    (src/Blazor.Auth0.ClientSide/AuthenticationService.cs): the session of a
    Blazor WebAssembly application. It sends the browser to Auth0's
    `/authorize` endpoint (or opens a hidden frame for a silent login), takes
    the authorization response back, checks it, and keeps the user, the
    tokens, the session state and a log-out timer. */
module ClientService {
  import opened Wrappers
  import opened Text
  import opened Base64
  import opened Enumerations
  import opened JsonModel
  import opened Models
  import opened Utils
  import opened UserInfoModel
  import opened Storage
  import opened CommonAuthentication
  import opened ClientAuthentication
  import opened ClientSession
  import TransactionManager
  import AuthorizeOptionsValidation

  // ---------------------------------------------------------------------------
  // The world around the service
  // ---------------------------------------------------------------------------

  /** A `System.Timers.Timer`: whether it runs, and its interval in
      milliseconds. */
  datatype Timer = Timer(enabled: bool, interval: int)

  /** `new Timer()`: stopped, with the default interval of 100 ms. */
  const NewTimer := Timer(false, 100)

  /** `timer?.Stop()`. */
  function Stopped(timer: Option<Timer>): Option<Timer> {
    if timer.None? then None else Some(timer.value.(enabled := false))
  }

  /** Where `NavigationManager.NavigateTo` sends the browser. */
  datatype Location = Page(uri: string) | AuthorizeEndpoint(url: RequestUrl)

  /** What the service does to the browser, in the order it does it. */
  datatype Effect =
    | Navigate(location: Location)          // NavigationManager.NavigateTo
    | InteropLogOut(logoutUrl: RequestUrl)  // the JavaScript `logOut` call
    | DrawIframe(frameUrl: RequestUrl)      // the JavaScript `drawIframe` call
    | OpenPopup(options: AuthorizeOptions)  // Authentication.AuthorizePopup
    | BeforeSilentLogin                     // BeforeSilentLoginEvent

  /** The browser as the service sees it through `NavigationManager`,
      `IJSRuntime` and its own events: what it has been asked to do, in
      order. */
  class Browser {
    var effects: seq<Effect>

    constructor ()
      ensures effects == []
    {
      effects := [];
    }
  }

  /** The collaborators the service calls but that are not part of this
      model: SHA-256, the JSON (de)serialisers, `new Uri(string)`, the two
      HTTP round trips, `DateTime.ToString()` and `JsonElement.GetRawText()`. */
  datatype Environment = Environment(
    sha256: seq<byte> -> Digest,
    transactionCodec: JsonCodec<SessionAuthorizationTransaction>,
    parseUri: string -> Option<Uri>,
    parseHash: string -> Result<ParsedHash>,
    parseJson: seq<byte> -> Option<Json>,
    parseDate: string -> Option<DateTime>,
    requestToken: TokenRequest -> Result<Option<SessionInfo>>,
    requestUserInfo: NString -> Result<Option<UserInfo>>,
    formatDate: DateTime -> string,
    rawText: Json -> string)

  // ---------------------------------------------------------------------------
  // Session states
  // ---------------------------------------------------------------------------

  /** The state `ClearSession` leaves: `Undefined` when an authenticated
      user is required (a new login follows), `Inactive` otherwise. */
  function ClearedState(c: ClientOptions): SessionStates {
    if c.requireAuthenticatedUser then Undefined else Inactive
  }

  /** The `SessionStateChangedEvent`s an assignment of `value` raises. */
  function ChangeEvents(current: SessionStates, value: SessionStates): seq<SessionStates> {
    if value != current then [value] else []
  }

  /** No entry of the log repeats the one before it. */
  ghost predicate NoRepeats(log: seq<SessionStates>)
    decreases |log|
  {
    |log| < 2 || (log[0] != log[1] && NoRepeats(log[1..]))
  }

  /** A log of raised state changes of a service that started in
      `initial`: no event repeats the state before it, and the last one is
      the current state. */
  ghost predicate ChangeLog(initial: SessionStates, log: seq<SessionStates>, state: SessionStates) {
    && (log == [] ==> state == initial)
    && (log != [] ==> log[0] != initial && log[|log| - 1] == state)
    && NoRepeats(log)
  }

  /** An entry that differs from the last one can be appended. */
  lemma {:induction false} NoRepeatsAppend(log: seq<SessionStates>, value: SessionStates)
    requires NoRepeats(log) && (log != [] ==> log[|log| - 1] != value)
    ensures NoRepeats(log + [value])
    decreases |log|
  {
    if |log| >= 2 {
      assert (log + [value])[1..] == log[1..] + [value];
      NoRepeatsAppend(log[1..], value);
    } else if |log| == 1 {
      assert (log + [value])[1..] == [value];
    }
  }

  /** Assigning a state through the setter keeps the log well formed, and
      assigning the same state twice raises at most one event. */
  lemma ChangeEventsKeepLog(initial: SessionStates, log: seq<SessionStates>, state: SessionStates, value: SessionStates)
    requires ChangeLog(initial, log, state)
    ensures ChangeLog(initial, log + ChangeEvents(state, value), value)
    ensures ChangeEvents(value, value) == []
    ensures |ChangeEvents(state, value)| == 1 <==> state != value
  {
    if value != state {
      NoRepeatsAppend(log, value);
      assert (log + [value])[|log|] == value;
    } else {
      assert log + ChangeEvents(state, value) == log;
    }
  }

  // ---------------------------------------------------------------------------
  // Checking an authorization response
  // ---------------------------------------------------------------------------

  /** The part of `HandleAuthorizationResponseAsync` that checks a response
      against its stored transaction `t` before anything is kept: the
      response itself (origin, error, state), then the tokens
      (`GetSessionInfoAsync`, a null reply failing on the null reference),
      the profile (`GetUserAsync`) and the ID token (`ValidateIdToken`,
      against the access token of the response). */
  function Authenticate(c: ClientOptions, env: Environment, resp: AuthorizationResponse, t: SessionAuthorizationTransaction)
    : (r: Result<(Option<UserInfo>, SessionInfo)>)
    ensures ValidateAuthorizationResponse(Some(resp), c.domain, t.state, env.parseUri).Threw? ==>
      r == Err(ValidateAuthorizationResponse(Some(resp), c.domain, t.state, env.parseUri).error)
    ensures r.Ok? ==>
      && ValidateAuthorizationResponse(Some(resp), c.domain, t.state, env.parseUri) == Completed
      && SessionInfoFor(c, resp, Some(t), env.requestToken) == Ok(Some(r.value.1))
      && ValidateIdToken(c, r.value.0, Some(t), resp.session.accessToken, env.sha256) == Completed
    ensures r.Ok? && IncludesIdToken(c.responseType) && r.value.0.Some? ==>
      var u := r.value.0.value;
      && NoncesMatch(u, Some(t))
      && (!IsNullOrEmpty(u.atHash) ==>
            resp.session.accessToken.Some? && u.atHash.value == AccessTokenHash(resp.session.accessToken.value, env.sha256))
  {
    match ValidateAuthorizationResponse(Some(resp), c.domain, t.state, env.parseUri)
    case Threw(e) => Err(e)
    case Completed =>
      match SessionInfoFor(c, resp, Some(t), env.requestToken)
      case Err(e) => Err(e)
      case Ok(None) => Err(NullReference)
      case Ok(Some(s)) =>
        match GetUser(c, s.accessToken, s.idToken, env.parseJson, env.parseDate, env.requestUserInfo)
        case Err(e) => Err(e)
        case Ok(u) =>
          match ValidateIdToken(c, u, Some(t), resp.session.accessToken, env.sha256)
          case Threw(e) => Err(e)
          case Completed => Ok((u, s))
  }

  /** The key of the transaction a response belongs to. */
  function ResponseKey(c: ClientOptions, resp: AuthorizationResponse): string {
    TransactionManager.TransactionKey(c.namespace, resp.state)
  }

  /** How the `try` block of `HandleAuthorizationResponseAsync` ends, given
      the store `items` it starts from: the stored transaction is read, the
      response checked, the session initiated and the log-out timer armed,
      and the first failure is what escapes. */
  function AcceptOutcome(c: ClientOptions, env: Environment, resp: AuthorizationResponse, items: map<string, string>): Outcome {
    match Read(items, ResponseKey(c, resp), env.transactionCodec)
    case Err(e) => Threw(e)
    case Ok(t) =>
      match Authenticate(c, env, resp, t)
      case Err(e) => Threw(e)
      case Ok((u, s)) =>
        match WithPermissions(c, u, s, env.parseJson)
        case Err(e) => Threw(e)
        case Ok(_) => if LogOutInterval(s.expiresIn) <= 0 then Threw(Argument("")) else Completed
  }

  /** The response passed every check against the transaction stored for
      it in `items`. */
  ghost predicate ResponseChecked(c: ClientOptions, env: Environment, resp: AuthorizationResponse, items: map<string, string>) {
    var stored := Read(items, ResponseKey(c, resp), env.transactionCodec);
    stored.Ok? && Authenticate(c, env, resp, stored.value).Ok?
  }

  /** A `try` block that completes has read a stored transaction and
      accepted the response against it: the origin and state checks passed
      and, for the flows with an ID token, the nonce matched (section 10.12
      of RFC 6749 and section 3.2.2.9 of OpenID Connect Core 1.0). The
      tokens then live more than five seconds. */
  lemma AcceptedResponseChecked(c: ClientOptions, env: Environment, resp: AuthorizationResponse, items: map<string, string>)
    requires AcceptOutcome(c, env, resp, items) == Completed
    ensures var stored := Read(items, ResponseKey(c, resp), env.transactionCodec);
      && stored.Ok?
      && ValidateAuthorizationResponse(Some(resp), c.domain, stored.value.state, env.parseUri) == Completed
      && var a := Authenticate(c, env, resp, stored.value);
      && a.Ok?
      && (IncludesIdToken(c.responseType) && a.value.0.Some? ==> NoncesMatch(a.value.0.value, Some(stored.value)))
      && LogOutInterval(a.value.1.expiresIn) > 0
  {
  }

  /** A response whose origin is well formed is accepted only when its state
      is the stored one (' ' read as '+'), or it reports an error other than
      `login_required` with an empty description. */
  lemma AcceptedStateMatches(c: ClientOptions, env: Environment, resp: AuthorizationResponse, t: SessionAuthorizationTransaction)
    requires Authenticate(c, env, resp, t).Ok?
    requires resp.origin.Some? && env.parseUri(resp.origin.value).Some?
    ensures StateMatches(t.state, resp) || (!IsNullOrEmpty(resp.error) && resp.errorDescription == Some(""))
  {
    ValidateAuthorizationResponseAccepts(resp, c.domain.value, t.state, env.parseUri);
  }

  /** The response `ValidateSession` builds from a parsed hash: fifteen
      seconds of lifetime, an untrusted message from the current authority,
      an empty scope, a bearer token, type "Query". */
  function ResponseFromHash(h: ParsedHash, absoluteUri: Uri): (resp: AuthorizationResponse)
    ensures resp.state == h.state && resp.code == h.code && resp.error == h.error
    ensures resp.session.accessToken == h.accessToken && resp.session.idToken == h.idToken
    ensures !resp.isTrusted && resp.session.expiresIn == 15
  {
    AuthorizationResponse(
      session := SessionInfo(h.accessToken, 15, h.idToken, None, Some(""), Some("bearer"), map[]),
      isTrusted := false, origin := Some(absoluteUri.Authority()), responseType := Some("Query"),
      state := h.state, error := h.error, errorDescription := h.errorDescription, code := h.code)
  }

  /** A response built from a hash is never checked for its origin, and a
      state matching the stored one passes the state check, so only a
      malformed origin, a reported error or a state mismatch can stop it. */
  lemma HashResponseAccepted(h: ParsedHash, absoluteUri: Uri, domain: string, state: NString, parseUri: string -> Option<Uri>)
    requires domain != "" && parseUri(absoluteUri.Authority()).Some?
    requires IsNullOrEmpty(h.error)
    ensures ValidateAuthorizationResponse(Some(ResponseFromHash(h, absoluteUri)), Some(domain), state, parseUri) == Completed
            <==> StateMatches(state, ResponseFromHash(h, absoluteUri))
  {
    ValidateAuthorizationResponseAccepts(ResponseFromHash(h, absoluteUri), domain, state, parseUri);
  }

  // ---------------------------------------------------------------------------
  // Authorization requests
  // ---------------------------------------------------------------------------

  /** The transaction `Proccess` stores for options `o`, its draws starting
      at `start` of the stream. */
  function PendingTransaction(o: AuthorizeOptions, stream: nat -> byte, start: nat): SessionAuthorizationTransaction {
    TransactionManager.NewTransaction(o, IncludesIdToken(o.responseType),
      (k: nat) => TransactionManager.Drawn(stream, start, TransactionManager.DrawLength(o), k))
  }

  /** The store after a transaction is kept for options `o`. */
  function StoredWith(items: map<string, string>, o: AuthorizeOptions, t: SessionAuthorizationTransaction,
                      codec: JsonCodec<SessionAuthorizationTransaction>): map<string, string> {
    var key := TransactionManager.TransactionKey(o.namespace, t.state);
    items[key := codec.serialize(t)][ExpiryKey(key) := "1800"]
  }

  /** The options `Proccess` hands back are exactly as valid as those it was
      given: it changes only the state and the nonce. */
  lemma ProcessedValid(o: AuthorizeOptions, t: SessionAuthorizationTransaction)
    ensures TryValidateObject(AuthorizeOptionsValidation.AsValidatable(TransactionManager.Processed(o, t))).isValid
            <==> TryValidateObject(AuthorizeOptionsValidation.AsValidatable(o)).isValid
  {
    AuthorizeOptionsValidation.ValidIff(o);
    AuthorizeOptionsValidation.ValidIff(TransactionManager.Processed(o, t));
  }

  /** The `/authorize` URL issued for options `o` whose transaction draws
      start at `start`: invalid options are refused with the validation
      error; valid ones are processed and built. */
  function IssuedRequest(o: AuthorizeOptions, stream: nat -> byte, start: nat): (r: Result<RequestUrl>)
    ensures r.Ok? <==> TryValidateObject(AuthorizeOptionsValidation.AsValidatable(o)).isValid
    ensures r.Err? ==> r.error == ValidationError(AuthorizeOptionsValidation.AsValidatable(o))
    ensures r.Ok? ==>
      && r.value.host == o.domain.value && r.value.path == "/authorize"
      && |r.value.query| > 1 && r.value.query[1] == QueryParam("state", PendingTransaction(o, stream, start).state.value)
  {
    var item := AuthorizeOptionsValidation.AsValidatable(o);
    if !TryValidateObject(item).isValid then Err(ValidationError(item))
    else
      var t := PendingTransaction(o, stream, start);
      ProcessedValid(o, t);
      AuthorizeQueryParameters(TransactionManager.Processed(o, t));
      Ok(BuildAuthorizeUrl(Some(TransactionManager.Processed(o, t))).value)
  }

  /** The store after the request for `o` is issued: the transaction is kept
      for thirty minutes, and nothing is stored for refused options. */
  function StoreAfterRequest(o: AuthorizeOptions, stream: nat -> byte, start: nat,
                             codec: JsonCodec<SessionAuthorizationTransaction>, items: map<string, string>)
    : map<string, string>
  {
    if !TryValidateObject(AuthorizeOptionsValidation.AsValidatable(o)).isValid then items
    else StoredWith(items, o, PendingTransaction(o, stream, start), codec)
  }

  /** The request and the store agree: a response that comes back with the
      state the request sent, to a client with the same namespace, reads the
      pending transaction, as long as the transaction codec round-trips. */
  lemma {:induction false} IssuedStateFindsTransaction(
    o: AuthorizeOptions, stream: nat -> byte, start: nat, codec: JsonCodec<SessionAuthorizationTransaction>,
    items: map<string, string>, c: ClientOptions, resp: AuthorizationResponse)
    requires IssuedRequest(o, stream, start).Ok?
    requires RoundTrips(codec) && codec.serialize(PendingTransaction(o, stream, start)) != ""
    requires c.namespace == o.namespace
    requires |IssuedRequest(o, stream, start).value.query| > 1
    requires resp.state == Some(IssuedRequest(o, stream, start).value.query[1].value)
    ensures Read(StoreAfterRequest(o, stream, start, codec, items), ResponseKey(c, resp), codec)
            == Ok(PendingTransaction(o, stream, start))
  {
    var t := PendingTransaction(o, stream, start);
    assert resp.state == t.state;
    TransactionManager.StoredTransactionRetrieved(items, o.namespace, t, codec);
  }

  /** `TransactionManager.Proccess` followed by `BuildAuthorizeUrl`: the
      transaction is stored and the `/authorize` URL carries the processed
      options. Invalid options fail before anything is drawn or stored. */
  method ProcessAndBuild(runtime: JSRuntime, options: AuthorizeOptions, rng: RandomNumberGenerator,
                         codec: JsonCodec<SessionAuthorizationTransaction>)
    returns (r: Result<RequestUrl>)
    requires rng as object != runtime
    modifies runtime, rng
    ensures !TryValidateObject(AuthorizeOptionsValidation.AsValidatable(options)).isValid ==>
      r == Err(ValidationError(AuthorizeOptionsValidation.AsValidatable(options)))
      && runtime.localStorage == old(runtime.localStorage)
    ensures options.keyLength >= 0 ==>
      && r == IssuedRequest(options, rng.stream, old(rng.position))
      && runtime.localStorage == StoreAfterRequest(options, rng.stream, old(rng.position), codec, old(runtime.localStorage))
  {
    var processed := TransactionManager.Proccess(runtime, Some(options), rng, codec);
    if processed.Err? {
      return Err(processed.error);
    }
    ghost var t := PendingTransaction(options, rng.stream, old(rng.position));
    ProcessedValid(options, t);
    var url := BuildAuthorizeUrl(Some(processed.value));
    r := Ok(url.value);
  }

  /** `Authentication.Authorize` up to the navigation: the options are
      validated, processed, and turned into the `/authorize` URL. */
  method AuthorizeRequest(runtime: JSRuntime, options: AuthorizeOptions, rng: RandomNumberGenerator,
                          codec: JsonCodec<SessionAuthorizationTransaction>)
    returns (r: Result<RequestUrl>)
    requires rng as object != runtime
    modifies runtime, rng
    ensures !TryValidateObject(AuthorizeOptionsValidation.AsValidatable(options)).isValid ==>
      r == Err(ValidationError(AuthorizeOptionsValidation.AsValidatable(options)))
      && runtime.localStorage == old(runtime.localStorage) && rng.position == old(rng.position)
    ensures options.keyLength >= 0 ==>
      && r == IssuedRequest(options, rng.stream, old(rng.position))
      && runtime.localStorage == StoreAfterRequest(options, rng.stream, old(rng.position), codec, old(runtime.localStorage))
  {
    var valid := ValidateObject(AuthorizeOptionsValidation.AsValidatable(options));
    if valid.Threw? {
      return Err(valid.error);
    }
    r := ProcessAndBuild(runtime, options, rng, codec);
  }

  /** The options of a silent login: the response comes back as a
      `web_message` to the frame's parent. */
  function SilentOptions(o: AuthorizeOptions): (s: AuthorizeOptions)
    ensures s.responseMode == WebMessage
    ensures s.keyLength == o.keyLength && s.namespace == o.namespace && s.responseType == o.responseType
  {
    o.(responseMode := WebMessage)
  }

  /** The frame address of a silent login: the `/authorize` URL with
      `prompt=none` appended (section 3.1.2.1 of OpenID Connect Core 1.0). */
  function SilentUrl(url: RequestUrl): (frame: RequestUrl)
    ensures frame.host == url.host && frame.path == url.path
    ensures |frame.query| == |url.query| + 1 && frame.query[..|url.query|] == url.query && frame.query[|url.query|..] == [QueryParam("prompt", "none")]
  {
    url.(query := url.query + [QueryParam("prompt", "none")])
  }

  /** `BuildAuthorizeOptions` followed by `Authentication.Authorize` up to
      the navigation: the `/authorize` URL of a redirect login. */
  method RedirectRequest(c: ClientOptions, current: Uri, runtime: JSRuntime, rng: RandomNumberGenerator,
                         sha256: seq<byte> -> Digest, codec: JsonCodec<SessionAuthorizationTransaction>)
    returns (r: Result<RequestUrl>)
    requires rng as object != runtime
    modifies runtime, rng
    ensures c.keyLength < 0 ==> r == Err(Overflow) && runtime.localStorage == old(runtime.localStorage)
    ensures c.keyLength >= 0 ==>
      var built := BuiltOptions(c, current, rng.stream, old(rng.position), sha256);
      && r == IssuedRequest(built, rng.stream, AfterBuilt(c, old(rng.position)))
      && runtime.localStorage == StoreAfterRequest(built, rng.stream, AfterBuilt(c, old(rng.position)), codec, old(runtime.localStorage))
  {
    var options := BuildAuthorizeOptions(c, current, rng, sha256);
    if options.Err? {
      return Err(options.error);
    }
    r := AuthorizeRequest(runtime, options.value, rng, codec);
  }

  /** The request of `SilentLogin` before `prompt=none` is added: the
      options are built with the `web_message` response mode and processed,
      storing the transaction. */
  method SilentRequest(c: ClientOptions, current: Uri, runtime: JSRuntime, rng: RandomNumberGenerator,
                       sha256: seq<byte> -> Digest, codec: JsonCodec<SessionAuthorizationTransaction>)
    returns (r: Result<RequestUrl>)
    requires rng as object != runtime
    modifies runtime, rng
    ensures c.keyLength < 0 ==> r == Err(Overflow) && runtime.localStorage == old(runtime.localStorage)
    ensures c.keyLength >= 0 ==>
      var silent := SilentOptions(BuiltOptions(c, current, rng.stream, old(rng.position), sha256));
      && r == IssuedRequest(silent, rng.stream, AfterBuilt(c, old(rng.position)))
      && runtime.localStorage == StoreAfterRequest(silent, rng.stream, AfterBuilt(c, old(rng.position)), codec, old(runtime.localStorage))
  {
    var options := BuildAuthorizeOptions(c, current, rng, sha256);
    if options.Err? {
      return Err(options.error);
    }
    r := ProcessAndBuild(runtime, SilentOptions(options.value), rng, codec);
  }

  /** An effect that starts an interactive login. */
  predicate StartsLogin(e: Effect) {
    e.OpenPopup? || (e.Navigate? && e.location.AuthorizeEndpoint?)
  }

  // ---------------------------------------------------------------------------
  // The service
  // ---------------------------------------------------------------------------

  /** What `Authorize` does, from the random stream position `start`, the
      effects `effects0` and the stored items `items0` before it: the
      outcome, the effects and the stored items after it. A negative key
      length fails before any draw; in popup mode the built options go to
      the popup; otherwise the transaction of the built options is stored
      and, when they are valid, the browser is sent to `/authorize`. */
  ghost function AuthorizeResult(c: ClientOptions, currentUri: Uri, env: Environment, stream: nat -> byte, start: nat,
                                 effects0: seq<Effect>, items0: map<string, string>)
    : (Outcome, seq<Effect>, map<string, string>)
  {
    if c.keyLength < 0 then (Threw(Overflow), effects0, items0)
    else
      var built := BuiltOptions(c, currentUri, stream, start, env.sha256);
      if c.loginMode == Popup then (Completed, effects0 + [OpenPopup(built)], items0)
      else
        var request := IssuedRequest(built, stream, AfterBuilt(c, start));
        var items := StoreAfterRequest(built, stream, AfterBuilt(c, start), env.transactionCodec, items0);
        if request.Ok? then (Completed, effects0 + [Navigate(AuthorizeEndpoint(request.value))], items)
        else (Threw(request.error), effects0, items)
  }

  /** What `SilentLogin` does, in the terms of `AuthorizeResult`: the
      `BeforeSilentLoginEvent` first, then, for valid options with the
      `web_message` response mode, the transaction is stored and the
      `/authorize` URL with `prompt=none` is loaded in a hidden frame. */
  ghost function SilentLoginResult(c: ClientOptions, currentUri: Uri, env: Environment, stream: nat -> byte, start: nat,
                                   effects0: seq<Effect>, items0: map<string, string>)
    : (Outcome, seq<Effect>, map<string, string>)
  {
    var effects1 := effects0 + [BeforeSilentLogin];
    if c.keyLength < 0 then (Threw(Overflow), effects1, items0)
    else
      var silent := SilentOptions(BuiltOptions(c, currentUri, stream, start, env.sha256));
      var request := IssuedRequest(silent, stream, AfterBuilt(c, start));
      var items := StoreAfterRequest(silent, stream, AfterBuilt(c, start), env.transactionCodec, items0);
      if request.Ok? then (Completed, effects1 + [DrawIframe(SilentUrl(request.value))], items)
      else (Threw(request.error), effects1, items)
  }

  /** The service. `currentUri` is `NavigationManager.Uri`, the address the
      browser shows; the navigations the service requests are recorded in
      `browser` and do not change it. `stateChanges` records every
      `SessionStateChangedEvent`. */
  class AuthenticationService {
    const clientOptions: ClientOptions
    const env: Environment
    const runtime: JSRuntime
    const rng: RandomNumberGenerator
    const currentUri: Uri
    const browser: Browser

    var sessionState: SessionStates
    var stateChanges: seq<SessionStates>
    var user: Option<UserInfo>
    var sessionInfo: Option<SessionInfo>
    var transaction: Option<SessionAuthorizationTransaction>
    var logOutTimer: Option<Timer>

    /** The event log is that of the setter, and a running timer always has
        a session to end. */
    ghost predicate Valid()
      reads this`sessionState, this`stateChanges, this`logOutTimer, this`sessionInfo
    {
      && rng as object != runtime && browser as object != runtime && browser as object != rng
      && ChangeLog(Undefined, stateChanges, sessionState)
      && (logOutTimer.Some? && logOutTimer.value.enabled ==> sessionInfo.Some?)
    }

    /** The constructor: no session, no timer, state `Undefined`. Starting
        the session check in the background is left to the caller, who
        calls `ValidateSession`. */
    constructor (clientOptions: ClientOptions, env: Environment, runtime: JSRuntime, rng: RandomNumberGenerator,
                 browser: Browser, currentUri: Uri)
      requires rng as object != runtime && browser as object != runtime && browser as object != rng
      ensures Valid()
      ensures this.clientOptions == clientOptions && this.env == env && this.runtime == runtime
      ensures this.rng == rng && this.browser == browser && this.currentUri == currentUri
      ensures sessionState == Undefined && stateChanges == []
      ensures user.None? && sessionInfo.None? && transaction.None? && logOutTimer.None?
    {
      this.clientOptions := clientOptions;
      this.env := env;
      this.runtime := runtime;
      this.rng := rng;
      this.currentUri := currentUri;
      this.browser := browser;
      sessionState := Undefined;
      stateChanges := [];
      user := None;
      sessionInfo := None;
      transaction := None;
      logOutTimer := None;
    }

    /** The `SessionState` setter: the event is raised only when the state
        actually changes. */
    method SetSessionState(value: SessionStates)
      requires Valid()
      modifies this`sessionState, this`stateChanges
      ensures Valid()
      ensures sessionState == value
      ensures stateChanges == old(stateChanges) + ChangeEvents(old(sessionState), value)
    {
      ChangeEventsKeepLog(Undefined, stateChanges, sessionState, value);
      if value != sessionState {
        sessionState := value;
        stateChanges := stateChanges + [value];
      }
    }

    /** The session after `ClearSession`, from the state, event log and timer
        it had before. */
    ghost predicate ClearedFrom(state: SessionStates, log: seq<SessionStates>, timer: Option<Timer>)
      reads this
    {
      && sessionState == ClearedState(clientOptions)
      && stateChanges == log + ChangeEvents(state, ClearedState(clientOptions))
      && user.None? && sessionInfo.None? && transaction.None? && logOutTimer == Stopped(timer)
    }

    /** `ClearSession`: the state drops to `Undefined` or `Inactive`, the
        user, tokens and pending transaction are forgotten and the timer is
        stopped. */
    method ClearSession()
      requires Valid()
      modifies this`sessionState, this`stateChanges, this`user, this`sessionInfo, this`transaction, this`logOutTimer
      ensures Valid()
      ensures ClearedFrom(old(sessionState), old(stateChanges), old(logOutTimer))
    {
      SetSessionState(ClearedState(clientOptions));
      user := None;
      sessionInfo := None;
      transaction := None;
      logOutTimer := Stopped(logOutTimer);
    }

    /** `StopSilentLogin`: stops the timer, if there is one. */
    method StopSilentLogin()
      requires Valid()
      modifies this`logOutTimer
      ensures Valid()
      ensures logOutTimer == Stopped(old(logOutTimer))
    {
      logOutTimer := Stopped(logOutTimer);
    }

    /** `InitiateUserSession`: keeps the profile, with the access token's
        permissions added when there is an audience, and the tokens, and
        makes the session `Active`. A failure to read the permissions
        escapes before anything is kept. */
    method InitiateUserSession(userInfo: Option<UserInfo>, s: SessionInfo) returns (o: Outcome)
      requires Valid()
      modifies this`sessionState, this`stateChanges, this`user, this`sessionInfo
      ensures Valid()
      ensures WithPermissions(clientOptions, userInfo, s, env.parseJson).Err? ==>
        o == Threw(WithPermissions(clientOptions, userInfo, s, env.parseJson).error)
        && sessionState == old(sessionState) && stateChanges == old(stateChanges)
        && user == old(user) && sessionInfo == old(sessionInfo)
      ensures WithPermissions(clientOptions, userInfo, s, env.parseJson).Ok? ==>
        && o == Completed
        && user == WithPermissions(clientOptions, userInfo, s, env.parseJson).value && sessionInfo == Some(s)
        && sessionState == Active && stateChanges == old(stateChanges) + ChangeEvents(old(sessionState), Active)
    {
      var kept := WithPermissions(clientOptions, userInfo, s, env.parseJson);
      if kept.Err? {
        return Threw(kept.error);
      }
      user := kept.value;
      sessionInfo := Some(s);
      SetSessionState(Active);
      return Completed;
    }

    /** `ScheduleLogOut`: the one timer (made on first use) is stopped and
        re-armed to fire five seconds before the tokens expire. Without
        tokens it fails on the null reference; an interval that is not
        positive makes the timer throw, and it stays stopped. */
    method ScheduleLogOut() returns (o: Outcome)
      requires Valid()
      modifies this`logOutTimer
      ensures Valid()
      ensures var prior := if old(logOutTimer).None? then NewTimer else old(logOutTimer).value;
        && (sessionInfo.None? ==> o == Threw(NullReference) && logOutTimer == Some(prior.(enabled := false)))
        && (sessionInfo.Some? && LogOutInterval(sessionInfo.value.expiresIn) <= 0 ==>
              o == Threw(Argument("")) && logOutTimer == Some(prior.(enabled := false)))
        && (sessionInfo.Some? && LogOutInterval(sessionInfo.value.expiresIn) > 0 ==>
              o == Completed && logOutTimer == Some(Timer(true, LogOutInterval(sessionInfo.value.expiresIn))))
    {
      logOutTimer := Stopped(logOutTimer);
      if logOutTimer.None? {
        logOutTimer := Some(NewTimer);
      }
      if sessionInfo.None? {
        return Threw(NullReference);
      }
      var interval := LogOutInterval(sessionInfo.value.expiresIn);
      if interval <= 0 {
        return Threw(Argument(""));
      }
      logOutTimer := Some(logOutTimer.value.(interval := interval));
      logOutTimer := Some(logOutTimer.value.(enabled := true));
      return Completed;
    }

    /** `RedirectToHome`: forgets the pending transaction and navigates to
        the current address without its query and fragment. */
    method RedirectToHome()
      requires Valid()
      modifies this`transaction, browser
      ensures Valid()
      ensures transaction.None? && browser.effects == old(browser.effects) + [Navigate(Page(currentUri.LeftPartPath()))]
    {
      transaction := None;
      browser.effects := browser.effects + [Navigate(Page(currentUri.LeftPartPath()))];
    }

    /** `Authorize`: builds the options (a negative key length fails the
        first draw); in popup mode hands them to the popup, otherwise
        validates and processes them, storing the transaction, and sends the
        browser to `/authorize`. */
    method Authorize() returns (o: Outcome)
      requires Valid()
      modifies browser, runtime, rng
      ensures (o, browser.effects, runtime.localStorage)
              == AuthorizeResult(clientOptions, currentUri, env, rng.stream, old(rng.position),
                                 old(browser.effects), old(runtime.localStorage))
      ensures o.Threw? ==> browser.effects == old(browser.effects)
      ensures o == Completed ==>
        && |browser.effects| == |old(browser.effects)| + 1 && browser.effects[..|old(browser.effects)|] == old(browser.effects)
        && StartsLogin(browser.effects[|browser.effects| - 1])
      ensures o.Threw? ==> o.error == Overflow || o.error.Validation?
    {
      if clientOptions.loginMode == Popup {
        var options := BuildAuthorizeOptions(clientOptions, currentUri, rng, env.sha256);
        if options.Err? {
          return Threw(options.error);
        }
        browser.effects := browser.effects + [OpenPopup(options.value)];
        return Completed;
      }
      var url := RedirectRequest(clientOptions, currentUri, runtime, rng, env.sha256, env.transactionCodec);
      if url.Err? {
        return Threw(url.error);
      }
      browser.effects := browser.effects + [Navigate(AuthorizeEndpoint(url.value))];
      return Completed;
    }

    /** `SilentLogin`: raises `BeforeSilentLoginEvent`, builds the options
        with the `web_message` response mode, processes them, storing the
        transaction, and loads the `/authorize` URL with `prompt=none` in a
        hidden frame. */
    method SilentLogin() returns (o: Outcome)
      requires Valid()
      modifies browser, runtime, rng
      ensures (o, browser.effects, runtime.localStorage)
              == SilentLoginResult(clientOptions, currentUri, env, rng.stream, old(rng.position),
                                   old(browser.effects), old(runtime.localStorage))
      ensures |browser.effects| > |old(browser.effects)| && browser.effects[|old(browser.effects)|] == BeforeSilentLogin
    {
      browser.effects := browser.effects + [BeforeSilentLogin];
      var url := SilentRequest(clientOptions, currentUri, runtime, rng, env.sha256, env.transactionCodec);
      if url.Err? {
        return Threw(url.error);
      }
      browser.effects := browser.effects + [DrawIframe(SilentUrl(url.value))];
      return Completed;
    }

    /** `LogOut(redirectUri)`: asks the page to call the logout URL (an empty
        domain throws first), then navigates to the given address, or starts
        a new login when an authenticated user is required, and clears the
        session. The three-second delay before clearing is not modelled. */
    method LogOut(redirectUri: NString) returns (o: Outcome)
      requires Valid()
      modifies this, browser, runtime, rng
      ensures Valid()
      ensures IsNullOrEmpty(clientOptions.domain) ==>
        o == Threw(Argument("auth0Domain")) && browser.effects == old(browser.effects)
        && sessionState == old(sessionState) && user == old(user) && sessionInfo == old(sessionInfo)
      ensures !IsNullOrEmpty(clientOptions.domain) ==>
        var logoutUrl := BuildLogoutUrl(clientOptions.domain, clientOptions.clientId, redirectUri).value;
        && |browser.effects| > |old(browser.effects)| && browser.effects[..|old(browser.effects)| + 1] == old(browser.effects) + [InteropLogOut(logoutUrl)]
        && (!IsNullOrEmpty(redirectUri) ==>
              o == Completed && browser.effects == old(browser.effects) + [InteropLogOut(logoutUrl)] + [Navigate(Page(redirectUri.value))])
        && (IsNullOrEmpty(redirectUri) && !clientOptions.requireAuthenticatedUser ==>
              o == Completed && browser.effects == old(browser.effects) + [InteropLogOut(logoutUrl)])
        && (IsNullOrEmpty(redirectUri) && clientOptions.requireAuthenticatedUser && o == Completed ==>
              |browser.effects| == |old(browser.effects)| + 2 && StartsLogin(browser.effects[|browser.effects| - 1]))
      ensures o == Completed ==> ClearedFrom(old(sessionState), old(stateChanges), old(logOutTimer))
      ensures o.Threw? ==>
        sessionState == old(sessionState) && stateChanges == old(stateChanges)
        && user == old(user) && sessionInfo == old(sessionInfo) && logOutTimer == old(logOutTimer)
    {
      var logoutUrl := BuildLogoutUrl(clientOptions.domain, clientOptions.clientId, redirectUri);
      if logoutUrl.Err? {
        return Threw(logoutUrl.error);
      }
      browser.effects := browser.effects + [InteropLogOut(logoutUrl.value)];
      o := Completed;
      if !IsNullOrEmpty(redirectUri) {
        browser.effects := browser.effects + [Navigate(Page(redirectUri.value))];
      } else if clientOptions.requireAuthenticatedUser {
        o := Authorize();
      }
      if o == Completed {
        ClearSession();
      }
    }

    /** The `Elapsed` handler of the log-out timer: stops the timer; with
        sliding expiration it renews the tokens by a silent login, otherwise
        it logs out and clears the session. */
    method OnLogOutTimerElapsed() returns (o: Outcome)
      requires Valid() && logOutTimer.Some?
      modifies this, browser, runtime, rng
      ensures Valid()
      ensures logOutTimer.Some? && !logOutTimer.value.enabled
      ensures clientOptions.slidingExpiration ==>
        && sessionState == old(sessionState) && stateChanges == old(stateChanges)
        && user == old(user) && sessionInfo == old(sessionInfo)
        && |browser.effects| > |old(browser.effects)| && browser.effects[|old(browser.effects)|] == BeforeSilentLogin
      ensures !clientOptions.slidingExpiration && o == Completed ==>
        ClearedFrom(old(sessionState), old(stateChanges), old(logOutTimer))
    {
      logOutTimer := Stopped(logOutTimer);
      if clientOptions.slidingExpiration {
        o := SilentLogin();
        return;
      }
      o := EndSession();
    }

    /** `LogOut()` followed by `ClearSession()`, as the timer and
        `ValidateSession` end a session: the second clearing finds the
        session already cleared and changes nothing. */
    method EndSession() returns (o: Outcome)
      requires Valid()
      modifies this, browser, runtime, rng
      ensures Valid()
      ensures IsNullOrEmpty(clientOptions.domain) ==>
        o == Threw(Argument("auth0Domain")) && browser.effects == old(browser.effects)
      ensures !IsNullOrEmpty(clientOptions.domain) && !clientOptions.requireAuthenticatedUser ==>
        o == Completed
        && browser.effects == old(browser.effects) + [InteropLogOut(BuildLogoutUrl(clientOptions.domain, clientOptions.clientId, None).value)]
      ensures o == Completed ==> ClearedFrom(old(sessionState), old(stateChanges), old(logOutTimer))
      ensures o.Threw? ==>
        sessionState == old(sessionState) && stateChanges == old(stateChanges)
        && user == old(user) && sessionInfo == old(sessionInfo) && logOutTimer == old(logOutTimer)
    {
      o := LogOut(None);
      if o.Threw? {
        return;
      }
      ClearSession();
    }

    /** `OnLoginRequestValidationError`: with a message, the session is
        cleared; a null error then fails on the null reference, and
        `login_required` (in any letter case) starts a new login when an
        authenticated user is required, followed by a navigation to "/". */
    method OnLoginRequestValidationError(error: NString, message: string) returns (o: Outcome)
      requires Valid()
      modifies this, browser, runtime, rng
      ensures Valid()
      ensures message == "" ==>
        o == Completed && browser.effects == old(browser.effects) && sessionState == old(sessionState)
        && user == old(user) && sessionInfo == old(sessionInfo)
      ensures message != "" ==> ClearedFrom(old(sessionState), old(stateChanges), old(logOutTimer))
      ensures message != "" && error.None? ==> o == Threw(NullReference)
      ensures message != "" && error.Some? && !(ToLower(error.value) == "login_required" && clientOptions.requireAuthenticatedUser) ==>
        o == Completed && browser.effects == old(browser.effects)
      ensures message != "" && error.Some? && ToLower(error.value) == "login_required" && clientOptions.requireAuthenticatedUser
              && o == Completed ==>
        |browser.effects| == |old(browser.effects)| + 2 && StartsLogin(browser.effects[|browser.effects| - 2])
        && browser.effects[|browser.effects| - 1] == Navigate(Page("/"))
      ensures o.Threw? ==> !o.error.Authentication?
    {
      if message == "" {
        return Completed;
      }
      ClearSession();
      if error.None? {
        return Threw(NullReference);
      }
      if ToLower(error.value) == "login_required" && clientOptions.requireAuthenticatedUser {
        o := Reauthorize();
        return;
      }
      return Completed;
    }

    /** The `login_required` branch of `OnLoginRequestValidationError`: a
        new login, then a navigation to "/". The thirty-second pause between
        the two is not modelled. */
    method Reauthorize() returns (o: Outcome)
      requires Valid()
      modifies browser, runtime, rng
      ensures o.Threw? ==> browser.effects == old(browser.effects) && !o.error.Authentication?
      ensures o == Completed ==>
        |browser.effects| == |old(browser.effects)| + 2 && browser.effects[..|old(browser.effects)|] == old(browser.effects)
        && StartsLogin(browser.effects[|browser.effects| - 2]) && browser.effects[|browser.effects| - 1] == Navigate(Page("/"))
    {
      o := Authorize();
      if o.Threw? {
        return;
      }
      browser.effects := browser.effects + [Navigate(Page("/"))];
    }

    /** The `try` block of `HandleAuthorizationResponseAsync`: reads (and
        removes) the transaction, checks the response, initiates the session
        and arms the log-out timer. How it ends is `AcceptOutcome`. */
    method AcceptResponse(resp: AuthorizationResponse) returns (o: Outcome)
      requires Valid()
      modifies this`sessionState, this`stateChanges, this`user, this`sessionInfo, this`transaction, this`logOutTimer, runtime
      ensures Valid()
      ensures o == AcceptOutcome(clientOptions, env, resp, old(runtime.localStorage))
      ensures var stored := Read(old(runtime.localStorage), ResponseKey(clientOptions, resp), env.transactionCodec);
        && (stored.Ok? ==> runtime.localStorage == old(runtime.localStorage) - {ResponseKey(clientOptions, resp), ExpiryKey(ResponseKey(clientOptions, resp))})
        && (stored.Err? ==> runtime.localStorage == old(runtime.localStorage))
        && (stored.Err? || Authenticate(clientOptions, env, resp, stored.value).Err? ==>
              && sessionState == old(sessionState) && stateChanges == old(stateChanges)
              && user == old(user) && sessionInfo == old(sessionInfo) && logOutTimer == old(logOutTimer))
        && (stored.Ok? && Authenticate(clientOptions, env, resp, stored.value).Ok? ==>
              var a := Authenticate(clientOptions, env, resp, stored.value).value;
              var kept := WithPermissions(clientOptions, a.0, a.1, env.parseJson);
              && (kept.Err? ==> sessionState == old(sessionState) && stateChanges == old(stateChanges)
                                && user == old(user) && sessionInfo == old(sessionInfo) && logOutTimer == old(logOutTimer))
              && (kept.Ok? ==>
                    && sessionState == Active && stateChanges == old(stateChanges) + ChangeEvents(old(sessionState), Active)
                    && user == kept.value && sessionInfo == Some(a.1)
                    && logOutTimer.Some? && (logOutTimer.value.enabled <==> LogOutInterval(a.1.expiresIn) > 0)))
    {
      var stored := TransactionManager.GetStoredTransaction(runtime, clientOptions, resp.state, env.transactionCodec);
      if stored.Err? {
        return Threw(stored.error);
      }
      transaction := Some(stored.value);
      var checked := Authenticate(clientOptions, env, resp, stored.value);
      if checked.Err? {
        return Threw(checked.error);
      }
      o := InitiateUserSession(checked.value.0, checked.value.1);
      if o.Threw? {
        return;
      }
      o := ScheduleLogOut();
    }

    /** `HandleAuthorizationResponseAsync`: only an `AuthenticationException`
        from the `try` block is handled (by `OnLoginRequestValidationError`);
        anything else escapes. On every exit the pending transaction is
        forgotten and the browser sent home. */
    method HandleAuthorizationResponse(resp: AuthorizationResponse) returns (o: Outcome)
      requires Valid()
      modifies this, browser, runtime, rng
      ensures Valid()
      ensures transaction.None? && browser.effects != [] && browser.effects[|browser.effects| - 1] == Navigate(Page(currentUri.LeftPartPath()))
      ensures var accepted := AcceptOutcome(clientOptions, env, resp, old(runtime.localStorage));
        && (accepted == Completed ==> o == Completed && sessionState == Active
                                      && browser.effects == old(browser.effects) + [Navigate(Page(currentUri.LeftPartPath()))])
        && (accepted.Threw? && !accepted.error.Authentication? ==> o == accepted)
        && (accepted.Threw? && accepted.error.Authentication? && accepted.error.message != "" ==>
              ClearedFrom(old(sessionState), old(stateChanges), old(logOutTimer)))
        && (o.Threw? && o.error.Authentication? ==> o == accepted)
      ensures sessionState == Active && old(sessionState) != Active ==>
        ResponseChecked(clientOptions, env, resp, old(runtime.localStorage))
    {
      o := AcceptResponse(resp);
      if o.Threw? && o.error.Authentication? {
        o := OnLoginRequestValidationError(resp.error, o.error.message);
      }
      RedirectToHome();
    }

    /** The branch of `ValidateSession` for an address without a response:
        the session is kept alive by a silent login when it slides or a user
        is required, and ended otherwise. */
    method KeepAliveOrEnd() returns (o: Outcome)
      requires Valid()
      modifies this, browser, runtime, rng
      ensures Valid()
      ensures clientOptions.slidingExpiration || clientOptions.requireAuthenticatedUser ==>
        && sessionState == old(sessionState) && stateChanges == old(stateChanges)
        && user == old(user) && sessionInfo == old(sessionInfo) && logOutTimer == old(logOutTimer)
        && |browser.effects| > |old(browser.effects)| && browser.effects[|old(browser.effects)|] == BeforeSilentLogin
      ensures !clientOptions.slidingExpiration && !clientOptions.requireAuthenticatedUser ==>
        && (IsNullOrEmpty(clientOptions.domain) ==>
              o == Threw(Argument("auth0Domain")) && browser.effects == old(browser.effects)
              && sessionState == old(sessionState) && stateChanges == old(stateChanges))
        && (!IsNullOrEmpty(clientOptions.domain) ==>
              && o == Completed && ClearedFrom(old(sessionState), old(stateChanges), old(logOutTimer))
              && browser.effects
                 == old(browser.effects) + [InteropLogOut(BuildLogoutUrl(clientOptions.domain, clientOptions.clientId, None).value)])
    {
      if clientOptions.slidingExpiration || clientOptions.requireAuthenticatedUser {
        o := SilentLogin();
      } else {
        o := EndSession();
      }
    }

    /** What `ValidateSession` does with the parsed hash: a response in the
        address is handled; without one the session is kept alive or
        ended. */
    method OnParsedHash(parsed: Option<ParsedHash>, absoluteUri: Uri) returns (o: Outcome)
      requires Valid()
      modifies this, browser, runtime, rng
      ensures Valid()
      ensures parsed.None? && (clientOptions.slidingExpiration || clientOptions.requireAuthenticatedUser) ==>
        && sessionState == old(sessionState) && user == old(user) && sessionInfo == old(sessionInfo)
        && |browser.effects| > |old(browser.effects)| && browser.effects[|old(browser.effects)|] == BeforeSilentLogin
      ensures parsed.None? && !clientOptions.slidingExpiration && !clientOptions.requireAuthenticatedUser
              && !IsNullOrEmpty(clientOptions.domain) ==>
        && o == Completed && ClearedFrom(old(sessionState), old(stateChanges), old(logOutTimer))
        && browser.effects == old(browser.effects) + [InteropLogOut(BuildLogoutUrl(clientOptions.domain, clientOptions.clientId, None).value)]
      ensures parsed.Some? ==>
        && transaction.None? && browser.effects != [] && browser.effects[|browser.effects| - 1] == Navigate(Page(currentUri.LeftPartPath()))
        && (sessionState == Active && old(sessionState) != Active ==>
              ResponseChecked(clientOptions, env, ResponseFromHash(parsed.value, absoluteUri), old(runtime.localStorage)))
    {
      if parsed.None? {
        o := KeepAliveOrEnd();
      } else {
        o := HandleAuthorizationResponse(ResponseFromHash(parsed.value, absoluteUri));
      }
    }

    /** `ValidateSession(path)`, with the path already made absolute: the
        address is parsed with the corrected `ParseHash`, and a parse failure
        escapes before anything changes. */
    method ValidateSession(absoluteUri: Uri) returns (o: Outcome)
      requires Valid()
      modifies this, browser, runtime, rng
      ensures Valid()
      ensures var parsed := ParseHash(Some(ParseHashOptions(Some(absoluteUri), clientOptions.responseType)), env.parseHash);
        && (parsed.Err? ==> o == Threw(parsed.error) && browser.effects == old(browser.effects) && sessionState == old(sessionState))
        && (parsed.Ok? && parsed.value.None? && (clientOptions.slidingExpiration || clientOptions.requireAuthenticatedUser) ==>
              && sessionState == old(sessionState) && user == old(user) && sessionInfo == old(sessionInfo)
              && |browser.effects| > |old(browser.effects)| && browser.effects[|old(browser.effects)|] == BeforeSilentLogin)
        && (parsed.Ok? && parsed.value.None? && !clientOptions.slidingExpiration && !clientOptions.requireAuthenticatedUser
            && !IsNullOrEmpty(clientOptions.domain) ==>
              && o == Completed && ClearedFrom(old(sessionState), old(stateChanges), old(logOutTimer))
              && browser.effects == old(browser.effects) + [InteropLogOut(BuildLogoutUrl(clientOptions.domain, clientOptions.clientId, None).value)])
        && (parsed.Ok? && parsed.value.Some? ==>
              && transaction.None? && browser.effects != [] && browser.effects[|browser.effects| - 1] == Navigate(Page(currentUri.LeftPartPath()))
              && (sessionState == Active && old(sessionState) != Active ==>
                    ResponseChecked(clientOptions, env, ResponseFromHash(parsed.value.value, absoluteUri), old(runtime.localStorage))))
    {
      var parsed := ParseHash(Some(ParseHashOptions(Some(absoluteUri), clientOptions.responseType)), env.parseHash);
      if parsed.Err? {
        return Threw(parsed.error);
      }
      o := OnParsedHash(parsed.value, absoluteUri);
    }

    /** `GetAuthenticationStateAsync`, with `order` the enumeration order of
        the profile's custom claims: the projected identity of an active
        session, carrying each custom claim, and an anonymous one otherwise. */
    function GetAuthenticationState(order: seq<string>): (r: Result<ClaimsIdentity>)
      reads this
      requires sessionState == Active && user.Some? ==> EnumeratesKeys(order, user.value.customClaims.Keys)
      ensures sessionState != Active ==> r == Ok(AnonymousIdentity)
      ensures sessionState == Active && r.Ok? ==>
        && user.Some? && r.value.name == user.value.name.GetOr("") && r.value.authenticationType == "JWT"
        && forall k :: k in user.value.customClaims ==>
             Claim(k, env.rawText(user.value.customClaims[k]), ValueKindName(user.value.customClaims[k])) in r.value.claims
    {
      if sessionState == Active && user.Some? then
        CustomClaimsOncePerKey(order, user.value.customClaims, env.rawText);
        AuthenticationState(sessionState, user, order, env.formatDate, env.rawText)
      else
        AuthenticationState(sessionState, user, order, env.formatDate, env.rawText)
    }
  }
}

=== FILE: client_session.dfy ===
/** The decisions of the client-side `AuthenticationService`
    (src/Blazor.Auth0.ClientSide/AuthenticationService.cs) that depend only on
    the configuration and the values at hand: the redirect target, the options
    of a new authorization, the ID token checks, where the session tokens and
    the profile come from, the permissions added from the access token, the
    log-out timer interval and the claims the session projects. The service
    itself, whose methods update its fields, is in ClientService. */
module ClientSession {
  import opened Wrappers
  import opened Text
  import opened Base64
  import opened Enumerations
  import opened JsonModel
  import opened Models
  import opened Utils
  import opened UserInfoModel
  import opened CommonAuthentication
  import opened ClientAuthentication
  import TransactionManager
  import AuthorizeOptionsValidation
  import ClientOptionsValidation

  // ---------------------------------------------------------------------------
  // Redirect target and authorization options
  // ---------------------------------------------------------------------------

  /** `BuildRedirectUrl`, with `current` the address the browser shows: the
      configured redirect URI when there is one, otherwise the site root when
      `RedirectAlwaysToHome`, otherwise the current address itself. */
  function BuildRedirectUrl(c: ClientOptions, current: Uri): (url: string)
    ensures !IsNullOrEmpty(c.redirectUri) ==> url == c.redirectUri.value
    ensures IsNullOrEmpty(c.redirectUri) && c.redirectAlwaysToHome ==> url == current.LeftPartAuthority()
    ensures IsNullOrEmpty(c.redirectUri) && !c.redirectAlwaysToHome ==> url == current.AbsoluteUri()
  {
    var uri :=
      if !IsNullOrEmpty(c.redirectUri) then c.redirectUri.value
      else if c.redirectAlwaysToHome then current.LeftPartAuthority()
      else current.AbsoluteUri();
    if !IsNullOrEmpty(c.redirectUri) && !c.redirectAlwaysToHome then c.redirectUri.value else uri
  }

  /** An address computed from the current URI is never blank: it holds the
      ':' after the scheme. */
  lemma RedirectUrlNotBlank(c: ClientOptions, current: Uri)
    requires IsNullOrEmpty(c.redirectUri) || !IsNullOrWhiteSpace(c.redirectUri)
    ensures !IsNullOrWhiteSpace(Some(BuildRedirectUrl(c, current)))
  {
    var url := BuildRedirectUrl(c, current);
    if IsNullOrEmpty(c.redirectUri) {
      var i := |current.scheme|;
      assert current.LeftPartAuthority()[i] == ':';
      assert url[i] == ':';
      assert !IsWhiteSpace(url[i]);
    }
  }

  /** The options `BuildAuthorizeOptions` assembles, given the redirect target
      and the three values it draws from the random number generator (the
      verifier is drawn, and used, only with PKCE). A client secret forces the
      authorization code flow with the query response mode and no PKCE;
      without one, the code flow uses PKCE with S256 (section 4.2 of
      RFC 7636) and the challenge is derived from the verifier. */
  function AuthorizeOptionsFor(c: ClientOptions, redirectUri: string, verifier: string, nonce: string, state: string,
                               sha256: seq<byte> -> Digest): (o: AuthorizeOptions)
    ensures !IsNullOrEmpty(c.clientSecret) ==>
      o.responseType == Code && o.responseMode == Query && o.codeChallengeMethod == NoMethod
    ensures IsNullOrEmpty(c.clientSecret) ==> o.responseType == c.responseType && o.responseMode == c.responseMode
    ensures o.codeChallengeMethod == S256 <==> IsNullOrEmpty(c.clientSecret) && c.responseType == Code
    ensures o.codeVerifier.Some? <==> o.codeChallengeMethod == S256
    ensures o.codeChallenge.Some? <==> o.codeChallengeMethod == S256
    ensures o.codeChallengeMethod == S256 ==>
      o.codeVerifier == Some(verifier)
      && Decode(RepairPadding(FromUrlSafe(o.codeChallenge.value))) == Some(sha256(Ascii(verifier)))
    ensures o.state == Some(state) && o.nonce == Some(nonce) && o.redirectUri == Some(redirectUri)
    ensures o.domain == c.domain && o.clientId == c.clientId && o.scope == c.scope && o.appState.None?
    ensures o.namespace == c.namespace && o.keyLength == c.keyLength
  {
    var isUsingSecret := !IsNullOrEmpty(c.clientSecret);
    var responseType := if isUsingSecret then Code else c.responseType;
    var responseMode := if isUsingSecret then Query else c.responseMode;
    var challengeMethod := if !isUsingSecret && responseType == Code then S256 else NoMethod;
    var codeVerifier := if challengeMethod != NoMethod then Some(verifier) else None;
    var codeChallenge := if challengeMethod != NoMethod then Some(GetSha256(verifier, sha256)) else None;
    AuthorizeOptions(
      domain := c.domain, clientId := c.clientId, redirectUri := Some(redirectUri),
      responseType := responseType, responseMode := responseMode, state := Some(state), nonce := Some(nonce),
      codeChallengeMethod := challengeMethod, codeChallenge := codeChallenge, codeVerifier := codeVerifier,
      scope := c.scope, audience := c.audience, connection := c.connection, realm := c.realm,
      appState := None, namespace := c.namespace, keyLength := c.keyLength)
  }

  /** Options built from a valid configuration pass `AuthorizeOptions`
      validation, provided the redirect target is not blank and the verifier
      is not empty. */
  lemma AuthorizeOptionsValid(c: ClientOptions, redirectUri: string, verifier: string, nonce: string, state: string,
                              sha256: seq<byte> -> Digest)
    requires TryValidateObject(ClientOptionsValidation.AsValidatable(c)).isValid
    requires !IsNullOrWhiteSpace(Some(redirectUri)) && (UsesPkce(c) ==> verifier != "")
    ensures TryValidateObject(AuthorizeOptionsValidation.AsValidatable(
              AuthorizeOptionsFor(c, redirectUri, verifier, nonce, state, sha256))).isValid
  {
    var o := AuthorizeOptionsFor(c, redirectUri, verifier, nonce, state, sha256);
    ClientOptionsValidation.ValidIff(c);
    assert o.codeChallengeMethod != NoMethod ==> !IsNullOrEmpty(o.codeChallenge) && !IsNullOrEmpty(o.codeVerifier) by {
      if o.codeChallengeMethod != NoMethod {
        assert |o.codeChallenge.value| == 43;
      }
    }
    AuthorizeOptionsValidation.ValidIff(o);
  }

  /** One `CommonAuthentication.GenerateNonce(KeyLength)` call: the `k`-th
      of a series of draws of `KeyLength` bytes each, the first at `start`. */
  method DrawNonce(keyLength: int, rng: RandomNumberGenerator, ghost start: nat, ghost k: nat) returns (r: Result<string>)
    requires keyLength >= 0 ==> rng.position == TransactionManager.Offset(start, keyLength, k)
    modifies rng
    ensures keyLength < 0 ==> r == Err(Overflow) && rng.position == old(rng.position)
    ensures keyLength >= 0 ==>
      && r == Ok(TransactionManager.Drawn(rng.stream, start, keyLength, k))
      && rng.position == TransactionManager.Offset(start, keyLength, k + 1)
  {
    r := NextNonce(keyLength, rng);
    if keyLength >= 0 {
      TransactionManager.DrawnAt(rng.stream, start, keyLength, k);
    }
  }

  /** The configuration asks for PKCE: no client secret and the
      authorization code flow. */
  predicate UsesPkce(c: ClientOptions) {
    IsNullOrEmpty(c.clientSecret) && c.responseType == Code
  }

  /** The nonce and then the state, drawn as the `k`-th and `k + 1`-th
      values. */
  method DrawNonceAndState(keyLength: int, rng: RandomNumberGenerator, ghost start: nat, k: nat)
    returns (r: Result<(string, string)>)
    requires keyLength >= 0 ==> rng.position == TransactionManager.Offset(start, keyLength, k)
    modifies rng
    ensures keyLength < 0 ==> r == Err(Overflow) && rng.position == old(rng.position)
    ensures keyLength >= 0 ==>
      && r == Ok((TransactionManager.Drawn(rng.stream, start, keyLength, k),
                  TransactionManager.Drawn(rng.stream, start, keyLength, k + 1)))
      && rng.position == TransactionManager.Offset(start, keyLength, k + 2)
  {
    var nonce := DrawNonce(keyLength, rng, start, k);
    if nonce.Err? {
      return Err(nonce.error);
    }
    var state := DrawNonce(keyLength, rng, start, k + 1);
    r := Ok((nonce.value, state.value));
  }

  /** The draws of `BuildAuthorizeOptions` with PKCE: the verifier, the
      nonce and the state, in that order. */
  method DrawWithVerifier(keyLength: int, rng: RandomNumberGenerator) returns (r: Result<(string, string, string)>)
    modifies rng
    ensures keyLength < 0 ==> r == Err(Overflow) && rng.position == old(rng.position)
    ensures keyLength >= 0 ==>
      && r == Ok((TransactionManager.Drawn(rng.stream, old(rng.position), keyLength, 0),
                  TransactionManager.Drawn(rng.stream, old(rng.position), keyLength, 1),
                  TransactionManager.Drawn(rng.stream, old(rng.position), keyLength, 2)))
      && rng.position == TransactionManager.Offset(old(rng.position), keyLength, 3)
  {
    ghost var start := rng.position;
    var verifier := DrawNonce(keyLength, rng, start, 0);
    if verifier.Err? {
      return Err(verifier.error);
    }
    var nonceAndState := DrawNonceAndState(keyLength, rng, start, 1);
    r := Ok((verifier.value, nonceAndState.value.0, nonceAndState.value.1));
  }

  /** The options `BuildAuthorizeOptions` returns for a key length that is
      not negative, its draws starting at `start` of the stream. */
  function BuiltOptions(c: ClientOptions, current: Uri, stream: nat -> byte, start: nat, sha256: seq<byte> -> Digest)
    : AuthorizeOptions
    requires c.keyLength >= 0
  {
    var k := if UsesPkce(c) then 1 else 0;
    AuthorizeOptionsFor(c, BuildRedirectUrl(c, current),
      if UsesPkce(c) then TransactionManager.Drawn(stream, start, c.keyLength, 0) else "",
      TransactionManager.Drawn(stream, start, c.keyLength, k), TransactionManager.Drawn(stream, start, c.keyLength, k + 1), sha256)
  }

  /** Where the stream stands after `BuildAuthorizeOptions`. */
  function AfterBuilt(c: ClientOptions, start: nat): nat
    requires c.keyLength >= 0
  {
    if UsesPkce(c) then TransactionManager.Offset(start, c.keyLength, 3) else TransactionManager.Offset(start, c.keyLength, 2)
  }

  /** The options built carry the values drawn: with PKCE the verifier
      first, then the nonce and the state; without it the nonce and the
      state. The redirect target is `BuildRedirectUrl`'s. */
  lemma BuiltOptionsDraws(c: ClientOptions, current: Uri, stream: nat -> byte, start: nat, sha256: seq<byte> -> Digest)
    requires c.keyLength >= 0
    ensures var o := BuiltOptions(c, current, stream, start, sha256);
      var k := if UsesPkce(c) then 1 else 0;
      && o.redirectUri == Some(BuildRedirectUrl(c, current))
      && o.nonce == Some(TransactionManager.Drawn(stream, start, c.keyLength, k))
      && o.state == Some(TransactionManager.Drawn(stream, start, c.keyLength, k + 1))
      && (o.codeChallengeMethod == S256 <==> UsesPkce(c))
      && (UsesPkce(c) ==> o.codeVerifier == Some(TransactionManager.Drawn(stream, start, c.keyLength, 0)))
      && o.appState.None? && o.namespace == c.namespace && o.keyLength == c.keyLength
  {
  }

  /** A valid configuration with a positive key length, whose redirect URI
      is unset or not blank, always yields options that pass validation. */
  lemma BuiltOptionsValid(c: ClientOptions, current: Uri, stream: nat -> byte, start: nat, sha256: seq<byte> -> Digest)
    requires TryValidateObject(ClientOptionsValidation.AsValidatable(c)).isValid
    requires c.keyLength > 0 && (IsNullOrEmpty(c.redirectUri) || !IsNullOrWhiteSpace(c.redirectUri))
    ensures TryValidateObject(AuthorizeOptionsValidation.AsValidatable(BuiltOptions(c, current, stream, start, sha256))).isValid
  {
    var redirectUri := BuildRedirectUrl(c, current);
    RedirectUrlNotBlank(c, current);
    if UsesPkce(c) {
      TransactionManager.DrawnNonEmpty(stream, start, c.keyLength, 0);
      AuthorizeOptionsValid(c, redirectUri, TransactionManager.Drawn(stream, start, c.keyLength, 0),
        TransactionManager.Drawn(stream, start, c.keyLength, 1), TransactionManager.Drawn(stream, start, c.keyLength, 2), sha256);
    } else {
      AuthorizeOptionsValid(c, redirectUri, "", TransactionManager.Drawn(stream, start, c.keyLength, 0),
        TransactionManager.Drawn(stream, start, c.keyLength, 1), sha256);
    }
  }

  /** `BuildAuthorizeOptions`: draws the PKCE verifier (only when PKCE is
      used), the nonce and the state, in that order, each `KeyLength` bytes
      long. A negative `KeyLength` fails the first draw. */
  method BuildAuthorizeOptions(c: ClientOptions, current: Uri, rng: RandomNumberGenerator, sha256: seq<byte> -> Digest)
    returns (r: Result<AuthorizeOptions>)
    modifies rng
    ensures c.keyLength < 0 ==> r == Err(Overflow) && rng.position == old(rng.position)
    ensures c.keyLength >= 0 ==>
      r == Ok(BuiltOptions(c, current, rng.stream, old(rng.position), sha256)) && rng.position == AfterBuilt(c, old(rng.position))
  {
    ghost var start := rng.position;
    var redirectUri := BuildRedirectUrl(c, current);
    var drawn: Result<(string, string, string)>;
    if UsesPkce(c) {
      drawn := DrawWithVerifier(c.keyLength, rng);
      assert c.keyLength >= 0 ==> rng.position == TransactionManager.Offset(start, c.keyLength, 3);
    } else {
      var nonceAndState := DrawNonceAndState(c.keyLength, rng, start, 0);
      drawn := if nonceAndState.Err? then Err(nonceAndState.error) else Ok(("", nonceAndState.value.0, nonceAndState.value.1));
      assert c.keyLength >= 0 ==> rng.position == TransactionManager.Offset(start, c.keyLength, 2);
    }
    if drawn.Err? {
      return Err(drawn.error);
    }
    ghost var k := if UsesPkce(c) then 1 else 0;
    assert drawn.value.0 == if UsesPkce(c) then TransactionManager.Drawn(rng.stream, start, c.keyLength, 0) else "";
    assert drawn.value.1 == TransactionManager.Drawn(rng.stream, start, c.keyLength, k);
    assert drawn.value.2 == TransactionManager.Drawn(rng.stream, start, c.keyLength, k + 1);
    r := Ok(AuthorizeOptionsFor(c, redirectUri, drawn.value.0, drawn.value.1, drawn.value.2, sha256));
  }

  // ---------------------------------------------------------------------------
  // ID token checks
  // ---------------------------------------------------------------------------

  /** The resource keys of the `AuthenticationException` messages. */
  const InvalidNonceError := "InvalidNonceError"
  const InvalidAccessTokenHashError := "InvalidAccessTokenHashError"

  /** A nonce as compared: ' ' read as '+', undoing a form decoding of '+'. */
  function NonceForm(nonce: string): string {
    ReplaceChar(nonce, ' ', '+')
  }

  /** The ID token's nonce and the stored one are both present and agree. */
  predicate NoncesMatch(idTokenInfo: UserInfo, transaction: Option<SessionAuthorizationTransaction>) {
    && idTokenInfo.nonce.Some? && transaction.Some? && transaction.value.nonce.Some?
    && NonceForm(idTokenInfo.nonce.value) == NonceForm(transaction.value.nonce.value)
  }

  /** The nonce part of `ValidateIdToken`: skipped without a profile; a
      profile or stored transaction without a nonce fails on the null
      reference, a different nonce (or no transaction) is rejected. */
  function CheckNonce(idTokenInfo: Option<UserInfo>, transaction: Option<SessionAuthorizationTransaction>): (r: Outcome)
    ensures r == Completed <==> idTokenInfo.None? || NoncesMatch(idTokenInfo.value, transaction)
    ensures r.Threw? ==> r.error == NullReference || r.error == Authentication(InvalidNonceError)
  {
    if idTokenInfo.None? then Completed
    else if idTokenInfo.value.nonce.None? then Threw(NullReference)
    else if transaction.Some? && transaction.value.nonce.None? then Threw(NullReference)
    else if transaction.None? || NonceForm(idTokenInfo.value.nonce.value) != NonceForm(transaction.value.nonce.value)
    then Threw(Authentication(InvalidNonceError))
    else Completed
  }

  /** `ValidateIdToken` (section 3.2.2.9 of OpenID Connect Core 1.0 for the
      `at_hash`): only for response types that return an ID token. The nonce
      must match the stored one; a missing `at_hash` only logs a warning, a
      present one must be the hash of the access token. */
  function ValidateIdToken(c: ClientOptions, idTokenInfo: Option<UserInfo>,
                           transaction: Option<SessionAuthorizationTransaction>, accessToken: NString,
                           sha256: seq<byte> -> Digest): (r: Outcome)
    ensures !IncludesIdToken(c.responseType) || idTokenInfo.None? ==> r == Completed
    ensures IncludesIdToken(c.responseType) && idTokenInfo.Some? ==>
      var u := idTokenInfo.value;
      && (r == Completed <==>
            NoncesMatch(u, transaction)
            && (!IsNullOrEmpty(u.atHash) ==> accessToken.Some? && u.atHash.value == AccessTokenHash(accessToken.value, sha256)))
      && (u.nonce.Some? && transaction.Some? && transaction.value.nonce.Some? && !NoncesMatch(u, transaction) ==>
            r == Threw(Authentication(InvalidNonceError)))
      && (NoncesMatch(u, transaction) && IsNullOrEmpty(u.atHash) ==> r == Completed)
      && (NoncesMatch(u, transaction) && !IsNullOrEmpty(u.atHash) && accessToken.Some?
          && u.atHash.value != AccessTokenHash(accessToken.value, sha256) ==>
            r == Threw(Authentication(InvalidAccessTokenHashError)))
  {
    if !IncludesIdToken(c.responseType) then Completed
    else
      match CheckNonce(idTokenInfo, transaction)
      case Threw(e) => Threw(e)
      case Completed =>
        if idTokenInfo.None? || IsNullOrEmpty(idTokenInfo.value.atHash) then Completed
        else
          match ValidateAccessTokenHash(idTokenInfo.value.atHash, accessToken, sha256)
          case Err(e) => Threw(e)
          case Ok(atHashIsValid) =>
            if !atHashIsValid then Threw(Authentication(InvalidAccessTokenHashError)) else Completed
  }

  // ---------------------------------------------------------------------------
  // Session tokens, profile and permissions
  // ---------------------------------------------------------------------------

  /** The token request `GetAccessToken` posts to `/oauth/token`. */
  datatype TokenRequest = TokenRequest(
    domain: NString,
    clientId: NString,
    code: string,
    audience: NString,
    codeVerifier: NString,
    secret: NString,
    redirectUri: NString)

  /** `GetSessionInfoAsync(authorizationResponse)`. The code flow exchanges the
      code for tokens (`requestToken`, the HTTP round trip, is `None` for a
      reply other than 200), after the argument checks of `GetAccessToken`;
      the implicit flows take the tokens of the response itself. */
  function SessionInfoFor(c: ClientOptions, resp: AuthorizationResponse, transaction: Option<SessionAuthorizationTransaction>,
                          requestToken: TokenRequest -> Result<Option<SessionInfo>>): (r: Result<Option<SessionInfo>>)
    ensures c.responseType != Code ==>
      r.Ok? && r.value.Some?
      && r.value.value.accessToken == resp.session.accessToken && r.value.value.idToken == resp.session.idToken
      && r.value.value.expiresIn == resp.session.expiresIn && r.value.value.refreshToken.None?
    ensures c.responseType == Code && IsNullOrEmpty(resp.code) ==> r == Err(Argument("code"))
    ensures c.responseType == Code && r.Ok? ==>
      var verifier := if transaction.Some? then transaction.value.codeVerifier else None;
      !IsNullOrEmpty(resp.code) && !IsNullOrEmpty(c.domain) && !IsNullOrEmpty(c.clientId)
      && IsNullOrEmpty(verifier) != IsNullOrEmpty(c.clientSecret)
  {
    if c.responseType == Code then
      if IsNullOrEmpty(resp.code) then Err(Argument("code"))
      else
        var verifier := if transaction.Some? then transaction.value.codeVerifier else None;
        var redirectUri := if transaction.Some? then transaction.value.redirectUri else None;
        match GetAccessTokenArguments(true, c.domain, c.clientId, verifier, c.clientSecret)
        case Threw(e) => Err(e)
        case Completed =>
          requestToken(TokenRequest(c.domain, c.clientId, resp.code.value, c.audience, verifier, c.clientSecret, redirectUri))
    else
      var s := resp.session;
      Ok(Some(SessionInfo(s.accessToken, s.expiresIn, s.idToken, None, s.scope, s.tokenType, map[])))
  }

  /** Whether `GetUserAsync` reads the profile from the ID token rather than
      from the `/userinfo` endpoint. */
  predicate ProfileFromIdToken(c: ClientOptions, idToken: NString) {
    !IsNullOrEmpty(idToken) && (IncludesIdToken(c.responseType) || c.getUserInfoFromIdToken)
  }

  /** `GetUserAsync`: the ID token's payload when there is one and the flow
      asks for it, otherwise the `/userinfo` reply (`requestUserInfo`, the
      HTTP round trip). A profile read from the token starts without
      permissions. */
  function GetUser(c: ClientOptions, accessToken: NString, idToken: NString, parseJson: seq<byte> -> Option<Json>,
                   parseDate: string -> Option<DateTime>, requestUserInfo: NString -> Result<Option<UserInfo>>)
    : (r: Result<Option<UserInfo>>)
    ensures !ProfileFromIdToken(c, idToken) ==> r == requestUserInfo(accessToken)
    ensures ProfileFromIdToken(c, idToken) && DecodeTokenPayload(idToken, parseJson).Err? ==>
      r == Err(DecodeTokenPayload(idToken, parseJson).error)
    ensures ProfileFromIdToken(c, idToken) && r.Ok? && r.value.Some? ==> r.value.value.permissions == []
  {
    if ProfileFromIdToken(c, idToken) then
      match DecodeTokenPayload(idToken, parseJson)
      case Err(e) => Err(e)
      case Ok(j) => BindUserInfo(j, parseDate)
    else requestUserInfo(accessToken)
  }

  /** The `permissions` of an access token's payload, empty when absent; a
      payload that is JSON `null` fails on the null reference. */
  function GrantedPermissions(accessToken: string, parseJson: seq<byte> -> Option<Json>): (r: Result<seq<NString>>)
    ensures DecodeTokenPayload(Some(accessToken), parseJson).Err? ==> r.Err?
    ensures r.Ok? ==>
      var j := DecodeTokenPayload(Some(accessToken), parseJson);
      && j.Ok? && j.value.JObject?
      && BindStringList(Member(j.value.members, "permissions")).Ok?
      && r.value == BindStringList(Member(j.value.members, "permissions")).value.GetOr([])
  {
    match DecodeTokenPayload(Some(accessToken), parseJson)
    case Err(e) => Err(e)
    case Ok(j) =>
      match BindAccessTokenPayload(j)
      case Err(e) => Err(e)
      case Ok(None) => Err(NullReference)
      case Ok(Some(payload)) => Ok(payload.permissions.GetOr([]))
  }

  /** Whether `InitiateUserSession` adds the access token's permissions. */
  predicate AddsPermissions(c: ClientOptions, session: SessionInfo) {
    !IsNullOrEmpty(c.audience) && !IsNullOrEmpty(session.accessToken)
  }

  /** The profile `InitiateUserSession` keeps: with an audience and an access
      token, the token's permissions appended to the profile's own (a missing
      profile then fails on the null reference); otherwise the profile as it
      is. Nothing but the permissions changes. */
  function WithPermissions(c: ClientOptions, userInfo: Option<UserInfo>, session: SessionInfo,
                           parseJson: seq<byte> -> Option<Json>): (r: Result<Option<UserInfo>>)
    ensures !AddsPermissions(c, session) ==> r == Ok(userInfo)
    ensures AddsPermissions(c, session) && r.Ok? ==>
      var granted := GrantedPermissions(session.accessToken.value, parseJson);
      && granted.Ok? && userInfo.Some? && r.value.Some?
      && r.value.value.permissions == userInfo.value.permissions + granted.value
      && r.value.value.(permissions := userInfo.value.permissions) == userInfo.value
    ensures AddsPermissions(c, session) && userInfo.None? ==> r.Err?
  {
    if AddsPermissions(c, session) then
      match GrantedPermissions(session.accessToken.value, parseJson)
      case Err(e) => Err(e)
      case Ok(permissionsList) =>
        if userInfo.None? then Err(NullReference)
        else Ok(Some(userInfo.value.(permissions := userInfo.value.permissions + permissionsList)))
    else Ok(userInfo)
  }

  // ---------------------------------------------------------------------------
  // The log-out timer
  // ---------------------------------------------------------------------------

  /** The interval `ScheduleLogOut` gives the timer: five seconds before the
      tokens expire, in milliseconds, computed in unchecked 32-bit `int`
      arithmetic. */
  function LogOutInterval(expiresIn: Int32): Int32 {
    Wrap32((expiresIn - 5) * 1000)
  }

  /** For any lifetime above five seconds and up to 2147488 seconds the
      interval is the exact, positive, millisecond count; for lifetimes of
      five seconds or less (down to -2147478) it is not positive, which the
      timer rejects. */
  lemma LogOutIntervalRange(expiresIn: Int32)
    ensures 5 < expiresIn <= 2147488 ==> LogOutInterval(expiresIn) == (expiresIn - 5) * 1000 > 0
    ensures -2147478 <= expiresIn <= 5 ==> LogOutInterval(expiresIn) <= 0
  {
  }

  // ---------------------------------------------------------------------------
  // Claims
  // ---------------------------------------------------------------------------

  /** A `System.Security.Claims.Claim`. */
  datatype Claim = Claim(claimType: string, value: string, valueType: string)

  /** `ClaimValueTypes.String`, the value type of a claim built without one. */
  const StringValueType := "http://www.w3.org/2001/XMLSchema#string"

  /** `ClaimTypes.Name`. */
  const NameClaimType := "http://schemas.xmlsoap.org/ws/2005/05/identity/claims/name"

  /** The identity of an `AuthenticationState`: a `GenericIdentity` with its
      name, authentication type and the claims added to it. A
      `GenericIdentity` makes its own `ClaimTypes.Name` claim from its name;
      `name` stands for that claim, and `claims` lists only those added
      after it. */
  datatype ClaimsIdentity = ClaimsIdentity(name: string, authenticationType: string, claims: seq<Claim>)

  /** The identity of a session that is not active: `GenericIdentity` with
      an empty name (its own name claim, empty, is the `name` field). */
  const AnonymousIdentity := ClaimsIdentity("", "JWT", [])

  /** A profile field `GetAuthenticationStateAsync` turns into a claim. */
  datatype ProjectedField = TextField(property: StringClaim) | EmailVerifiedField | PhoneNumberVerifiedField | UpdatedAtField

  /** The projected fields, in the order their claims are added. `nonce` and
      `at_hash` are not among them. */
  const ProjectedFields: seq<ProjectedField> := [
    TextField(Sub), TextField(Name), TextField(GivenName), TextField(FamilyName), TextField(MiddleName),
    TextField(Nickname), TextField(PreferredUsername), TextField(Profile), TextField(Picture),
    TextField(Website), TextField(Email), EmailVerifiedField, TextField(Gender), TextField(Birthdate),
    TextField(Zoneinfo), TextField(Locale), TextField(PhoneNumber), PhoneNumberVerifiedField,
    TextField(Address), UpdatedAtField]

  /** The claim type of a field: its OpenID Connect claim name, except that
      the name goes under `ClaimTypes.Name`. */
  function ClaimTypeOf(f: ProjectedField): string {
    match f
    case TextField(p) => if p == Name then NameClaimType else p.Name()
    case EmailVerifiedField => "email_verified"
    case PhoneNumberVerifiedField => "phone_number_verified"
    case UpdatedAtField => "updated_at"
  }

  /** `bool.ToString()`. */
  function BoolString(b: bool): string {
    if b then "True" else "False"
  }

  /** Whether a field yields a claim: a string only when it is not null,
      empty or white space; the flags and the update time always. */
  predicate Emits(f: ProjectedField, u: UserInfo) {
    f.TextField? ==> !IsNullOrWhiteSpace(StringProperty(u, f.property))
  }

  /** The claim a field yields; `formatDate` is `DateTime.ToString()`. */
  function FieldClaim(f: ProjectedField, u: UserInfo, formatDate: DateTime -> string): Claim {
    match f
    case TextField(p) => Claim(ClaimTypeOf(f), StringProperty(u, p).GetOr(""), StringValueType)
    case EmailVerifiedField => Claim(ClaimTypeOf(f), BoolString(u.emailVerified), StringValueType)
    case PhoneNumberVerifiedField => Claim(ClaimTypeOf(f), BoolString(u.phoneNumberVerified), StringValueType)
    case UpdatedAtField => Claim(ClaimTypeOf(f), formatDate(u.updatedAt), StringValueType)
  }

  /** The claims of the fields that yield one, in order. */
  function FieldClaims(fields: seq<ProjectedField>, u: UserInfo, formatDate: DateTime -> string): (claims: seq<Claim>)
    ensures |claims| <= |fields|
    ensures forall f :: f in fields && Emits(f, u) ==> FieldClaim(f, u, formatDate) in claims
    ensures forall cl :: cl in claims ==> exists f :: f in fields && Emits(f, u) && cl == FieldClaim(f, u, formatDate)
    decreases |fields|
  {
    if fields == [] then []
    else
      var rest := FieldClaims(fields[1..], u, formatDate);
      assert forall f :: f in fields[1..] ==> f in fields;
      assert forall f :: f in fields ==> f == fields[0] || f in fields[1..];
      (if Emits(fields[0], u) then [FieldClaim(fields[0], u, formatDate)] else []) + rest
  }

  /** `order` enumerates `keys` as enumerating a dictionary does: every key
      exactly once. */
  predicate EnumeratesKeys(order: seq<string>, keys: set<string>) {
    && (forall k :: k in order ==> k in keys)
    && (forall k :: k in keys ==> k in order)
    && (forall i, j :: 0 <= i < j < |order| ==> order[i] != order[j])
  }

  /** An enumeration is as long as the set it enumerates. */
  lemma {:induction false} EnumerationLength(order: seq<string>, keys: set<string>)
    requires EnumeratesKeys(order, keys)
    ensures |order| == |keys|
    decreases |order|
  {
    if order == [] {
      assert keys == {};
    } else {
      var k := order[0];
      forall x | x in order[1..]
        ensures x in keys - {k}
      {
        var j :| 0 <= j < |order[1..]| && order[1..][j] == x;
        assert order[j + 1] == x;
      }
      forall x | x in keys - {k}
        ensures x in order[1..]
      {
        var i :| 0 <= i < |order| && order[i] == x;
        assert i != 0;
        assert order[1..][i - 1] == x;
      }
      assert EnumeratesKeys(order[1..], keys - {k});
      EnumerationLength(order[1..], keys - {k});
    }
  }

  /** The custom claims, in the dictionary's enumeration order `order` (a
      list of its keys): each key with the raw JSON text of its value
      (`rawText`, `JsonElement.GetRawText`) and its value kind as value type. */
  function CustomClaims(order: seq<string>, custom: map<string, Json>, rawText: Json -> string): (claims: seq<Claim>)
    requires forall k :: k in order ==> k in custom
    ensures |claims| == |order|
    ensures forall i :: 0 <= i < |order| ==>
      claims[i] == Claim(order[i], rawText(custom[order[i]]), ValueKindName(custom[order[i]]))
    decreases |order|
  {
    if order == [] then []
    else
      var k := order[0];
      [Claim(k, rawText(custom[k]), ValueKindName(custom[k]))] + CustomClaims(order[1..], custom, rawText)
  }

  /** Enumerating the whole dictionary adds every custom claim exactly once:
      as many claims as keys, each key's claim present, no claim type twice,
      and nothing that is not a custom claim. */
  lemma CustomClaimsOncePerKey(order: seq<string>, custom: map<string, Json>, rawText: Json -> string)
    requires EnumeratesKeys(order, custom.Keys)
    ensures var claims := CustomClaims(order, custom, rawText);
      && |claims| == |custom|
      && (forall k :: k in custom ==> Claim(k, rawText(custom[k]), ValueKindName(custom[k])) in claims)
      && (forall i, j :: 0 <= i < j < |claims| ==> claims[i].claimType != claims[j].claimType)
      && (forall cl :: cl in claims ==>
            cl.claimType in custom && cl == Claim(cl.claimType, rawText(custom[cl.claimType]), ValueKindName(custom[cl.claimType])))
  {
    var claims := CustomClaims(order, custom, rawText);
    EnumerationLength(order, custom.Keys);
    forall k | k in custom
      ensures Claim(k, rawText(custom[k]), ValueKindName(custom[k])) in claims
    {
      var i :| 0 <= i < |order| && order[i] == k;
      assert claims[i] == Claim(k, rawText(custom[k]), ValueKindName(custom[k]));
    }
  }

  /** One "permissions" claim per permission, in order; a null permission
      makes the `Claim` constructor throw. */
  function PermissionClaims(permissions: seq<NString>): (r: Result<seq<Claim>>)
    ensures r.Ok? <==> forall i :: 0 <= i < |permissions| ==> permissions[i].Some?
    ensures r.Err? ==> r.error == ArgumentNull("value")
    ensures r.Ok? ==>
      && |r.value| == |permissions|
      && forall i :: 0 <= i < |permissions| ==> r.value[i] == Claim("permissions", permissions[i].value, "permissions")
    decreases |permissions|
  {
    if permissions == [] then Ok([])
    else if permissions[0].None? then Err(ArgumentNull("value"))
    else
      match PermissionClaims(permissions[1..])
      case Err(e) => Err(e)
      case Ok(rest) => Ok([Claim("permissions", permissions[0].value, "permissions")] + rest)
  }

  /** `GetAuthenticationStateAsync`: an active session projects its profile
      (the name, the field claims, the custom claims in the enumeration
      order `order`, then the
      permissions); any other state yields an identity with an empty name and
      no claims. An active session without a profile fails on the null
      reference. */
  function AuthenticationState(state: SessionStates, user: Option<UserInfo>, order: seq<string>,
                               formatDate: DateTime -> string, rawText: Json -> string): (r: Result<ClaimsIdentity>)
    requires state == Active && user.Some? ==> EnumeratesKeys(order, user.value.customClaims.Keys)
    ensures state != Active ==> r == Ok(AnonymousIdentity)
    ensures state == Active ==>
      (r.Ok? <==> user.Some? && forall i :: 0 <= i < |user.value.permissions| ==> user.value.permissions[i].Some?)
    ensures state == Active && r.Ok? ==>
      && user.Some? && PermissionClaims(user.value.permissions).Ok?
      && r.value.name == user.value.name.GetOr("") && r.value.authenticationType == "JWT"
      && r.value.claims == FieldClaims(ProjectedFields, user.value, formatDate)
                           + CustomClaims(order, user.value.customClaims, rawText)
                           + PermissionClaims(user.value.permissions).value
  {
    if state != Active then Ok(AnonymousIdentity)
    else if user.None? then Err(NullReference)
    else
      var u := user.value;
      match PermissionClaims(u.permissions)
      case Err(e) => Err(e)
      case Ok(permissionClaims) =>
        Ok(ClaimsIdentity(u.name.GetOr(""), "JWT",
          FieldClaims(ProjectedFields, u, formatDate) + CustomClaims(order, u.customClaims, rawText) + permissionClaims))
  }

  /** Every string property except the ID token's `nonce` and `at_hash` is
      among the projected fields. */
  lemma ProjectedTextField(p: StringClaim)
    requires p != Nonce && p != AtHash
    ensures TextField(p) in ProjectedFields
  {
    match p
    case Sub => assert ProjectedFields[0] == TextField(p);
    case Name => assert ProjectedFields[1] == TextField(p);
    case GivenName => assert ProjectedFields[2] == TextField(p);
    case FamilyName => assert ProjectedFields[3] == TextField(p);
    case MiddleName => assert ProjectedFields[4] == TextField(p);
    case Nickname => assert ProjectedFields[5] == TextField(p);
    case PreferredUsername => assert ProjectedFields[6] == TextField(p);
    case Profile => assert ProjectedFields[7] == TextField(p);
    case Picture => assert ProjectedFields[8] == TextField(p);
    case Website => assert ProjectedFields[9] == TextField(p);
    case Email => assert ProjectedFields[10] == TextField(p);
    case Gender => assert ProjectedFields[12] == TextField(p);
    case Birthdate => assert ProjectedFields[13] == TextField(p);
    case Zoneinfo => assert ProjectedFields[14] == TextField(p);
    case Locale => assert ProjectedFields[15] == TextField(p);
    case PhoneNumber => assert ProjectedFields[16] == TextField(p);
    case Address => assert ProjectedFields[18] == TextField(p);
  }

  /** A field that yields a claim contributes it to the projection. */
  lemma FieldEmitted(fields: seq<ProjectedField>, u: UserInfo, formatDate: DateTime -> string, f: ProjectedField)
    requires f in fields && Emits(f, u)
    ensures FieldClaim(f, u, formatDate) in FieldClaims(fields, u, formatDate)
  {
  }

  /** A standard string property that is not blank appears as a claim of
      its own name (the name under `ClaimTypes.Name`) with its text, in any
      projection that lists it. */
  lemma TextClaimIn(fields: seq<ProjectedField>, u: UserInfo, formatDate: DateTime -> string, p: StringClaim)
    requires TextField(p) in fields && !IsNullOrWhiteSpace(StringProperty(u, p))
    ensures Claim(if p == Name then NameClaimType else p.Name(), StringProperty(u, p).value, StringValueType)
            in FieldClaims(fields, u, formatDate)
  {
    FieldEmitted(fields, u, formatDate, TextField(p));
  }

  /** A standard string property that is not blank appears as a claim of
      its own name (the name under `ClaimTypes.Name`) with its text. */
  lemma TextClaimPresent(u: UserInfo, formatDate: DateTime -> string, p: StringClaim)
    requires p != Nonce && p != AtHash && !IsNullOrWhiteSpace(StringProperty(u, p))
    ensures Claim(if p == Name then NameClaimType else p.Name(), StringProperty(u, p).value, StringValueType)
            in FieldClaims(ProjectedFields, u, formatDate)
  {
    ProjectedTextField(p);
    TextClaimIn(ProjectedFields, u, formatDate, p);
  }

  /** The two verification flags and the update time are among the
      projected fields; the ID token's `nonce` and `at_hash` are not. */
  lemma ProjectedFieldsMembers()
    ensures EmailVerifiedField in ProjectedFields && PhoneNumberVerifiedField in ProjectedFields
    ensures UpdatedAtField in ProjectedFields
    ensures TextField(Nonce) !in ProjectedFields && TextField(AtHash) !in ProjectedFields
  {
    assert ProjectedFields[11] == EmailVerifiedField;
    assert ProjectedFields[17] == PhoneNumberVerifiedField;
    assert ProjectedFields[19] == UpdatedAtField;
  }

  /** Fields that always yield a claim contribute it to any projection that
      lists them. */
  lemma FlagClaimsIn(fields: seq<ProjectedField>, u: UserInfo, formatDate: DateTime -> string)
    requires EmailVerifiedField in fields && PhoneNumberVerifiedField in fields && UpdatedAtField in fields
    ensures Claim("email_verified", BoolString(u.emailVerified), StringValueType) in FieldClaims(fields, u, formatDate)
    ensures Claim("phone_number_verified", BoolString(u.phoneNumberVerified), StringValueType)
            in FieldClaims(fields, u, formatDate)
    ensures Claim("updated_at", formatDate(u.updatedAt), StringValueType) in FieldClaims(fields, u, formatDate)
  {
    FieldEmitted(fields, u, formatDate, EmailVerifiedField);
    FieldEmitted(fields, u, formatDate, PhoneNumberVerifiedField);
    FieldEmitted(fields, u, formatDate, UpdatedAtField);
  }

  /** The two verification flags and the update time are always projected,
      as "True"/"False" and as formatted by `DateTime.ToString()`. */
  lemma FlagClaimsPresent(u: UserInfo, formatDate: DateTime -> string)
    ensures Claim("email_verified", BoolString(u.emailVerified), StringValueType) in FieldClaims(ProjectedFields, u, formatDate)
    ensures Claim("phone_number_verified", BoolString(u.phoneNumberVerified), StringValueType)
            in FieldClaims(ProjectedFields, u, formatDate)
    ensures Claim("updated_at", formatDate(u.updatedAt), StringValueType) in FieldClaims(ProjectedFields, u, formatDate)
  {
    ProjectedFieldsMembers();
    FlagClaimsIn(ProjectedFields, u, formatDate);
  }

  /** The claim type of a standard property other than `nonce` and
      `at_hash` is neither of those two names. */
  lemma TextClaimType(p: StringClaim)
    requires p != Nonce && p != AtHash
    ensures ClaimTypeOf(TextField(p)) != "nonce" && ClaimTypeOf(TextField(p)) != "at_hash"
  {
  }

  /** A projection that lists neither `nonce` nor `at_hash` yields no claim
      of either type, and every claim it yields is a string claim. */
  lemma NoIdTokenCheckClaimsIn(fields: seq<ProjectedField>, u: UserInfo, formatDate: DateTime -> string, cl: Claim)
    requires TextField(Nonce) !in fields && TextField(AtHash) !in fields
    requires cl in FieldClaims(fields, u, formatDate)
    ensures cl.claimType != "nonce" && cl.claimType != "at_hash"
    ensures cl.valueType == StringValueType
  {
    var f :| f in fields && Emits(f, u) && cl == FieldClaim(f, u, formatDate);
    if f.TextField? {
      TextClaimType(f.property);
    }
  }

  /** The ID token's `nonce` and `at_hash` never become claims of the
      projection, and every field claim is a string claim. */
  lemma NoIdTokenCheckClaims(u: UserInfo, formatDate: DateTime -> string, cl: Claim)
    requires cl in FieldClaims(ProjectedFields, u, formatDate)
    ensures cl.claimType != "nonce" && cl.claimType != "at_hash"
    ensures cl.valueType == StringValueType
  {
    ProjectedFieldsMembers();
    NoIdTokenCheckClaimsIn(ProjectedFields, u, formatDate, cl);
  }
}

=== FILE: common_authentication.dfy ===
/** Helpers shared by the client-side and server-side services
    (src/Blazor.Auth0.Shared/CommonAuthentication.cs): the logout URL, JWT
    payload decoding, nonce generation and the enum-to-wire-string maps. */
module CommonAuthentication {
  import opened Wrappers
  import opened Text
  import opened Base64
  import opened Enumerations
  import opened JsonModel
  import opened Models

  /** `BuildLogoutUrl`: `https://{domain}/v2/logout` with `client_id` and
      `returnTo` added when non-empty, in that order. */
  function BuildLogoutUrl(domain: NString, clientId: NString, redirectUri: NString): (r: Result<RequestUrl>)
    ensures IsNullOrEmpty(domain) <==> r.Err?
    ensures r.Err? ==> r.error.Argument?
    ensures r.Ok? ==>
      && r.value.scheme == "https" && r.value.host == domain.value && r.value.port == -1
      && r.value.path == "/v2/logout"
      && r.value.Names() == (if IsNullOrEmpty(clientId) then [] else ["client_id"])
                            + (if IsNullOrEmpty(redirectUri) then [] else ["returnTo"])
      && (!IsNullOrEmpty(clientId) ==> r.value.query[0] == QueryParam("client_id", clientId.value))
      && (!IsNullOrEmpty(redirectUri) ==> r.value.query[|r.value.query| - 1] == QueryParam("returnTo", redirectUri.value))
  {
    if IsNullOrEmpty(domain) then Err(Argument("auth0Domain"))
    else
      var query :=
        (if IsNullOrEmpty(clientId) then [] else [QueryParam("client_id", clientId.value)])
        + (if IsNullOrEmpty(redirectUri) then [] else [QueryParam("returnTo", redirectUri.value)]);
      Ok(RequestUrl("https", domain.value, -1, "/v2/logout", query))
  }

  /** The text `DecodeTokenPayload` hands to `Convert.FromBase64String`: the
      segment at index 1 of a split on '.', with the URL-safe characters
      restored and the padding repaired. */
  function PayloadSegment(token: string): (r: Option<string>)
    ensures r.Some? ==> |Split(token, '.')| >= 2 && r.value == RepairPadding(FromUrlSafe(Split(token, '.')[1]))
    ensures r.None? <==> |Split(token, '.')| < 2
  {
    var parts := Split(token, '.');
    if |parts| < 2 then None else Some(RepairPadding(FromUrlSafe(parts[1])))
  }

  /** `DecodeTokenPayload<T>` up to the typed binding: the payload JSON of a
      JWT. `parseJson` (UTF-8 decoding followed by JSON parsing, a parameter)
      is `None` where deserialisation throws. */
  function DecodeTokenPayload(token: NString, parseJson: seq<byte> -> Option<Json>): (r: Result<Json>)
    ensures IsNullOrEmpty(token) ==> r == Err(Argument("token"))
    ensures !IsNullOrEmpty(token) && '.' !in token.value ==> r == Err(IndexOutOfRange)
  {
    if IsNullOrEmpty(token) then Err(Argument("token"))
    else
      if '.' !in token.value then
        SplitNoSeparator(token.value, '.');
        Err(IndexOutOfRange)
      else
        match PayloadSegment(token.value)
        case None => Err(IndexOutOfRange)
        case Some(segment) =>
          match Decode(segment)
          case None => Err(Format)
          case Some(bytes) =>
            match parseJson(bytes)
            case None => Err(Exn.Json)
            case Some(j) => Ok(j)
  }

  /** The segment at index 1 of `header.payload.signature` is the payload
      when neither the header nor the payload holds a '.'. */
  lemma SecondSegment(header: string, payload: string, signature: string)
    requires '.' !in header && '.' !in payload
    ensures var parts := Split(header + "." + payload + "." + signature, '.');
      |parts| >= 2 && parts[1] == payload
  {
    var token := header + "." + payload + "." + signature;
    assert token == header + ['.'] + (payload + ['.'] + signature);
    SplitConcat(header, '.', payload + ['.'] + signature);
    SplitConcat(payload, '.', signature);
  }

  /** A JWT `header.payload.signature` whose payload segment is the unpadded
      URL-safe base64 of some bytes decodes to the JSON those bytes parse to. */
  lemma DecodeTokenPayloadOfJwt(header: string, payload: seq<byte>, signature: string,
                                parseJson: seq<byte> -> Option<Json>)
    requires '.' !in header
    requires parseJson(payload).Some?
    ensures DecodeTokenPayload(Some(header + "." + UrlEncode(payload) + "." + signature), parseJson)
            == Ok(parseJson(payload).value)
  {
    var segment := UrlEncode(payload);
    var token := header + "." + segment + "." + signature;
    UrlEncodeAlphabet(payload);
    assert '.' !in segment;
    SecondSegment(header, segment, signature);
    assert token[|header|] == '.';
    UrlDecodeEncode(payload);
    assert PayloadSegment(token) == Some(RepairPadding(FromUrlSafe(segment)));
  }

  /** `GenerateNonce` applied to the bytes the random number generator filled:
      unpadded URL-safe base64. */
  function GenerateNonce(tokenData: seq<byte>): (nonce: string)
    ensures |nonce| == UnpaddedLength(|tokenData|)
    ensures '+' !in nonce && '/' !in nonce && '=' !in nonce
    ensures Decode(RepairPadding(FromUrlSafe(nonce))) == Some(tokenData)
  {
    UrlEncodeAlphabet(tokenData);
    UrlDecodeEncode(tokenData);
    UrlEncode(tokenData)
  }

  /** The `n` bytes of a random stream from offset `start` on. */
  function StreamBytes(stream: nat -> byte, start: nat, n: nat): (b: seq<byte>)
    ensures |b| == n && forall i :: 0 <= i < n ==> b[i] == stream(start + i)
  {
    seq(n, i requires 0 <= i => stream(start + i))
  }

  /** The random number generator: an endless stream of bytes, consumed in
      order. */
  class RandomNumberGenerator {
    const stream: nat -> byte
    var position: nat

    constructor (stream: nat -> byte)
      ensures this.stream == stream && position == 0
    {
      this.stream := stream;
      position := 0;
    }

    /** `rng.GetBytes(new byte[n])`. */
    method GetBytes(n: nat) returns (b: seq<byte>)
      modifies this
      ensures b == StreamBytes(stream, old(position), n) && position == old(position) + n
    {
      b := StreamBytes(stream, position, n);
      position := position + n;
    }
  }

  /** `GenerateNonce(keyLength)`: a negative length fails to allocate the
      buffer (`OverflowException`) before any byte is drawn. */
  method NextNonce(keyLength: int, rng: RandomNumberGenerator) returns (r: Result<string>)
    modifies rng
    ensures keyLength < 0 ==> r == Err(Overflow) && rng.position == old(rng.position)
    ensures keyLength >= 0 ==>
      r == Ok(GenerateNonce(StreamBytes(rng.stream, old(rng.position), keyLength))) && rng.position == old(rng.position) + keyLength
  {
    if keyLength < 0 {
      return Err(Overflow);
    }
    var tokenData := rng.GetBytes(keyLength);
    return Ok(GenerateNonce(tokenData));
  }

  /** `ParseResponseType`: the `response_type` parameter value. */
  function ParseResponseType(t: ResponseTypes): (s: string)
    ensures s == "code" <==> t == Code
    ensures s == "token" <==> t == Token
    ensures IncludesIdToken(t) <==> s == "id_token" || s == "token id_token"
  {
    match t
    case TokenAndIdToken => "token id_token"
    case IdToken => "id_token"
    case Token => "token"
    case Code => "code"
  }

  /** `ParseCodeChallengeMethod`: "S256", or "" when there is no method. */
  function ParseCodeChallengeMethod(m: CodeChallengeMethods): (s: string)
    ensures s == "S256" <==> m == S256
    ensures s == "" <==> m == NoMethod
  {
    match m
    case S256 => "S256"
    case NoMethod => ""
  }

  /** `ParseResponseMode`: the `response_mode` parameter value. */
  function ParseResponseMode(m: ResponseModes): (s: string)
    ensures s != ""
  {
    match m
    case FormPost => "form_post"
    case Fragment => "fragment"
    case Query => "query"
    case WebMessage => "web_message"
  }

  /** Distinct modes are sent as distinct strings. */
  lemma ParseResponseModeInjective(a: ResponseModes, b: ResponseModes)
    requires ParseResponseMode(a) == ParseResponseMode(b)
    ensures a == b
  {
    match a
    case FormPost => assert ParseResponseMode(b)[0] == 'f' && |ParseResponseMode(b)| == 9;
    case Fragment => assert ParseResponseMode(b)[1] == 'r';
    case Query => assert ParseResponseMode(b)[0] == 'q';
    case WebMessage => assert ParseResponseMode(b)[0] == 'w';
  }
}

=== FILE: enumerations.dfy ===
/** The library's enumerations (src/Blazor.Auth0.Shared/Models/Enumerations.cs)
    and the wire strings they map to. */
module Enumerations {

  /** Where the session stands; a fresh service starts `Undefined`. */
  datatype SessionStates = Undefined | Active | Inactive

  /** The OAuth2 `response_type` choices. */
  datatype ResponseTypes = Code | Token | IdToken | TokenAndIdToken

  /** The OAuth2 `response_mode` choices. */
  datatype ResponseModes = WebMessage | Query | Fragment | FormPost

  /** PKCE code challenge methods (RFC 7636 section 4.2). */
  datatype CodeChallengeMethods = NoMethod | S256

  /** How the client-side service starts an authorization. */
  datatype LoginModes = Redirect | Popup

  /** Whether an authorization with this response type returns an ID token. */
  predicate IncludesIdToken(t: ResponseTypes) {
    t == IdToken || t == TokenAndIdToken
  }
}

=== FILE: json.dfy ===
/** JSON documents and the System.Text.Json binding rules the library depends
    on: case-sensitive property names, `null` or an absent member leaves the
    property at its default, a value of the wrong kind is a `JsonException`. */
module JsonModel {
  import opened Wrappers
  import opened Text

  /** A parsed JSON value. Object members are keyed by name. A number keeps
      its text, as `JsonElement` does. */
  datatype Json =
    | JNull
    | JBool(b: bool)
    | JNumber(text: string)
    | JString(s: string)
    | JArray(items: seq<Json>)
    | JObject(members: map<string, Json>)

  /** `JsonElement.ValueKind.ToString()`. */
  function ValueKindName(j: Json): (name: string)
    ensures name != ""
  {
    match j
    case JNull => "Null"
    case JBool(b) => if b then "True" else "False"
    case JNumber(_) => "Number"
    case JString(_) => "String"
    case JArray(_) => "Array"
    case JObject(_) => "Object"
  }

  /** A JSON serialiser for values of `T`: the text it writes and the value it
      reads back (an `Err` where deserialisation throws). */
  datatype JsonCodec<!T> = JsonCodec(serialize: T -> string, deserialize: string -> Result<T>)

  /** A codec whose deserialiser reads back whatever its serialiser wrote. */
  ghost predicate RoundTrips<T(!new)>(codec: JsonCodec<T>) {
    forall v: T :: codec.deserialize(codec.serialize(v)) == Ok(v)
  }

  predicate IsDigit(c: char) {
    '0' <= c <= '9'
  }

  /** Value of a non-empty run of decimal digits. */
  function DigitsValue(s: string): (n: nat)
    requires forall i :: 0 <= i < |s| ==> IsDigit(s[i])
    decreases |s|
  {
    if s == [] then 0
    else
      assert IsDigit(s[|s| - 1]);
      10 * DigitsValue(s[..|s| - 1]) + (s[|s| - 1] as int - '0' as int)
  }

  const LongMin: int := -0x8000_0000_0000_0000
  const LongMax: int := 0x7FFF_FFFF_FFFF_FFFF

  /** The number text a `long` property accepts: an optional minus sign and
      digits (no fraction, no exponent), within the 64-bit range. */
  function ParseLong(text: string): (r: Option<int>)
    ensures r.Some? ==> LongMin <= r.value <= LongMax
  {
    var negative := |text| > 0 && text[0] == '-';
    var digits := if negative then text[1..] else text;
    if digits == [] || exists i :: 0 <= i < |digits| && !IsDigit(digits[i]) then None
    else
      var v: int := if negative then -(DigitsValue(digits) as int) else DigitsValue(digits);
      if LongMin <= v <= LongMax then Some(v) else None
  }

  /** Binding of a `string` property: absent or `null` leaves it null. */
  function BindString(j: Option<Json>): (r: Result<NString>)
    ensures r.Ok? <==> (j.None? || j.value.JNull? || j.value.JString?)
    ensures r.Ok? && r.value.Some? ==> j == Some(JString(r.value.value))
  {
    match j
    case None => Ok(None)
    case Some(JNull) => Ok(None)
    case Some(JString(s)) => Ok(Some(s))
    case Some(_) => Err(Exn.Json)
  }

  /** Binding of a `bool` property: absent leaves `false`; `null` cannot be
      stored in a value type. */
  function BindBool(j: Option<Json>): (r: Result<bool>)
    ensures r.Ok? <==> (j.None? || j.value.JBool?)
    ensures r.Ok? && r.value ==> j == Some(JBool(true))
  {
    match j
    case None => Ok(false)
    case Some(JBool(b)) => Ok(b)
    case Some(_) => Err(Exn.Json)
  }

  /** Binding of a `long` property: absent leaves 0. */
  function BindLong(j: Option<Json>): (r: Result<int>)
    ensures r.Ok? ==> LongMin <= r.value <= LongMax
    ensures j.Some? && !j.value.JNumber? ==> r.Err?
  {
    match j
    case None => Ok(0)
    case Some(JNumber(t)) =>
      (match ParseLong(t) case Some(v) => Ok(v) case None => Err(Exn.Json))
    case Some(_) => Err(Exn.Json)
  }

  /** Binding of the elements of a `List<string>`. */
  function BindStrings(items: seq<Json>): (r: Result<seq<NString>>)
    ensures r.Ok? ==> |r.value| == |items|
    ensures r.Ok? <==> forall i :: 0 <= i < |items| ==> items[i].JNull? || items[i].JString?
    decreases |items|
  {
    if items == [] then Ok([])
    else
      match BindString(Some(items[0]))
      case Err(e) => Err(e)
      case Ok(s) =>
        match BindStrings(items[1..])
        case Err(e) => Err(e)
        case Ok(rest) => Ok([s] + rest)
  }

  /** Binding of a `List<string>` property: absent or `null` leaves it null. */
  function BindStringList(j: Option<Json>): (r: Result<Option<seq<NString>>>)
    ensures j.None? || j.value.JNull? ==> r == Ok(None)
    ensures r.Ok? && r.value.Some? ==> j.Some? && j.value.JArray? && |r.value.value| == |j.value.items|
  {
    match j
    case None => Ok(None)
    case Some(JNull) => Ok(None)
    case Some(JArray(items)) =>
      (match BindStrings(items) case Ok(v) => Ok(Some(v)) case Err(e) => Err(e))
    case Some(_) => Err(Exn.Json)
  }

  /** The member `name` of an object, if present. */
  function Member(members: map<string, Json>, name: string): Option<Json> {
    if name in members then Some(members[name]) else None
  }

  /** The members no declared property binds: what `[JsonExtensionData]`
      receives. */
  function Unbound(members: map<string, Json>, declared: set<string>): (extra: map<string, Json>)
    ensures forall k :: k in extra <==> k in members && k !in declared
    ensures forall k | k in extra :: extra[k] == members[k]
  {
    map k | k in members && k !in declared :: members[k]
  }
}

=== FILE: legacy_service.dfy ===
/** The two legacy snapshots of the client-side service: the shared base
    class (src/Blazor.Auth0.Shared/Authentication/AuthenticationServiceBase.cs)
    and the older service (src/Services/AuthenticationService.cs), together
    with the older claims constructor (src/Models/UserInfo.cs). The two
    services are the same code up to the `Snapshot` parameter: the base class
    calls JavaScript asynchronously and forgets the call, the older service
    calls it synchronously and lets its exceptions escape.

    The browser is a `Browser` object: its `localStorage` (the keys "nonce"
    and "isLoggedIn" the injected script reads and writes) and the log of
    navigations and silent-login frames. HTTP replies, the clock-free timer
    and the random bytes are parameters or values. */
module LegacyService {
  import opened Wrappers
  import opened Text
  import opened Base64
  import opened Enumerations
  import opened JsonModel
  import opened Models
  import opened Utils
  import CommonAuthentication
  import ClientAuthentication
  import ClientSession
  import ServerService

  // ---------------------------------------------------------------------------
  // Settings, messages and tokens
  // ---------------------------------------------------------------------------

  /** `AuthenticationGrantTypes`: the authorization code flow (the default)
      or the implicit flow. */
  datatype AuthenticationGrantTypes = AuthorizationCode | ImplicitGrant

  /** Which snapshot is modelled. */
  datatype Snapshot =
    | SharedBase   // asynchronous JavaScript calls, fired and forgotten
    | Services     // synchronous JavaScript calls

  /** `ClientSettings`. The scope defaults to "openid profile email". */
  datatype ClientSettings = ClientSettings(
    auth0Domain: NString,
    auth0ClientId: NString,
    auth0Scope: NString,
    auth0RedirectUri: NString,
    auth0Connection: NString,
    auth0Audience: NString,
    authenticationGrant: AuthenticationGrantTypes,
    loginRequired: bool,
    redirectAlwaysToHome: bool,
    getUserInfoFromIdToken: bool)

  /** `Auth0IframeMessage`: what the authorization frame posts back. */
  datatype IframeMessage = IframeMessage(
    isTrusted: bool,
    origin: NString,
    state: NString,
    error: NString,
    errorDescription: NString,
    code: NString,
    accessToken: NString,
    idToken: NString,
    scope: NString,
    tokenType: NString,
    expiresIn: Int32)

  /** `TokenInfo`: the tokens of the current session. */
  datatype TokenInfo = TokenInfo(
    accessToken: NString,
    refreshToken: NString,
    idToken: NString,
    scope: NString,
    tokenType: NString,
    expiresIn: Int32)

  /** What the model takes from outside: `Value.ToString()` of a claim that
      is a number, an array or an object; `Convert.ToDateTime` (`None` where
      it throws); UTF-8 decoding followed by
      `Json.Deserialize<IDictionary<string, object>>` (`Ok(None)` for a JSON
      `null`); `new Uri(s)` (`None` where it throws); and SHA-256. */
  datatype Environment = Environment(
    toText: Json -> string,
    parseDate: string -> Option<DateTime>,
    parseClaims: seq<byte> -> Result<Option<ClaimsDictionary>>,
    parseUri: string -> Option<Uri>,
    sha256: seq<byte> -> Digest)

  // ---------------------------------------------------------------------------
  // The claims projection
  // ---------------------------------------------------------------------------

  /** No key occurs twice. */
  predicate DistinctKeys(cs: seq<(string, Json)>) {
    forall i, j :: 0 <= i < j < |cs| ==> cs[i].0 != cs[j].0
  }

  /** A claims dictionary, in its enumeration order. */
  type ClaimsDictionary = cs: seq<(string, Json)> | DistinctKeys(cs) witness []

  /** The value of `key`: the last entry with that key, the only one in a
      dictionary. */
  function Lookup(cs: seq<(string, Json)>, key: string): (v: Option<Json>)
    ensures v.Some? ==> exists i :: 0 <= i < |cs| && cs[i] == (key, v.value)
    ensures v.None? ==> forall i :: 0 <= i < |cs| ==> cs[i].0 != key
    decreases |cs|
  {
    if cs == [] then None
    else if cs[|cs| - 1].0 == key then Some(cs[|cs| - 1].1)
    else
      var v := Lookup(cs[..|cs| - 1], key);
      assert forall i :: 0 <= i < |cs| - 1 ==> cs[..|cs| - 1][i] == cs[i];
      v
  }

  /** The standard claims held as text. */
  datatype TextClaim =
    | Address | Birthdate | Email | FamilyName | Gender | GivenName | Locale | MiddleName | Name
    | Nickname | PhoneNumber | Picture | PreferredUsername | Profile | Sub | Website | Zoneinfo

  /** The claim name of a text field (`nameof(StandarClaims.x)`). */
  function ClaimName(c: TextClaim): string {
    match c
    case Address => "address"
    case Birthdate => "birthdate"
    case Email => "email"
    case FamilyName => "family_name"
    case Gender => "gender"
    case GivenName => "given_name"
    case Locale => "locale"
    case MiddleName => "middle_name"
    case Name => "name"
    case Nickname => "nickname"
    case PhoneNumber => "phone_number"
    case Picture => "picture"
    case PreferredUsername => "preferred_username"
    case Profile => "profile"
    case Sub => "sub"
    case Website => "website"
    case Zoneinfo => "zoneinfo"
  }

  const EmailVerifiedKey := "email_verified"
  const PhoneNumberVerifiedKey := "phone_number_verified"
  const UpdatedAtKey := "updated_at"

  /** The `case` of the claims `switch` a key falls into. */
  datatype ClaimKind =
    | TextField(field: TextClaim)
    | EmailVerifiedFlag
    | PhoneNumberVerifiedFlag
    | UpdatedAtDate
    | Custom

  /** The `case` a claim name selects: the twenty names of `StandarClaims`
      have one each, every other key falls to `default`. */
  function KindOf(key: string): (k: ClaimKind)
    ensures k.TextField? ==> ClaimName(k.field) == key
    ensures k == EmailVerifiedFlag <==> key == EmailVerifiedKey
    ensures k == PhoneNumberVerifiedFlag <==> key == PhoneNumberVerifiedKey
    ensures k == UpdatedAtDate <==> key == UpdatedAtKey
  {
    if key == "address" then TextField(Address)
    else if key == "birthdate" then TextField(Birthdate)
    else if key == "email" then TextField(Email)
    else if key == "family_name" then TextField(FamilyName)
    else if key == "gender" then TextField(Gender)
    else if key == "given_name" then TextField(GivenName)
    else if key == "locale" then TextField(Locale)
    else if key == "middle_name" then TextField(MiddleName)
    else if key == "name" then TextField(Name)
    else if key == "nickname" then TextField(Nickname)
    else if key == "phone_number" then TextField(PhoneNumber)
    else if key == "picture" then TextField(Picture)
    else if key == "preferred_username" then TextField(PreferredUsername)
    else if key == "profile" then TextField(Profile)
    else if key == "sub" then TextField(Sub)
    else if key == "website" then TextField(Website)
    else if key == "zoneinfo" then TextField(Zoneinfo)
    else if key == EmailVerifiedKey then EmailVerifiedFlag
    else if key == PhoneNumberVerifiedKey then PhoneNumberVerifiedFlag
    else if key == UpdatedAtKey then UpdatedAtDate
    else Custom
  }

  /** Every text field's own name selects it, so no two fields share a name. */
  lemma KindOfName(c: TextClaim)
    ensures KindOf(ClaimName(c)) == TextField(c)
  {
    match c
    case Address =>
    case Birthdate =>
    case Email =>
    case FamilyName =>
    case Gender =>
    case GivenName =>
    case Locale =>
    case MiddleName =>
    case Name =>
    case Nickname =>
    case PhoneNumber =>
    case Picture =>
    case PreferredUsername =>
    case Profile =>
    case Sub =>
    case Website =>
    case Zoneinfo =>
  }

  /** The twenty names of `StandarClaims`. */
  predicate IsStandardClaim(key: string) {
    !KindOf(key).Custom?
  }

  /** `UserInfoDto`. A text field that is null is absent from `texts`. */
  datatype UserInfoDto = UserInfoDto(
    texts: map<TextClaim, string>,
    emailVerified: bool,
    phoneNumberVerified: bool,
    updatedAt: DateTime,
    customClaims: map<string, Json>)

  /** `new UserInfoDto()`: every field at its default. */
  const EmptyUserInfo := UserInfoDto(map[], false, false, DefaultDateTime, map[])

  /** A text field's value. */
  function TextOf(u: UserInfoDto, c: TextClaim): NString {
    if c in u.texts then Some(u.texts[c]) else None
  }

  /** `claim.Value?.ToString()`: a JSON string is itself, a boolean is
      "True" or "False", null stays null. */
  function ClaimText(v: Json, toText: Json -> string): NString {
    match v
    case JNull => None
    case JString(s) => Some(s)
    case JBool(b) => Some(if b then "True" else "False")
    case _ => Some(toText(v))
  }

  /** `bool.Parse`: "true" or "false" in any letter case. */
  function ParseBool(s: string): (r: Result<bool>)
    ensures r.Ok? <==> ToLower(s) == "true" || ToLower(s) == "false"
    ensures r.Ok? ==> (r.value <==> ToLower(s) == "true")
  {
    if ToLower(s) == "true" then Ok(true)
    else if ToLower(s) == "false" then Ok(false)
    else Err(Format)
  }

  /** `bool.Parse(claim.Value?.ToString() ?? "false")`: a null flag is false,
      a JSON boolean is itself, and text that is not a boolean throws. */
  function FlagValue(v: Json, toText: Json -> string): (r: Result<bool>)
    ensures v.JNull? ==> r == Ok(false)
    ensures v.JBool? ==> r == Ok(v.b)
    ensures v.JString? ==> r == ParseBool(v.s)
  {
    var text := ClaimText(v, toText).GetOr("false");
    assert ToLower("True") == "true" && ToLower("False") == "false";
    ParseBool(text)
  }

  /** The `updated_at` value: the default date for null or empty text,
      otherwise `Convert.ToDateTime` of the text, which may throw. */
  function UpdatedAtValue(v: Json, env: Environment): (r: Result<DateTime>)
    ensures v.JNull? || v == JString("") ==> r == Ok(DefaultDateTime)
  {
    var text := ClaimText(v, env.toText);
    if IsNullOrEmpty(text) then Ok(DefaultDateTime)
    else
      match env.parseDate(text.value)
      case None => Err(Format)
      case Some(d) => Ok(d)
  }

  /** Sets a text field, or clears it for null. */
  function SetText(texts: map<TextClaim, string>, c: TextClaim, t: NString): map<TextClaim, string> {
    if t.None? then texts - {c} else texts[c := t.value]
  }

  /** One pass of the `switch` over a claim. `keepCustom` tells the service
      projection (which adds every other key to `CustomClaims`, throwing on a
      key already there) from the constructor of src/Models/UserInfo.cs
      (which ignores it). */
  function ApplyClaim(u: UserInfoDto, key: string, v: Json, keepCustom: bool, env: Environment): (r: Result<UserInfoDto>)
    ensures !keepCustom && r.Ok? ==> r.value.customClaims == u.customClaims
  {
    match KindOf(key)
    case TextField(c) => Ok(u.(texts := SetText(u.texts, c, ClaimText(v, env.toText))))
    case EmailVerifiedFlag =>
      (match FlagValue(v, env.toText)
       case Err(e) => Err(e)
       case Ok(b) => Ok(u.(emailVerified := b)))
    case PhoneNumberVerifiedFlag =>
      (match FlagValue(v, env.toText)
       case Err(e) => Err(e)
       case Ok(b) => Ok(u.(phoneNumberVerified := b)))
    case UpdatedAtDate =>
      (match UpdatedAtValue(v, env)
       case Err(e) => Err(e)
       case Ok(d) => Ok(u.(updatedAt := d)))
    case Custom =>
      if !keepCustom then Ok(u)
      else if key in u.customClaims then Err(Argument("key"))
      else Ok(u.(customClaims := u.customClaims[key := v]))
  }

  /** The projection of the claims `cs`, in order; the first claim that
      throws ends it. */
  function Project(cs: seq<(string, Json)>, keepCustom: bool, env: Environment): (r: Result<UserInfoDto>)
    ensures !keepCustom && r.Ok? ==> r.value.customClaims == map[]
    decreases |cs|
  {
    if cs == [] then Ok(EmptyUserInfo)
    else
      match Project(cs[..|cs| - 1], keepCustom, env)
      case Err(e) => Err(e)
      case Ok(u) => ApplyClaim(u, cs[|cs| - 1].0, cs[|cs| - 1].1, keepCustom, env)
  }

  /** Whether a claim's value is one the `switch` accepts: the flags parse
      as booleans and `updated_at` as a date. */
  predicate ClaimAccepted(key: string, v: Json, env: Environment) {
    && (key == EmailVerifiedKey || key == PhoneNumberVerifiedKey ==> FlagValue(v, env.toText).Ok?)
    && (key == UpdatedAtKey ==> UpdatedAtValue(v, env).Ok?)
  }

  /** The text of an optional claim. */
  function LookupText(cs: seq<(string, Json)>, key: string, env: Environment): NString {
    match Lookup(cs, key)
    case None => None
    case Some(v) => ClaimText(v, env.toText)
  }

  /** Each text field holds the text of the claim of its own name, and is
      null when there is none. */
  lemma {:induction false} ProjectedText(cs: seq<(string, Json)>, c: TextClaim, keepCustom: bool, env: Environment)
    requires Project(cs, keepCustom, env).Ok?
    ensures TextOf(Project(cs, keepCustom, env).value, c) == LookupText(cs, ClaimName(c), env)
    decreases |cs|
  {
    if cs != [] {
      var prefix := cs[..|cs| - 1];
      ProjectedText(prefix, c, keepCustom, env);
      KindOfName(c);
    }
  }

  /** The flags hold the parsed value of their claims, false when absent. */
  lemma {:induction false} ProjectedFlags(cs: seq<(string, Json)>, keepCustom: bool, env: Environment)
    requires Project(cs, keepCustom, env).Ok?
    ensures var u := Project(cs, keepCustom, env).value;
      && (Lookup(cs, EmailVerifiedKey).None? ==> !u.emailVerified)
      && (Lookup(cs, EmailVerifiedKey).Some? ==> FlagValue(Lookup(cs, EmailVerifiedKey).value, env.toText) == Ok(u.emailVerified))
      && (Lookup(cs, PhoneNumberVerifiedKey).None? ==> !u.phoneNumberVerified)
      && (Lookup(cs, PhoneNumberVerifiedKey).Some? ==>
            FlagValue(Lookup(cs, PhoneNumberVerifiedKey).value, env.toText) == Ok(u.phoneNumberVerified))
    decreases |cs|
  {
    if cs != [] {
      ProjectedFlags(cs[..|cs| - 1], keepCustom, env);
    }
  }

  /** `UpdatedAt` holds the date of the `updated_at` claim, the default
      date when there is none. */
  lemma {:induction false} ProjectedUpdatedAt(cs: seq<(string, Json)>, keepCustom: bool, env: Environment)
    requires Project(cs, keepCustom, env).Ok?
    ensures var u := Project(cs, keepCustom, env).value;
      && (Lookup(cs, UpdatedAtKey).None? ==> u.updatedAt == DefaultDateTime)
      && (Lookup(cs, UpdatedAtKey).Some? ==> UpdatedAtValue(Lookup(cs, UpdatedAtKey).value, env) == Ok(u.updatedAt))
    decreases |cs|
  {
    if cs != [] {
      ProjectedUpdatedAt(cs[..|cs| - 1], keepCustom, env);
    }
  }

  /** The service projection keeps every non-standard claim, and nothing
      else, in `CustomClaims`. */
  lemma {:induction false} ProjectedCustomClaims(cs: seq<(string, Json)>, env: Environment)
    requires Project(cs, true, env).Ok?
    ensures var bag := Project(cs, true, env).value.customClaims;
      forall k :: k in bag <==> !IsStandardClaim(k) && Lookup(cs, k).Some?
    ensures var bag := Project(cs, true, env).value.customClaims;
      forall k :: k in bag ==> Lookup(cs, k) == Some(bag[k])
    decreases |cs|
  {
    if cs != [] {
      ProjectedCustomClaims(cs[..|cs| - 1], env);
    }
  }

  /** The projection of a dictionary succeeds exactly when every flag and
      date claim holds a value the `switch` accepts: a custom key is never
      added twice. */
  lemma {:induction false} ProjectSucceeds(cs: seq<(string, Json)>, keepCustom: bool, env: Environment)
    requires DistinctKeys(cs)
    ensures Project(cs, keepCustom, env).Ok? <==> forall i :: 0 <= i < |cs| ==> ClaimAccepted(cs[i].0, cs[i].1, env)
    decreases |cs|
  {
    if cs != [] {
      var n := |cs| - 1;
      var prefix := cs[..n];
      assert forall i :: 0 <= i < n ==> prefix[i] == cs[i];
      ProjectSucceeds(prefix, keepCustom, env);
      if Project(prefix, keepCustom, env).Ok? && keepCustom {
        ProjectedCustomClaims(prefix, env);
      }
    }
  }

  /** Once a claim throws, the rest of the claims are never looked at. */
  lemma {:induction false} ProjectErrorSticks(cs: seq<(string, Json)>, j: nat, keepCustom: bool, env: Environment)
    requires j <= |cs| && Project(cs[..j], keepCustom, env).Err?
    ensures Project(cs, keepCustom, env) == Project(cs[..j], keepCustom, env)
    decreases |cs| - j
  {
    if j < |cs| {
      var next := cs[..j + 1];
      assert next[..j] == cs[..j];
      ProjectErrorSticks(cs, j + 1, keepCustom, env);
    } else {
      assert cs[..j] == cs;
    }
  }

  /** The `foreach` over the claims, with the `switch` as its body. */
  method ApplyClaims(cs: ClaimsDictionary, keepCustom: bool, env: Environment) returns (r: Result<UserInfoDto>)
    ensures r == Project(cs, keepCustom, env)
  {
    var result := EmptyUserInfo;
    var i := 0;
    while i < |cs|
      invariant 0 <= i <= |cs|
      invariant Project(cs[..i], keepCustom, env) == Ok(result)
    {
      assert cs[..i + 1][..i] == cs[..i];
      var next := ApplyClaim(result, cs[i].0, cs[i].1, keepCustom, env);
      if next.Err? {
        ProjectErrorSticks(cs, i + 1, keepCustom, env);
        return next;
      }
      result := next.value;
      i := i + 1;
    }
    assert cs[..|cs|] == cs;
    return Ok(result);
  }

  /** `GetUserInfoFromClaims`: a null dictionary throws as soon as it is
      enumerated; otherwise every standard claim fills its field and every
      other claim lands in `CustomClaims`. */
  method GetUserInfoFromClaims(claims: Option<ClaimsDictionary>, env: Environment) returns (r: Result<UserInfoDto>)
    ensures claims.None? ==> r == Err(NullReference)
    ensures claims.Some? ==> r == Project(claims.value, true, env)
  {
    if claims.None? {
      return Err(NullReference);
    }
    r := ApplyClaims(claims.value, true, env);
  }

  /** The constructor `UserInfo(claimsInfo)` of src/Models/UserInfo.cs: a
      null dictionary reads as an empty one, and keys other than the
      standard claims are ignored. */
  method NewUserInfo(claimsInfo: Option<ClaimsDictionary>, env: Environment) returns (r: Result<UserInfoDto>)
    ensures claimsInfo.None? ==> r == Ok(EmptyUserInfo)
    ensures claimsInfo.Some? ==> r == Project(claimsInfo.value, false, env)
    ensures r.Ok? ==> r.value.customClaims == map[]
  {
    var claims: ClaimsDictionary := if claimsInfo.None? then [] else claimsInfo.value;
    r := ApplyClaims(claims, false, env);
  }

  // ---------------------------------------------------------------------------
  // Token decoding
  // ---------------------------------------------------------------------------

  /** `DecodeTokenPayload` up to the claims dictionary: a null token throws
      in `Split`, a token without a second segment on the index, and a
      segment that is not base64 in `Convert.FromBase64String`. */
  function PayloadClaims(token: NString, env: Environment): (r: Result<Option<ClaimsDictionary>>)
    ensures token.None? ==> r == Err(NullReference)
    ensures token.Some? && '.' !in token.value ==> r == Err(IndexOutOfRange)
  {
    match token
    case None => Err(NullReference)
    case Some(t) =>
      if '.' !in t then
        SplitNoSeparator(t, '.');
        Err(IndexOutOfRange)
      else
        match CommonAuthentication.PayloadSegment(t)
        case None => Err(IndexOutOfRange)
        case Some(segment) =>
          match Decode(segment)
          case None => Err(Format)
          case Some(bytes) => env.parseClaims(bytes)
  }

  /** The claims of a JWT `header.payload.signature` are those its payload
      bytes parse to. */
  lemma PayloadClaimsOfJwt(header: string, payload: seq<byte>, signature: string, env: Environment)
    requires '.' !in header
    ensures PayloadClaims(Some(header + "." + UrlEncode(payload) + "." + signature), env) == env.parseClaims(payload)
  {
    var segment := UrlEncode(payload);
    var token := header + "." + segment + "." + signature;
    UrlEncodeAlphabet(payload);
    CommonAuthentication.SecondSegment(header, segment, signature);
    assert token[|header|] == '.';
    UrlDecodeEncode(payload);
    assert CommonAuthentication.PayloadSegment(token) == Some(RepairPadding(FromUrlSafe(segment)));
  }

  /** What `DecodeTokenPayload` returns: the projection of the payload's
      claims, a JSON `null` payload failing as soon as it is enumerated. */
  function DecodedUserInfo(token: NString, env: Environment): Result<UserInfoDto> {
    match PayloadClaims(token, env)
    case Err(e) => Err(e)
    case Ok(None) => Err(NullReference)
    case Ok(Some(cs)) => Project(cs, true, env)
  }

  /** `DecodeTokenPayload`. */
  method DecodeTokenPayload(token: NString, env: Environment) returns (r: Result<UserInfoDto>)
    ensures r == DecodedUserInfo(token, env)
  {
    var claims := PayloadClaims(token, env);
    if claims.Err? {
      return Err(claims.error);
    }
    r := GetUserInfoFromClaims(claims.value, env);
  }

  // ---------------------------------------------------------------------------
  // Nonce and at_hash
  // ---------------------------------------------------------------------------

  const NonceKey := "nonce"
  const IsLoggedInKey := "isLoggedIn"
  const AtHashKey := "at_hash"

  /** `getNonce()`: the stored nonce, null when there is none. */
  function StoredNonce(items: map<string, string>): NString {
    if NonceKey in items then Some(items[NonceKey]) else None
  }

  /** Whether the stored nonce and the token's nonce claim agree, each with
      ' ' read as '+'. A claim whose text is null never matches. */
  predicate NonceMatches(stored: string, claim: Json, env: Environment) {
    var text := ClaimText(claim, env.toText);
    text.Some? && ReplaceChar(stored, ' ', '+') == ReplaceChar(text.value, ' ', '+')
  }

  /** `ValidateNonce(idToken)` on the store `items`: the verdict and the
      store afterwards. Both snapshots decode the token, read the stored
      nonce and the claim, and remove the stored nonce before comparing;
      the older service dereferences a missing stored nonce before it looks
      the claim up, the shared base class after it has removed the nonce. */
  function ValidateNonce(snapshot: Snapshot, idToken: NString, items: map<string, string>, env: Environment)
    : (r: (Result<bool>, map<string, string>))
    ensures r.0 == Ok(true) <==>
      && DecodedUserInfo(idToken, env).Ok?
      && StoredNonce(items).Some?
      && NonceKey in DecodedUserInfo(idToken, env).value.customClaims
      && NonceMatches(StoredNonce(items).value, DecodedUserInfo(idToken, env).value.customClaims[NonceKey], env)
    ensures r.0.Ok? ==> r.1 == items - {NonceKey}
    ensures r.1 == items || r.1 == items - {NonceKey}
    ensures snapshot == Services && r.0.Err? ==> r.1 == items
    ensures (DecodedUserInfo(idToken, env).Ok? && StoredNonce(items).None?
             && NonceKey in DecodedUserInfo(idToken, env).value.customClaims) ==> r.0 == Err(NullReference)
  {
    match DecodedUserInfo(idToken, env)
    case Err(e) => (Err(e), items)
    case Ok(payload) =>
      var nonce := StoredNonce(items);
      var cleared := items - {NonceKey};
      if snapshot == Services && nonce.None? then (Err(NullReference), items)
      else if NonceKey !in payload.customClaims then (Err(KeyNotFound), items)
      else if nonce.None? then (Err(NullReference), cleared)
      else (Ok(NonceMatches(nonce.value, payload.customClaims[NonceKey], env)), cleared)
  }

  /** A nonce is good for one validation: once a token has been checked
      against it, the same token cannot be checked again. */
  lemma NonceIsSingleUse(snapshot: Snapshot, idToken: NString, items: map<string, string>, env: Environment)
    requires ValidateNonce(snapshot, idToken, items, env).0.Ok?
    ensures var after := ValidateNonce(snapshot, idToken, items, env).1;
      NonceKey !in after && ValidateNonce(snapshot, idToken, after, env).0 == Err(NullReference)
  {
    var after := ValidateNonce(snapshot, idToken, items, env).1;
    assert StoredNonce(after).None?;
  }

  /** `ValidateAccessTokenHash(idToken, accessToken)`: a token without an
      `at_hash` claim passes; otherwise the claim must be the string hash of
      the access token. */
  function ValidateAccessTokenHash(idToken: NString, accessToken: NString, env: Environment): (r: Result<bool>)
    ensures r == Ok(true) <==>
      && DecodedUserInfo(idToken, env).Ok?
      && var claims := DecodedUserInfo(idToken, env).value.customClaims;
         (AtHashKey in claims ==>
            accessToken.Some? && claims[AtHashKey] == JString(ClientAuthentication.AccessTokenHash(accessToken.value, env.sha256)))
  {
    match DecodedUserInfo(idToken, env)
    case Err(e) => Err(e)
    case Ok(payload) =>
      if AtHashKey !in payload.customClaims then Ok(true)
      else if accessToken.None? then Err(ArgumentNull("s"))
      else Ok(payload.customClaims[AtHashKey] == JString(ClientAuthentication.AccessTokenHash(accessToken.value, env.sha256)))
  }

  /** Against the current check: a missing `at_hash` passes here and fails
      there; a non-empty one gets the same verdict from both. */
  lemma AtHashAgainstCurrent(idToken: NString, accessToken: NString, env: Environment)
    requires DecodedUserInfo(idToken, env).Ok?
    ensures var claims := DecodedUserInfo(idToken, env).value.customClaims;
      AtHashKey !in claims ==>
        && ValidateAccessTokenHash(idToken, accessToken, env) == Ok(true)
        && ClientAuthentication.ValidateAccessTokenHash(None, accessToken, env.sha256) == Ok(false)
    ensures var claims := DecodedUserInfo(idToken, env).value.customClaims;
      AtHashKey in claims && claims[AtHashKey].JString? && claims[AtHashKey].s != "" ==>
        ValidateAccessTokenHash(idToken, accessToken, env)
        == ClientAuthentication.ValidateAccessTokenHash(Some(claims[AtHashKey].s), accessToken, env.sha256)
  {
  }

  // ---------------------------------------------------------------------------
  // The message verdict
  // ---------------------------------------------------------------------------

  /** Whether the message comes from the configured domain: it must be
      trusted and its origin's authority must be the domain. */
  predicate FromDomain(settings: ClientSettings, m: IframeMessage, parseUri: string -> Option<Uri>) {
    && m.origin.Some? && parseUri(m.origin.value).Some?
    && m.isTrusted && settings.auth0Domain == Some(parseUri(m.origin.value).value.Authority())
  }

  /** A verdict that lets the message through: no failure recorded, or an
      empty one. */
  predicate Accepted(verdict: Result<NString>) {
    verdict.Ok? && IsNullOrEmpty(verdict.value)
  }

  /** The message as the current service's response type sees it. */
  function ResponseOf(m: IframeMessage): AuthorizationResponse {
    AuthorizationResponse(SessionInfo(m.accessToken, m.expiresIn, m.idToken, None, m.scope, m.tokenType, map[]),
                          m.isTrusted, m.origin, None, m.state, m.error, m.errorDescription, m.code)
  }

  /** The failure `ValidateAth0IframeMessage` records (null for none), or
      the exception it throws: `new Uri` on a null or malformed origin, and
      `State.Replace` on a null state when a state is expected. The checks
      run in the order origin, error, state, and the first failure wins. */
  function MessageVerdict(settings: ClientSettings, latestState: NString, m: IframeMessage,
                          parseUri: string -> Option<Uri>): (r: Result<NString>)
    ensures m.origin.None? ==> r == Err(ArgumentNull("uriString"))
    ensures m.origin.Some? && parseUri(m.origin.value).Some? && !FromDomain(settings, m, parseUri) ==> r == Ok(Some("Invalid Origin"))
    ensures Accepted(r) ==> FromDomain(settings, m, parseUri)
    ensures Accepted(r) && IsNullOrEmpty(m.error) ==> ClientAuthentication.StateMatches(latestState, ResponseOf(m))
    ensures Accepted(r) && !IsNullOrEmpty(m.error) ==> ToLower(m.error.value) != "login_required"
  {
    if m.origin.None? then Err(ArgumentNull("uriString"))
    else
      match parseUri(m.origin.value)
      case None => Err(UriFormat)
      case Some(origin) =>
        var afterOrigin: NString :=
          if !m.isTrusted || settings.auth0Domain != Some(origin.Authority()) then Some("Invalid Origin") else None;
        var afterError: NString :=
          if afterOrigin.None? && !IsNullOrEmpty(m.error) then ClientAuthentication.ErrorFailure(m.error.value, m.errorDescription)
          else afterOrigin;
        if afterError.None? && !IsNullOrEmpty(latestState) then
          if m.state.None? then Err(NullReference)
          else if latestState.value != ReplaceChar(m.state.value, ' ', '+') then Ok(Some("Invalid State"))
          else Ok(None)
        else Ok(afterError)
  }

  /** Whether validating the message starts a new login: `login_required`
      from the domain, with `LoginRequired` set. */
  predicate ReloginOnValidation(settings: ClientSettings, m: IframeMessage, parseUri: string -> Option<Uri>) {
    && FromDomain(settings, m, parseUri)
    && !IsNullOrEmpty(m.error) && ToLower(m.error.value) == "login_required"
    && settings.loginRequired
  }

  /** A message that starts a new login is recorded as "Login Required". */
  lemma ReloginIsRejected(settings: ClientSettings, latestState: NString, m: IframeMessage, parseUri: string -> Option<Uri>)
    requires ReloginOnValidation(settings, m, parseUri)
    ensures MessageVerdict(settings, latestState, m, parseUri) == Ok(Some("Login Required"))
  {
  }

  /** Against the current `ValidateAuthorizationResponse`: a trusted
      message gets the same verdict from both, and an untrusted one, which
      the current service checks no further for its origin, is rejected
      here. */
  lemma VerdictAgainstCurrent(settings: ClientSettings, latestState: NString, m: IframeMessage,
                              parseUri: string -> Option<Uri>)
    requires !IsNullOrEmpty(settings.auth0Domain)
    ensures m.isTrusted ==>
      (Accepted(MessageVerdict(settings, latestState, m, parseUri)) <==>
       ClientAuthentication.ValidateAuthorizationResponse(Some(ResponseOf(m)), settings.auth0Domain, latestState, parseUri) == Completed)
    ensures !m.isTrusted && m.origin.Some? && parseUri(m.origin.value).Some? ==>
      MessageVerdict(settings, latestState, m, parseUri) == Ok(Some("Invalid Origin"))
  {
  }

  // ---------------------------------------------------------------------------
  // URLs
  // ---------------------------------------------------------------------------

  /** `&name=value`, as the interpolated strings write a parameter
      (nothing is escaped). */
  function Field(name: string, value: string): string {
    "&" + name + "=" + value
  }

  /** The fields of the parameters, in order. */
  function Rendered(ps: seq<QueryParam>): string
    decreases |ps|
  {
    if ps == [] then "" else Field(ps[0].name, ps[0].value) + Rendered(ps[1..])
  }

  /** Rendering works parameter by parameter. */
  lemma {:induction false} RenderedAppend(a: seq<QueryParam>, b: seq<QueryParam>)
    ensures Rendered(a + b) == Rendered(a) + Rendered(b)
    decreases |a|
  {
    if a != [] {
      assert (a + b)[1..] == a[1..] + b;
      RenderedAppend(a[1..], b);
    } else {
      assert a + b == b;
    }
  }

  /** The `response_type` of the grant. */
  function ResponseTypeOf(grant: AuthenticationGrantTypes): string {
    if grant == ImplicitGrant then "token id_token" else "code"
  }

  /** `latestAuthorizeUrRedirectUri`: the site's root when
      `RedirectAlwaysToHome`, else the configured redirect URI when there is
      one, else the current page without query and fragment. */
  function RedirectTarget(settings: ClientSettings, current: Uri): (target: string)
    ensures settings.redirectAlwaysToHome ==> target == current.LeftPartAuthority()
    ensures !settings.redirectAlwaysToHome && IsNullOrEmpty(settings.auth0RedirectUri) ==> target == current.LeftPartPath()
  {
    if settings.redirectAlwaysToHome then current.LeftPartAuthority()
    else if !IsNullOrEmpty(settings.auth0RedirectUri) then settings.auth0RedirectUri.value
    else current.LeftPartPath()
  }

  /** `https://{Auth0Domain}/authorize?`. */
  function AuthorizeEndpoint(settings: ClientSettings): string {
    "https://" + Str(settings.auth0Domain) + "/authorize?"
  }

  /** The connection and audience, each only when non-empty, the
      connection first. */
  function ExtraParams(settings: ClientSettings): (ps: seq<QueryParam>)
    ensures |ps| == (if IsNullOrEmpty(settings.auth0Connection) then 0 else 1) + (if IsNullOrEmpty(settings.auth0Audience) then 0 else 1)
    ensures !IsNullOrEmpty(settings.auth0Connection) ==> ps[0] == QueryParam("connection", settings.auth0Connection.value)
    ensures !IsNullOrEmpty(settings.auth0Audience) ==> ps[|ps| - 1] == QueryParam("audience", settings.auth0Audience.value)
  {
    (if IsNullOrEmpty(settings.auth0Connection) then [] else [QueryParam("connection", settings.auth0Connection.value)])
    + (if IsNullOrEmpty(settings.auth0Audience) then [] else [QueryParam("audience", settings.auth0Audience.value)])
  }

  /** The scope with each space written "%20": no space remains, and a
      scope without spaces is sent as it is. */
  function ScopeText(scope: string): (t: string)
    ensures ' ' !in t
    ensures ' ' !in scope ==> t == scope
  {
    ReplaceWith(scope, ' ', "%20")
  }

  /** The parameters `BuildAuthorizeUrl`'s string carries as written, for
      the code challenge, state, nonce and redirect target of the call. No
      '&' separates "S256" from `code_challenge=`, so the method's value
      runs on into the challenge. */
  function AsWrittenParams(settings: ClientSettings, redirect: string, challenge: string, state: string,
                           nonce: string, scope: string): seq<QueryParam> {
    AsWrittenHead(settings, challenge, state, nonce, scope) + ExtraParams(settings) + [QueryParam("redirect_uri", redirect)]
  }

  /** The six parameters every request carries, as written. */
  function AsWrittenHead(settings: ClientSettings, challenge: string, state: string, nonce: string, scope: string)
    : seq<QueryParam> {
    [ QueryParam("response_type", ResponseTypeOf(settings.authenticationGrant)),
      QueryParam("code_challenge_method", "S256" + "code_challenge=" + challenge),
      QueryParam("state", state),
      QueryParam("nonce", nonce),
      QueryParam("client_id", Str(settings.auth0ClientId)),
      QueryParam("scope", ScopeText(scope)) ]
  }

  /** `BuildAuthorizeUrl`'s string as written. */
  function AuthorizeUrlAsWritten(settings: ClientSettings, redirect: string, challenge: string, state: string,
                                 nonce: string, scope: string): string {
    AuthorizeEndpoint(settings) + Rendered(AsWrittenParams(settings, redirect, challenge, state, nonce, scope))
  }

  /** The '&' before `code_challenge` is missing: the string as written
      carries no `code_challenge` parameter, and its
      `code_challenge_method` is not "S256" but "S256code_challenge=" and
      the challenge. */
  lemma MissingSeparator(settings: ClientSettings, redirect: string, challenge: string, state: string,
                         nonce: string, scope: string)
    ensures var ps := AsWrittenParams(settings, redirect, challenge, state, nonce, scope);
      && (forall i :: 0 <= i < |ps| ==> ps[i].name != "code_challenge")
      && ps[1].name == "code_challenge_method"
      && ps[1].value != "S256"
      && ps[1].value[|ps[1].value| - |challenge|..] == challenge
  {
    var head := AsWrittenHead(settings, challenge, state, nonce, scope);
    HeadParam(head, ExtraParams(settings), QueryParam("redirect_uri", redirect), 1);
    var methodValue := head[1].value;
    assert methodValue == "S256" + "code_challenge=" + challenge;
    assert methodValue[|methodValue| - |challenge|..] == challenge;
    forall i | 0 <= i < |AsWrittenParams(settings, redirect, challenge, state, nonce, scope)| {
      AsWrittenParamName(settings, redirect, challenge, state, nonce, scope, i);
    }
  }

  /** No parameter of the string as written is named `code_challenge`. */
  lemma AsWrittenParamName(settings: ClientSettings, redirect: string, challenge: string, state: string,
                           nonce: string, scope: string, i: nat)
    requires i < |AsWrittenParams(settings, redirect, challenge, state, nonce, scope)|
    ensures AsWrittenParams(settings, redirect, challenge, state, nonce, scope)[i].name != "code_challenge"
  {
    var head := AsWrittenHead(settings, challenge, state, nonce, scope);
    var extra := ExtraParams(settings);
    var last := QueryParam("redirect_uri", redirect);
    SplitParams(head, extra, last);
    if i < 6 {
      HeadParam(head, extra, last, i);
    } else if i < 6 + |extra| {
      assert (head + extra + [last])[i] == extra[i - 6];
    }
  }

  /** The parameters of the authorization request, in their fixed order,
      with the '&' restored and the challenge derived from the verifier by
      S256. */
  function AuthorizeParams(settings: ClientSettings, redirect: string, verifier: string, state: string,
                           nonce: string, scope: string, sha256: seq<byte> -> Digest): seq<QueryParam> {
    AuthorizeHead(settings, verifier, state, nonce, scope, sha256) + ExtraParams(settings)
    + [QueryParam("redirect_uri", redirect)]
  }

  /** The seven parameters every request carries. */
  function AuthorizeHead(settings: ClientSettings, verifier: string, state: string, nonce: string, scope: string,
                         sha256: seq<byte> -> Digest): seq<QueryParam> {
    [ QueryParam("response_type", ResponseTypeOf(settings.authenticationGrant)),
      QueryParam("code_challenge_method", "S256"),
      QueryParam("code_challenge", GetSha256(verifier, sha256)),
      QueryParam("state", state),
      QueryParam("nonce", nonce),
      QueryParam("client_id", Str(settings.auth0ClientId)),
      QueryParam("scope", ScopeText(scope)) ]
  }

  /** The authorization URL the service builds. */
  function AuthorizeUrl(settings: ClientSettings, redirect: string, verifier: string, state: string,
                        nonce: string, scope: string, sha256: seq<byte> -> Digest): string {
    AuthorizeEndpoint(settings) + Rendered(AuthorizeParams(settings, redirect, verifier, state, nonce, scope, sha256))
  }

  /** The request carries every parameter in the fixed order, with the
      method "S256" and, as its challenge, the unpadded base64url SHA-256
      digest of the verifier (section 4.2 of RFC 7636). */
  lemma AuthorizeUrlParameters(settings: ClientSettings, redirect: string, verifier: string, state: string,
                               nonce: string, scope: string, sha256: seq<byte> -> Digest)
    ensures var ps := AuthorizeParams(settings, redirect, verifier, state, nonce, scope, sha256);
      && ps[0] == QueryParam("response_type",
                             if settings.authenticationGrant == ImplicitGrant then "token id_token" else "code")
      && ps[1] == QueryParam("code_challenge_method", "S256")
      && ps[2].name == "code_challenge"
      && ps[3] == QueryParam("state", state)
      && ps[4] == QueryParam("nonce", nonce)
      && ps[5] == QueryParam("client_id", Str(settings.auth0ClientId))
      && ps[6] == QueryParam("scope", ScopeText(scope)) && ' ' !in ps[6].value
      && ps[7..|ps| - 1] == ExtraParams(settings)
      && ps[|ps| - 1] == QueryParam("redirect_uri", redirect)
  {
    SplitParams(AuthorizeHead(settings, verifier, state, nonce, scope, sha256), ExtraParams(settings),
                QueryParam("redirect_uri", redirect));
    AuthorizeParamAt(settings, redirect, verifier, state, nonce, scope, sha256, 0);
    AuthorizeParamAt(settings, redirect, verifier, state, nonce, scope, sha256, 1);
    AuthorizeParamAt(settings, redirect, verifier, state, nonce, scope, sha256, 2);
    AuthorizeParamAt(settings, redirect, verifier, state, nonce, scope, sha256, 3);
    AuthorizeParamAt(settings, redirect, verifier, state, nonce, scope, sha256, 4);
    AuthorizeParamAt(settings, redirect, verifier, state, nonce, scope, sha256, 5);
    AuthorizeParamAt(settings, redirect, verifier, state, nonce, scope, sha256, 6);
  }

  /** The challenge is the unpadded base64url SHA-256 digest of the
      verifier's ASCII bytes (section 4.2 of RFC 7636). */
  lemma ChallengeIsS256OfVerifier(settings: ClientSettings, redirect: string, verifier: string, state: string,
                                  nonce: string, scope: string, sha256: seq<byte> -> Digest)
    ensures var challenge := AuthorizeParams(settings, redirect, verifier, state, nonce, scope, sha256)[2].value;
      Decode(RepairPadding(FromUrlSafe(challenge))) == Some(sha256(Ascii(verifier)))
  {
    AuthorizeParamAt(settings, redirect, verifier, state, nonce, scope, sha256, 2);
    assert AuthorizeHead(settings, verifier, state, nonce, scope, sha256)[2].value == GetSha256(verifier, sha256);
  }

  /** A parameter list made of a head, a middle and a last parameter. */
  lemma SplitParams(head: seq<QueryParam>, middle: seq<QueryParam>, last: QueryParam)
    ensures var ps := head + middle + [last];
      ps[..|head|] == head && ps[|head|..|ps| - 1] == middle && ps[|ps| - 1] == last
  {
  }

  /** The parameter at a position of the head. */
  lemma HeadParam(head: seq<QueryParam>, middle: seq<QueryParam>, last: QueryParam, i: nat)
    requires i < |head|
    ensures (head + middle + [last])[i] == head[i]
  {
  }

  /** The first seven parameters are the head's. */
  lemma AuthorizeParamAt(settings: ClientSettings, redirect: string, verifier: string, state: string,
                         nonce: string, scope: string, sha256: seq<byte> -> Digest, i: nat)
    requires i < 7
    ensures AuthorizeParams(settings, redirect, verifier, state, nonce, scope, sha256)[i]
            == AuthorizeHead(settings, verifier, state, nonce, scope, sha256)[i]
  {
    HeadParam(AuthorizeHead(settings, verifier, state, nonce, scope, sha256), ExtraParams(settings),
              QueryParam("redirect_uri", redirect), i);
  }

  /** `GenerateNonce` on the 32 random bytes: padded standard base64. */
  function LegacyNonce(tokenData: seq<byte>): (nonce: string)
    requires |tokenData| == 32
    ensures |nonce| == 44
  {
    Encode(tokenData)
  }

  /** `Convert.FromBase64String` reads a nonce back as its bytes. */
  lemma LegacyNonceDecodes(tokenData: seq<byte>)
    requires |tokenData| == 32
    ensures Decode(LegacyNonce(tokenData)) == Some(tokenData)
  {
    DecodeEncode(tokenData);
  }

  /** The challenge sent is the verifier itself, which an S256 check never
      accepts: the S256 challenge of a 44-character verifier has 43
      characters. */
  lemma RawChallengeFailsS256(tokenData: seq<byte>, sha256: seq<byte> -> Digest)
    requires |tokenData| == 32
    ensures GetSha256(LegacyNonce(tokenData), sha256) != LegacyNonce(tokenData)
  {
  }

  /** The logout `returnTo`: the site's root when `RedirectAlwaysToHome` or
      when no redirect URI is configured, else that URI. */
  function ReturnTo(settings: ClientSettings, current: Uri): (target: string)
    ensures target != ""
  {
    if settings.redirectAlwaysToHome || IsNullOrEmpty(settings.auth0RedirectUri) then current.LeftPartAuthority()
    else settings.auth0RedirectUri.value
  }

  /** `BuildLogoutUrl`'s string. */
  function LogoutUrl(settings: ClientSettings, current: Uri): string {
    "https://" + Str(settings.auth0Domain) + "/v2/logout?" + "client_id=" + Str(settings.auth0ClientId)
    + "&returnTo=" + ReturnTo(settings, current)
  }

  /** `name=value` for each parameter. */
  function Pairs(ps: seq<QueryParam>): (texts: seq<string>)
    ensures |texts| == |ps|
    decreases |ps|
  {
    if ps == [] then [] else [ps[0].name + "=" + ps[0].value] + Pairs(ps[1..])
  }

  /** A `RequestUrl` written out, without escaping. */
  function UrlText(u: RequestUrl): string {
    u.scheme + "://" + u.host + u.path + "?" + Join("&", Pairs(u.query))
  }

  /** With a domain and a client id, the logout URL is the one the shared
      `BuildLogoutUrl` builds for the same return target. */
  lemma LogoutUrlAgainstShared(settings: ClientSettings, current: Uri)
    requires !IsNullOrEmpty(settings.auth0Domain) && !IsNullOrEmpty(settings.auth0ClientId)
    ensures var shared := CommonAuthentication.BuildLogoutUrl(settings.auth0Domain, settings.auth0ClientId,
                                                              Some(ReturnTo(settings, current)));
      shared.Ok? && LogoutUrl(settings, current) == UrlText(shared.value)
  {
    var returnTo := ReturnTo(settings, current);
    var shared := CommonAuthentication.BuildLogoutUrl(settings.auth0Domain, settings.auth0ClientId, Some(returnTo));
    var clientId := settings.auth0ClientId.value;
    var query := [QueryParam("client_id", clientId), QueryParam("returnTo", returnTo)];
    assert shared.value == RequestUrl("https", settings.auth0Domain.value, -1, "/v2/logout", query);
    var first := "client_id" + "=" + clientId;
    var second := "returnTo" + "=" + returnTo;
    assert query[1..][1..] == [];
    assert Pairs(query[1..]) == [second];
    assert Pairs(query) == [first, second];
    assert Join("&", [first, second]) == first + "&" + second;
    assert "https" + "://" == "https://";
    assert "/v2/logout" + "?" == "/v2/logout?";
    assert "client_id" + "=" == "client_id=";
    assert "&" + "returnTo" + "=" == "&returnTo=";
  }

  // ---------------------------------------------------------------------------
  // The silent-login interval and the login after a rejection
  // ---------------------------------------------------------------------------

  /** The interval `ScheduleSilentLogin` sets, as written: the token
      lifetime in seconds less 5000, read as milliseconds. */
  function SilentLoginIntervalAsWritten(expiresIn: Int32): Int32 {
    Wrap32(expiresIn - 5000)
  }

  /** The interval the service uses: five seconds before the tokens expire,
      in milliseconds. */
  function SilentLoginInterval(expiresIn: Int32): (ms: Int32)
    ensures 5 < expiresIn <= 2147483 ==> ms > 0 && ms + 5000 == expiresIn * 1000
  {
    ClientSession.LogOutIntervalRange(expiresIn);
    ClientSession.LogOutInterval(expiresIn)
  }

  /** Seconds read as milliseconds: a lifetime of up to 5000 seconds (an
      hour-long token, say) gives an interval the timer refuses, and a
      longer one makes the silent login fire after a thousandth of the time
      intended. */
  lemma IntervalReadAsMilliseconds(expiresIn: Int32)
    requires 5 < expiresIn <= 2147483
    ensures expiresIn <= 5000 ==> SilentLoginIntervalAsWritten(expiresIn) <= 0
    ensures expiresIn <= 5000 ==> ServerService.Rearmed(None, SilentLoginIntervalAsWritten(expiresIn)).0 == Threw(Argument(""))
    ensures expiresIn > 5000 ==> (SilentLoginIntervalAsWritten(expiresIn) + 5000) * 1000 == SilentLoginInterval(expiresIn) + 5000
    ensures SilentLoginIntervalAsWritten(3600) == -1400
  {
  }

  /** Whether the rejection path starts a new login, as written: it reads
      `message.Error.ToLower()`, which throws when the message carries no
      error. */
  function ReloginAfterRejectAsWritten(settings: ClientSettings, m: IframeMessage): Result<bool> {
    if m.error.None? then Err(NullReference)
    else Ok(ToLower(m.error.value) == "login_required" && settings.loginRequired)
  }

  /** A message from the domain without an error whose state is not the
      one expected is rejected, and the rejection path then throws: the
      session-changed event is never raised and the page never leaves the
      authorization response. */
  lemma NullErrorThrowsOnReject(settings: ClientSettings, latestState: string, m: IframeMessage,
                                parseUri: string -> Option<Uri>)
    requires FromDomain(settings, m, parseUri) && m.error.None?
    requires latestState != "" && m.state.Some? && latestState != ReplaceChar(m.state.value, ' ', '+')
    ensures MessageVerdict(settings, Some(latestState), m, parseUri) == Ok(Some("Invalid State"))
    ensures ReloginAfterRejectAsWritten(settings, m) == Err(NullReference)
  {
  }

  /** Whether the rejection path starts a new login, reading a missing
      error as no `login_required`: it never throws, and it agrees with the
      code as written wherever that does not throw. */
  function ReloginAfterReject(settings: ClientSettings, m: IframeMessage): (relogin: bool)
    ensures relogin <==> ReloginAfterRejectAsWritten(settings, m) == Ok(true)
    ensures m.error.Some? ==> ReloginAfterRejectAsWritten(settings, m) == Ok(relogin)
  {
    m.error.Some? && ToLower(m.error.value) == "login_required" && settings.loginRequired
  }

  // ---------------------------------------------------------------------------
  // The checks of an accepted message's tokens
  // ---------------------------------------------------------------------------

  /** What `UserInfo(accessToken)` gets from the HTTP exchange. */
  datatype UserInfoReply =
    | UserInfoThrew(error: Exn)                        // the request or the JSON reader threw
    | UserInfoNotOk                                    // a status other than 200: no user
    | UserInfoClaims(claims: Option<ClaimsDictionary>) // the claims of a 200 reply (JSON `null` is `None`)

  /** The tokens of a message that passed validation: the message's own
      under the implicit grant, else the reply to the code exchange
      (`GetAccessToken`), whose null answer to a failed exchange throws at
      the next dereference. */
  function TokensFor(grant: AuthenticationGrantTypes, m: IframeMessage, tokenReply: Result<Option<TokenInfo>>)
    : (r: Result<TokenInfo>)
    ensures grant == ImplicitGrant ==>
      && r.Ok? && r.value.accessToken == m.accessToken && r.value.idToken == m.idToken
      && r.value.expiresIn == m.expiresIn && r.value.refreshToken.None?
    ensures grant == AuthorizationCode ==> (r.Ok? <==> tokenReply.Ok? && tokenReply.value.Some?)
    ensures grant == AuthorizationCode && tokenReply.Ok? && tokenReply.value.Some? ==> r.value == tokenReply.value.value
  {
    if grant == ImplicitGrant then
      Ok(TokenInfo(m.accessToken, None, m.idToken, m.scope, m.tokenType, m.expiresIn))
    else
      match tokenReply
      case Err(e) => Err(e)
      case Ok(None) => Err(NullReference)
      case Ok(Some(t)) => Ok(t)
  }

  /** The token checks of `HandleAuth0Message` on the store `items`: the
      tokens and the failure they record (null for none), or the exception
      that escapes, with the store afterwards. The nonce is checked first
      and the access-token hash second, so a bad hash is what is recorded
      when both fail. */
  function CheckedTokens(snapshot: Snapshot, settings: ClientSettings, env: Environment, m: IframeMessage,
                         tokenReply: Result<Option<TokenInfo>>, items: map<string, string>)
    : (r: (Result<(TokenInfo, NString)>, map<string, string>))
    ensures (r.0.Ok? && r.0.value.1.None?) <==>
      && TokensFor(settings.authenticationGrant, m, tokenReply).Ok?
      && var t := TokensFor(settings.authenticationGrant, m, tokenReply).value;
         ValidateNonce(snapshot, t.idToken, items, env).0 == Ok(true)
         && ValidateAccessTokenHash(t.idToken, t.accessToken, env) == Ok(true)
    ensures r.0.Ok? ==>
      TokensFor(settings.authenticationGrant, m, tokenReply).Ok? && r.0.value.0 == TokensFor(settings.authenticationGrant, m, tokenReply).value
    ensures r.0.Ok? ==> r.1 == items - {NonceKey}
    ensures r.0.Ok? && r.0.value.1.Some? ==> r.0.value.1 == Some("Invalid Nonce") || r.0.value.1 == Some("Invalid at_hash")
  {
    match TokensFor(settings.authenticationGrant, m, tokenReply)
    case Err(e) => (Err(e), items)
    case Ok(t) =>
      var (nonce, after) := ValidateNonce(snapshot, t.idToken, items, env);
      if nonce.Err? then (Err(nonce.error), after)
      else
        match ValidateAccessTokenHash(t.idToken, t.accessToken, env)
        case Err(e) => (Err(e), after)
        case Ok(atHash) =>
          var failure: NString :=
            if !atHash then Some("Invalid at_hash") else if !nonce.value then Some("Invalid Nonce") else None;
          (Ok((t, failure)), after)
  }

  /** Whether `HandleAuth0Message` starts the session for a message: it
      passes validation against the state expected, and its tokens pass the
      nonce and access-token hash checks against the store `items`. */
  predicate Admits(snapshot: Snapshot, settings: ClientSettings, env: Environment, latestState: NString,
                   m: IframeMessage, tokenReply: Result<Option<TokenInfo>>, items: map<string, string>) {
    && Accepted(MessageVerdict(settings, latestState, m, env.parseUri))
    && var checked := CheckedTokens(snapshot, settings, env, m, tokenReply, items).0;
       checked.Ok? && checked.value.1.None?
  }

  /** What an admitted message has shown: it comes from the domain, it
      answers the request last issued when it carries no error, its ID
      token carries the nonce stored for that request, and its access token
      matches the ID token's `at_hash` when there is one. */
  lemma AdmittedMessage(snapshot: Snapshot, settings: ClientSettings, env: Environment, latestState: NString,
                        m: IframeMessage, tokenReply: Result<Option<TokenInfo>>, items: map<string, string>)
    requires Admits(snapshot, settings, env, latestState, m, tokenReply, items)
    ensures FromDomain(settings, m, env.parseUri)
    ensures IsNullOrEmpty(m.error) ==> ClientAuthentication.StateMatches(latestState, ResponseOf(m))
    ensures var t := TokensFor(settings.authenticationGrant, m, tokenReply).value;
      var claims := DecodedUserInfo(t.idToken, env).value.customClaims;
      && DecodedUserInfo(t.idToken, env).Ok?
      && StoredNonce(items).Some? && NonceKey in claims
      && NonceMatches(StoredNonce(items).value, claims[NonceKey], env)
      && (AtHashKey in claims ==>
            t.accessToken.Some? && claims[AtHashKey] == JString(ClientAuthentication.AccessTokenHash(t.accessToken.value, env.sha256)))
  {
  }

  /** The user an accepted session gets: the ID token's claims when
      `GetUserInfoFromIdToken` is set and there is an ID token, else the
      profile the user-info endpoint returns (none for an unsuccessful
      reply). */
  function UserFor(settings: ClientSettings, env: Environment, t: TokenInfo, reply: UserInfoReply)
    : (r: Result<Option<UserInfoDto>>)
    ensures settings.getUserInfoFromIdToken && !IsNullOrEmpty(t.idToken) ==>
      (r.Ok? <==> DecodedUserInfo(t.idToken, env).Ok?) && (r.Ok? ==> r.value == Some(DecodedUserInfo(t.idToken, env).value))
    ensures !(settings.getUserInfoFromIdToken && !IsNullOrEmpty(t.idToken)) && reply == UserInfoNotOk ==> r == Ok(None)
  {
    if settings.getUserInfoFromIdToken && !IsNullOrEmpty(t.idToken) then
      match DecodedUserInfo(t.idToken, env)
      case Err(e) => Err(e)
      case Ok(u) => Ok(Some(u))
    else
      match reply
      case UserInfoThrew(e) => Err(e)
      case UserInfoNotOk => Ok(None)
      case UserInfoClaims(None) => Err(NullReference)
      case UserInfoClaims(Some(cs)) =>
        match Project(cs, true, env)
        case Err(e) => Err(e)
        case Ok(u) => Ok(Some(u))
  }

  // ---------------------------------------------------------------------------
  // The service
  // ---------------------------------------------------------------------------

  /** An authorization request as `BuildAuthorizeUrl` issues it: its
      redirect target, the three nonces it drew and the scope. Its text is
      `Url`. */
  datatype AuthorizeRequest = AuthorizeRequest(redirect: string, verifier: string, state: string, nonce: string,
                                               scope: string)
  {
    /** The URL of the request. */
    function Url(settings: ClientSettings, sha256: seq<byte> -> Digest): string {
      AuthorizeUrl(settings, redirect, verifier, state, nonce, scope, sha256)
    }
  }

  /** Where the page is sent: an address, or an authorization request
      (whose address is its `Url`). */
  datatype Location = Page(url: string) | AuthorizeEndpoint(request: AuthorizeRequest)

  /** What the service asks of the browser, in order. */
  datatype Effect =
    | Navigate(location: Location)       // IUriHelper.NavigateTo
    | DrawIframe(frame: AuthorizeRequest) // `drawAuth0Iframe` with the request's URL and SilentLoginSuffix

  /** The browser as the service reaches it through the JavaScript runtime
      and `IUriHelper`: its local storage, and what it has been asked to
      do. */
  class Browser {
    var localStorage: map<string, string>
    var effects: seq<Effect>

    constructor (localStorage: map<string, string>)
      ensures this.localStorage == localStorage && effects == []
    {
      this.localStorage := localStorage;
      effects := [];
    }
  }

  /** `GenerateNonce()`: 32 bytes of the generator, base64-encoded. */
  method GenerateNonce(rng: CommonAuthentication.RandomNumberGenerator) returns (nonce: string)
    modifies rng
    ensures nonce == NonceAt(rng.stream, old(rng.position)) && rng.position == old(rng.position) + 32
  {
    var tokenData := rng.GetBytes(32);
    nonce := LegacyNonce(tokenData);
  }

  /** The nonce drawn from the generator's stream at `start`. */
  function NonceAt(stream: nat -> byte, start: nat): (nonce: string)
    ensures |nonce| == 44
  {
    LegacyNonce(CommonAuthentication.StreamBytes(stream, start, 32))
  }

  /** The request `BuildAuthorizeUrl` returns for the three nonces it
      drew: a null scope throws once the fields are set. */
  function RequestFor(settings: ClientSettings, current: Uri, verifier: string, state: string, nonce: string)
    : (r: Result<AuthorizeRequest>)
    ensures r.Err? <==> settings.auth0Scope.None?
    ensures r.Ok? ==> r.value.verifier == verifier && r.value.state == state && r.value.nonce == nonce
  {
    if settings.auth0Scope.None? then Err(NullReference)
    else Ok(AuthorizeRequest(RedirectTarget(settings, current), verifier, state, nonce, settings.auth0Scope.value))
  }

  /** What the silent login appends to the authorization URL. */
  const SilentLoginSuffix := "&response_mode=web_message&prompt=none"

  /** How `setIsLoggedIn` stores a flag. */
  function LoggedInText(value: bool): string {
    if value then "true" else "false"
  }

  class AuthenticationService {
    const snapshot: Snapshot
    const settings: ClientSettings
    const env: Environment
    /** The page's address, `new Uri(uriHelper.GetAbsoluteUri())`. */
    const currentUri: Uri
    const rng: CommonAuthentication.RandomNumberGenerator
    const browser: Browser

    var user: Option<UserInfoDto>
    var sessionState: SessionStates
    /** The states `OnSessionStateChanged` has been raised with. */
    var stateEvents: seq<SessionStates>
    /** `latestAuthorizeUrlCodeChallenge`: the PKCE code verifier. */
    var codeVerifier: NString
    var latestState: NString
    var redirectUri: NString
    var tokenInfo: Option<TokenInfo>
    var silentLoginTimer: Option<ServerService.Timer>

    /** An active session has tokens, and so has a running silent-login
        timer. */
    ghost predicate Valid()
      reads this`sessionState, this`tokenInfo, this`silentLoginTimer
    {
      && browser as object != rng
      && (sessionState == Active ==> tokenInfo.Some?)
      && (silentLoginTimer.Some? && silentLoginTimer.value.enabled ==> tokenInfo.Some?)
    }

    /** The constructor's state: no session, no request issued. The shared
        base class also starts the timer that injects the JavaScript
        helpers, which this model leaves out; the older service goes on to
        `ValidateSession` (see `Start`). */
    constructor (snapshot: Snapshot, settings: ClientSettings, env: Environment, currentUri: Uri,
                 rng: CommonAuthentication.RandomNumberGenerator, browser: Browser)
      requires browser as object != rng
      ensures Valid()
      ensures this.snapshot == snapshot && this.settings == settings && this.env == env
      ensures this.currentUri == currentUri && this.rng == rng && this.browser == browser
      ensures user.None? && sessionState == Undefined && stateEvents == []
      ensures codeVerifier.None? && latestState.None? && redirectUri.None? && tokenInfo.None? && silentLoginTimer.None?
    {
      this.snapshot := snapshot;
      this.settings := settings;
      this.env := env;
      this.currentUri := currentUri;
      this.rng := rng;
      this.browser := browser;
      user := None;
      sessionState := Undefined;
      stateEvents := [];
      codeVerifier := None;
      latestState := None;
      redirectUri := None;
      tokenInfo := None;
      silentLoginTimer := None;
    }

    /** `SetIsLoggedIn(value)`: the JavaScript `setIsLoggedIn`. */
    method SetIsLoggedIn(value: bool)
      modifies browser`localStorage
      ensures browser.localStorage == old(browser.localStorage)[IsLoggedInKey := LoggedInText(value)]
    {
      browser.localStorage := browser.localStorage[IsLoggedInKey := LoggedInText(value)];
    }

    /** The request `BuildAuthorizeUrl` issues when the generator stands at
        `start`: three nonces drawn in turn (the code verifier, the state and
        the nonce) and the redirect target, recorded in the fields and the
        nonce stored in the browser over `items`. */
    ghost predicate Issued(start: nat, items: map<string, string>)
      reads this`codeVerifier, this`latestState, this`redirectUri, browser, rng
    {
      && codeVerifier == Some(NonceAt(rng.stream, start))
      && latestState == Some(NonceAt(rng.stream, start + 32))
      && redirectUri == Some(RedirectTarget(settings, currentUri))
      && browser.localStorage == items[NonceKey := NonceAt(rng.stream, start + 64)]
      && rng.position == start + 96
    }

    /** The request `BuildAuthorizeUrl` returns for the generator at
        `start`; a null scope throws once the fields are set. */
    function IssuedRequest(start: nat): Result<AuthorizeRequest> {
      RequestFor(settings, currentUri, NonceAt(rng.stream, start), NonceAt(rng.stream, start + 32),
                 NonceAt(rng.stream, start + 64))
    }

    /** `BuildAuthorizeUrl`. */
    method BuildAuthorizeUrl() returns (r: Result<AuthorizeRequest>)
      requires browser as object != rng
      modifies rng, browser`localStorage, this`codeVerifier, this`latestState, this`redirectUri
      ensures Issued(old(rng.position), old(browser.localStorage))
      ensures r == IssuedRequest(old(rng.position))
    {
      ghost var start := rng.position;
      var verifier := GenerateNonce(rng);
      var state := GenerateNonce(rng);
      var nonce := GenerateNonce(rng);
      codeVerifier := Some(verifier);
      latestState := Some(state);
      browser.localStorage := browser.localStorage[NonceKey := nonce];
      redirectUri := Some(RedirectTarget(settings, currentUri));
      r := RequestFor(settings, currentUri, verifier, state, nonce);
    }

    /** `Authorize()`: navigate to a fresh authorization request. */
    method Authorize() returns (o: Outcome)
      requires browser as object != rng
      modifies rng, browser, this`codeVerifier, this`latestState, this`redirectUri
      ensures Issued(old(rng.position), old(browser.localStorage))
      ensures IssuedRequest(old(rng.position)).Ok? ==>
        o == Completed && browser.effects == old(browser.effects) + [Navigate(AuthorizeEndpoint(IssuedRequest(old(rng.position)).value))]
      ensures IssuedRequest(old(rng.position)).Err? ==>
        o == Threw(IssuedRequest(old(rng.position)).error) && browser.effects == old(browser.effects)
    {
      var url := BuildAuthorizeUrl();
      if url.Err? {
        return Threw(url.error);
      }
      browser.effects := browser.effects + [Navigate(AuthorizeEndpoint(url.value))];
      o := Completed;
    }

    /** `ValidateSession()`: a hidden iframe loads a fresh authorization
        request without a prompt. In the shared base class the JavaScript
        call runs in a task nobody awaits, so a failure to build the URL is
        lost; in the older service the call is synchronous and the failure
        reaches the caller. */
    method ValidateSession() returns (o: Outcome)
      requires browser as object != rng
      modifies rng, browser, this`codeVerifier, this`latestState, this`redirectUri
      ensures Issued(old(rng.position), old(browser.localStorage))
      ensures IssuedRequest(old(rng.position)).Ok? ==>
        && o == Completed
        && browser.effects == old(browser.effects) + [DrawIframe(IssuedRequest(old(rng.position)).value)]
      ensures IssuedRequest(old(rng.position)).Err? ==>
        && browser.effects == old(browser.effects)
        && o == (if snapshot == Services then Threw(IssuedRequest(old(rng.position)).error) else Completed)
    {
      var url := BuildAuthorizeUrl();
      if url.Err? {
        return if snapshot == Services then Threw(url.error) else Completed;
      }
      browser.effects := browser.effects + [DrawIframe(url.value)];
      o := Completed;
    }

    /** `BuildLogoutUrl()`, which also records the user as logged out. */
    method BuildLogoutUrl() returns (url: string)
      modifies browser`localStorage
      ensures url == LogoutUrl(settings, currentUri)
      ensures browser.localStorage == old(browser.localStorage)[IsLoggedInKey := "false"]
    {
      SetIsLoggedIn(false);
      url := LogoutUrl(settings, currentUri);
    }

    /** `LogOut()`: navigate to the logout endpoint. */
    method LogOut()
      modifies browser
      ensures browser.localStorage == old(browser.localStorage)[IsLoggedInKey := "false"]
      ensures browser.effects == old(browser.effects) + [Navigate(Page(LogoutUrl(settings, currentUri)))]
    {
      var url := BuildLogoutUrl();
      browser.effects := browser.effects + [Navigate(Page(url))];
    }

    /** `ValidateAth0IframeMessage(message)`: the verdict, read against the
        state expected. A `login_required` from the domain with
        `LoginRequired` set first records the user as logged out and sends
        the page to a fresh authorization request. */
    method ValidateMessage(m: IframeMessage) returns (r: Result<NString>)
      requires browser as object != rng
      modifies rng, browser, this`codeVerifier, this`latestState, this`redirectUri
      ensures !ReloginOnValidation(settings, m, env.parseUri) ==>
        && r == MessageVerdict(settings, old(latestState), m, env.parseUri)
        && browser.localStorage == old(browser.localStorage) && browser.effects == old(browser.effects)
        && rng.position == old(rng.position)
        && codeVerifier == old(codeVerifier) && latestState == old(latestState) && redirectUri == old(redirectUri)
      ensures ReloginOnValidation(settings, m, env.parseUri) ==>
        && Issued(old(rng.position), old(browser.localStorage)[IsLoggedInKey := "false"])
        && (IssuedRequest(old(rng.position)).Ok? ==>
              r == Ok(Some("Login Required"))
              && browser.effects == old(browser.effects) + [Navigate(AuthorizeEndpoint(IssuedRequest(old(rng.position)).value))])
        && (IssuedRequest(old(rng.position)).Err? ==>
              r == Err(IssuedRequest(old(rng.position)).error) && browser.effects == old(browser.effects))
    {
      if !ReloginOnValidation(settings, m, env.parseUri) {
        return MessageVerdict(settings, latestState, m, env.parseUri);
      }
      SetIsLoggedIn(false);
      var url := BuildAuthorizeUrl();
      if url.Err? {
        return Err(url.error);
      }
      browser.effects := browser.effects + [Navigate(AuthorizeEndpoint(url.value))];
      r := Ok(Some("Login Required"));
    }

    /** `ScheduleSilentLogin()`: the timer (made on first use) is stopped
        and re-armed to validate the session five seconds before the tokens
        expire. */
    method ScheduleSilentLogin() returns (o: Outcome)
      requires Valid()
      modifies this`silentLoginTimer
      ensures Valid()
      ensures tokenInfo.Some? ==>
        (o, silentLoginTimer) == (ServerService.Rearmed(old(silentLoginTimer), SilentLoginInterval(tokenInfo.value.expiresIn)).0,
                                  Some(ServerService.Rearmed(old(silentLoginTimer), SilentLoginInterval(tokenInfo.value.expiresIn)).1))
      ensures tokenInfo.None? ==>
        && o == Threw(NullReference)
        && silentLoginTimer == Some(if old(silentLoginTimer).None? then ServerService.NewTimer
                                    else old(silentLoginTimer).value.(enabled := false))
    {
      var timer := if silentLoginTimer.None? then ServerService.NewTimer else silentLoginTimer.value.(enabled := false);
      if tokenInfo.None? {
        silentLoginTimer := Some(timer);
        return Threw(NullReference);
      }
      var (outcome, rearmed) := ServerService.Rearmed(silentLoginTimer, SilentLoginInterval(tokenInfo.value.expiresIn));
      silentLoginTimer := Some(rearmed);
      o := outcome;
    }

    /** The accepting branch of `HandleAuth0Message`: keep the tokens,
        schedule the silent login, fetch the user, and mark the session
        active. */
    method Accept(t: TokenInfo, reply: UserInfoReply) returns (o: Outcome)
      requires Valid()
      modifies this`tokenInfo, this`silentLoginTimer, this`user, this`sessionState, this`stateEvents, browser`localStorage
      ensures Valid()
      ensures tokenInfo == Some(t)
      ensures silentLoginTimer == Some(ServerService.Rearmed(old(silentLoginTimer), SilentLoginInterval(t.expiresIn)).1)
      ensures var scheduled := ServerService.Rearmed(old(silentLoginTimer), SilentLoginInterval(t.expiresIn)).0;
        var fetched := UserFor(settings, env, t, reply);
        && (o == Completed <==> scheduled == Completed && fetched.Ok?)
        && (scheduled.Threw? ==> o == scheduled)
        && (scheduled == Completed && fetched.Err? ==> o == Threw(fetched.error))
        && (o == Completed ==>
              && user == fetched.value && sessionState == Active && stateEvents == old(stateEvents) + [Active]
              && browser.localStorage == old(browser.localStorage)[IsLoggedInKey := "true"])
        && (o.Threw? ==>
              && user == old(user) && sessionState == old(sessionState) && stateEvents == old(stateEvents)
              && browser.localStorage == old(browser.localStorage))
    {
      tokenInfo := Some(t);
      var scheduled := ScheduleSilentLogin();
      if scheduled.Threw? {
        return scheduled;
      }
      var fetched := UserFor(settings, env, t, reply);
      if fetched.Err? {
        return Threw(fetched.error);
      }
      user := fetched.value;
      sessionState := Active;
      SetIsLoggedIn(true);
      stateEvents := stateEvents + [Active];
      o := Completed;
    }

    /** The rejecting branch of `HandleAuth0Message`: forget the session and
        the request, stop and dispose of the silent-login timer, record the
        user as logged out, and start a new login for `login_required`. */
    method Reject(m: IframeMessage) returns (o: Outcome)
      requires Valid()
      modifies this`sessionState, this`user, this`tokenInfo, this`codeVerifier, this`latestState, this`redirectUri
      modifies this`silentLoginTimer, this`stateEvents, rng, browser
      ensures Valid()
      ensures sessionState == Inactive && user.None? && tokenInfo.None?
      ensures silentLoginTimer == ServerService.Disposed(old(silentLoginTimer))
      ensures !ReloginAfterReject(settings, m) ==>
        && o == Completed && codeVerifier.None? && latestState.None? && redirectUri == old(redirectUri)
        && browser.localStorage == old(browser.localStorage)[IsLoggedInKey := "false"]
        && browser.effects == old(browser.effects) && rng.position == old(rng.position)
        && stateEvents == old(stateEvents) + [Inactive]
      ensures ReloginAfterReject(settings, m) ==>
        && Issued(old(rng.position), old(browser.localStorage)[IsLoggedInKey := "false"])
        && (IssuedRequest(old(rng.position)).Ok? ==>
              && o == Completed && stateEvents == old(stateEvents) + [Inactive]
              && browser.effects == old(browser.effects) + [Navigate(AuthorizeEndpoint(IssuedRequest(old(rng.position)).value))])
        && (IssuedRequest(old(rng.position)).Err? ==>
              o == Threw(IssuedRequest(old(rng.position)).error) && stateEvents == old(stateEvents)
              && browser.effects == old(browser.effects))
    {
      sessionState := Inactive;
      user := None;
      tokenInfo := None;
      codeVerifier := None;
      latestState := None;
      silentLoginTimer := ServerService.Disposed(silentLoginTimer);
      SetIsLoggedIn(false);
      if ReloginAfterReject(settings, m) {
        var url := BuildAuthorizeUrl();
        if url.Err? {
          return Threw(url.error);
        }
        browser.effects := browser.effects + [Navigate(AuthorizeEndpoint(url.value))];
      }
      stateEvents := stateEvents + [Inactive];
      o := Completed;
    }

    /** The checks of `HandleAuth0Message`: the message's validation, then,
        when it records no failure, the tokens and their nonce and
        access-token hash checks (which consume the stored nonce). The
        tokens are returned exactly for an admitted message. */
    method CheckMessage(m: IframeMessage, tokenReply: Result<Option<TokenInfo>>)
      returns (r: Result<Option<TokenInfo>>)
      requires browser as object != rng
      modifies rng, browser, this`codeVerifier, this`latestState, this`redirectUri
      ensures r.Ok? ==>
        (r.value.Some? <==> Admits(snapshot, settings, env, old(latestState), m, tokenReply, old(browser.localStorage)))
      ensures r.Ok? && r.value.Some? ==>
        && r.value.value == TokensFor(settings.authenticationGrant, m, tokenReply).value
        && browser.localStorage == old(browser.localStorage) - {NonceKey}
    {
      var verdict := ValidateMessage(m);
      if verdict.Err? {
        return Err(verdict.error);
      }
      if !IsNullOrEmpty(verdict.value) {
        return Ok(None);
      }
      var (checked, after) := CheckedTokens(snapshot, settings, env, m, tokenReply, browser.localStorage);
      browser.localStorage := after;
      if checked.Err? {
        return Err(checked.error);
      }
      r := if checked.value.1.None? then Ok(Some(checked.value.0)) else Ok(None);
    }

    /** `HandleAuth0Message(message)`, the handler of the iframe's
        authorization response. `tokenReply` is what the code exchange
        returns (used under the authorization-code grant) and `reply` what
        the user-info endpoint returns. When it completes, the session is
        active exactly for an admitted message, the event is raised once
        with the new state, and the page has been sent last to its own
        address without query or fragment. */
    method HandleAuth0Message(m: IframeMessage, tokenReply: Result<Option<TokenInfo>>, reply: UserInfoReply)
      returns (o: Outcome)
      requires Valid()
      modifies this, rng, browser
      ensures Valid()
      ensures o == Completed ==>
        && |browser.effects| > 0 && browser.effects[|browser.effects| - 1] == Navigate(Page(currentUri.LeftPartPath()))
        && stateEvents == old(stateEvents) + [sessionState]
        && (sessionState == Active <==>
              Admits(snapshot, settings, env, old(latestState), m, tokenReply, old(browser.localStorage)))
      ensures o == Completed && sessionState == Active ==>
        && tokenInfo == Some(TokensFor(settings.authenticationGrant, m, tokenReply).value)
        && NonceKey !in browser.localStorage
        && IsLoggedInKey in browser.localStorage && browser.localStorage[IsLoggedInKey] == "true"
      ensures o == Completed && sessionState != Active ==>
        sessionState == Inactive && tokenInfo.None? && user.None?
      ensures o.Threw? ==>
        && stateEvents == old(stateEvents)
        && ((sessionState == old(sessionState) && user == old(user))
            || (sessionState == Inactive && user.None? && tokenInfo.None?))
    {
      var checked := CheckMessage(m, tokenReply);
      if checked.Err? {
        return Threw(checked.error);
      }
      if checked.value.Some? {
        o := Accept(checked.value.value, reply);
      } else {
        o := Reject(m);
      }
      if o.Threw? {
        return;
      }
      browser.effects := browser.effects + [Navigate(Page(currentUri.LeftPartPath()))];
    }
  }

  /** Making the service: the older service validates the session straight
      away, the shared base class does not. */
  method Start(snapshot: Snapshot, settings: ClientSettings, env: Environment, currentUri: Uri,
               rng: CommonAuthentication.RandomNumberGenerator, browser: Browser)
    returns (service: AuthenticationService, o: Outcome)
    requires browser as object != rng
    modifies rng, browser
    ensures fresh(service) && service.Valid()
    ensures service.snapshot == snapshot && service.settings == settings && service.rng == rng && service.browser == browser
    ensures service.sessionState == Undefined && service.stateEvents == []
    ensures snapshot == SharedBase ==>
      && o == Completed && service.latestState.None?
      && rng.position == old(rng.position) && browser.localStorage == old(browser.localStorage)
      && browser.effects == old(browser.effects)
    ensures snapshot == Services ==>
      && service.Issued(old(rng.position), old(browser.localStorage))
      && (o == Completed <==> service.IssuedRequest(old(rng.position)).Ok?)
  {
    service := new AuthenticationService(snapshot, settings, env, currentUri, rng, browser);
    o := Completed;
    if snapshot == Services {
      o := service.ValidateSession();
    }
  }
}

=== FILE: models.dfy ===
/** The library's data records (src/Blazor.Auth0.Shared/Models and
    src/Blazor.Auth0.ClientSide/Models). A C# reference that may be null is an
    `Option`; a nullable string is an `NString`. */
module Models {
  import opened Wrappers
  import opened Text
  import opened Enumerations
  import opened JsonModel

  /** A C# `int`. */
  type Int32 = x: int | -0x8000_0000 <= x < 0x8000_0000

  /** Unchecked conversion to `int`: the low 32 bits, two's complement (the
      result of overflowing `int` arithmetic and of an `(int)` cast from
      `long`). */
  function Wrap32(x: int): (r: Int32)
    ensures -0x8000_0000 <= x < 0x8000_0000 ==> r == x
    ensures (r - x) % 0x1_0000_0000 == 0
  {
    var m := x % 0x1_0000_0000;
    if m < 0x8000_0000 then m else m - 0x1_0000_0000
  }

  /** A `System.DateTime`, as its tick count; `default(DateTime)` has 0. */
  datatype DateTime = DateTime(ticks: int)

  const DefaultDateTime := DateTime(0)

  /** A parsed absolute `System.Uri`. `query` is empty or starts with '?';
      `fragment` is empty or starts with '#'. */
  datatype Uri = Uri(scheme: string, host: string, port: int, path: string, query: string, fragment: string) {
    predicate IsDefaultPort() {
      (scheme == "https" && port == 443) || (scheme == "http" && port == 80)
    }

    /** `Uri.Authority`: the host, and the port when it is not the scheme's. */
    function Authority(): string {
      host + (if IsDefaultPort() then "" else ":" + IntToString(port))
    }

    /** `Uri.GetLeftPart(UriPartial.Authority)`. */
    function LeftPartAuthority(): string {
      scheme + "://" + Authority()
    }

    /** `Uri.GetLeftPart(UriPartial.Path)`: without query and fragment. */
    function LeftPartPath(): string {
      LeftPartAuthority() + path
    }

    /** `Uri.AbsoluteUri`. */
    function AbsoluteUri(): string {
      LeftPartPath() + query + fragment
    }
  }

  /** One `QueryString.Add(name, value)`: rendered `name=value`, a null value as `name=`. */
  datatype QueryParam = QueryParam(name: string, value: string)

  /** A URL assembled with `UriBuilder`; `port` -1 is the scheme's default. */
  datatype RequestUrl = RequestUrl(scheme: string, host: string, port: int, path: string, query: seq<QueryParam>) {
    /** The query parameter names, in order. */
    function Names(): seq<string> {
      seq(|query|, i requires 0 <= i < |query| => query[i].name)
    }
  }

  /** Options of one authorization request (AuthorizeOptions.cs). */
  datatype AuthorizeOptions = AuthorizeOptions(
    domain: NString,
    clientId: NString,
    redirectUri: NString,
    responseType: ResponseTypes,
    responseMode: ResponseModes,
    state: NString,
    nonce: NString,
    codeChallengeMethod: CodeChallengeMethods,
    codeChallenge: NString,
    codeVerifier: NString,
    scope: NString,
    audience: NString,
    connection: NString,
    realm: NString,
    appState: NString,
    namespace: NString,
    keyLength: int)

  /** The library's configuration (ClientOptions.cs). */
  datatype ClientOptions = ClientOptions(
    claimsIssuer: NString,
    domain: NString,
    clientId: NString,
    clientSecret: NString,
    connection: NString,
    redirectUri: NString,
    authorizePath: NString,
    callbackPath: NString,
    remoteSignOutPath: NString,
    responseType: ResponseTypes,
    responseMode: ResponseModes,
    scope: NString,
    audience: NString,
    requireAuthenticatedUser: bool,
    redirectAlwaysToHome: bool,
    slidingExpiration: bool,
    getUserInfoFromIdToken: bool,
    namespace: NString,
    keyLength: int,
    realm: NString,
    loginMode: LoginModes)

  /** A `ClientOptions` with its property initialisers, for a given domain and
      client id. */
  function DefaultClientOptions(domain: NString, clientId: NString): ClientOptions {
    ClientOptions(
      claimsIssuer := Some("Auth0"), domain := domain, clientId := clientId, clientSecret := None,
      connection := None, redirectUri := None, authorizePath := Some("/account/authorize"),
      callbackPath := Some("/account/callback"), remoteSignOutPath := Some("/account/logout"),
      responseType := Code, responseMode := Query, scope := Some("openid profile email"),
      audience := None, requireAuthenticatedUser := true, redirectAlwaysToHome := true,
      slidingExpiration := false, getUserInfoFromIdToken := false,
      namespace := Some("com.auth0.auth."), keyLength := 32, realm := None, loginMode := Redirect)
  }

  /** Input of `ParseHash` (ParseHashOptions.cs). */
  datatype ParseHashOptions = ParseHashOptions(absoluteUri: Option<Uri>, responseType: ResponseTypes)

  /** The parameters of an authorization response (ParsedHash.cs). */
  datatype ParsedHash = ParsedHash(
    state: NString,
    error: NString,
    errorDescription: NString,
    code: NString,
    accessToken: NString,
    idToken: NString,
    refreshToken: NString)

  /** Tokens of a session (SessionInfo.cs). */
  datatype SessionInfo = SessionInfo(
    accessToken: NString,
    expiresIn: Int32,
    idToken: NString,
    refreshToken: NString,
    scope: NString,
    tokenType: NString,
    metadata: map<string, Json>)

  /** An authorization or token response (AuthorizationResponse.cs, a
      `SessionInfo` subclass: the inherited part is `session`). */
  datatype AuthorizationResponse = AuthorizationResponse(
    session: SessionInfo,
    isTrusted: bool,
    origin: NString,
    responseType: NString,
    state: NString,
    error: NString,
    errorDescription: NString,
    code: NString)

  /** What is remembered about a pending authorization
      (SessionAuthorizationTransaction.cs). */
  datatype SessionAuthorizationTransaction = SessionAuthorizationTransaction(
    state: NString,
    nonce: NString,
    codeVerifier: NString,
    appState: NString,
    redirectUri: NString,
    connection: NString)

  /** The transaction `JsonSerializer.Deserialize` makes of the text "{}". */
  const EmptyTransaction := SessionAuthorizationTransaction(None, None, None, None, None, None)

  /** Claims of an access token (AccessTokenPayload.cs). */
  datatype AccessTokenPayload = AccessTokenPayload(
    permissions: Option<seq<NString>>,
    iat: int,
    exp: int,
    iss: NString,
    aud: Option<seq<NString>>,
    azp: NString,
    scope: NString)

  /** `JsonSerializer.Deserialize<AccessTokenPayload>`: `null` gives null, an
      object binds its members by exact name, anything else throws. */
  function BindAccessTokenPayload(j: Json): (r: Result<Option<AccessTokenPayload>>)
    ensures j.JNull? ==> r == Ok(None)
    ensures !j.JNull? && !j.JObject? ==> r.Err?
    ensures r.Ok? && r.value.Some? ==>
      j.JObject? && BindStringList(Member(j.members, "permissions")) == Ok(r.value.value.permissions)
  {
    match j
    case JNull => Ok(None)
    case JObject(m) =>
      var permissions :- BindStringList(Member(m, "permissions"));
      var iat :- BindLong(Member(m, "iat"));
      var exp :- BindLong(Member(m, "exp"));
      var iss :- BindString(Member(m, "iss"));
      var aud :- BindStringList(Member(m, "aud"));
      var azp :- BindString(Member(m, "azp"));
      var scope :- BindString(Member(m, "scope"));
      Ok(Some(AccessTokenPayload(permissions, iat, exp, iss, aud, azp, scope)))
    case _ => Err(Exn.Json)
  }
}

=== FILE: server_service.dfy ===
/** The server-side `AuthenticationService`
    (src/Blazor.Auth0.ServerSide/AuthenticationService.cs): the session of a
    Blazor Server application. Signing in is the cookie middleware's work;
    the service takes the tokens the middleware saved, keeps the profile,
    the tokens, the signed-in principal, the session state and a log-out
    timer, renews the tokens when the timer fires, and sends the browser to
    the sign-out endpoint. */
module ServerService {
  import opened Wrappers
  import opened Text
  import opened Base64
  import opened Enumerations
  import opened JsonModel
  import opened Models
  import opened UserInfoModel
  import opened CommonAuthentication
  import ClientSession
  import ClientService

  // ---------------------------------------------------------------------------
  // The world around the service
  // ---------------------------------------------------------------------------

  /** A `System.Timers.Timer`: whether it runs, its interval in
      milliseconds, and whether it has been disposed. A disposed timer can
      still be stopped and given an interval, but never starts again. */
  datatype Timer = Timer(enabled: bool, interval: int, disposed: bool)

  /** `new Timer()`: stopped, with the default interval of 100 ms. */
  const NewTimer := Timer(false, 100, false)

  /** `timer?.Stop()`. */
  function Stopped(timer: Option<Timer>): Option<Timer> {
    if timer.None? then None else Some(timer.value.(enabled := false))
  }

  /** `timer?.Stop(); timer?.Dispose()`: the field keeps the disposed
      timer. */
  function Disposed(timer: Option<Timer>): (r: Option<Timer>)
    ensures r.Some? <==> timer.Some?
    ensures r.Some? ==> !r.value.enabled && r.value.disposed && r.value.interval == timer.value.interval
  {
    if timer.None? then None else Some(timer.value.(enabled := false, disposed := true))
  }

  /** A `ClaimsPrincipal` with its identity; `isAuthenticated` is
      `Identity.IsAuthenticated`. */
  datatype Principal = Principal(identity: ClientSession.ClaimsIdentity, isAuthenticated: bool)

  /** `new ClaimsPrincipal(new GenericIdentity(string.Empty, "JWT"))`: a
      generic identity without a name is not authenticated. Its own
      `ClaimTypes.Name` claim is the identity's `name` field. */
  const AnonymousPrincipal := Principal(ClientSession.AnonymousIdentity, false)

  /** The collaborators the service calls but that are not part of this
      model: UTF-8 decoding with JSON parsing, `DateTime` parsing and
      `int.Parse`. */
  datatype Environment = Environment(
    parseJson: seq<byte> -> Option<Json>,
    parseDate: string -> Option<DateTime>,
    parseInt: string -> Result<Int32>)

  /** The browser as `NavigationManager` drives it: the addresses the
      service has sent it to (each with a forced reload), in order. */
  class Navigation {
    var visits: seq<RequestUrl>

    constructor ()
      ensures visits == []
    {
      visits := [];
    }
  }

  // ---------------------------------------------------------------------------
  // Tokens and profile
  // ---------------------------------------------------------------------------

  /** `DecodeTokenPayload<AccessTokenPayload>(accessToken)`, read through:
      a payload that is JSON `null` fails on the null reference. It holds
      exactly the permissions the client-side service reads from the same
      token. */
  function AccessTokenClaims(accessToken: string, parseJson: seq<byte> -> Option<Json>): (r: Result<AccessTokenPayload>)
    ensures r.Ok? <==> ClientSession.GrantedPermissions(accessToken, parseJson).Ok?
    ensures r.Ok? ==> ClientSession.GrantedPermissions(accessToken, parseJson).value == r.value.permissions.GetOr([])
  {
    match DecodeTokenPayload(Some(accessToken), parseJson)
    case Err(e) => Err(e)
    case Ok(j) =>
      match BindAccessTokenPayload(j)
      case Err(e) => Err(e)
      case Ok(None) => Err(NullReference)
      case Ok(Some(payload)) => Ok(payload)
  }

  /** What `InitiateUserSession` keeps, `now` being the seconds since 1970:
      with an audience and an access token, the token's permissions (none
      when it has no such claim) are appended to the profile's, and the
      tokens' lifetime becomes the seconds left until the token's `exp`
      (cast unchecked to `int`); a missing profile then fails on the null
      reference. Otherwise profile and tokens are kept as they are. Nothing
      else of either changes. */
  function InitiatedSession(c: ClientOptions, userInfo: Option<UserInfo>, s: SessionInfo, now: Int32,
                            parseJson: seq<byte> -> Option<Json>): (r: Result<(Option<UserInfo>, SessionInfo)>)
    ensures !ClientSession.AddsPermissions(c, s) ==> r == Ok((userInfo, s))
    ensures ClientSession.AddsPermissions(c, s) && r.Ok? ==>
      var granted := ClientSession.GrantedPermissions(s.accessToken.value, parseJson);
      var claims := AccessTokenClaims(s.accessToken.value, parseJson);
      && granted.Ok? && claims.Ok? && userInfo.Some? && r.value.0.Some?
      && r.value.0.value.permissions == userInfo.value.permissions + granted.value
      && r.value.0.value.(permissions := userInfo.value.permissions) == userInfo.value
      && r.value.1 == s.(expiresIn := Wrap32(claims.value.exp - now))
    ensures ClientSession.AddsPermissions(c, s) && userInfo.None? ==> r.Err?
    ensures ClientSession.AddsPermissions(c, s) && ClientSession.GrantedPermissions(s.accessToken.value, parseJson).Err? ==> r.Err?
  {
    if ClientSession.AddsPermissions(c, s) then
      match AccessTokenClaims(s.accessToken.value, parseJson)
      case Err(e) => Err(e)
      case Ok(payload) =>
        if userInfo.None? then Err(NullReference)
        else
          var u := userInfo.value;
          Ok((Some(u.(permissions := u.permissions + payload.permissions.GetOr([]))),
              s.(expiresIn := Wrap32(payload.exp - now))))
    else Ok((userInfo, s))
  }

  /** Both services keep the same profile for the same tokens: the
      server-side one differs only in also recomputing the lifetime. */
  lemma SameProfileAsClient(c: ClientOptions, userInfo: Option<UserInfo>, s: SessionInfo, now: Int32,
                            parseJson: seq<byte> -> Option<Json>)
    requires InitiatedSession(c, userInfo, s, now, parseJson).Ok?
    ensures ClientSession.WithPermissions(c, userInfo, s, parseJson) == Ok(InitiatedSession(c, userInfo, s, now, parseJson).value.0)
  {
    if ClientSession.AddsPermissions(c, s) {
      var granted := ClientSession.GrantedPermissions(s.accessToken.value, parseJson);
      assert granted.Ok?;
    }
  }

  /** The profile and tokens `HandleAuthorizationResponseAsync` keeps for a
      response carrying the tokens `s`: the ID token's payload is the
      profile, completed by `InitiateUserSession`. A response without an ID
      token fails, and only the lifetime of the tokens can change. */
  function AcceptedSession(c: ClientOptions, env: Environment, s: SessionInfo, now: Int32)
    : (r: Result<(Option<UserInfo>, SessionInfo)>)
    ensures IsNullOrEmpty(s.idToken) ==> r == Err(Argument("token"))
    ensures DecodeTokenPayload(s.idToken, env.parseJson).Err? ==> r == Err(DecodeTokenPayload(s.idToken, env.parseJson).error)
    ensures r.Ok? ==>
      var profile := BindUserInfo(DecodeTokenPayload(s.idToken, env.parseJson).value, env.parseDate);
      && DecodeTokenPayload(s.idToken, env.parseJson).Ok? && profile.Ok?
      && r == InitiatedSession(c, profile.value, s, now, env.parseJson)
    ensures r.Ok? ==> r.value.1 == s.(expiresIn := r.value.1.expiresIn)
  {
    match DecodeTokenPayload(s.idToken, env.parseJson)
    case Err(e) => Err(e)
    case Ok(j) =>
      match BindUserInfo(j, env.parseDate)
      case Err(e) => Err(e)
      case Ok(profile) => InitiatedSession(c, profile, s, now, env.parseJson)
  }

  /** The response the constructor's background task hands to
      `HandleAuthorizationResponseAsync`: the tokens the cookie middleware
      saved, with the lifetime parsed from `expires_in` (0 when there is
      none). */
  function CookieResponse(env: Environment, refreshToken: NString, accessToken: NString, idToken: NString,
                          expiresIn: NString): (r: Result<AuthorizationResponse>)
    ensures IsNullOrEmpty(expiresIn) ==> r.Ok? && r.value.session.expiresIn == 0
    ensures !IsNullOrEmpty(expiresIn) ==>
      (r.Ok? <==> env.parseInt(expiresIn.value).Ok?)
      && (r.Ok? ==> r.value.session.expiresIn == env.parseInt(expiresIn.value).value)
    ensures r.Ok? ==>
      && r.value.session.accessToken == accessToken && r.value.session.idToken == idToken
      && r.value.session.refreshToken == refreshToken && !r.value.isTrusted && r.value.error.None?
  {
    var lifetime :- if IsNullOrEmpty(expiresIn) then Ok(0) else env.parseInt(expiresIn.value);
    Ok(AuthorizationResponse(
      SessionInfo(accessToken, lifetime, idToken, refreshToken, None, None, map[]),
      false, None, None, None, None, None, None))
  }

  // ---------------------------------------------------------------------------
  // The log-out timer
  // ---------------------------------------------------------------------------

  /** The interval `ScheduleLogOut` gives the timer: the tokens' whole
      lifetime in milliseconds, computed in unchecked 32-bit `int`
      arithmetic. */
  function LogOutInterval(expiresIn: Int32): Int32 {
    Wrap32(expiresIn * 1000)
  }

  /** For a lifetime of one second up to 2147483 seconds the interval is
      the exact, positive, millisecond count; for no lifetime at all (down
      to -2147483) it is not positive, which the timer refuses. */
  lemma LogOutIntervalRange(expiresIn: Int32)
    ensures 0 < expiresIn <= 2147483 ==> LogOutInterval(expiresIn) == expiresIn * 1000 > 0
    ensures -2147483 <= expiresIn <= 0 ==> LogOutInterval(expiresIn) <= 0
  {
  }

  /** The server-side timer has no safety margin: it fires five seconds
      after the client-side one would for the same lifetime. */
  lemma NoSafetyMargin(expiresIn: Int32)
    requires 5 < expiresIn <= 2147483
    ensures LogOutInterval(expiresIn) == ClientSession.LogOutInterval(expiresIn) + 5000
  {
    LogOutIntervalRange(expiresIn);
    ClientSession.LogOutIntervalRange(expiresIn);
  }

  /** The timer after `prior` (made on first use) is stopped and re-armed
      with `interval` milliseconds, and how the call ends: an
      interval that is not positive is refused (`ArgumentException`) and a
      disposed timer refuses to start (`ObjectDisposedException`); either
      way the timer stays stopped. */
  function Rearmed(prior: Option<Timer>, interval: int): (r: (Outcome, Timer))
    ensures r.0 == Completed <==> r.1.enabled
    ensures r.1.enabled ==> r.1.interval == interval > 0
    ensures r.1.disposed <==> prior.Some? && prior.value.disposed
    ensures interval <= 0 ==> r.0 == Threw(Argument(""))
    ensures r.0 == Threw(ObjectDisposed) <==> interval > 0 && prior.Some? && prior.value.disposed
  {
    var t := if prior.None? then NewTimer else prior.value.(enabled := false);
    if interval <= 0 then (Threw(Argument("")), t)
    else if t.disposed then (Threw(ObjectDisposed), t.(interval := interval))
    else (Completed, t.(enabled := true, interval := interval))
  }

  /** The argument checks `Authentication.RefreshToken`
      (src/Blazor.Auth0.ServerSide/Authentication.cs) makes before its HTTP
      round trip, in order: domain, audience, client id, client secret and
      refresh token must all be non-empty. Only the audience check names its
      parameter; the other four pass the name as the exception's message,
      so their parameter name is empty. */
  function RefreshArguments(c: ClientOptions, refreshToken: NString): (o: Outcome)
    ensures o == Completed <==>
      !IsNullOrEmpty(c.domain) && !IsNullOrEmpty(c.audience) && !IsNullOrEmpty(c.clientId)
      && !IsNullOrEmpty(c.clientSecret) && !IsNullOrEmpty(refreshToken)
    ensures o.Threw? ==> o.error.Argument?
    ensures IsNullOrEmpty(c.domain) ==> o == Threw(Argument(""))
    ensures o == Threw(Argument("audience")) <==> !IsNullOrEmpty(c.domain) && IsNullOrEmpty(c.audience)
  {
    if IsNullOrEmpty(c.domain) then Threw(Argument(""))
    else if IsNullOrEmpty(c.audience) then Threw(Argument("audience"))
    else if IsNullOrEmpty(c.clientId) then Threw(Argument(""))
    else if IsNullOrEmpty(c.clientSecret) then Threw(Argument(""))
    else if IsNullOrEmpty(refreshToken) then Threw(Argument(""))
    else Completed
  }

  /** What the timer's handler does once it has stopped the timer. */
  datatype Renewal =
    | Renew(response: AuthorizationResponse)  // handle the refreshed tokens
    | End                                      // log out and clear the session
    | Fail(error: Exn)                         // an exception escapes the handler

  /** The handler's decision for the session's tokens `s`, `reply` being
      the token endpoint's answer to the refresh (`Ok(None)` for a JSON
      `null`): without sliding expiration, or when the refresh reports an
      error, the session ends. A successful refresh is handled as a trusted
      response that keeps the old refresh token. A failed argument check or
      round trip escapes. */
  function RenewalFor(c: ClientOptions, s: SessionInfo, reply: Result<Option<AuthorizationResponse>>): (r: Renewal)
    ensures !c.slidingExpiration ==> r == End
    ensures c.slidingExpiration && RefreshArguments(c, s.refreshToken).Threw? ==>
      r == Fail(RefreshArguments(c, s.refreshToken).error)
    ensures r.Renew? ==>
      && c.slidingExpiration && RefreshArguments(c, s.refreshToken) == Completed
      && reply.Ok? && reply.value.Some? && IsNullOrEmpty(reply.value.value.error)
      && r.response.isTrusted && r.response.session.refreshToken == s.refreshToken
      && r.response.(isTrusted := reply.value.value.isTrusted, session := reply.value.value.session) == reply.value.value
      && r.response.session.(refreshToken := reply.value.value.session.refreshToken) == reply.value.value.session
    ensures r == End <==>
      !c.slidingExpiration
      || (RefreshArguments(c, s.refreshToken) == Completed && reply.Ok? && reply.value.Some? && !IsNullOrEmpty(reply.value.value.error))
  {
    if !c.slidingExpiration then End
    else
      match RefreshArguments(c, s.refreshToken)
      case Threw(e) => Fail(e)
      case Completed =>
        match reply
        case Err(e) => Fail(e)
        case Ok(None) => Fail(NullReference)
        case Ok(Some(refreshed)) =>
          if IsNullOrEmpty(refreshed.error) then
            Renew(refreshed.(isTrusted := true, session := refreshed.session.(refreshToken := s.refreshToken)))
          else End
  }

  // ---------------------------------------------------------------------------
  // Signing out
  // ---------------------------------------------------------------------------

  /** The address `LogOut(redirectUri)` sends the browser to: the sign-out
      path on the current scheme, host and port, with the one query
      parameter `redirect_uri`, which defaults (only when null) to
      `BuildRedirectUrl()`, whose code is that of the client-side service
      (`ClientSession.BuildRedirectUrl`). `new PathString(path)` refuses a
      path that does not start with '/', and `UriBuilder` turns an empty
      path into "/". */
  function SignOutUrl(c: ClientOptions, current: Uri, redirectUri: NString): (r: Result<RequestUrl>)
    ensures r.Err? <==> !IsNullOrEmpty(c.remoteSignOutPath) && c.remoteSignOutPath.value[0] != '/'
    ensures r.Err? ==> r.error == Argument("value")
    ensures r.Ok? ==>
      && r.value.scheme == current.scheme && r.value.host == current.host && r.value.port == current.port
      && |r.value.path| > 0 && r.value.path[0] == '/'
      && r.value.Names() == ["redirect_uri"]
    ensures r.Ok? && redirectUri.Some? ==> r.value.query == [QueryParam("redirect_uri", redirectUri.value)]
    ensures r.Ok? && redirectUri.None? ==>
      r.value.query == [QueryParam("redirect_uri", ClientSession.BuildRedirectUrl(c, current))]
  {
    if !IsNullOrEmpty(c.remoteSignOutPath) && c.remoteSignOutPath.value[0] != '/' then Err(Argument("value"))
    else
      var path := if IsNullOrEmpty(c.remoteSignOutPath) then "/" else c.remoteSignOutPath.value;
      var target := if redirectUri.None? then ClientSession.BuildRedirectUrl(c, current) else redirectUri.value;
      Ok(RequestUrl(current.scheme, current.host, current.port, path, [QueryParam("redirect_uri", target)]))
  }

  // ---------------------------------------------------------------------------
  // The service
  // ---------------------------------------------------------------------------

  class AuthenticationService {
    const clientOptions: ClientOptions
    const env: Environment
    const navigation: Navigation
    const currentUri: Uri
    /** The state the constructor left, before any event. */
    ghost const initialState: SessionStates

    var sessionState: SessionStates
    var stateChanges: seq<SessionStates>
    var user: Option<UserInfo>
    var principal: Option<Principal>
    var sessionInfo: Option<SessionInfo>
    var logOutTimer: Option<Timer>

    /** The event log is that of the setter from the constructor's state,
        and a running timer is a live one with a session to end. */
    ghost predicate Valid()
      reads this
    {
      && ClientService.ChangeLog(initialState, stateChanges, sessionState)
      && (logOutTimer.Some? && logOutTimer.value.enabled ==> sessionInfo.Some? && !logOutTimer.value.disposed)
    }

    /** The constructor takes the principal of the current HTTP request:
        an authenticated one leaves the state `Undefined` until the
        background task has restored the session (`RestoreSession`); any
        other sets `Inactive` directly, without raising the event. */
    constructor (clientOptions: ClientOptions, env: Environment, navigation: Navigation, currentUri: Uri, principal: Principal)
      ensures Valid()
      ensures this.clientOptions == clientOptions && this.env == env && this.navigation == navigation
      ensures this.currentUri == currentUri && this.principal == Some(principal)
      ensures sessionState == (if principal.isAuthenticated then Undefined else Inactive)
      ensures initialState == sessionState && stateChanges == []
      ensures user.None? && sessionInfo.None? && logOutTimer.None?
    {
      this.clientOptions := clientOptions;
      this.env := env;
      this.navigation := navigation;
      this.currentUri := currentUri;
      this.principal := Some(principal);
      var state := if principal.isAuthenticated then Undefined else Inactive;
      initialState := state;
      sessionState := state;
      stateChanges := [];
      user := None;
      sessionInfo := None;
      logOutTimer := None;
    }

    /** The `SessionState` setter: the event is raised only when the state
        actually changes. */
    method SetSessionState(value: SessionStates)
      requires Valid()
      modifies this
      ensures Valid()
      ensures sessionState == value
      ensures stateChanges == old(stateChanges) + ClientService.ChangeEvents(old(sessionState), value)
      ensures user == old(user) && principal == old(principal) && sessionInfo == old(sessionInfo)
      ensures logOutTimer == old(logOutTimer)
    {
      ClientService.ChangeEventsKeepLog(initialState, stateChanges, sessionState, value);
      if value != sessionState {
        sessionState := value;
        stateChanges := stateChanges + [value];
      }
    }

    /** `GetAuthenticationStateAsync`: the principal of the request when
        the session is active (`AuthenticationState` refuses a null one),
        otherwise an anonymous principal. Only an active session can show
        a named or authenticated user. */
    function GetAuthenticationState(): (r: Result<Principal>)
      reads this
      ensures sessionState != Active ==> r == Ok(AnonymousPrincipal)
      ensures sessionState == Active ==> (r.Ok? <==> principal.Some?) && (r.Ok? ==> r.value == principal.value)
      ensures r.Ok? && (r.value.isAuthenticated || r.value.identity.name != "") ==> sessionState == Active
    {
      if sessionState == Active then
        if principal.None? then Err(ArgumentNull("user")) else Ok(principal.value)
      else Ok(AnonymousPrincipal)
    }

    /** The session after `ClearSession`, from the state, event log and
        timer it had before. */
    ghost predicate ClearedFrom(state: SessionStates, log: seq<SessionStates>, timer: Option<Timer>)
      reads this
    {
      && sessionState == ClientService.ClearedState(clientOptions)
      && stateChanges == log + ClientService.ChangeEvents(state, ClientService.ClearedState(clientOptions))
      && user.None? && principal.None? && sessionInfo.None? && logOutTimer == Disposed(timer)
    }

    /** `ClearSession`: the state drops to `Undefined` or `Inactive`, the
        profile, principal and tokens are forgotten and the timer is
        stopped and disposed, so that the service shows an anonymous user. */
    method ClearSession()
      requires Valid()
      modifies this
      ensures Valid()
      ensures ClearedFrom(old(sessionState), old(stateChanges), old(logOutTimer))
      ensures GetAuthenticationState() == Ok(AnonymousPrincipal)
    {
      SetSessionState(ClientService.ClearedState(clientOptions));
      user := None;
      principal := None;
      sessionInfo := None;
      logOutTimer := Disposed(logOutTimer);
    }

    /** `InitiateUserSession` at `now` seconds since 1970: keeps the
        profile and tokens `InitiatedSession` computes and makes the session
        `Active`. A failure escapes before anything is kept. */
    method InitiateUserSession(userInfo: Option<UserInfo>, s: SessionInfo, now: Int32) returns (o: Outcome)
      requires Valid()
      modifies this
      ensures Valid()
      ensures principal == old(principal) && logOutTimer == old(logOutTimer)
      ensures InitiatedSession(clientOptions, userInfo, s, now, env.parseJson).Err? ==>
        && o == Threw(InitiatedSession(clientOptions, userInfo, s, now, env.parseJson).error)
        && sessionState == old(sessionState) && stateChanges == old(stateChanges)
        && user == old(user) && sessionInfo == old(sessionInfo)
      ensures InitiatedSession(clientOptions, userInfo, s, now, env.parseJson).Ok? ==>
        && o == Completed
        && (user, sessionInfo) == (InitiatedSession(clientOptions, userInfo, s, now, env.parseJson).value.0,
                                   Some(InitiatedSession(clientOptions, userInfo, s, now, env.parseJson).value.1))
        && sessionState == Active && stateChanges == old(stateChanges) + ClientService.ChangeEvents(old(sessionState), Active)
    {
      var kept := InitiatedSession(clientOptions, userInfo, s, now, env.parseJson);
      if kept.Err? {
        return Threw(kept.error);
      }
      user := kept.value.0;
      sessionInfo := Some(kept.value.1);
      SetSessionState(Active);
      return Completed;
    }

    /** `ScheduleLogOut`: the one timer (made on first use) is stopped and
        re-armed for the tokens' whole lifetime, as `Rearmed` says. Without
        tokens it fails on the null reference and the timer stays
        stopped. */
    method ScheduleLogOut() returns (o: Outcome)
      requires Valid()
      modifies this
      ensures Valid()
      ensures sessionState == old(sessionState) && stateChanges == old(stateChanges)
      ensures user == old(user) && principal == old(principal) && sessionInfo == old(sessionInfo)
      ensures logOutTimer.Some?
      ensures sessionInfo.None? ==>
        o == Threw(NullReference) && logOutTimer == Some(if old(logOutTimer).None? then NewTimer else old(logOutTimer).value.(enabled := false))
      ensures sessionInfo.Some? ==> (o, logOutTimer.value) == Rearmed(old(logOutTimer), LogOutInterval(sessionInfo.value.expiresIn))
    {
      var t := if logOutTimer.None? then NewTimer else logOutTimer.value.(enabled := false);
      if sessionInfo.None? {
        logOutTimer := Some(t);
        return Threw(NullReference);
      }
      var interval := LogOutInterval(sessionInfo.value.expiresIn);
      if interval <= 0 {
        logOutTimer := Some(t);
        return Threw(Argument(""));
      }
      t := t.(interval := interval);
      if t.disposed {
        logOutTimer := Some(t);
        return Threw(ObjectDisposed);
      }
      logOutTimer := Some(t.(enabled := true));
      return Completed;
    }

    /** `HandleAuthorizationResponseAsync` at `now`: a null response is
        refused; otherwise the session is initiated with the profile read
        from the ID token and the timer re-armed. A failure before the
        session is initiated changes nothing; once it is `Active`, only the
        timer can still fail. */
    method HandleAuthorizationResponse(resp: Option<AuthorizationResponse>, now: Int32) returns (o: Outcome)
      requires Valid()
      modifies this
      ensures Valid()
      ensures principal == old(principal)
      ensures resp.None? ==>
        o == Threw(ArgumentNull("authorizationResponse"))
        && sessionState == old(sessionState) && stateChanges == old(stateChanges)
        && user == old(user) && sessionInfo == old(sessionInfo) && logOutTimer == old(logOutTimer)
      ensures resp.Some? && AcceptedSession(clientOptions, env, resp.value.session, now).Err? ==>
        o == Threw(AcceptedSession(clientOptions, env, resp.value.session, now).error)
        && sessionState == old(sessionState) && stateChanges == old(stateChanges)
        && user == old(user) && sessionInfo == old(sessionInfo) && logOutTimer == old(logOutTimer)
      ensures resp.Some? && AcceptedSession(clientOptions, env, resp.value.session, now).Ok? ==>
        var kept := AcceptedSession(clientOptions, env, resp.value.session, now).value;
        && user == kept.0 && sessionInfo == Some(kept.1)
        && sessionState == Active && stateChanges == old(stateChanges) + ClientService.ChangeEvents(old(sessionState), Active)
        && logOutTimer.Some? && (o, logOutTimer.value) == Rearmed(old(logOutTimer), LogOutInterval(kept.1.expiresIn))
    {
      if resp.None? {
        return Threw(ArgumentNull("authorizationResponse"));
      }
      var profile := DecodeTokenPayload(resp.value.session.idToken, env.parseJson);
      if profile.Err? {
        return Threw(profile.error);
      }
      var userInfo := BindUserInfo(profile.value, env.parseDate);
      if userInfo.Err? {
        return Threw(userInfo.error);
      }
      o := InitiateUserSession(userInfo.value, resp.value.session, now);
      if o.Threw? {
        return;
      }
      o := ScheduleLogOut();
    }

    /** The constructor's background task for an authenticated principal:
        the tokens the cookie middleware saved (`GetTokenAsync`) are handled
        as a response, its lifetime parsed from `expires_in`. A restored
        session is `Active` with those very tokens. */
    method RestoreSession(refreshToken: NString, accessToken: NString, idToken: NString, expiresIn: NString, now: Int32)
      returns (o: Outcome)
      requires Valid()
      modifies this
      ensures Valid()
      ensures CookieResponse(env, refreshToken, accessToken, idToken, expiresIn).Err? ==>
        o == Threw(CookieResponse(env, refreshToken, accessToken, idToken, expiresIn).error)
        && sessionState == old(sessionState) && stateChanges == old(stateChanges)
        && user == old(user) && sessionInfo == old(sessionInfo) && logOutTimer == old(logOutTimer)
      ensures o == Completed ==>
        && sessionState == Active && sessionInfo.Some? && logOutTimer.Some? && logOutTimer.value.enabled
        && sessionInfo.value.accessToken == accessToken && sessionInfo.value.idToken == idToken
        && sessionInfo.value.refreshToken == refreshToken
      ensures IsNullOrEmpty(idToken) ==> o.Threw? && sessionState == old(sessionState)
    {
      var resp := CookieResponse(env, refreshToken, accessToken, idToken, expiresIn);
      if resp.Err? {
        return Threw(resp.error);
      }
      o := HandleAuthorizationResponse(Some(resp.value), now);
    }

    /** `LogOut(redirectUri)`: the session is cleared first, whatever
        follows; then the browser is sent to `SignOutUrl` with a forced
        reload. */
    method LogOut(redirectUri: NString) returns (o: Outcome)
      requires Valid()
      modifies this, navigation
      ensures Valid()
      ensures ClearedFrom(old(sessionState), old(stateChanges), old(logOutTimer))
      ensures SignOutUrl(clientOptions, currentUri, redirectUri).Err? ==>
        o == Threw(SignOutUrl(clientOptions, currentUri, redirectUri).error) && navigation.visits == old(navigation.visits)
      ensures SignOutUrl(clientOptions, currentUri, redirectUri).Ok? ==>
        o == Completed && navigation.visits == old(navigation.visits) + [SignOutUrl(clientOptions, currentUri, redirectUri).value]
    {
      ClearSession();
      var url := SignOutUrl(clientOptions, currentUri, redirectUri);
      if url.Err? {
        return Threw(url.error);
      }
      navigation.visits := navigation.visits + [url.value];
      return Completed;
    }

    /** The timer's `Elapsed` handler at `now`, `reply` being the token
        endpoint's answer to a refresh: the timer is stopped; renewed
        tokens are handled as a new response; otherwise the service logs
        out (to the default address) and clears the session again. */
    method OnLogOutTimerElapsed(reply: Result<Option<AuthorizationResponse>>, now: Int32) returns (o: Outcome)
      requires Valid() && logOutTimer.Some? && logOutTimer.value.enabled
      modifies this, navigation
      ensures Valid()
      ensures var renewal := RenewalFor(clientOptions, old(sessionInfo).value, reply);
        && (renewal.Fail? ==>
              o == Threw(renewal.error) && logOutTimer == Stopped(old(logOutTimer))
              && sessionState == old(sessionState) && sessionInfo == old(sessionInfo) && user == old(user)
              && navigation.visits == old(navigation.visits))
        && (renewal.Renew? ==>
              navigation.visits == old(navigation.visits)
              && (o == Completed ==>
                    sessionState == Active && sessionInfo.Some?
                    && sessionInfo.value.refreshToken == old(sessionInfo).value.refreshToken
                    && logOutTimer.Some? && logOutTimer.value.enabled))
        && (renewal == End ==>
              ClearedFrom(old(sessionState), old(stateChanges), old(logOutTimer))
              && (SignOutUrl(clientOptions, currentUri, None).Ok? ==>
                    o == Completed && navigation.visits == old(navigation.visits) + [SignOutUrl(clientOptions, currentUri, None).value])
              && (SignOutUrl(clientOptions, currentUri, None).Err? ==>
                    o == Threw(SignOutUrl(clientOptions, currentUri, None).error) && navigation.visits == old(navigation.visits)))
    {
      logOutTimer := Stopped(logOutTimer);
      var renewal := RenewalFor(clientOptions, sessionInfo.value, reply);
      match renewal {
        case Fail(e) =>
          return Threw(e);
        case Renew(refreshed) =>
          o := HandleAuthorizationResponse(Some(refreshed), now);
        case End =>
          o := LogOut(None);
          ClearSession();
      }
    }
  }
}

=== FILE: storage.dfy ===
/** The `localStorage` helpers of the client-side library
    (src/Blazor.Auth0.ClientSide/Storage.cs). Every value is kept as JSON
    text under its key, and its lifetime in seconds under the companion key
    `key:exp`; reading never looks at the companion. */
module Storage {
  import opened Wrappers
  import opened Text
  import opened JsonModel
  import opened Models

  /** The browser behind `IJSRuntime`, as far as these helpers reach it: its
      `localStorage`, a map from key to text. */
  class JSRuntime {
    var localStorage: map<string, string>

    constructor (items: map<string, string>)
      ensures localStorage == items
    {
      localStorage := items;
    }
  }

  /** The lifetime `SetItem` records when the caller gives none. */
  const DefaultExpiresInSeconds: Int32 := 1800

  /** The companion key `$"{key}:exp"` holding a value's lifetime; never the
      key itself. */
  function ExpiryKey(key: string): (k: string)
    ensures |k| == |key| + 4 && k[..|key|] == key
  {
    key + ":exp"
  }

  /** What a read of `key` yields from the store `items`: the deserialised
      text, with a missing entry (`getItem` gives null) or an empty one read
      as "{}". */
  function Read<T>(items: map<string, string>, key: string, codec: JsonCodec<T>): (r: Result<T>)
    ensures key !in items ==> r == codec.deserialize("{}")
    ensures key in items && items[key] != "" ==> r == codec.deserialize(items[key])
  {
    var result := if key in items then items[key] else "";
    codec.deserialize(if result == "" then "{}" else result)
  }

  /** `SetItem(jsRuntime, key, value, expiresInSeconds)`: a null runtime
      throws before the store is touched; otherwise the serialised value is
      stored under `key` and the lifetime, as JavaScript writes a number,
      under `key:exp`. */
  method SetItemExpiring<T>(runtime: JSRuntime?, key: string, value: T, codec: JsonCodec<T>, expiresInSeconds: Int32)
    returns (o: Outcome)
    modifies runtime
    ensures runtime == null ==> o == Threw(ArgumentNull("jsRuntime"))
    ensures runtime != null ==>
      o == Completed
      && runtime.localStorage
         == old(runtime.localStorage)[key := codec.serialize(value)][ExpiryKey(key) := IntToString(expiresInSeconds)]
  {
    if runtime == null {
      return Threw(ArgumentNull("jsRuntime"));
    }
    var serializedValue := codec.serialize(value);
    runtime.localStorage := runtime.localStorage[key := serializedValue];
    runtime.localStorage := runtime.localStorage[ExpiryKey(key) := IntToString(expiresInSeconds)];
    return Completed;
  }

  /** `SetItem(jsRuntime, key, value)`: the lifetime defaults to 1800
      seconds. */
  method SetItem<T>(runtime: JSRuntime?, key: string, value: T, codec: JsonCodec<T>) returns (o: Outcome)
    modifies runtime
    ensures runtime == null ==> o == Threw(ArgumentNull("jsRuntime"))
    ensures runtime != null ==>
      o == Completed
      && runtime.localStorage
         == old(runtime.localStorage)[key := codec.serialize(value)][ExpiryKey(key) := "1800"]
  {
    o := SetItemExpiring(runtime, key, value, codec, DefaultExpiresInSeconds);
    assert IntToString(1800) == IntToString(180) + "0" == IntToString(18) + "00" == "1800";
  }

  /** `RemoveItem`: a null runtime throws before the store is touched;
      otherwise both `key` and `key:exp` are gone. */
  method RemoveItem(runtime: JSRuntime?, key: string) returns (o: Outcome)
    modifies runtime
    ensures runtime == null ==> o == Threw(ArgumentNull("jsRuntime"))
    ensures runtime != null ==>
      o == Completed && runtime.localStorage == old(runtime.localStorage) - {key, ExpiryKey(key)}
  {
    if runtime == null {
      return Threw(ArgumentNull("jsRuntime"));
    }
    runtime.localStorage := runtime.localStorage - {key};
    runtime.localStorage := runtime.localStorage - {ExpiryKey(key)};
    return Completed;
  }

  /** `GetItemAsync<T>`: a null runtime throws; otherwise the read above,
      with the store left as it was. */
  method GetItem<T>(runtime: JSRuntime?, key: string, codec: JsonCodec<T>) returns (r: Result<T>)
    ensures runtime == null ==> r == Err(ArgumentNull("jsRuntime"))
    ensures runtime != null ==> r == Read(runtime.localStorage, key, codec)
  {
    if runtime == null {
      return Err(ArgumentNull("jsRuntime"));
    }
    var result := if key in runtime.localStorage then runtime.localStorage[key] else "";
    return codec.deserialize(if result == "" then "{}" else result);
  }

  /** Storing a value changes `key` and `key:exp` and no other entry. */
  lemma SetItemTouchesTwoKeys(items: map<string, string>, key: string, text: string, expiry: string, other: string)
    requires other != key && other != ExpiryKey(key)
    ensures other in items[key := text][ExpiryKey(key) := expiry] <==> other in items
    ensures other in items ==> items[key := text][ExpiryKey(key) := expiry][other] == items[other]
  {
  }

  /** A value stored with a non-empty serialisation reads back as whatever
      deserialising that text gives; with a codec that round-trips, the
      value itself. */
  lemma ReadAfterSet<T(!new)>(items: map<string, string>, key: string, value: T, codec: JsonCodec<T>, expiry: string)
    requires codec.serialize(value) != ""
    ensures Read(items[key := codec.serialize(value)][ExpiryKey(key) := expiry], key, codec)
            == codec.deserialize(codec.serialize(value))
    ensures RoundTrips(codec) ==>
      Read(items[key := codec.serialize(value)][ExpiryKey(key) := expiry], key, codec) == Ok(value)
  {
    assert ExpiryKey(key) != key;
  }

  /** After a removal, a read sees no entry and deserialises "{}". */
  lemma ReadAfterRemove<T>(items: map<string, string>, key: string, codec: JsonCodec<T>)
    ensures Read(items - {key, ExpiryKey(key)}, key, codec) == codec.deserialize("{}")
  {
  }

  /** A read never consults the `key:exp` entry: whatever it holds, the
      result is the same. */
  lemma ExpiryNotRead<T>(items: map<string, string>, key: string, codec: JsonCodec<T>, expiry: string)
    ensures Read(items[ExpiryKey(key) := expiry], key, codec) == Read(items, key, codec)
    ensures Read(items - {ExpiryKey(key)}, key, codec) == Read(items, key, codec)
  {
    assert ExpiryKey(key) != key;
  }
}

=== FILE: text.dfy ===
/** The .NET string operations the library relies on, over `seq<char>`.

    A C# `string` reference may be null; `NString` models it as an
    `Option<string>`. Comparisons are ordinal, as in the source. */
module Text {
  import opened Wrappers

  /** A nullable .NET string: `None` is null. */
  type NString = Option<string>

  /** `string.IsNullOrEmpty`. */
  predicate IsNullOrEmpty(s: NString) {
    s.None? || s.value == []
  }

  /** `char.IsWhiteSpace`: the control characters TAB..CR, NEL, NBSP and the
      Unicode space, line and paragraph separators. */
  predicate IsWhiteSpace(c: char) {
    c == ' ' || ('\t' <= c <= '\r') || c == '\U{85}' || c == '\U{A0}' || c == '\U{1680}'
    || ('\U{2000}' <= c <= '\U{200A}') || c == '\U{2028}' || c == '\U{2029}'
    || c == '\U{202F}' || c == '\U{205F}' || c == '\U{3000}'
  }

  /** `string.IsNullOrWhiteSpace`; also `string.IsNullOrEmpty(s?.Trim())`. */
  predicate IsNullOrWhiteSpace(s: NString) {
    s.None? || forall i :: 0 <= i < |s.value| ==> IsWhiteSpace(s.value[i])
  }

  /** The text a nullable string contributes to an interpolation: null reads as "". */
  function Str(s: NString): string {
    s.GetOr("")
  }

  predicate StartsWith(s: string, prefix: string) {
    |prefix| <= |s| && s[..|prefix|] == prefix
  }

  /** Ordinal `string.Contains(string)`. */
  predicate Contains(s: string, sub: string)
    decreases |s|
  {
    StartsWith(s, sub) || (|s| > 0 && Contains(s[1..], sub))
  }

  /** `sub` occurs in `s` at offset `i`. */
  predicate OccursAt(s: string, sub: string, i: int) {
    0 <= i <= |s| - |sub| && s[i..i + |sub|] == sub
  }

  /** `Contains` holds exactly when `sub` occurs at some offset of `s`. */
  lemma {:induction false} ContainsIffOccurs(s: string, sub: string)
    ensures Contains(s, sub) <==> exists i :: OccursAt(s, sub, i)
    decreases |s|
  {
    if StartsWith(s, sub) {
      assert OccursAt(s, sub, 0);
    }
    if |s| > 0 {
      ContainsIffOccurs(s[1..], sub);
      if Contains(s[1..], sub) {
        var i :| OccursAt(s[1..], sub, i);
        assert s[i + 1..i + 1 + |sub|] == s[1..][i..i + |sub|];
        assert OccursAt(s, sub, i + 1);
      }
      if exists i :: OccursAt(s, sub, i) {
        var i :| OccursAt(s, sub, i);
        if i > 0 {
          assert s[1..][i - 1..i - 1 + |sub|] == s[i..i + |sub|];
          assert OccursAt(s[1..], sub, i - 1);
        }
      }
    } else if exists i :: OccursAt(s, sub, i) {
      var i :| OccursAt(s, sub, i);
      assert i == 0;
    }
  }

  /** `string.Replace(char, char)`. */
  function ReplaceChar(s: string, from: char, to: char): (r: string)
    ensures |r| == |s|
    ensures from != to ==> from !in r
    ensures forall i :: 0 <= i < |s| && s[i] != from ==> r[i] == s[i]
  {
    seq(|s|, i requires 0 <= i < |s| => if s[i] == from then to else s[i])
  }

  /** Replacing a character that does not occur changes nothing. */
  lemma ReplaceAbsent(s: string, from: char, to: char)
    requires from !in s
    ensures ReplaceChar(s, from, to) == s
  {
  }

  /** `string.Replace(string, string)` with a one-character pattern: every
      `c` becomes `r`. */
  function ReplaceWith(s: string, c: char, r: string): (t: string)
    ensures c !in s ==> t == s
    ensures c !in r ==> c !in t
    ensures forall x :: x in t && x != c ==> x in s || x in r
    decreases |s|
  {
    if s == [] then []
    else
      assert [s[0]] + s[1..] == s;
      (if s[0] == c then r else [s[0]]) + ReplaceWith(s[1..], c, r)
  }

  /** The replacement works piece by piece. */
  lemma {:induction false} ReplaceWithConcat(a: string, b: string, c: char, r: string)
    ensures ReplaceWith(a + b, c, r) == ReplaceWith(a, c, r) + ReplaceWith(b, c, r)
    decreases |a|
  {
    if a == [] {
      assert a + b == b;
    } else {
      var head := if a[0] == c then r else [a[0]];
      var tail := a[1..];
      assert (a + b)[0] == a[0] && (a + b)[1..] == tail + b;
      calc {
        ReplaceWith(a + b, c, r);
        head + ReplaceWith(tail + b, c, r);
        { ReplaceWithConcat(tail, b, c, r); }
        head + (ReplaceWith(tail, c, r) + ReplaceWith(b, c, r));
        (head + ReplaceWith(tail, c, r)) + ReplaceWith(b, c, r);
      }
    }
  }

  /** `string.TrimEnd(char)`: drops every trailing `c`. */
  function TrimEnd(s: string, c: char): (r: string)
    ensures StartsWith(s, r)
    ensures r == [] || r[|r| - 1] != c
    ensures forall i :: |r| <= i < |s| ==> s[i] == c
    decreases |s|
  {
    if |s| > 0 && s[|s| - 1] == c then TrimEnd(s[..|s| - 1], c) else s
  }

  /** Trimming a string that does not end in `c` changes nothing, and trimming
      undoes any run of appended `c`. */
  lemma {:induction false} TrimEndAppended(s: string, c: char, n: nat)
    requires s == [] || s[|s| - 1] != c
    ensures TrimEnd(s + seq(n, _ => c), c) == s
  {
    if n > 0 {
      assert (s + seq(n, _ => c))[..|s| + n - 1] == s + seq(n - 1, _ => c);
      TrimEndAppended(s, c, n - 1);
    }
  }

  /** `string.Split(char)`: the pieces between separators; never empty. */
  function Split(s: string, sep: char): (parts: seq<string>)
    ensures |parts| >= 1
    decreases |s|
  {
    if s == [] then [""]
    else
      var rest := Split(s[1..], sep);
      if s[0] == sep then [""] + rest else [[s[0]] + rest[0]] + rest[1..]
  }

  /** A string without the separator splits into itself alone. */
  lemma {:induction false} SplitNoSeparator(s: string, sep: char)
    requires sep !in s
    ensures Split(s, sep) == [s]
    decreases |s|
  {
    if s != [] {
      SplitNoSeparator(s[1..], sep);
      assert [s[0]] + s[1..] == s;
    }
  }

  /** Splitting `a + sep + b`, where `a` has no separator, yields `a` and then
      the pieces of `b`. */
  lemma {:induction false} SplitConcat(a: string, sep: char, b: string)
    requires sep !in a
    ensures Split(a + [sep] + b, sep) == [a] + Split(b, sep)
    decreases |a|
  {
    var s := a + [sep] + b;
    if a == [] {
      assert s[1..] == b;
    } else {
      assert s[1..] == a[1..] + [sep] + b;
      SplitConcat(a[1..], sep, b);
      assert [a[0]] + a[1..] == a;
    }
  }

  /** `string.Join(sep, parts)`. */
  function Join(sep: string, parts: seq<string>): string
    decreases |parts|
  {
    if parts == [] then ""
    else if |parts| == 1 then parts[0]
    else parts[0] + sep + Join(sep, parts[1..])
  }

  /** Prefixing the first piece prefixes the joined text. */
  lemma JoinPrefixFirst(sep: string, c: char, parts: seq<string>)
    requires |parts| >= 1
    ensures Join(sep, [[c] + parts[0]] + parts[1..]) == [c] + Join(sep, parts)
  {
    var longer := [[c] + parts[0]] + parts[1..];
    assert longer[0] == [c] + parts[0];
    if |parts| > 1 {
      assert longer[1..] == parts[1..];
      assert Join(sep, longer) == [c] + parts[0] + sep + Join(sep, parts[1..]);
    }
  }

  /** Joining the pieces of a split with the separator gives back the string. */
  lemma {:induction false} JoinSplit(s: string, sep: char)
    ensures Join([sep], Split(s, sep)) == s
    decreases |s|
  {
    if s != [] {
      var rest := Split(s[1..], sep);
      JoinSplit(s[1..], sep);
      assert [s[0]] + s[1..] == s;
      if s[0] == sep {
        assert ([""] + rest)[1..] == rest;
      } else {
        JoinPrefixFirst([sep], s[0], rest);
      }
    }
  }

  /** ASCII `ToLower`/`ToLowerInvariant`. */
  function ToLower(s: string): (r: string)
    ensures |r| == |s|
    ensures forall i :: 0 <= i < |s| && !('A' <= s[i] <= 'Z') ==> r[i] == s[i]
  {
    seq(|s|, i requires 0 <= i < |s| =>
      if 'A' <= s[i] <= 'Z' then (s[i] as int - 'A' as int + 'a' as int) as char else s[i])
  }

  /** Decimal text of an integer, as `int.ToString()` and JavaScript's number
      to string conversion produce it. */
  function IntToString(n: int): (r: string)
    ensures |r| > 0
    decreases if n < 0 then 1 - n else n
  {
    if n < 0 then "-" + IntToString(-n)
    else if n < 10 then [('0' as int + n) as char]
    else IntToString(n / 10) + [('0' as int + n % 10) as char]
  }
}

=== FILE: transaction_manager.dfy ===
/** The bookkeeping of one authorization flow
    (src/Blazor.Auth0.ClientSide/TransactionManager.cs): before the browser
    leaves for `/authorize`, the state, nonce and app state are settled and
    the transaction is stored under `Namespace + State`; when the response
    comes back, the transaction is read once and deleted. */
module TransactionManager {
  import opened Wrappers
  import opened Text
  import opened Base64
  import opened Enumerations
  import opened JsonModel
  import opened Models
  import opened Utils
  import opened Storage
  import opened CommonAuthentication
  import AuthorizeOptionsValidation

  /** How many values `GenerateTransaction` draws with `GenerateNonce`: one
      for an empty app state, one for an empty state and, when an ID token is
      expected, one for an empty nonce, in that order. */
  function DrawCount(o: AuthorizeOptions, includesIdToken: bool): (n: nat)
    ensures n <= 3
    ensures n == 0 <==> !IsNullOrEmpty(o.appState) && !IsNullOrEmpty(o.state)
                        && (includesIdToken ==> !IsNullOrEmpty(o.nonce))
  {
    (if IsNullOrEmpty(o.appState) then 1 else 0) + (if IsNullOrEmpty(o.state) then 1 else 0)
    + (if includesIdToken && IsNullOrEmpty(o.nonce) then 1 else 0)
  }

  /** The bytes each draw takes: `keyLength`, and none when no draw can
      happen because the length is negative. */
  function DrawLength(o: AuthorizeOptions): nat {
    if o.keyLength < 0 then 0 else o.keyLength
  }

  /** Where the `k`-th of a series of draws of `length` bytes each begins,
      the first at `start`. */
  function Offset(start: nat, length: nat, k: nat): (offset: nat)
    ensures offset >= start
    ensures length == 0 ==> offset == start
  {
    if k == 0 then start else Offset(start, length, k - 1) + length
  }

  /** The `k`-th of a series of values, each rendered by `render` from
      `length` bytes of the stream, the first from the bytes at `start`. */
  function Series<T>(render: seq<byte> -> T, stream: nat -> byte, start: nat, length: nat, k: nat): T
    decreases k
  {
    if k == 0 then render(StreamBytes(stream, start, length)) else Series(render, stream, start + length, length, k - 1)
  }

  /** The `k`-th value of a series is rendered from the bytes at
      `Offset(start, length, k)`. */
  lemma {:induction false} SeriesAt<T>(render: seq<byte> -> T, stream: nat -> byte, start: nat, length: nat, k: nat)
    ensures Series(render, stream, start, length, k) == render(StreamBytes(stream, Offset(start, length, k), length))
    decreases k
  {
    if k > 0 {
      SeriesAt(render, stream, start + length, length, k - 1);
      OffsetShift(start, length, k);
    }
  }

  /** The `k`-th series element begins `length` bytes after the start of the
      series that begins one draw later. */
  lemma {:induction false} OffsetShift(start: nat, length: nat, k: nat)
    requires k > 0
    ensures Offset(start, length, k) == Offset(start + length, length, k - 1)
    decreases k
  {
    if k > 1 {
      OffsetShift(start, length, k - 1);
    }
  }

  /** The `k`-th value drawn from the stream by `GenerateNonce` calls of
      `length` bytes each, the first at `start`. */
  function Drawn(stream: nat -> byte, start: nat, length: nat, k: nat): string {
    Series(GenerateNonce, stream, start, length, k)
  }

  /** The `k`-th draw renders the `length` bytes at `Offset(start, length, k)`. */
  lemma DrawnAt(stream: nat -> byte, start: nat, length: nat, k: nat)
    ensures Drawn(stream, start, length, k) == GenerateNonce(StreamBytes(stream, Offset(start, length, k), length))
  {
    SeriesAt(GenerateNonce, stream, start, length, k);
  }

  /** The transaction `GenerateTransaction` builds, `draw(k)` being the
      `k`-th value drawn: app state, state and (for an ID token) nonce are
      kept when supplied and drawn in that order otherwise; the code verifier
      and redirect URI are copied; the connection is the realm when one is
      set. */
  function NewTransaction(o: AuthorizeOptions, includesIdToken: bool, draw: nat -> string): (t: SessionAuthorizationTransaction)
    ensures t.state.Some? && t.appState.Some?
    ensures !IsNullOrEmpty(o.state) ==> t.state == o.state
    ensures !IsNullOrEmpty(o.appState) ==> t.appState == o.appState
    ensures t.nonce.Some? <==> includesIdToken
    ensures includesIdToken && !IsNullOrEmpty(o.nonce) ==> t.nonce == o.nonce
    ensures t.codeVerifier == o.codeVerifier && t.redirectUri == o.redirectUri
    ensures !IsNullOrEmpty(o.realm) ==> t.connection == o.realm
    ensures IsNullOrEmpty(o.realm) ==> t.connection == o.connection
  {
    var appStateDraws := if IsNullOrEmpty(o.appState) then 1 else 0;
    var stateDraws := appStateDraws + (if IsNullOrEmpty(o.state) then 1 else 0);
    var appState := if IsNullOrEmpty(o.appState) then draw(0) else o.appState.value;
    var state := if IsNullOrEmpty(o.state) then draw(appStateDraws) else o.state.value;
    var nonce: NString :=
      if !includesIdToken then None
      else if IsNullOrEmpty(o.nonce) then Some(draw(stateDraws))
      else o.nonce;
    SessionAuthorizationTransaction(
      state := Some(state), nonce := nonce, codeVerifier := o.codeVerifier, appState := Some(appState),
      redirectUri := o.redirectUri, connection := if IsNullOrEmpty(o.realm) then o.connection else o.realm)
  }

  /** The key a transaction is stored under: the namespace (null reads as
      empty) followed by the state. */
  function TransactionKey(namespace: NString, state: NString): string {
    Str(namespace) + Str(state)
  }

  /** The options `Proccess` hands back: the state of the transaction and,
      when an ID token is expected and none was supplied, its nonce. */
  function Processed(o: AuthorizeOptions, t: SessionAuthorizationTransaction): AuthorizeOptions {
    o.(state := t.state,
       nonce := if IncludesIdToken(o.responseType) && IsNullOrEmpty(o.nonce) then t.nonce else o.nonce)
  }

  /** One `GenerateNonce(keyLength)` call of `GenerateTransaction`. */
  method Draw(o: AuthorizeOptions, rng: RandomNumberGenerator, ghost start: nat, ghost k: nat) returns (r: Result<string>)
    requires rng.position == Offset(start, DrawLength(o), k)
    modifies rng
    ensures o.keyLength < 0 ==> r == Err(Overflow) && rng.position == old(rng.position)
    ensures o.keyLength >= 0 ==>
      r == Ok(Drawn(rng.stream, start, DrawLength(o), k)) && rng.position == Offset(start, DrawLength(o), k + 1)
  {
    r := NextNonce(o.keyLength, rng);
    DrawnAt(rng.stream, start, DrawLength(o), k);
  }

  /** A value of the options kept when supplied, or else drawn as the
      `k`-th value; `next` counts the draws so far. */
  method SupplyOrDraw(supplied: NString, o: AuthorizeOptions, rng: RandomNumberGenerator, ghost start: nat, k: nat)
    returns (r: Result<string>, next: nat)
    requires rng.position == Offset(start, DrawLength(o), k)
    modifies rng
    ensures !IsNullOrEmpty(supplied) ==> r == Ok(supplied.value) && next == k && rng.position == old(rng.position)
    ensures IsNullOrEmpty(supplied) && o.keyLength < 0 ==> r == Err(Overflow) && rng.position == old(rng.position)
    ensures IsNullOrEmpty(supplied) && o.keyLength >= 0 ==>
      r == Ok(Drawn(rng.stream, start, DrawLength(o), k)) && next == k + 1
    ensures r.Ok? ==> rng.position == Offset(start, DrawLength(o), next)
  {
    if !IsNullOrEmpty(supplied) {
      return Ok(supplied.value), k;
    }
    r := Draw(o, rng, start, k);
    next := k + 1;
  }

  /** The draws and the transaction of `GenerateTransaction`, before it is
      stored. */
  method DrawTransaction(o: AuthorizeOptions, includesIdToken: bool, rng: RandomNumberGenerator)
    returns (r: Result<SessionAuthorizationTransaction>)
    modifies rng
    ensures o.keyLength < 0 && DrawCount(o, includesIdToken) > 0 ==>
      r == Err(Overflow) && rng.position == old(rng.position)
    ensures !(o.keyLength < 0 && DrawCount(o, includesIdToken) > 0) ==>
      r == Ok(NewTransaction(o, includesIdToken, (k: nat) => Drawn(rng.stream, old(rng.position), DrawLength(o), k)))
      && rng.position == Offset(old(rng.position), DrawLength(o), DrawCount(o, includesIdToken))
  {
    ghost var start := rng.position;
    ghost var draw := (k: nat) => Drawn(rng.stream, start, DrawLength(o), k);
    var lastUsedConnection := if IsNullOrEmpty(o.realm) then o.connection else o.realm;
    var appState, draws := SupplyOrDraw(o.appState, o, rng, start, 0);
    if appState.Err? {
      return Err(appState.error);
    }
    var state, draws' := SupplyOrDraw(o.state, o, rng, start, draws);
    if state.Err? {
      return Err(state.error);
    }
    var nonce: NString := None;
    var draws'' := draws';
    if includesIdToken {
      var n;
      n, draws'' := SupplyOrDraw(o.nonce, o, rng, start, draws');
      if n.Err? {
        return Err(n.error);
      }
      nonce := Some(n.value);
    }
    r := Ok(SessionAuthorizationTransaction(
      state := Some(state.value), nonce := nonce, codeVerifier := o.codeVerifier, appState := Some(appState.value),
      redirectUri := o.redirectUri, connection := lastUsedConnection));
    assert r.value == NewTransaction(o, includesIdToken, draw);
    assert draws'' == DrawCount(o, includesIdToken);
  }

  /** `GenerateTransaction`: draws the missing values in order (a negative
      key length throws `OverflowException` at the first draw), sets the
      options' state, and stores the transaction under `Namespace + State`
      with the default lifetime (a null runtime throws there, after the
      draws). */
  method GenerateTransaction(runtime: JSRuntime?, o: AuthorizeOptions, includesIdToken: bool,
                             rng: RandomNumberGenerator, codec: JsonCodec<SessionAuthorizationTransaction>)
    returns (r: Result<(AuthorizeOptions, SessionAuthorizationTransaction)>)
    requires runtime == null || rng as object != runtime
    modifies runtime, rng
    ensures o.keyLength < 0 && DrawCount(o, includesIdToken) > 0 ==>
      r == Err(Overflow) && rng.position == old(rng.position)
      && (runtime != null ==> runtime.localStorage == old(runtime.localStorage))
    ensures !(o.keyLength < 0 && DrawCount(o, includesIdToken) > 0) ==>
      var t := NewTransaction(o, includesIdToken, (k: nat) => Drawn(rng.stream, old(rng.position), DrawLength(o), k));
      var key := TransactionKey(o.namespace, t.state);
      && rng.position == Offset(old(rng.position), DrawLength(o), DrawCount(o, includesIdToken))
      && (runtime == null ==> r == Err(ArgumentNull("jsRuntime")))
      && (runtime != null ==>
            r == Ok((o.(state := t.state), t))
            && runtime.localStorage == old(runtime.localStorage)[key := codec.serialize(t)][ExpiryKey(key) := "1800"])
  {
    var drawn := DrawTransaction(o, includesIdToken, rng);
    if drawn.Err? {
      return Err(drawn.error);
    }
    var transaction := drawn.value;
    var options := o.(state := transaction.state);
    var stored := SetItem(runtime, TransactionKey(o.namespace, options.state), transaction, codec);
    if stored.Threw? {
      return Err(stored.error);
    }
    return Ok((options, transaction));
  }

  /** `Proccess`: null options throw `ArgumentNullException` and invalid
      ones the `ValidationException` of `ValidateObject`, before anything is
      drawn or stored; otherwise the transaction is generated and stored, and
      the options come back with its state and, when an ID token is expected
      and none was supplied, its nonce. */
  method Proccess(runtime: JSRuntime?, options: Option<AuthorizeOptions>, rng: RandomNumberGenerator,
                  codec: JsonCodec<SessionAuthorizationTransaction>)
    returns (r: Result<AuthorizeOptions>)
    requires runtime == null || rng as object != runtime
    modifies runtime, rng
    ensures options.None? ==>
      r == Err(ArgumentNull("authorizeOptions")) && rng.position == old(rng.position)
      && (runtime != null ==> runtime.localStorage == old(runtime.localStorage))
    ensures options.Some? && !TryValidateObject(AuthorizeOptionsValidation.AsValidatable(options.value)).isValid ==>
      r == Err(ValidationError(AuthorizeOptionsValidation.AsValidatable(options.value)))
      && rng.position == old(rng.position)
      && (runtime != null ==> runtime.localStorage == old(runtime.localStorage))
    ensures options.Some? && TryValidateObject(AuthorizeOptionsValidation.AsValidatable(options.value)).isValid ==>
      var o := options.value;
      var includesIdToken := IncludesIdToken(o.responseType);
      var t := NewTransaction(o, includesIdToken, (k: nat) => Drawn(rng.stream, old(rng.position), DrawLength(o), k));
      var key := TransactionKey(o.namespace, t.state);
      && (o.keyLength < 0 && DrawCount(o, includesIdToken) > 0 ==>
            r == Err(Overflow) && rng.position == old(rng.position)
            && (runtime != null ==> runtime.localStorage == old(runtime.localStorage)))
      && (!(o.keyLength < 0 && DrawCount(o, includesIdToken) > 0) ==>
            && rng.position == Offset(old(rng.position), DrawLength(o), DrawCount(o, includesIdToken))
            && (runtime == null ==> r == Err(ArgumentNull("jsRuntime")))
            && (runtime != null ==>
                  r == Ok(Processed(o, t))
                  && runtime.localStorage == old(runtime.localStorage)[key := codec.serialize(t)][ExpiryKey(key) := "1800"]))
  {
    if options.None? {
      return Err(ArgumentNull("authorizeOptions"));
    }
    var o := options.value;
    var valid := ValidateObject(AuthorizeOptionsValidation.AsValidatable(o));
    if valid.Threw? {
      return Err(valid.error);
    }
    var responseTypeIncludesIdToken := o.responseType == IdToken || o.responseType == TokenAndIdToken;
    var generated := GenerateTransaction(runtime, o, responseTypeIncludesIdToken, rng, codec);
    if generated.Err? {
      return Err(generated.error);
    }
    var updated := generated.value.0;
    var transaction := generated.value.1;
    if IsNullOrEmpty(updated.state) {
      updated := updated.(state := transaction.state);
    }
    if responseTypeIncludesIdToken && IsNullOrEmpty(updated.nonce) {
      updated := updated.(nonce := transaction.nonce);
    }
    return Ok(updated);
  }

  /** `GetStoredTransactionAsync`: reads the transaction under
      `Namespace + state`, then removes it. A null runtime throws before the
      read; a text that does not deserialise throws before the removal, so
      the entry stays. */
  method GetStoredTransaction(runtime: JSRuntime?, clientOptions: ClientOptions, state: NString,
                              codec: JsonCodec<SessionAuthorizationTransaction>)
    returns (r: Result<SessionAuthorizationTransaction>)
    modifies runtime
    ensures runtime == null ==> r == Err(ArgumentNull("jsRuntime"))
    ensures runtime != null ==>
      var key := TransactionKey(clientOptions.namespace, state);
      && r == Read(old(runtime.localStorage), key, codec)
      && runtime.localStorage == (if r.Ok? then old(runtime.localStorage) - {key, ExpiryKey(key)} else old(runtime.localStorage))
  {
    var key := TransactionKey(clientOptions.namespace, state);
    r := GetItem(runtime, key, codec);
    if r.Err? {
      return;
    }
    var removed := RemoveItem(runtime, key);
  }

  /** A draw of at least one byte is never empty. */
  lemma DrawnNonEmpty(stream: nat -> byte, start: nat, length: nat, k: nat)
    requires length > 0
    ensures Drawn(stream, start, length, k) != ""
  {
    var bytes := StreamBytes(stream, Offset(start, length, k), length);
    DrawnAt(stream, start, length, k);
    assert |GenerateNonce(bytes)| == UnpaddedLength(length);
  }

  /** After `Proccess` the options carry a state: the one the caller
      supplied, when non-empty, or a drawn one, which is non-empty when the
      key length is positive. The transaction is stored under that state. */
  lemma ProcessedState(o: AuthorizeOptions, stream: nat -> byte, start: nat)
    ensures var t := NewTransaction(o, IncludesIdToken(o.responseType), (k: nat) => Drawn(stream, start, DrawLength(o), k));
      && Processed(o, t).state == t.state
      && (!IsNullOrEmpty(o.state) ==> Processed(o, t).state == o.state)
      && (o.keyLength > 0 ==> !IsNullOrEmpty(Processed(o, t).state))
  {
    if o.keyLength > 0 && IsNullOrEmpty(o.state) {
      DrawnNonEmpty(stream, start, DrawLength(o), if IsNullOrEmpty(o.appState) then 1 else 0);
    }
  }

  /** The nonce rules of `Proccess`: for a response type with an ID token,
      the transaction and the options carry the supplied non-empty nonce or
      a drawn one (non-empty when the key length is positive); for the other
      types the transaction has no nonce and the options' nonce is left as it
      was. */
  lemma ProcessedNonce(o: AuthorizeOptions, stream: nat -> byte, start: nat)
    ensures var t := NewTransaction(o, IncludesIdToken(o.responseType), (k: nat) => Drawn(stream, start, DrawLength(o), k));
      && (IncludesIdToken(o.responseType) ==>
            && Processed(o, t).nonce == t.nonce
            && (!IsNullOrEmpty(o.nonce) ==> t.nonce == o.nonce)
            && (o.keyLength > 0 ==> !IsNullOrEmpty(t.nonce)))
      && (!IncludesIdToken(o.responseType) ==> t.nonce.None? && Processed(o, t).nonce == o.nonce)
  {
    var draws := (if IsNullOrEmpty(o.appState) then 1 else 0) + (if IsNullOrEmpty(o.state) then 1 else 0);
    if o.keyLength > 0 && IsNullOrEmpty(o.nonce) {
      DrawnNonEmpty(stream, start, DrawLength(o), draws);
    }
  }

  /** A transaction stored under `Namespace + State` is what a later
      retrieval with the same namespace and state reads back, given a codec
      that round-trips and writes some text. */
  lemma StoredTransactionRetrieved(items: map<string, string>, namespace: NString, t: SessionAuthorizationTransaction,
                                   codec: JsonCodec<SessionAuthorizationTransaction>)
    requires RoundTrips(codec) && codec.serialize(t) != ""
    ensures var key := TransactionKey(namespace, t.state);
      Read(items[key := codec.serialize(t)][ExpiryKey(key) := "1800"], key, codec) == Ok(t)
  {
    ReadAfterSet(items, TransactionKey(namespace, t.state), t, codec, "1800");
  }

  /** A transaction is read once: after a retrieval removed it, a second
      retrieval with the same state reads no entry and yields the empty
      transaction "{}" deserialises to, whose state is null. */
  lemma SecondRetrievalEmpty(items: map<string, string>, key: string, codec: JsonCodec<SessionAuthorizationTransaction>)
    requires codec.deserialize("{}") == Ok(EmptyTransaction)
    ensures Read(items - {key, ExpiryKey(key)}, key, codec) == Ok(EmptyTransaction)
    ensures Read(items - {key, ExpiryKey(key)}, key, codec).value.state.None?
  {
    ReadAfterRemove(items, key, codec);
  }
}

=== FILE: user_info.dfy ===
/** The user profile (src/Blazor.Auth0.Shared/Models/UserInfo.cs) and how
    System.Text.Json fills it from an ID token payload or a /userinfo reply:
    the standard OpenID Connect claims bind by their exact names, `nonce` and
    `at_hash` too, `Permissions` is ignored by the serialiser, and every other
    member lands in `CustomClaims`. */
module UserInfoModel {
  import opened Wrappers
  import opened Text
  import opened JsonModel
  import opened Models

  datatype UserInfo = UserInfo(
    address: NString,
    birthdate: NString,
    email: NString,
    emailVerified: bool,
    familyName: NString,
    gender: NString,
    givenName: NString,
    locale: NString,
    middleName: NString,
    name: NString,
    nickname: NString,
    phoneNumber: NString,
    phoneNumberVerified: bool,
    picture: NString,
    preferredUsername: NString,
    profile: NString,
    sub: NString,
    updatedAt: DateTime,
    website: NString,
    zoneinfo: NString,
    nonce: NString,
    atHash: NString,
    permissions: seq<NString>,
    customClaims: map<string, Json>)

  /** The JSON names of the string properties. */
  const StringProperties: set<string> := {
    "address", "birthdate", "email", "family_name", "gender", "given_name", "locale",
    "middle_name", "name", "nickname", "phone_number", "picture", "preferred_username",
    "profile", "sub", "website", "zoneinfo", "nonce", "at_hash"}

  /** Every JSON name a property of `UserInfo` binds (`permissions` is not
      one: the property carries `[JsonIgnore]`). */
  const BoundProperties: set<string> :=
    StringProperties + {"email_verified", "phone_number_verified", "updated_at"}

  /** The string properties of `UserInfo`, one per JSON name it binds. */
  datatype StringClaim =
    | Address
    | Birthdate
    | Email
    | FamilyName
    | Gender
    | GivenName
    | Locale
    | MiddleName
    | Name
    | Nickname
    | PhoneNumber
    | Picture
    | PreferredUsername
    | Profile
    | Sub
    | Website
    | Zoneinfo
    | Nonce
    | AtHash
  {
    /** The JSON name the property binds (its `[JsonPropertyName]`). */
    function Name(): (name: string)
      ensures name in StringProperties
    {
      match this
      case Address => "address"
      case Birthdate => "birthdate"
      case Email => "email"
      case FamilyName => "family_name"
      case Gender => "gender"
      case GivenName => "given_name"
      case Locale => "locale"
      case MiddleName => "middle_name"
      case Name => "name"
      case Nickname => "nickname"
      case PhoneNumber => "phone_number"
      case Picture => "picture"
      case PreferredUsername => "preferred_username"
      case Profile => "profile"
      case Sub => "sub"
      case Website => "website"
      case Zoneinfo => "zoneinfo"
      case Nonce => "nonce"
      case AtHash => "at_hash"
    }
  }

  /** The value of a string property. */
  function StringProperty(u: UserInfo, claim: StringClaim): NString {
    match claim
    case Address => u.address
    case Birthdate => u.birthdate
    case Email => u.email
    case FamilyName => u.familyName
    case Gender => u.gender
    case GivenName => u.givenName
    case Locale => u.locale
    case MiddleName => u.middleName
    case Name => u.name
    case Nickname => u.nickname
    case PhoneNumber => u.phoneNumber
    case Picture => u.picture
    case PreferredUsername => u.preferredUsername
    case Profile => u.profile
    case Sub => u.sub
    case Website => u.website
    case Zoneinfo => u.zoneinfo
    case Nonce => u.nonce
    case AtHash => u.atHash
  }

  /** Binding of the `DateTime` property: absent leaves the default; a string
      must parse as an ISO 8601 date (`parseDate`, a parameter). */
  function BindDateTime(j: Option<Json>, parseDate: string -> Option<DateTime>): (r: Result<DateTime>)
    ensures j.None? ==> r == Ok(DefaultDateTime)
    ensures j.Some? && !j.value.JString? ==> r.Err?
  {
    match j
    case None => Ok(DefaultDateTime)
    case Some(JString(s)) =>
      (match parseDate(s) case Some(d) => Ok(d) case None => Err(Exn.Json))
    case Some(_) => Err(Exn.Json)
  }

  /** Every member that a property binds has a kind that property accepts. */
  predicate Bindable(m: map<string, Json>, parseDate: string -> Option<DateTime>) {
    (forall claim: StringClaim :: BindString(Member(m, claim.Name())).Ok?)
    && BindBool(Member(m, "email_verified")).Ok?
    && BindBool(Member(m, "phone_number_verified")).Ok?
    && BindDateTime(Member(m, "updated_at"), parseDate).Ok?
  }

  /** The value a bindable string member gives its property. */
  function StringMember(m: map<string, Json>, k: string): (v: NString)
    ensures BindString(Member(m, k)).Ok? ==> BindString(Member(m, k)) == Ok(v)
  {
    if k in m && m[k].JString? then Some(m[k].s) else None
  }

  /** An object with members of acceptable kinds; every binding failure is a
      `JsonException`. */
  function BindObject(m: map<string, Json>, parseDate: string -> Option<DateTime>): (r: Result<UserInfo>)
    ensures r.Ok? <==> Bindable(m, parseDate)
    ensures r.Err? ==> r.error == Exn.Json
    ensures r.Ok? ==> r.value.permissions == [] && r.value.customClaims == Unbound(m, BoundProperties)
  {
    if !Bindable(m, parseDate) then Err(Exn.Json)
    else
      Ok(UserInfo(
        address := StringMember(m, Address.Name()),
        birthdate := StringMember(m, Birthdate.Name()),
        email := StringMember(m, Email.Name()),
        emailVerified := BindBool(Member(m, "email_verified")).value,
        familyName := StringMember(m, FamilyName.Name()),
        gender := StringMember(m, Gender.Name()),
        givenName := StringMember(m, GivenName.Name()),
        locale := StringMember(m, Locale.Name()),
        middleName := StringMember(m, MiddleName.Name()),
        name := StringMember(m, Name.Name()),
        nickname := StringMember(m, Nickname.Name()),
        phoneNumber := StringMember(m, PhoneNumber.Name()),
        phoneNumberVerified := BindBool(Member(m, "phone_number_verified")).value,
        picture := StringMember(m, Picture.Name()),
        preferredUsername := StringMember(m, PreferredUsername.Name()),
        profile := StringMember(m, Profile.Name()),
        sub := StringMember(m, Sub.Name()),
        updatedAt := BindDateTime(Member(m, "updated_at"), parseDate).value,
        website := StringMember(m, Website.Name()),
        zoneinfo := StringMember(m, Zoneinfo.Name()),
        nonce := StringMember(m, Nonce.Name()),
        atHash := StringMember(m, AtHash.Name()),
        permissions := [],
        customClaims := Unbound(m, BoundProperties)))
  }

  /** `JsonSerializer.Deserialize<UserInfo>`: `null` gives null, anything but
      an object throws. */
  function BindUserInfo(j: Json, parseDate: string -> Option<DateTime>): (r: Result<Option<UserInfo>>)
    ensures j.JNull? ==> r == Ok(None)
    ensures j.JObject? ==> (r.Ok? <==> Bindable(j.members, parseDate))
    ensures !j.JNull? && !j.JObject? ==> r.Err?
  {
    match j
    case JNull => Ok(None)
    case JObject(m) =>
      (match BindObject(m, parseDate) case Ok(u) => Ok(Some(u)) case Err(e) => Err(e))
    case _ => Err(Exn.Json)
  }

  /** A bound profile holds each string member under its claim name. */
  lemma BoundStringProperty(m: map<string, Json>, parseDate: string -> Option<DateTime>, claim: StringClaim)
    requires BindObject(m, parseDate).Ok?
    ensures BindString(Member(m, claim.Name())) == Ok(StringProperty(BindObject(m, parseDate).value, claim))
  {
    assert BindString(Member(m, claim.Name())).Ok?;
  }

  /** A `permissions` member of a token payload binds no property (the
      property is `[JsonIgnore]`), so it is kept as a custom claim. */
  lemma PermissionsMemberIsCustomClaim(m: map<string, Json>)
    requires "permissions" in m
    ensures var extra := Unbound(m, BoundProperties);
      "permissions" in extra && extra["permissions"] == m["permissions"]
  {
    assert "permissions" !in BoundProperties;
  }
}

=== FILE: utils.dfy ===
/** src/Blazor.Auth0.Shared/Utils.cs: object validation through data
    annotations, and the S256 transform of a PKCE code verifier. */
module Utils {
  import opened Wrappers
  import opened Text
  import opened Base64

  /** One `[Required]` property of an object: whether its value passes (a
      string that is neither null, empty nor white space; a value type
      always passes) and the message it reports. */
  datatype RequiredCheck = RequiredCheck(passes: bool, message: string)

  /** What `Validator.TryValidateObject` sees of an `IValidatableObject`: its
      type name, its `[Required]` properties in declaration order, and what
      its `Validate` yields (`None` is `ValidationResult.Success`, which is
      null). */
  datatype Validatable = Validatable(typeName: string, required: seq<RequiredCheck>, validate: seq<Option<string>>)

  /** The messages of the `[Required]` properties that fail, in order. */
  function RequiredErrors(required: seq<RequiredCheck>): (errors: seq<Option<string>>)
    ensures |errors| <= |required|
    ensures errors == [] <==> forall i :: 0 <= i < |required| ==> required[i].passes
    ensures forall i :: 0 <= i < |errors| ==> errors[i].Some?
    decreases |required|
  {
    if required == [] then []
    else
      (if required[0].passes then [] else [Some(required[0].message)]) + RequiredErrors(required[1..])
  }

  /** The results that are not `ValidationResult.Success`. */
  function NonNull(results: seq<Option<string>>): (r: seq<Option<string>>)
    ensures forall i :: 0 <= i < |r| ==> r[i].Some?
    ensures r == [] <==> forall i :: 0 <= i < |results| ==> results[i].None?
    decreases |results|
  {
    if results == [] then []
    else (if results[0].Some? then [results[0]] else []) + NonNull(results[1..])
  }

  /** The outcome of `Validator.TryValidateObject(item, context, results)`
      with `validateAllProperties` false: when a `[Required]` property fails,
      only those failures are reported and `Validate` is not consulted;
      otherwise the non-null results of `Validate` are. */
  datatype TryValidation = TryValidation(isValid: bool, results: seq<Option<string>>)

  function TryValidateObject(item: Validatable): (t: TryValidation)
    ensures t.isValid <==> t.results == []
    ensures t.isValid <==>
      (forall i :: 0 <= i < |item.required| ==> item.required[i].passes)
      && (forall i :: 0 <= i < |item.validate| ==> item.validate[i].None?)
  {
    var errors := RequiredErrors(item.required);
    if errors != [] then TryValidation(false, errors)
    else
      var extra := NonNull(item.validate);
      TryValidation(extra == [], extra)
  }

  /** The results list once `ValidateObject` has added `Validate`'s results a
      second time. */
  function CollectedResults(item: Validatable): seq<Option<string>> {
    TryValidateObject(item).results + item.validate
  }

  /** One line of the exception message: a result's text followed by "; ",
      nothing for a null result. */
  function Entry(result: Option<string>): string {
    match result
    case None => ""
    case Some(message) => message + "; "
  }

  /** The `StringBuilder` text after appending every non-null result. */
  function ErrorList(results: seq<Option<string>>): string
    decreases |results|
  {
    if results == [] then ""
    else ErrorList(results[..|results| - 1]) + Entry(results[|results| - 1])
  }

  lemma AppendAssociative(x: string, y: string, z: string)
    ensures (x + y) + z == x + (y + z)
  {
  }

  lemma ErrorListSnoc(results: seq<Option<string>>, last: Option<string>)
    ensures ErrorList(results + [last]) == ErrorList(results) + Entry(last)
  {
    var r := results + [last];
    assert r[..|r| - 1] == results;
  }

  lemma {:induction false} ErrorListConcat(a: seq<Option<string>>, b: seq<Option<string>>)
    ensures ErrorList(a + b) == ErrorList(a) + ErrorList(b)
    decreases |b|
  {
    if b == [] {
      assert a + b == a;
    } else {
      var b', last := b[..|b| - 1], b[|b| - 1];
      assert b == b' + [last];
      assert a + b == (a + b') + [last];
      calc {
        ErrorList(a + b);
        { ErrorListSnoc(a + b', last); }
        ErrorList(a + b') + Entry(last);
        { ErrorListConcat(a, b'); }
        (ErrorList(a) + ErrorList(b')) + Entry(last);
        { AppendAssociative(ErrorList(a), ErrorList(b'), Entry(last)); }
        ErrorList(a) + (ErrorList(b') + Entry(last));
        { ErrorListSnoc(b', last); }
        ErrorList(a) + ErrorList(b);
      }
    }
  }

  /** The text lists exactly the non-null results: nulls leave no trace. */
  lemma {:induction false} ErrorListNonNull(results: seq<Option<string>>)
    ensures ErrorList(NonNull(results)) == ErrorList(results)
    decreases |results|
  {
    if results != [] {
      var head := if results[0].Some? then [results[0]] else [];
      assert results == [results[0]] + results[1..];
      ErrorListConcat(head, NonNull(results[1..]));
      ErrorListConcat([results[0]], results[1..]);
      ErrorListNonNull(results[1..]);
      assert ErrorList(head) == ErrorList([results[0]]) by {
        assert [results[0]][..0] == [];
        if head == [] {
          assert Entry(results[0]) == "";
        } else {
          assert head[..0] == [];
        }
      }
    }
  }

  /** The `ValidationException` that `ValidateObject` throws for an invalid
      item: the type name and every non-null collected result, each followed
      by "; ". */
  function ValidationError(item: Validatable): Exn {
    Validation("Invalid " + item.typeName + ": " + ErrorList(CollectedResults(item)))
  }

  /** `ValidateObject`: completes exactly when `TryValidateObject` reports the
      item valid; otherwise throws a `ValidationException` whose message names
      the type and lists every non-null collected result, each followed by
      "; ". */
  method ValidateObject(item: Validatable) returns (o: Outcome)
    ensures o.Completed? <==> TryValidateObject(item).isValid
    ensures o.Threw? ==> o.error == ValidationError(item)
  {
    var t := TryValidateObject(item);
    if t.isValid {
      return Completed;
    }
    var builder := AppendResults(t.results + item.validate);
    return Threw(Validation("Invalid " + item.typeName + ": " + builder));
  }

  /** The `foreach` over the non-null results, appending each message and
      "; " to a `StringBuilder`. */
  method AppendResults(results: seq<Option<string>>) returns (builder: string)
    ensures builder == ErrorList(results)
  {
    builder := "";
    var i := 0;
    while i < |results|
      invariant 0 <= i <= |results|
      invariant builder == ErrorList(results[..i])
    {
      if results[i].Some? {
        builder := builder + (results[i].value + "; ");
      }
      assert results[..i + 1] == results[..i] + [results[i]];
      ErrorListSnoc(results[..i], results[i]);
      i := i + 1;
    }
    assert results[..i] == results;
  }

  /** An object whose `[Required]` properties all pass but whose `Validate`
      reports something has each of those messages listed twice: once from
      `TryValidateObject` and once from the second `Validate` call. */
  lemma ValidateMessagesRepeated(item: Validatable)
    requires forall i :: 0 <= i < |item.required| ==> item.required[i].passes
    ensures ErrorList(CollectedResults(item)) == ErrorList(item.validate) + ErrorList(item.validate)
  {
    assert RequiredErrors(item.required) == [];
    ErrorListConcat(NonNull(item.validate), item.validate);
    ErrorListNonNull(item.validate);
  }

  /** When a `[Required]` property fails, the message lists the failing
      required properties first, then the non-null results of `Validate`. */
  lemma RequiredFailuresListedFirst(item: Validatable)
    requires exists i :: 0 <= i < |item.required| && !item.required[i].passes
    ensures ErrorList(CollectedResults(item))
            == ErrorList(RequiredErrors(item.required)) + ErrorList(NonNull(item.validate))
  {
    ErrorListConcat(RequiredErrors(item.required), item.validate);
    ErrorListNonNull(item.validate);
  }

  /** A SHA-256 digest. */
  type Digest = d: seq<byte> | |d| == 32 witness seq(32, i => 0)

  /** `Encoding.ASCII.GetBytes`: a character outside ASCII (a surrogate pair
      of .NET counts as one character here) becomes '?'. */
  function Ascii(s: string): (b: seq<byte>)
    ensures |b| == |s|
    ensures forall i :: 0 <= i < |s| ==> (s[i] as int < 128 ==> b[i] == s[i] as int) && (s[i] as int >= 128 ==> b[i] == 63)
  {
    seq(|s|, i requires 0 <= i < |s| => if s[i] as int < 128 then s[i] as int else 63)
  }

  /** `GetSha256`: the S256 code challenge of a verifier (section 4.2 of
      RFC 7636), unpadded base64url of the SHA-256 digest (`sha256`, a
      parameter) of the verifier's ASCII bytes. */
  function GetSha256(value: string, sha256: seq<byte> -> Digest): (challenge: string)
    ensures |challenge| == 43
    ensures '+' !in challenge && '/' !in challenge && '=' !in challenge
    ensures Decode(RepairPadding(FromUrlSafe(challenge))) == Some(sha256(Ascii(value)))
  {
    var digest := sha256(Ascii(value));
    UrlEncodeAlphabet(digest);
    UrlDecodeEncode(digest);
    UrlEncode(digest)
  }
}

=== FILE: validation.dfy ===
/** The scope rule shared by the option classes
    (src/Blazor.Auth0.Shared/Models/ScopeValidation.cs). */
module ScopeValidation {
  import opened Wrappers
  import opened Text

  const ScopeError := "Scope is not valid: must contain 'openid'"

  /** `ScopeValidate`: `ValidationResult.Success` (null, `None`) exactly when
      the scope is non-empty and contains "openid", ordinal and
      case-sensitive; otherwise the fixed failure message. */
  function ScopeValidate(scope: NString): (r: Option<string>)
    ensures r.None? <==> !IsNullOrEmpty(scope) && Contains(scope.value, "openid")
    ensures r.Some? ==> r.value == ScopeError
  {
    if !IsNullOrEmpty(scope) && Contains(scope.value, "openid") then None else Some(ScopeError)
  }

  /** A scope that holds "openid" at some offset passes. */
  lemma ScopeWithOpenIdPasses(scope: string, i: nat)
    requires OccursAt(scope, "openid", i)
    ensures ScopeValidate(Some(scope)) == None
  {
    ContainsIffOccurs(scope, "openid");
  }

  /** The default scope passes, and so does "openid" inside a longer word. */
  lemma ScopeExamplesPass()
    ensures ScopeValidate(Some("openid profile email")) == None
    ensures ScopeValidate(Some("xopenidx")) == None
  {
    ScopeWithOpenIdPasses("openid profile email", 0);
    ScopeWithOpenIdPasses("xopenidx", 1);
  }

  /** The test is case-sensitive: "OpenID" fails. */
  lemma ScopeIsCaseSensitive()
    ensures ScopeValidate(Some("OpenID")) == Some(ScopeError)
  {
    ContainsIffOccurs("OpenID", "openid");
    assert "OpenID"[0..6][0] != "openid"[0];
  }
}

/** Validation of the per-request options
    (src/Blazor.Auth0.ClientSide/Models/AuthorizeOptions.cs). */
module AuthorizeOptionsValidation {
  import opened Wrappers
  import opened Text
  import opened Enumerations
  import opened Models
  import opened ScopeValidation
  import opened Utils
  import CommonAuthentication

  /** The message of a failing `[Required(ErrorMessage = "{0} option is required")]`. */
  function RequiredMessage(property: string): string {
    property + " option is required"
  }

  /** `[Required]` on a string: null, empty and white space fail. */
  function RequiredString(property: string, value: NString): (check: RequiredCheck)
    ensures check.passes <==> !IsNullOrWhiteSpace(value)
  {
    RequiredCheck(!IsNullOrWhiteSpace(value), RequiredMessage(property))
  }

  /** The `[Required]` properties of `AuthorizeOptions`, in declaration order;
      `ResponseType`, an enum, always has a value. */
  function RequiredChecks(o: AuthorizeOptions): (checks: seq<RequiredCheck>)
    ensures |checks| == 5
    ensures (forall i :: 0 <= i < |checks| ==> checks[i].passes) <==>
      !IsNullOrWhiteSpace(o.domain) && !IsNullOrWhiteSpace(o.clientId)
      && !IsNullOrWhiteSpace(o.redirectUri) && !IsNullOrWhiteSpace(o.scope)
  {
    var checks :=
      [RequiredString("Domain", o.domain), RequiredString("ClientID", o.clientId),
       RequiredString("RedirectUri", o.redirectUri), RequiredCheck(true, RequiredMessage("ResponseType")),
       RequiredString("Scope", o.scope)];
    assert checks[0].passes && checks[1].passes && checks[2].passes && checks[4].passes
           ==> forall i :: 0 <= i < |checks| ==> checks[i].passes;
    checks
  }

  /** A failure `Validate` can report besides the scope one. */
  datatype Failure =
    | ChallengeMissing(challengeMethod: CodeChallengeMethods)
    | VerifierMissing(challengeMethod: CodeChallengeMethods)
    | NonceMissing
  {
    /** The `ValidationResult` message of the failure. */
    function Message(): string {
      match this
      case ChallengeMissing(m) =>
        ChallengeMessageStart + CommonAuthentication.ParseCodeChallengeMethod(m) + ChallengeMessageEnd
      case VerifierMissing(m) =>
        VerifierMessageStart + CommonAuthentication.ParseCodeChallengeMethod(m) + VerifierMessageEnd
      case NonceMissing => NonceMessage
    }
  }

  const ChallengeMessageStart := "CodeChallenge is not valid: You're using code_challenge_method='"
  const ChallengeMessageEnd := "' but no code_challenge is present"
  const VerifierMessageStart := "CodeVerifier is not valid: You're using code_challenge_method='"
  const VerifierMessageEnd := "' but no code_verifier is present"
  const NonceMessage :=
    "Nonce is not valid: Nonce is required when using Implicit Grant (id_token or token id_token response types)"

  /** The guard of the missing-nonce rule, as written: the response type must
      equal `IdToken` and `TokenAndIdToken` at once. */
  predicate NonceRuleGuard(o: AuthorizeOptions) {
    o.responseType == IdToken && o.responseType == TokenAndIdToken && IsNullOrEmpty(o.nonce)
  }

  /** No options satisfy the guard, so the missing-nonce rule never reports. */
  lemma NonceRuleNeverFires(o: AuthorizeOptions)
    ensures !NonceRuleGuard(o)
  {
    if o.responseType == IdToken {
      assert o.responseType != TokenAndIdToken;
    }
  }

  /** The rules after the scope one that fail, in order: a PKCE method
      without a challenge, a PKCE method without a verifier, and the
      missing-nonce rule, which never fires. */
  function Failures(o: AuthorizeOptions): (failures: seq<Failure>)
    ensures |failures| == (if o.codeChallengeMethod != NoMethod && IsNullOrEmpty(o.codeChallenge) then 1 else 0)
                          + (if o.codeChallengeMethod != NoMethod && IsNullOrEmpty(o.codeVerifier) then 1 else 0)
    ensures (o.codeChallengeMethod != NoMethod && IsNullOrEmpty(o.codeChallenge))
            ==> failures[0] == ChallengeMissing(o.codeChallengeMethod)
    ensures (o.codeChallengeMethod != NoMethod && IsNullOrEmpty(o.codeVerifier))
            ==> failures[|failures| - 1] == VerifierMissing(o.codeChallengeMethod)
    ensures NonceMissing !in failures
  {
    var challenge := if o.codeChallengeMethod != NoMethod && IsNullOrEmpty(o.codeChallenge)
      then [ChallengeMissing(o.codeChallengeMethod)] else [];
    var verifier := if o.codeChallengeMethod != NoMethod && IsNullOrEmpty(o.codeVerifier)
      then [VerifierMissing(o.codeChallengeMethod)] else [];
    var nonce := if NonceRuleGuard(o) then [NonceMissing] else [];
    NonceRuleNeverFires(o);
    assert nonce == [];
    challenge + verifier + nonce
  }

  /** `Validate`: the scope result first, then one non-null result per
      failing rule, carrying its message. */
  function Validate(o: AuthorizeOptions): (results: seq<Option<string>>)
    ensures |results| == 1 + |Failures(o)| && results[0] == ScopeValidate(o.scope)
    ensures forall i :: 1 <= i < |results| ==> results[i] == Some(Failures(o)[i - 1].Message())
  {
    var failures := Failures(o);
    [ScopeValidate(o.scope)] + seq(|failures|, i requires 0 <= i < |failures| => Some(failures[i].Message()))
  }

  /** What `Utils.ValidateObject` sees of the options. */
  function AsValidatable(o: AuthorizeOptions): Validatable {
    Validatable("AuthorizeOptions", RequiredChecks(o), Validate(o))
  }

  /** The options pass `ValidateObject` exactly when the required strings are
      present, the scope contains "openid", and a PKCE method comes with both
      a challenge and a verifier. */
  lemma ValidIff(o: AuthorizeOptions)
    ensures TryValidateObject(AsValidatable(o)).isValid <==>
      && !IsNullOrWhiteSpace(o.domain) && !IsNullOrWhiteSpace(o.clientId)
      && !IsNullOrWhiteSpace(o.redirectUri) && !IsNullOrWhiteSpace(o.scope)
      && Contains(o.scope.value, "openid")
      && (o.codeChallengeMethod != NoMethod ==> !IsNullOrEmpty(o.codeChallenge) && !IsNullOrEmpty(o.codeVerifier))
  {
    var v := Validate(o);
    assert |v| > 1 ==> v[1].Some?;
  }
}

/** Validation of the library's configuration
    (src/Blazor.Auth0.Shared/Models/ClientOptions.cs). */
module ClientOptionsValidation {
  import opened Wrappers
  import opened Text
  import opened Models
  import opened ScopeValidation
  import opened Utils
  import AuthorizeOptionsValidation

  /** The `[Required]` properties of `ClientOptions`, in declaration order. */
  function RequiredChecks(o: ClientOptions): (checks: seq<RequiredCheck>)
    ensures |checks| == 3
    ensures (forall i :: 0 <= i < |checks| ==> checks[i].passes) <==>
      !IsNullOrWhiteSpace(o.domain) && !IsNullOrWhiteSpace(o.clientId) && !IsNullOrWhiteSpace(o.scope)
  {
    var checks :=
      [AuthorizeOptionsValidation.RequiredString("Domain", o.domain),
       AuthorizeOptionsValidation.RequiredString("ClientId", o.clientId),
       AuthorizeOptionsValidation.RequiredString("Scope", o.scope)];
    assert checks[0].passes && checks[1].passes && checks[2].passes
           ==> forall i :: 0 <= i < |checks| ==> checks[i].passes;
    checks
  }

  /** `Validate`: exactly one result, the scope check. */
  function Validate(o: ClientOptions): (results: seq<Option<string>>)
    ensures |results| == 1 && results[0] == ScopeValidate(o.scope)
  {
    [ScopeValidate(o.scope)]
  }

  function AsValidatable(o: ClientOptions): Validatable {
    Validatable("ClientOptions", RequiredChecks(o), Validate(o))
  }

  /** The configuration passes `ValidateObject` exactly when domain, client id
      and scope are present and the scope contains "openid". */
  lemma ValidIff(o: ClientOptions)
    ensures TryValidateObject(AsValidatable(o)).isValid <==>
      && !IsNullOrWhiteSpace(o.domain) && !IsNullOrWhiteSpace(o.clientId)
      && !IsNullOrWhiteSpace(o.scope) && Contains(o.scope.value, "openid")
  {
    assert Validate(o)[0] == ScopeValidate(o.scope);
  }

  /** With a domain and a client id, the defaults of every other property
      pass validation: the default scope contains "openid". */
  lemma DefaultOptionsValid(domain: string, clientId: string)
    requires !IsNullOrWhiteSpace(Some(domain)) && !IsNullOrWhiteSpace(Some(clientId))
    ensures TryValidateObject(AsValidatable(DefaultClientOptions(Some(domain), Some(clientId)))).isValid
  {
    var o := DefaultClientOptions(Some(domain), Some(clientId));
    ScopeExamplesPass();
    assert !IsNullOrWhiteSpace(o.scope) by {
      assert !IsWhiteSpace(o.scope.value[0]);
    }
    ValidIff(o);
  }
}

=== FILE: wrappers.dfy ===
/** Option/Result wrappers and the exceptions the library can raise.

    C# signals failures by throwing; the model returns them as values. Each
    constructor of `Exn` names the .NET exception type the source throws (or
    lets escape) at that point. */
module Wrappers {

  datatype Option<+T> = None | Some(value: T) {
    function GetOr(default: T): T {
      match this
      case Some(v) => v
      case None => default
    }
  }

  /** The .NET exceptions that the modelled code throws or lets escape. */
  datatype Exn =
    | ArgumentNull(paramName: string)        // System.ArgumentNullException
    | Argument(paramName: string)            // System.ArgumentException
    | Validation(message: string)            // ValidationException (data annotations)
    | Application(message: string)          // System.ApplicationException
    | Authentication(message: string)       // System.Security.Authentication.AuthenticationException
    | General(message: string)               // System.Exception
    | NullReference                          // NullReferenceException
    | Format                                 // FormatException (base64, bool.Parse)
    | IndexOutOfRange                        // IndexOutOfRangeException (array index)
    | KeyNotFound                            // KeyNotFoundException (dictionary index)
    | Json                                   // JsonException (deserialisation)
    | UriFormat                              // UriFormatException
    | Overflow                               // OverflowException (negative array size)
    | ObjectDisposed                         // ObjectDisposedException

  datatype Result<+T> = Ok(value: T) | Err(error: Exn) {
    predicate IsFailure() { Err? }
    function PropagateFailure<U>(): Result<U> requires Err? { Err(error) }
    function Extract(): T requires Ok? { value }
  }

  /** Completion of a `void` operation: it returned, or it threw. */
  datatype Outcome = Completed | Threw(error: Exn) {
    predicate IsFailure() { Threw? }
    function PropagateFailure(): Outcome requires Threw? { this }
  }
}
